=== FILE: README.md ===
# pigmalion-v06, modelled in Dafny

This project models the core of the pigmalion-v06 pipeline. It collects
Bluesky posts and accounts into PostgreSQL, cleans and scores them, and
aggregates them into daily trends. FastAPI endpoints then read the
aggregates back.

With the network, the database driver, the ML models and the clock
stripped away, what remains is a set of rules over tables. The model keeps
those rules. A job that updates tables is a `class` whose fields are the
tables (maps keyed by URL, DID or bucket key), and its methods make the
same changes the script makes. Pure computations are functions:

- text cleaning;
- tokenising;
- grouping and ranking;
- date parsing;
- bot scoring;
- where-clause building.

Lemmas state what the code promises about them.

The modules follow the scripts:

| module | models |
|---|---|
| `Common` | the 12-category whitelist, `str.lower`/`strip`/`split`, `sep.join`, `ON CONFLICT DO NOTHING` batches |
| `Schema` | the `post_clean` row, its two status columns, the days-back window |
| `StringOrder` | Python's `<` on strings |
| `TextCleaning`, `CleaningJob` | `nettoyer_texte`, `poids` and the insert-if-absent into `post_clean` (04_POSTS_NETTOYAGE.py) |
| `TrendsResults`, `TrendsJob` | the day × category grouping, the `All` rollup, the pending→ok ledger and the overwrite upsert (07_TRENDS_RESULTS.py) |
| `Tokenizer`, `Ranking`, `KeywordsResults`, `KeywordsJob` | `tokenize`, stop-words, the record fan-out, counting, `cumcount` ranks, the top 20, ledger and upsert (08_KEYWORDS_RESULTS.py) |
| `PostAnalysis`, `AnalysisJob` | `analyse_post`'s label folding and argmax, the work queue, the column/value lists and the DO NOTHING inserts (05_POSTS_ANALYSE.py) |
| `CreatedAt` | `parse_created_at` and the strict `strptime` of the 01 script |
| `Accounts` | `enrich_if_null`, the COALESCE upsert and OK marking (02), the null-only updates and counters (03), `etape2`/`etape3_complement` (00) |
| `Extraction` | the acceptance loop of 00_EXTRACTIONCOMPLETE_POST+COMPTE.py |
| `PostsExtraction` | the acceptance and batch-commit loop of 01_POSTS_EXTRACTION.py |
| `BotScore` | motifs, weights, score, label, comment and table replacement (07_POSTS_ANALYSE_MOTS.py) |
| `PostUnitaire` | the single-post analysis of analyse_post_unitaire.py |
| `SqlFilter` | the shared shape of the read endpoints' `where`/`params` lists |
| `TrendsApi`, `EmotionsApi`, `KeywordsApi` | the read endpoints of api_trends.py, 09_API_TRENDS.py, keywords/api_keywords.py and api_keywords.py |
| `Gitignore` | `ensure_models_ignored` of githubconnect.py |

Modelling conventions:

- Scores and means are exact `real`s.
- Bot weights are integer tenths.
- Instants are integers counting microseconds since the Unix epoch, and days are day numbers.
- `CURRENT_DATE`, `datetime.now()`, the language detector, the classifiers, the Bluesky client and the database are parameters of the members that use them.

## Model

| member | source | states |
|---|---|---|
| Common.AllowedCategoriesShape | backend/trends/07_TRENDS_RESULTS.py:51-55 | the whitelist has exactly twelve distinct names, and the rollup name `All` is not one of them |
| Common.AllIsNotAllowed | backend/trends/07_TRENDS_RESULTS.py:51-55 | the endpoint keyword `all` is not a whitelisted category, so it never reaches the category condition |
| Common.LowerChar | backend/trends/04_POSTS_NETTOYAGE.py:28 | `lower()` on one character: the result is never a capital, a capital always changes and anything else is unchanged, and it is a word or space character exactly when the input is |
| Common.Lower | backend/trends/04_POSTS_NETTOYAGE.py:28 | `lower()` keeps the length and lowers every character in place |
| Common.StripLeft | githubconnect.py:35 | the left half of `strip()`: the result is a suffix of the input, it does not start with whitespace, and everything removed is whitespace |
| Common.StripRight | githubconnect.py:35 | the right half of `strip()`: the result is a prefix of the input, it does not end with whitespace, and everything removed is whitespace |
| Common.SplitWords | backend/trends/04_POSTS_NETTOYAGE.py:66 | `split()` yields only non-empty words free of whitespace |
| Common.WordRun | backend/trends/04_POSTS_NETTOYAGE.py:66 | a leading word is the maximal run of non-space characters |
| Common.InsertAllKeys | backend/trends/01_POSTS_EXTRACTION.py:83-93 | a batch insert with `ON CONFLICT DO NOTHING` adds exactly the batch's keys and never changes a stored row |
| Common.InsertAllFresh | backend/trends/01_POSTS_EXTRACTION.py:179-184 | a batch of distinct new keys stores every row as given, keeps the stored rows, and grows the table by the batch length (the `total_posts_insérés` increment) |
| Common.MapEach | backend/trends/07_POSTS_ANALYSE_MOTS.py:140-159 | the loop appending one result per account row yields each row's key with its computed value, in order |
| Common.MapRowsStored | backend/trends/07_POSTS_ANALYSE_MOTS.py:168-175 | inserting the mapped rows into an emptied table stores one computed row per key and nothing else |
| StringOrder.LexLessIrreflexive | backend/trends/08_KEYWORDS_RESULTS.py:131-133 | Python's string `<`, used to break occurrence ties, is irreflexive |
| StringOrder.LexLessAsymmetric | backend/trends/08_KEYWORDS_RESULTS.py:131-133 | string `<` is asymmetric |
| StringOrder.LexLessTransitive | backend/trends/08_KEYWORDS_RESULTS.py:131-133 | string `<` is transitive |
| StringOrder.LexLessTotal | backend/trends/08_KEYWORDS_RESULTS.py:131-133 | two different strings are always ordered one way or the other |
| TextCleaning.SpaceRun | backend/trends/04_POSTS_NETTOYAGE.py:31 | a leading whitespace run is maximal |
| TextCleaning.Collapse | backend/trends/04_POSTS_NETTOYAGE.py:31 | `re.sub(r"\s+", " ", …)`: only single blanks remain as whitespace, never two in a row, and every other character comes from the input |
| TextCleaning.Normalize | backend/trends/04_POSTS_NETTOYAGE.py:31 | collapse then `strip()`: blanks only, never two in a row, none at either end |
| TextCleaning.StripKeepsCollapsed | backend/trends/04_POSTS_NETTOYAGE.py:31 | `strip()` of a text whose whitespace is single blanks leaves a normalised text |
| TextCleaning.Scrub | backend/trends/04_POSTS_NETTOYAGE.py:29 | the deletion pass leaves only word characters, whitespace, the kept characters and the replacement |
| TextCleaning.NettoyerTexte | backend/trends/04_POSTS_NETTOYAGE.py:26-31 | the cleaned text is normalised and made only of blanks and lower-case word characters: no punctuation, `@`, `#` or capital remains |
| TextCleaning.Nettoyer | backend/analyse/analyse_post_unitaire.py:131-133 | the single-post cleaner's output is normalised and made of word characters, apostrophes and blanks |
| TextCleaning.WordsJoinBack | backend/trends/04_POSTS_NETTOYAGE.py:31 | the words of a normalised text joined by single blanks give the text back |
| TextCleaning.WordCountOfNormalized | backend/trends/04_POSTS_NETTOYAGE.py:66 | `poids`, `len(clean.split())`, is the number of blanks plus one, and zero for the empty text |
| TextCleaning.NormalizeDropsLeadingBlanks | backend/trends/04_POSTS_NETTOYAGE.py:31 | leading whitespace never reaches the normalised text |
| TextCleaning.ScrubDropsToken | backend/trends/04_POSTS_NETTOYAGE.py:29 | a whole link, mention or hashtag followed by a blank is a single match of the pass |
| TextCleaning.ScrubSplitsAtBlank | backend/trends/04_POSTS_NETTOYAGE.py:29 | no match of the pass spans a blank, so the text on each side of a blank is scrubbed independently |
| TextCleaning.ScrubOfToken | backend/trends/04_POSTS_NETTOYAGE.py:29 | a whole link, mention or hashtag is one match, replaced by the replacement text alone |
| TextCleaning.NormalizeBlanks | backend/trends/04_POSTS_NETTOYAGE.py:31 | any whitespace run between two texts normalises like a single blank |
| TextCleaning.NormalizeDropsTrailingBlank | backend/trends/04_POSTS_NETTOYAGE.py:31 | a trailing blank never reaches the normalised text |
| TextCleaning.NettoyerTexteDropsToken | backend/trends/04_POSTS_NETTOYAGE.py:28-31 | an `http…`, `@…` or `#…` token, up to the next blank or the end of the post, leaves no trace in the cleaned text wherever it stands: at the head, between two words, at the end, or as the whole post |
| TextCleaning.NettoyerDropsToken | backend/analyse/analyse_post_unitaire.py:131-133 | the same three token kinds leave no trace in the single-post cleaner, at the head, between two words, at the end, or as the whole post |
| TextCleaning.CollapseKeepsSingleBlanks | backend/trends/04_POSTS_NETTOYAGE.py:31 | a text with single blanks only is a fixed point of the whitespace collapse |
| TextCleaning.ScrubKeepsPlainText | backend/trends/04_POSTS_NETTOYAGE.py:29 | word characters and blanks without `http` pass the deletion unchanged |
| TextCleaning.NettoyerTexteFixesCleanText | backend/trends/04_POSTS_NETTOYAGE.py:26-31 | cleaning is idempotent on texts of its output shape that contain no `http` |
| CleaningJob.CleanRowOfShape | backend/trends/04_POSTS_NETTOYAGE.py:63-84 | the inserted row holds the cleaned text, its language and a `poids` equal to its blank count plus one (zero when empty); its trend and keyword statuses are the schema's default, pending |
| CleaningJob.CleaningDb.Run | backend/trends/04_POSTS_NETTOYAGE.py:46-85 | every selected post gets its cleaned row, stored rows never change (`DO NOTHING`), nothing else is added, and afterwards no post awaits cleaning |
| CleaningJob.CleanedStep | backend/trends/04_POSTS_NETTOYAGE.py:46-85 | cleaning the next selected post adds exactly its cleaned row, under a URL not written yet, and keeps every row written before |
| TrendsResults.Mean | backend/trends/07_TRENDS_RESULTS.py:113-126 | a group mean skips missing scores: it is `None` exactly when no score is present, and otherwise times the present count it gives the present sum |
| TrendsResults.Means | backend/trends/07_TRENDS_RESULTS.py:115-126 | the eleven means of a bucket, one per score column, in column order |
| TrendsResults.GroupOf | backend/trends/07_TRENDS_RESULTS.py:113-115 | a group holds exactly the posts of its day and category, or of its day for `All` |
| TrendsResults.BucketsNonEmpty | backend/trends/07_TRENDS_RESULTS.py:113-147 | every bucket written counts at least one post and has eleven means |
| TrendsResults.MeanBounds | backend/trends/07_TRENDS_RESULTS.py:116-126 | a mean lies between the smallest and largest scores present |
| TrendsResults.PresentBounds | backend/trends/07_TRENDS_RESULTS.py:116-126 | the sum of the present scores lies between their count times the lower and times the upper bound |
| TrendsResults.AllTotalIsSumOfCategories | backend/trends/07_TRENDS_RESULTS.py:130-147 | on any day, the `All` bucket's total of a per-post quantity is the sum over the category buckets |
| TrendsResults.AllBucketIsUnionOfCategories | backend/trends/07_TRENDS_RESULTS.py:104-147 | for whitelisted posts, a day's `All` count equals the sum of its category counts, and each `All` mean sums and counts the same present scores as the category buckets |
| Common.KeepAllowed | backend/trends/07_TRENDS_RESULTS.py:104 | the category filter, shared with 08_KEYWORDS_RESULTS.py, keeps exactly the loaded posts whose category is whitelisted, and no more posts than were loaded |
| TrendsJob.Lookup | backend/trends/07_TRENDS_RESULTS.py:65-79 | a left-joined score is `None` when the measure row or column is missing, and the stored value otherwise |
| TrendsJob.TrendsDb.LoadedPost | backend/trends/07_TRENDS_RESULTS.py:61-79 | a loaded row carries the eleven score columns |
| TrendsJob.TrendsDb.Loaded | backend/trends/07_TRENDS_RESULTS.py:87 | one loaded row per selected URL, in order |
| TrendsJob.TrendsDb.Run | backend/trends/07_TRENDS_RESULTS.py:91-178 | every loaded post is flipped to `ok` (filtered-out ones too) and no other row changes; `trends_results` becomes the old table overwritten key by key with the buckets of the whitelisted posts; an empty load changes nothing |
| Tokenizer.LowerKeepsTokenChars | backend/trends/08_KEYWORDS_RESULTS.py:77 | `lower()` leaves every character of the token class alone |
| Tokenizer.TokenRun | backend/trends/08_KEYWORDS_RESULTS.py:74 | a leading run of the token class is maximal |
| Tokenizer.Tokens | backend/trends/08_KEYWORDS_RESULTS.py:74-77 | every match is a run of the token class of length at least 3 |
| Tokenizer.KeptTokens | backend/trends/08_KEYWORDS_RESULTS.py:121 | the kept tokens are exactly the post's tokens that are not stop-words, each still a token |
| Tokenizer.Without | backend/trends/08_KEYWORDS_RESULTS.py:121 | the stop-word filter keeps exactly the non-stop-words, in order |
| Tokenizer.TokensSplitAtSeparator | backend/trends/08_KEYWORDS_RESULTS.py:74-77 | a character outside the class separates matches: tokenising distributes over it |
| Tokenizer.TokensOfToken | backend/trends/08_KEYWORDS_RESULTS.py:74-77 | a keyword-shaped word is exactly one token |
| Tokenizer.TokensOfJoinedWords | backend/trends/08_KEYWORDS_RESULTS.py:74-77 | keyword-shaped words joined by blanks tokenise back to those words, in order |
| Tokenizer.TokenizeIgnoresCase | backend/trends/08_KEYWORDS_RESULTS.py:74-77 | tokenising an already lower-cased text gives the same tokens |
| Ranking.BeforeTotal | backend/trends/08_KEYWORDS_RESULTS.py:131-133 | any two different keywords of a group are ranked one before the other |
| Ranking.BeforeTransitive | backend/trends/08_KEYWORDS_RESULTS.py:131-133 | ranking order is transitive |
| Ranking.BeforeIrreflexive | backend/trends/08_KEYWORDS_RESULTS.py:131-133 | no keyword ranks before itself |
| Ranking.InsertRanked | backend/trends/08_KEYWORDS_RESULTS.py:131 | inserting a new keyword into a ranked list keeps it ranked and adds exactly that keyword |
| Ranking.InsertMultiset | backend/trends/08_KEYWORDS_RESULTS.py:131 | inserting a keyword adds it once and keeps every other keyword with its multiplicity |
| Ranking.SortRanked | backend/trends/08_KEYWORDS_RESULTS.py:131 | the sort yields a ranked permutation of its input |
| Ranking.RankWords | backend/trends/08_KEYWORDS_RESULTS.py:131-133 | a group's ranking holds each of its keywords once, in ranking order |
| Ranking.RankedUnique | backend/trends/08_KEYWORDS_RESULTS.py:131-133 | a ranking is determined by its keywords: ranks are well defined |
| Ranking.PositionCountsBetter | backend/trends/08_KEYWORDS_RESULTS.py:131-133 | a keyword's position in the ranking is the number of keywords ranked before it |
| KeywordsResults.BuildRecords | backend/trends/08_KEYWORDS_RESULTS.py:119-124 | the nested loop appends exactly the records of the fan-out, post by post and token by token |
| KeywordsResults.GroupWords | backend/trends/08_KEYWORDS_RESULTS.py:126-129 | a group's keywords are exactly those with a record of that day and category |
| KeywordsResults.GroupRankingShape | backend/trends/08_KEYWORDS_RESULTS.py:131-133 | the ranking of a group holds each of its keywords once, best first |
| KeywordsResults.RankCountsBetter | backend/trends/08_KEYWORDS_RESULTS.py:131-133 | a rank is one plus the number of keywords of the group with a larger count, or the same count and a smaller string |
| KeywordsResults.GroupOccIsCount | backend/trends/08_KEYWORDS_RESULTS.py:126-129 | the occurrence used to rank is the group-by count, at least one |
| KeywordsResults.RankOrder | backend/trends/08_KEYWORDS_RESULTS.py:131-133 | within a group, different keywords never share a rank, and a strictly larger count gives a strictly smaller rank |
| KeywordsResults.TopRowsAreRankingPrefix | backend/trends/08_KEYWORDS_RESULTS.py:134 | the rows kept for a group are exactly the first twenty keywords of its ranking |
| KeywordsResults.TopRowsValues | backend/trends/08_KEYWORDS_RESULTS.py:131-145 | every upserted row carries a rank in 1..20 and the keyword's occurrence count |
| KeywordsResults.FanCounts | backend/trends/08_KEYWORDS_RESULTS.py:122-124 | one post's records count each token once for its category and once for `All` |
| KeywordsResults.PostAllIsSum | backend/trends/08_KEYWORDS_RESULTS.py:119-124 | for one whitelisted post, its `All` count of a keyword is the sum of its category counts |
| KeywordsResults.AllIsSumOfCategories | backend/trends/08_KEYWORDS_RESULTS.py:111-129 | for every day and keyword, the `All` count is the sum of the twelve category counts |
| KeywordsResults.RecordsShape | backend/trends/08_KEYWORDS_RESULTS.py:119-124 | every record holds a non-stop-word token of its post, under the post's day and its category or `All` |
| KeywordsJob.KeywordsDb.Loaded | backend/trends/08_KEYWORDS_RESULTS.py:83-95 | one loaded row per selected URL, in order |
| KeywordsJob.KeywordsDb.Run | backend/trends/08_KEYWORDS_RESULTS.py:99-149 | every loaded post is flipped to `ok` (filtered-out ones too) and no other row changes; `keywords_results` is overwritten key by key with the top-20 rows of the whitelisted posts; an empty load changes nothing |
| Accounts.EnrichIfNull | backend/trends/02_COMPTES_COMPLETION_01.py:52-53 | `enrich_if_null` and SQL `COALESCE`: a stored value is kept, a null one takes the candidate |
| Accounts.EnrichIfNullTwice | backend/trends/02_COMPTES_COMPLETION_01.py:52-53 | filling twice with the same candidate is filling once, and the result is null only when both are |
| Accounts.RegisteredRowFacts | backend/trends/01_POSTS_EXTRACTION.py:71-81 | registering an author inserts a dated row for a new DID; for a known DID it only fills a missing first-analysis date; registering again changes nothing |
| Accounts.OnlyDatedTrans | backend/trends/01_POSTS_EXTRACTION.py:77-81 | two registrations in a row still change nothing but the first-analysis date |
| Accounts.EnrichRowFillsNullsOnly | backend/trends/02_COMPTES_COMPLETION_01.py:56-121 | the first pass keeps stored profile fields, fills null ones with the fetched value when the upsert goes through, never touches the handle or the second-pass columns, and marks the row OK exactly on a stored upsert or a marked gone/suspended account |
| Accounts.UpdateStatementShape | backend/trends/03_COMPTES_COMPLETION_02.py:57-76 | the dynamic UPDATE names each column once, the status column last, and binds one value per column followed by the DID |
| Accounts.UpdateFillsNullsOnly | backend/trends/03_COMPTES_COMPLETION_02.py:58-77 | the built SET clause fills exactly the null metadata columns that were fetched and marks the row OK |
| Accounts.SetPublications | backend/trends/03_COMPTES_COMPLETION_02.py:59 | the publication-count assignment sets that column only |
| Accounts.SetFollowers | backend/trends/03_COMPTES_COMPLETION_02.py:62 | the follower-count assignment sets that column only |
| Accounts.SetCreation | backend/trends/03_COMPTES_COMPLETION_02.py:65 | the creation-date assignment sets that column only |
| Accounts.SetStatus | backend/trends/03_COMPTES_COMPLETION_02.py:68 | the status assignment sets `compte_completion_02` only |
| Accounts.ApplySetAppend | backend/trends/03_COMPTES_COMPLETION_02.py:70-77 | a SET clause applies its assignments left to right |
| Accounts.CompleteRowFillsNullsOnly | backend/trends/03_COMPTES_COMPLETION_02.py:47-95 | the second pass leaves the first-pass columns alone and only fills null metadata; the status becomes OK on a stored update and COMPTE INVALIDE after any exception |
| Accounts.CountersBounded | backend/trends/03_COMPTES_COMPLETION_02.py:41-66 | each field counter grows by at most one per row read |
| Accounts.CountersSnoc | backend/trends/03_COMPTES_COMPLETION_02.py:47-82 | the counters after one more row are the previous counters plus that row's increments |
| Accounts.RaisedAtSnoc | backend/trends/03_COMPTES_COMPLETION_02.py:80-82 | the rows that raised after one more row are the previous ones plus that row if it raised |
| Accounts.InvalideCountsRaised | backend/trends/03_COMPTES_COMPLETION_02.py:80-104 | `cumul_invalide` counts exactly the rows whose profile fetch or UPDATE raised |
| Accounts.AccountDb.constructor | backend/trends/00_EXTRACTIONCOMPLETE_POST+COMPTE.py:63-72 | the ledger starts as the given table |
| Accounts.AccountDb.InsertNew | backend/trends/00_EXTRACTIONCOMPLETE_POST+COMPTE.py:115-122 | the account insert adds a dated new row and leaves a known DID untouched |
| Accounts.AccountDb.Register | backend/trends/01_POSTS_EXTRACTION.py:71-81 | the two account statements leave the table as `RegisteredRow` says, nothing else changed |
| Accounts.AccountDb.ReadSelection | backend/trends/02_COMPTES_COMPLETION_01.py:30-39 | the SELECT returns each selected DID exactly once |
| Accounts.AccountDb.Enrich | backend/trends/02_COMPTES_COMPLETION_01.py:48-121 | after the first pass each read row is the one `EnrichRow` gives and every other row is unchanged |
| Accounts.AccountDb.Etape2 | backend/trends/00_EXTRACTIONCOMPLETE_POST+COMPTE.py:205-273 | `etape2_enrichissement` returns the number of rows not yet OK and applies the first pass to exactly those rows, leaving `AfterEtape2` of the old table |
| Accounts.AccountDb.CompleteOne | backend/trends/03_COMPTES_COMPLETION_02.py:48-95 | one row of the second pass: the row becomes `CompleteRow` and the counters grow by that row's increments |
| Accounts.AccountDb.Complete | backend/trends/03_COMPTES_COMPLETION_02.py:38-104 | after the second pass each read row is the one `CompleteRow` gives, every other row is unchanged, and the counters are those of the rows read |
| Accounts.AccountDb.Etape3 | backend/trends/00_EXTRACTIONCOMPLETE_POST+COMPTE.py:276-327 | `etape3_complement` returns the number of rows whose status was null and applies the second pass to exactly those rows, leaving `AfterEtape3` of the old table |
| PostAnalysis.StrictlySortedPairs | backend/trends/05_POSTS_ANALYSE.py:379 | in a strictly sorted list every earlier name is smaller than every later one |
| PostAnalysis.MappedLabelsSorted | backend/trends/05_POSTS_ANALYSE.py:379 | the category score columns are in strictly increasing string order |
| PostAnalysis.MappedLabelsDistinct | backend/trends/05_POSTS_ANALYSE.py:379 | `sorted(set(...))` lists distinct names in increasing order |
| PostAnalysis.MappedLabelsAreValues | backend/trends/05_POSTS_ANALYSE.py:56-82 | the score columns are exactly the names the topic mapping produces |
| PostAnalysis.ValuesAreColumns | backend/trends/05_POSTS_ANALYSE.py:56-82 | every mapped topic has a score column |
| PostAnalysis.ColumnsAreValues | backend/trends/05_POSTS_ANALYSE.py:56-82 | every score column is the image of some topic label |
| PostAnalysis.MapLabel | backend/trends/05_POSTS_ANALYSE.py:188-190 | a returned label is lower-cased and then mapped when a non-empty mapping knows it, kept otherwise |
| PostAnalysis.Relabel | backend/trends/05_POSTS_ANALYSE.py:187-190 | every item keeps its score and gets its recorded label, in order |
| PostAnalysis.First | backend/trends/05_POSTS_ANALYSE.py:186-192 | the first position carrying a label: no earlier item carries it |
| PostAnalysis.FirstSnoc | backend/trends/05_POSTS_ANALYSE.py:187-192 | first positions are fixed once seen; one more item can only add its own label |
| PostAnalysis.FoldMeetsSpec | backend/trends/05_POSTS_ANALYSE.py:186-192 | the dict built by the loop has one entry per returned label, never below 0.0, at least every score returned for it, equal to 0.0 or to one of them, keys in first-appearance order |
| PostAnalysis.FoldKeys | backend/trends/05_POSTS_ANALYSE.py:186-192 | the dict's keys are distinct and are exactly the labels returned |
| PostAnalysis.FoldBounds | backend/trends/05_POSTS_ANALYSE.py:192 | each label's entry is at least every score returned for it and at least 0.0 |
| PostAnalysis.FoldAttained | backend/trends/05_POSTS_ANALYSE.py:192 | each entry is 0.0 or one of the scores returned for that label |
| PostAnalysis.FoldOrder | backend/trends/05_POSTS_ANALYSE.py:192 | dict keys stay in order of first appearance |
| PostAnalysis.ArgMax | backend/trends/05_POSTS_ANALYSE.py:194 | `max(scores, key=scores.get)`: a key with the largest score, every earlier key scoring strictly less (the main emotion of the single-post analysis, backend/analyse/analyse_post_unitaire.py line 237, is chosen the same way) |
| PostAnalysis.FoldSnoc | backend/trends/05_POSTS_ANALYSE.py:187-192 | the dict after one more item is one more loop step |
| PostAnalysis.AnalysePost | backend/trends/05_POSTS_ANALYSE.py:177-196 | `analyse_post`'s loop and arg-max compute the analysis, and nothing when the classifier returned no item |
| PostAnalysis.PredominantIsFirstMaximum | backend/trends/05_POSTS_ANALYSE.py:186-196 | the analysis fails exactly on an empty output; otherwise the predominant label is returned, its score is the largest, and every label first returned before it scores less |
| PostAnalysis.ArgMaxIsFirst | backend/trends/05_POSTS_ANALYSE.py:194 | with keys in first-appearance order, every label first returned before the chosen one scores less |
| AnalysisJob.FieldsTextListsColumns | backend/trends/05_POSTS_ANALYSE.py:246-389 | every classifier's column text lists its columns once each, the topic classifier's score columns included |
| AnalysisJob.Repeat | backend/trends/05_POSTS_ANALYSE.py:151 | n copies of the placeholder |
| AnalysisJob.PlaceholdersCount | backend/trends/05_POSTS_ANALYSE.py:151 | the placeholder list holds one `%s` per value |
| AnalysisJob.RowMatchesColumns | backend/trends/05_POSTS_ANALYSE.py:151-155 | each classifier's INSERT has as many values as columns and placeholders (13, 25 (6 + 19), 8, 8, 12 and 9, for emotion, categories, veracity, irony, toxicity and tone) |
| AnalysisJob.LabelScore | backend/trends/05_POSTS_ANALYSE.py:192 | a score read with the 0.0 default is never below 0.0, is 0.0 for an unreturned label, and is at least every score returned for the label |
| AnalysisJob.ScoreValuesOfFold | backend/trends/05_POSTS_ANALYSE.py:270-276 | every score column read from the dict holds its label's score in that sense |
| AnalysisJob.ScoreColumnsHoldLabelScores | backend/trends/05_POSTS_ANALYSE.py:236-397 | the row inserted for a classifier has six leading values and then each score column's label score |
| AnalysisJob.Collect | backend/trends/05_POSTS_ANALYSE.py:224-407 | the rows a list of posts contributes: exactly the posts with an outcome, each with its row |
| AnalysisJob.CollectSnoc | backend/trends/05_POSTS_ANALYSE.py:224-407 | one more post adds its outcome, if any, to the table |
| AnalysisJob.ModelKeysDistinct | backend/trends/05_POSTS_ANALYSE.py:36-53 | the six classifier keys are distinct |
| AnalysisJob.AnalysisDb.constructor | backend/trends/05_POSTS_ANALYSE.py:46-53 | the six measure tables start empty |
| AnalysisJob.AnalysisDb.RemainingUrls | backend/trends/05_POSTS_ANALYSE.py:100-125 | `get_remaining_post_urls` returns exactly the English cleaned posts absent from all six measure tables |
| AnalysisJob.AnalysisDb.InsertResult | backend/trends/05_POSTS_ANALYSE.py:143-160 | `insert_result` adds the row only when the post has none in that table |
| AnalysisJob.AnalysisDb.AnalyseWith | backend/trends/05_POSTS_ANALYSE.py:231-407 | one classifier on one post stores its outcome row and changes no other table |
| AnalysisJob.AnalysisDb.AnalyseOne | backend/trends/05_POSTS_ANALYSE.py:229-407 | all six classifiers run on the post, each storing its outcome in its own table |
| AnalysisJob.AnalysisDb.ProcessUrl | backend/trends/05_POSTS_ANALYSE.py:224-407 | a post with empty content is skipped; otherwise its outcomes are added to every table |
| AnalysisJob.AnalysisDb.Run | backend/trends/05_POSTS_ANALYSE.py:219-407 | after the loop each measure table is the old one plus the outcome rows of the remaining posts, and `post_clean` is unchanged |
| BotScore.Rank | backend/trends/07_POSTS_ANALYSE_MOTS.py:88-111 | every motif has one of six detection positions |
| BotScore.MotifAt | backend/trends/07_POSTS_ANALYSE_MOTS.py:88-111 | each detection position names the motif tested there |
| BotScore.Weight | backend/trends/07_POSTS_ANALYSE_MOTS.py:66-73 | each motif weighs 0.1 or 0.2 |
| BotScore.Score | backend/trends/07_POSTS_ANALYSE_MOTS.py:113-115 | the score of n motifs lies between 0.1·n and 0.2·n |
| BotScore.WeightFromDecreasing | backend/trends/07_POSTS_ANALYSE_MOTS.py:66-73 | the weight of the motifs from a later position on is no larger |
| BotScore.ScoreOrderedFrom | backend/trends/07_POSTS_ANALYSE_MOTS.py:113-115 | motifs in detection order from a position on weigh at most all the motifs from there |
| BotScore.ScoreAtMostTen | backend/trends/07_POSTS_ANALYSE_MOTS.py:113-115 | the score of the detected motifs never exceeds 1.0 |
| BotScore.DetectFromOrdered | backend/trends/07_POSTS_ANALYSE_MOTS.py:88-111 | testing the rules from a position on yields motifs in detection order, none before that position |
| BotScore.DetectFromMembers | backend/trends/07_POSTS_ANALYSE_MOTS.py:88-111 | a motif is found from a position on exactly when its rule fires and it sits there or later |
| BotScore.DetectSpec | backend/trends/07_POSTS_ANALYSE_MOTS.py:88-111 | the motifs found are exactly those whose rule fires, each once, in detection order |
| BotScore.LabelOf | backend/trends/07_POSTS_ANALYSE_MOTS.py:146-151 | "Probable bot" from 0.6, "Suspicion" from 0.4 below 0.6, "Probable humain" below 0.4 |
| BotScore.NonHumanHasTwoMotifs | backend/trends/07_POSTS_ANALYSE_MOTS.py:120-151 | a suspicious or bot label needs at least two motifs, so `frag[0]` always exists |
| BotScore.ListeFrFront | backend/trends/07_POSTS_ANALYSE_MOTS.py:122 | the French list joins all but the last item with ", " and ends with " et " and the last, read from the front (the single-post `liste_fr`, backend/analyse/analyse_post_unitaire.py lines 135-136, is the same function) |
| BotScore.UpperChar | backend/trends/07_POSTS_ANALYSE_MOTS.py:124 | upper-casing the first character turns a lower-case ASCII letter into a capital and keeps anything else |
| BotScore.Choose | backend/trends/07_POSTS_ANALYSE_MOTS.py:119-121 | `random.choice` returns one of the options |
| BotScore.SafeDays | backend/trends/07_POSTS_ANALYSE_MOTS.py:78-86 | `safe_days` gives a day count exactly when both dates are present and of the same kind (naive or zoned) |
| BotScore.SafeDaysFloor | backend/trends/07_POSTS_ANALYSE_MOTS.py:83-84 | the day count is floored: a partial day does not count |
| BotScore.MotifsSpec | backend/trends/07_POSTS_ANALYSE_MOTS.py:88-111 | `detecter_motifs` returns exactly the motifs whose rule fires, each once, in detection order |
| BotScore.MotifRules | backend/trends/07_POSTS_ANALYSE_MOTS.py:95-110 | a high frequency needs both dates at least a day apart and a publication count; a missing date never triggers it; few followers means fewer than 10; a name/handle gap needs both; "not verified" fires exactly for the six listed values |
| BotScore.Intros | backend/trends/07_POSTS_ANALYSE_MOTS.py:33-49 | each label has three intros |
| BotScore.Fragments | backend/trends/07_POSTS_ANALYSE_MOTS.py:51-64 | each motif has two phrasings |
| BotScore.Frags | backend/trends/07_POSTS_ANALYSE_MOTS.py:121 | one phrasing of each motif, in motif order |
| BotScore.IntroCapital | backend/trends/07_POSTS_ANALYSE_MOTS.py:33-43 | every intro of a suspicious or bot comment starts with a capital |
| BotScore.CommentaireShape | backend/trends/07_POSTS_ANALYSE_MOTS.py:117-124 | a suspicious or bot comment is an intro, a blank, the French list of fragments and a period, and starts with a capital (capitalising changes nothing) |
| BotScore.MesureFacts | backend/trends/07_POSTS_ANALYSE_MOTS.py:142-159 | every measure has a score of at most 1.0, the label its score calls for, a comment ending in a period when not human, and the analysis instant |
| BotScore.BotDb.constructor | backend/trends/07_POSTS_ANALYSE_MOTS.py:129-131 | the measure table starts as given |
| BotScore.BotDb.AnalyserEtInserer | backend/trends/07_POSTS_ANALYSE_MOTS.py:129-177 | after the run `compte_mesure_bot` holds exactly one measure per account read, the one `MesureOf` computes at that account's own clock reading, and no older row |
| CreatedAt.NextDay | backend/trends/00_EXTRACTIONCOMPLETE_POST+COMPTE.py:51-55 | the calendar day after a valid date is a valid date |
| CreatedAt.YearLength | backend/trends/00_EXTRACTIONCOMPLETE_POST+COMPTE.py:51-55 | a year has 366 days when leap and 365 otherwise on the day numbering |
| CreatedAt.NextDayIsNextNumber | backend/trends/00_EXTRACTIONCOMPLETE_POST+COMPTE.py:51-55 | the day numbering of the proleptic Gregorian calendar has no gap and no repetition |
| CreatedAt.EpochIsDayZero | backend/trends/00_EXTRACTIONCOMPLETE_POST+COMPTE.py:51-55 | 1970-01-01T00:00:00Z is instant zero |
| CreatedAt.RangeBounds | backend/trends/00_EXTRACTIONCOMPLETE_POST+COMPTE.py:55 | the range bounds are the instants of 0001-01-01T00:00:00 and 9999-12-31T23:59:59.999999 |
| CreatedAt.Digits | backend/trends/00_EXTRACTIONCOMPLETE_POST+COMPTE.py:51-53 | a digit string of length n denotes a number below 10^n |
| CreatedAt.Pad | backend/trends/00_EXTRACTIONCOMPLETE_POST+COMPTE.py:51-53 | a zero-padded field has exactly its width and reads back as its value |
| CreatedAt.DigitRun | backend/trends/00_EXTRACTIONCOMPLETE_POST+COMPTE.py:51-53 | the leading digit run is maximal |
| CreatedAt.Lit | backend/trends/00_EXTRACTIONCOMPLETE_POST+COMPTE.py:51-53 | a literal of the format consumes exactly that character |
| CreatedAt.LitNoCase | backend/trends/00_EXTRACTIONCOMPLETE_POST+COMPTE.py:51-53 | the `T` and `Z` literals of `strptime` match either case |
| CreatedAt.Year4 | backend/trends/00_EXTRACTIONCOMPLETE_POST+COMPTE.py:51-53 | `%Y` reads exactly four digits |
| CreatedAt.Field | backend/trends/00_EXTRACTIONCOMPLETE_POST+COMPTE.py:51-53 | `%m`, `%d`, `%H`, `%M`, `%S` read one or two digits with a value in the field's range |
| CreatedAt.Fraction | backend/trends/00_EXTRACTIONCOMPLETE_POST+COMPTE.py:51 | `%f` reads microseconds below one second |
| CreatedAt.Two | backend/trends/00_EXTRACTIONCOMPLETE_POST+COMPTE.py:55 | `fromisoformat` reads fixed two-digit fields in range |
| CreatedAt.Checked | backend/trends/00_EXTRACTIONCOMPLETE_POST+COMPTE.py:51-57 | the `datetime` constructor accepts exactly the valid stamps; its `ValueError` gives `None` |
| CreatedAt.Strptime | backend/trends/00_EXTRACTIONCOMPLETE_POST+COMPTE.py:50-53 | a parse always yields a valid stamp, with zero microseconds for the format without `%f` |
| CreatedAt.FromIsoFormat | backend/trends/00_EXTRACTIONCOMPLETE_POST+COMPTE.py:54-55 | a `fromisoformat` parse always yields a valid stamp |
| CreatedAt.ToUtc | backend/trends/00_EXTRACTIONCOMPLETE_POST+COMPTE.py:55-57 | `astimezone(timezone.utc)` subtracts the time's own offset, or the machine's offset for a naive time, and fails outside the years 1 to 9999 |
| CreatedAt.FieldOfPad | backend/trends/00_EXTRACTIONCOMPLETE_POST+COMPTE.py:51-53 | a two-digit field written in range reads back |
| CreatedAt.TwoOfPad | backend/trends/00_EXTRACTIONCOMPLETE_POST+COMPTE.py:55 | a two-digit ISO field written in range reads back |
| CreatedAt.Year4OfPad | backend/trends/00_EXTRACTIONCOMPLETE_POST+COMPTE.py:51-55 | a four-digit year reads back |
| CreatedAt.FractionOfPad | backend/trends/00_EXTRACTIONCOMPLETE_POST+COMPTE.py:51 | a fraction of w digits reads back as its value times 10^(6-w) microseconds |
| CreatedAt.StrpDateOfFormat | backend/trends/00_EXTRACTIONCOMPLETE_POST+COMPTE.py:51-53 | `%Y-%m-%dT` reads a written date back |
| CreatedAt.StrpTimeOfFormat | backend/trends/00_EXTRACTIONCOMPLETE_POST+COMPTE.py:51-53 | `%H:%M:%S` reads a written time back |
| CreatedAt.StrptimeSecondsZ | backend/trends/00_EXTRACTIONCOMPLETE_POST+COMPTE.py:53 | the whole-second format reads a written stamp back, or fails exactly when the constructor does |
| CreatedAt.StrptimeFractionZ | backend/trends/00_EXTRACTIONCOMPLETE_POST+COMPTE.py:51 | the fraction format reads a written stamp back with its fraction as leading microseconds |
| CreatedAt.SecondsZShape | backend/trends/00_EXTRACTIONCOMPLETE_POST+COMPTE.py:50-53 | a whole-second `Z` stamp has no dot and ends with `Z`, so it takes the second branch |
| CreatedAt.FractionZShape | backend/trends/00_EXTRACTIONCOMPLETE_POST+COMPTE.py:50-51 | a fractional `Z` stamp has a dot and ends with `Z`, so it takes the first branch |
| CreatedAt.SecondsZRoundTrip | backend/trends/00_EXTRACTIONCOMPLETE_POST+COMPTE.py:39-57 | `parse_created_at` reads a whole-second `Z` stamp as the instant it names |
| CreatedAt.FractionZRoundTrip | backend/trends/00_EXTRACTIONCOMPLETE_POST+COMPTE.py:39-57 | `parse_created_at` reads a fractional `Z` stamp as the instant it names, its fraction as leading microseconds |
| CreatedAt.IsoOffsetOfFormat | backend/trends/00_EXTRACTIONCOMPLETE_POST+COMPTE.py:55 | a written `±HH:MM` offset reads back |
| CreatedAt.IsoDateOfFormat | backend/trends/00_EXTRACTIONCOMPLETE_POST+COMPTE.py:55 | an ISO date reads back |
| CreatedAt.IsoTimeOfFormat | backend/trends/00_EXTRACTIONCOMPLETE_POST+COMPTE.py:55 | an ISO time reads back |
| CreatedAt.FromIsoOfFormat | backend/trends/00_EXTRACTIONCOMPLETE_POST+COMPTE.py:55 | `fromisoformat` reads a whole-second stamp with an offset back, stamp and offset |
| CreatedAt.OffsetShape | backend/trends/00_EXTRACTIONCOMPLETE_POST+COMPTE.py:50-55 | a stamp with an offset does not end with `Z`, so it takes the third branch |
| CreatedAt.OffsetRoundTrip | backend/trends/00_EXTRACTIONCOMPLETE_POST+COMPTE.py:39-57 | a stamp with an explicit offset is converted by that offset whatever the machine's own, unless the result leaves the years `datetime` holds |
| CreatedAt.ParseOfIso | backend/trends/00_EXTRACTIONCOMPLETE_POST+COMPTE.py:54-57 | any non-empty text without a final `Z` that `fromisoformat` accepts is converted to UTC |
| CreatedAt.RefusesEmptyAndImpossibleDays | backend/trends/00_EXTRACTIONCOMPLETE_POST+COMPTE.py:47-57 | the empty text and a day past the end of its month give `None` |
| Extraction.Unwrap | backend/trends/00_EXTRACTIONCOMPLETE_POST+COMPTE.py:400 | the two `replace` calls leave no line break, and a text without one is unchanged |
| Extraction.CleanText | backend/trends/00_EXTRACTIONCOMPLETE_POST+COMPTE.py:400 | the stored text has no line break and no surrounding whitespace |
| Extraction.CleanIsFixed | backend/trends/00_EXTRACTIONCOMPLETE_POST+COMPTE.py:400 | a text that is already clean is its own cleaning |
| Extraction.CleanTextIdempotent | backend/trends/00_EXTRACTIONCOMPLETE_POST+COMPTE.py:400 | cleaning yields a clean text, a clean text is its own cleaning, so cleaning is idempotent |
| Extraction.LastSegment | backend/trends/00_EXTRACTIONCOMPLETE_POST+COMPTE.py:402 | `uri.split('/')[-1]` has no slash and is no longer than the URI |
| Extraction.LastSegmentIsSuffix | backend/trends/00_EXTRACTIONCOMPLETE_POST+COMPTE.py:402 | the last segment is a suffix of the URI, preceded by a slash unless it is the whole URI |
| Extraction.LastSegmentAfterSlash | backend/trends/00_EXTRACTIONCOMPLETE_POST+COMPTE.py:402 | the last segment of `prefix/rkey` is `rkey` |
| Extraction.DisplayUrlOfPostUri | backend/trends/00_EXTRACTIONCOMPLETE_POST+COMPTE.py:402 | the display URL of an AT post URI is the profile URL of the handle followed by `/post/` and the record key |
| Extraction.Gather | backend/trends/00_EXTRACTIONCOMPLETE_POST+COMPTE.py:367-377 | the pagination loop only ever extends the buffer |
| Extraction.Examined | backend/trends/00_EXTRACTIONCOMPLETE_POST+COMPTE.py:365-382 | at most ten posts are examined per keyword, and nothing when a search call raised |
| Extraction.FetchBuffer | backend/trends/00_EXTRACTIONCOMPLETE_POST+COMPTE.py:360-382 | the pagination loop and the cut to ten return the posts `Examined` describes |
| Extraction.RowOfWellFormed | backend/trends/00_EXTRACTIONCOMPLETE_POST+COMPTE.py:397-426 | the row built for an accepted post has its display URL, its word count as weight, a clean text, its keyword pair and a date within a day of its round |
| Extraction.ExtractionDb.constructor | backend/trends/00_EXTRACTIONCOMPLETE_POST+COMPTE.py:335-340 | the job starts from the given tables |
| Extraction.ExtractionDb.Enrichment | backend/trends/00_EXTRACTIONCOMPLETE_POST+COMPTE.py:437-445 | `compte_brut` after steps 2 and 3 is the first pass applied to every row not yet OK, then the second pass applied to every row whose status is then null |
| Extraction.ExtractionDb.Insert | backend/trends/00_EXTRACTIONCOMPLETE_POST+COMPTE.py:412-434 | an accepted post's row is stored, counted and its URI made known unless its INSERT raises, keeping the stored-part invariant; on success a new author gets an account row dated by the scrape unless the account INSERT raised, and a failed post INSERT leaves both tables as they were |
| Extraction.PostsStoredInsert | backend/trends/00_EXTRACTIONCOMPLETE_POST+COMPTE.py:412-434 | storing a well-formed row under a new URL keeps the stored-posts invariant and counts one insertion more, never beyond the target |
| Extraction.ExtractionDb.ProcessPost | backend/trends/00_EXTRACTIONCOMPLETE_POST+COMPTE.py:387-445 | an examined post is stored, counted and made known exactly when its URI is unknown, its date parses and is within the last 24 hours, and its INSERT goes through; `compte_brut` then gains its author, and is enriched by steps 2 and 3 when that insertion completes a hundred |
| Extraction.ExtractionDb.Accept | backend/trends/00_EXTRACTIONCOMPLETE_POST+COMPTE.py:412-445 | an accepted post is stored, counted and made known unless its INSERT raises; `compte_brut` gains the author unless the account INSERT raised, and is then enriched by steps 2 and 3 exactly when the counter reaches 100 |
| Extraction.ExtractionDb.Tick | backend/trends/00_EXTRACTIONCOMPLETE_POST+COMPTE.py:436-445 | the enrichment counter stays the count since the last multiple of 100, and steps 2 and 3 rewrite `compte_brut` exactly when the counter reaches 100 |
| Extraction.CounterStep | backend/trends/00_EXTRACTIONCOMPLETE_POST+COMPTE.py:430-445 | counting one more insertion either stays under 100 or wraps to 0 with one more enrichment run |
| Extraction.ExtractionDb.ProcessKeyword | backend/trends/00_EXTRACTIONCOMPLETE_POST+COMPTE.py:354-450 | one keyword keeps the run invariant and never lowers the counter |
| Extraction.ExtractionDb.ProcessRound | backend/trends/00_EXTRACTIONCOMPLETE_POST+COMPTE.py:350-453 | one round keeps the run invariant and never lowers the counter |
| Extraction.ExtractionDb.Run | backend/trends/00_EXTRACTIONCOMPLETE_POST+COMPTE.py:333-459 | `main` never changes or removes a stored post, every new row is well formed, the returned count is the number of new rows and at most 12000, steps 2 and 3 ran once per hundred insertions, and no account is removed |
| PostsExtraction.Threshold | backend/trends/01_POSTS_EXTRACTION.py:98 | the threshold is exactly 24 hours before the start of the run |
| PostsExtraction.StrictDate | backend/trends/01_POSTS_EXTRACTION.py:138-142 | a date is read only from a present `created_at`, with the exact fractional `Z` format |
| PostsExtraction.CandidatesCons | backend/trends/01_POSTS_EXTRACTION.py:131-144 | the recent URIs of a list are those of its head, if recent, and of its tail |
| PostsExtraction.BatchUris | backend/trends/01_POSTS_EXTRACTION.py:131-173 | the batch takes only URIs of recent examined posts that were not known, and, when no account statement failed, exactly those: a recent post is never lost and a known URI never taken |
| PostsExtraction.BatchShape | backend/trends/01_POSTS_EXTRACTION.py:131-173 | a batch holds at most one row per examined post and never the same URI twice |
| PostsExtraction.BatchWellFormed | backend/trends/01_POSTS_EXTRACTION.py:137-172 | every batch row has its display URL, its word count as weight, a clean text, its keyword pair and a date within a day of the run start |
| PostsExtraction.RegisterAllFacts | backend/trends/01_POSTS_EXTRACTION.py:155-156 | registering a batch keeps every account, only fills missing first-analysis dates, and leaves every author with a dated account |
| PostsExtraction.RegisterAllKeeps | backend/trends/01_POSTS_EXTRACTION.py:155-156 | registering a batch keeps every account and changes an account only by filling a missing first-analysis date |
| PostsExtraction.RegisterAllDates | backend/trends/01_POSTS_EXTRACTION.py:155-156 | after registering a batch every author of the batch has an account with a first-analysis date |
| PostsExtraction.RegisterAllFromBatch | backend/trends/01_POSTS_EXTRACTION.py:155-156 | an account that was not there before belongs to an author of the batch |
| PostsExtraction.CollectBatch | backend/trends/01_POSTS_EXTRACTION.py:129-176 | the per-post loop builds the batch, registers each accepted author, and adds each accepted URI to the known set; once an account statement fails, or in an already aborted transaction, no later post is taken and the transaction is left aborted |
| PostsExtraction.BatchStep | backend/trends/01_POSTS_EXTRACTION.py:131-173 | the batch from position i is the row of post i, if accepted and its account statements go through, then the batch of the rest with its URI known; an accepted post whose statements fail ends the batch and aborts |
| PostsExtraction.RegisterAllSnoc | backend/trends/01_POSTS_EXTRACTION.py:155-156 | registering one more row runs its two account statements on the result |
| PostsExtraction.InsertMany | backend/trends/01_POSTS_EXTRACTION.py:181 | `executemany` runs one `DO NOTHING` insert per row, in order |
| PostsExtraction.CommitKept | backend/trends/01_POSTS_EXTRACTION.py:179-186 | a committed batch of new, distinct, well-formed rows keeps the run invariant and adds its length to the total |
| PostsExtraction.ProcessKeyword | backend/trends/01_POSTS_EXTRACTION.py:108-191 | a keyword whose search fails changes nothing; otherwise the known set gains exactly the batch's URIs, none known before, and both tables and the total take the batch when it is non-empty and its account statements and its write go through; a failed batch is rolled back with its account statements and ends the aborted state, and an aborted transaction with an empty batch stays aborted and changes nothing |
| PostsExtraction.Run | backend/trends/01_POSTS_EXTRACTION.py:103-191 | stored posts are untouched, every new row is well formed, the total is the number of new rows, and accounts are only added or dated |
| TrendsApi.CountWindow | backend/api/Trends/api_trends.py:62-71 | `today` is the one-day window [today, today+1), `week` the seven days ending today, `all` no window |
| TrendsApi.StartDate | backend/api/Trends/api_trends.py:142-148 | the emotion start day is today, or six days before for `week`, and none for `all` |
| TrendsApi.StartIsWindowStart | backend/api/Trends/api_trends.py:142-148 | the emotion endpoint starts where the count window starts but has no end |
| TrendsApi.MatchesConcat | backend/api/Trends/api_trends.py:85 | conditions joined by ` AND ` select the rows that meet both lists |
| TrendsApi.MatchesOne | backend/api/Trends/api_trends.py:85 | one condition selects what it states; no condition (`1=1`) selects every row |
| TrendsApi.CategorySelect | backend/api/Trends/api_trends.py:80-83 | the category filter keeps the rows whose stored category is the mapped name, or every row for `all` |
| TrendsApi.CountCondsSelect | backend/api/Trends/api_trends.py:66-90 | `/trends/count` counts the posts of the period in the mapped category unless `all` |
| TrendsApi.StatsCondsSelect | backend/api/Trends/api_trends.py:107-116 | `/trends/stats` filters on the mapped category unless `all`, and on dates only when both are given and non-empty |
| TrendsApi.EmotionCondsSelect | backend/api/Trends/api_trends.py:145-162 | `/trends/emotion` keeps the mapped category's rows from the period's first day on, with no upper bound |
| TrendsApi.AppendCategory | backend/api/Trends/api_trends.py:80-83 | appending the category condition extends both lists by its text and its value |
| TrendsApi.BuildCountFilter | backend/api/Trends/api_trends.py:73-85 | the built lists render the count conditions, with one `%s` per parameter in the clause |
| TrendsApi.BuildStatsFilter | backend/api/Trends/api_trends.py:104-116 | the built lists render the stats conditions, with one `%s` per parameter |
| TrendsApi.BuildEmotionFilter | backend/api/Trends/api_trends.py:150-162 | the built lists render the emotion conditions, with one `%s` per parameter |
| TrendsApi.StatsBody | backend/api/Trends/api_trends.py:134-135 | each label paired with a column gets its average, a null read as 0.0, and no other key appears |
| TrendsApi.StatsBodyComplete | backend/api/Trends/api_trends.py:134-135 | a row of six averages gives the six labels, nulls as 0.0 |
| TrendsApi.EmotionBody | backend/api/Trends/api_trends.py:179-180 | the list pairs each emotion label with its average, a null read as 0.0, as far as both lists go |
| TrendsApi.EmotionBodyOrder | backend/api/Trends/api_trends.py:179-180 | a row of five averages lists anger, disgust, fear, joy and surprise, in that order |
| TrendsApi.GetPostCount | backend/api/Trends/api_trends.py:57-96 | a period or category outside the enumerations is rejected; otherwise the answer is the database's count for the built query, and a failure propagates |
| TrendsApi.GetToxicityStats | backend/api/Trends/api_trends.py:98-135 | the answer is `StatsBody` of the row the database gives for the built query |
| TrendsApi.GetEmotionStats | backend/api/Trends/api_trends.py:137-180 | a period outside the pattern is rejected; otherwise the answer is `EmotionBody` of the row for the built query |
| TrendsApi.MappedNamesAreNotStored | backend/api/Trends/api_trends.py:38-52 | every retained category is renamed by the mapping to a name that is neither a retained category nor `All` |
| TrendsApi.EveryCategoryIsMapped | backend/api/Trends/api_trends.py:38-52 | each of the twelve categories has a mapping entry |
| TrendsApi.NoAmpersandInCategories | backend/trends/07_TRENDS_RESULTS.py:51-55 | no retained category contains `&` |
| TrendsApi.MappedLabelShape | backend/api/Trends/api_trends.py:38-52 | every mapped name contains `&` or is `relationships` or `gaming` |
| TrendsApi.StoredCategory | backend/trends/07_TRENDS_RESULTS.py:104-147 | the trends job writes only the twelve categories and `All` |
| TrendsApi.MappedCategoryMatchesNoStoredRow | backend/api/Trends/api_trends.py:153-156 | the mapped category filter of `/trends/stats` and `/trends/emotion` matches no row whose category the trends job can write |
| TrendsApi.MappedCategoryMatchesNoTrendRow | backend/api/Trends/api_trends.py:153-156 | as written: on a table filled by the trends job a category filter matches no row, so every average is null and reported as 0.0 |
| TrendsApi.PostBucketStored | backend/trends/07_TRENDS_RESULTS.py:113-147 | the trends job writes a row for the day and category of every aggregated post |
| TrendsApi.DirectCategoryFindsTrendRows | backend/trends/09_API_TRENDS.py:41-56 | corrected: filtering on the category name itself selects exactly that category's rows, and the job has written one for every day a post of it was aggregated |
| SqlFilter.ParsePeriodExact | backend/trends/09_API_TRENDS.py:38 | exactly `today`, `week` and `all` pass the period pattern, each naming its period |
| SqlFilter.Texts | backend/api/Trends/api_trends.py:73-83 | the `where` list holds each condition's SQL text, in order |
| SqlFilter.TextsSnoc | backend/api/Trends/api_trends.py:77-83 | appending a condition appends its text |
| SqlFilter.AllArgsSnoc | backend/api/Trends/api_trends.py:78-83 | appending a condition appends its values to `params` |
| SqlFilter.PlaceholdersConcat | backend/api/Trends/api_trends.py:85 | placeholders add up over a concatenation that creates none at the seam |
| SqlFilter.NoPercentNoPlaceholder | backend/api/Trends/api_trends.py:85 | a text without `%` has no placeholder |
| SqlFilter.TextThenHole | backend/api/Trends/api_trends.py:82 | a condition text followed by `%s` has one placeholder |
| SqlFilter.TwoHoles | backend/api/Trends/api_trends.py:77 | the date-window condition has two placeholders |
| SqlFilter.NoPlaceholderToday | backend/keywords/api_keywords.py:35 | `post_date = CURRENT_DATE` binds nothing |
| SqlFilter.NoPlaceholderLastWeek | backend/keywords/api_keywords.py:37 | the `INTERVAL '7 days'` condition binds nothing |
| SqlFilter.SqlPlaceholders | backend/api/Trends/api_trends.py:77-83 | every condition's text has one placeholder per value it binds |
| SqlFilter.JoinPlaceholders | backend/api/Trends/api_trends.py:85 | joining condition texts with ` AND ` keeps every placeholder and adds none |
| SqlFilter.WhereOr1Placeholders | backend/api/Trends/api_trends.py:85-93 | the clause with its `1=1` default has exactly as many placeholders as parameters |
| SqlFilter.WherePrefixedPlaceholders | backend/trends/09_API_TRENDS.py:56-70 | the `WHERE`-prefixed clause has exactly as many placeholders as parameters, starts with `WHERE `, and is empty only without conditions |
| EmotionsApi.ConditionsShape | backend/trends/09_API_TRENDS.py:44-56 | there is a category condition exactly when the category is not `all`, a date condition exactly for `today` and `week`, and no `WHERE` when neither |
| EmotionsApi.ConditionsSelect | backend/trends/09_API_TRENDS.py:48-56 | the filter keeps the rows of the category as given (unless `all`) from the start day on |
| EmotionsApi.BuildConditions | backend/trends/09_API_TRENDS.py:45-54 | the built lists render the conditions, with one placeholder per parameter |
| EmotionsApi.Answer | backend/trends/09_API_TRENDS.py:68-86 | any failure in the database block, the endpoint's own 404 included, becomes HTTP 500 with its message; a row gives the five emotions keyed by name with the period and category echoed |
| EmotionsApi.GetEmotions | backend/trends/09_API_TRENDS.py:36-86 | a bad period is rejected, an unknown category gets HTTP 400 before the database is touched, and otherwise the answer comes from the built query |
| KeywordsApi.KeywordCondsShape | backend/keywords/api_keywords.py:75-84 | the category adds one condition and one parameter, the period a condition but no parameter, and there is no `WHERE` without conditions |
| KeywordsApi.KeywordCondsSelect | backend/keywords/api_keywords.py:75-84 | the filter keeps the rows of the period (today, or from seven days before today) in the category as given, unless `all` |
| KeywordsApi.BuildKeywordFilter | backend/keywords/api_keywords.py:33-42 | the built lists render the conditions, with one placeholder per parameter |
| KeywordsApi.Entries | backend/keywords/api_keywords.py:62 | each result row becomes its rank, keyword and occurrence, a null occurrence read as 0, in order |
| KeywordsApi.RankedKeywordsDropOccurrence | backend/api_keywords.py:57 | the older endpoint answers the same entries without their occurrence |
| KeywordsApi.TopKeywords | backend/keywords/api_keywords.py:28-64 | a bad period is rejected; a database error becomes HTTP 500 with its message; otherwise the rows become entries |
| KeywordsApi.PostCount | backend/keywords/api_keywords.py:70-97 | a bad period is rejected; a database error becomes HTTP 500; otherwise the sum is returned |
| KeywordsApi.TopKeywordsLegacy | backend/api_keywords.py:23-57 | a bad period is rejected; a database error is not caught; otherwise the rows become ranked keywords |
| KeywordsApi.PostCountCountsTwice | backend/keywords/api_keywords.py:75-89 | as written: with `category=all` a post of the day is counted in its category's row and again in the `All` row |
| KeywordsApi.OnePostCountedTwice | backend/keywords/api_keywords.py:75-89 | as written: one `family` post today yields a count of 2 |
| KeywordsApi.TodayKeepsEveryBucket | backend/keywords/api_keywords.py:75-89 | with `period=today` and `category=all`, every bucket of today's posts, per category and rollup alike, is counted |
| KeywordsApi.RollupCountsOnce | backend/keywords/api_keywords.py:75-89 | corrected: reading only the `All` row for `category=all` counts every post of the day exactly once |
| KeywordsApi.RollupSelect | backend/keywords/api_keywords.py:75-89 | the corrected filter keeps exactly today's `All` row |
| PostUnitaire.AfterScheme | backend/analyse/analyse_post_unitaire.py:146 | an accepted URL is `https://` or `http://` followed by the returned rest |
| PostUnitaire.AfterSchemeOf | backend/analyse/analyse_post_unitaire.py:146 | both schemes are recognised and give back exactly what follows them |
| PostUnitaire.IndexOf | backend/analyse/analyse_post_unitaire.py:146 | the index of the first occurrence of the character (or the length): nothing before it is that character |
| PostUnitaire.ParseUrlSound | backend/analyse/analyse_post_unitaire.py:146-149 | every URL the parser accepts matches `https?://bsky.app/profile/<handle>/post/<rkey>` in full with the groups it returns |
| PostUnitaire.ParsePathSound | backend/analyse/analyse_post_unitaire.py:146-149 | a path the parser accepts is `/profile/<handle>/post/<rkey>` with the groups it returns |
| PostUnitaire.ParsePathOf | backend/analyse/analyse_post_unitaire.py:146-149 | a handle without `/` and a record key without `/`, `?` or `#` are read back from the path built from them |
| PostUnitaire.ParseUrlComplete | backend/analyse/analyse_post_unitaire.py:146-149 | every URL matching the pattern is accepted, with its own handle and record key (with ParseUrlSound: accepted exactly when it matches) |
| PostUnitaire.PostUriKey | backend/analyse/analyse_post_unitaire.py:154 | the record key of the URL is the last segment of the AT URI built from it |
| PostUnitaire.Without | backend/analyse/analyse_post_unitaire.py:164 | removing a character leaves none of it and adds no character |
| PostUnitaire.SqueezeFacts | backend/analyse/analyse_post_unitaire.py:164 | collapsing newline runs leaves no two newlines in a row, keeps the first and last characters and changes nothing but newlines |
| PostUnitaire.TextRawClean | backend/analyse/analyse_post_unitaire.py:164 | the cleaned post text has no carriage return, no blank line and no surrounding whitespace |
| PostUnitaire.RoundDiv | backend/analyse/analyse_post_unitaire.py:176-178 | the quotient rounded to the nearest integer, a tie going to the even one |
| PostUnitaire.RoundReal | backend/analyse/analyse_post_unitaire.py:238 | `round` of a real: within one half of the input |
| PostUnitaire.RStripZ | backend/analyse/analyse_post_unitaire.py:170 | `rstrip("Z")`: a prefix of the input that does not end in `Z` |
| PostUnitaire.CreatedInstant | backend/analyse/analyse_post_unitaire.py:170 | the creation time is the ISO reading of the text without its trailing `Z`, taken as UTC; no time when that reading fails |
| PostUnitaire.DaysLive | backend/analyse/analyse_post_unitaire.py:175 | the account age is at least one day, and otherwise the whole number of days elapsed |
| PostUnitaire.PerDayAboveTwenty | backend/analyse/analyse_post_unitaire.py:176-206 | the frequency motif fires exactly when the mean rounded to three decimals exceeds 20, i.e. when the exact mean exceeds 20.0005 |
| PostUnitaire.RoundedAboveTwenty | backend/analyse/analyse_post_unitaire.py:176 | a quotient rounded half to even exceeds 20000 exactly when the exact quotient exceeds 20000.5 |
| PostUnitaire.MulMono | backend/analyse/analyse_post_unitaire.py:176 | multiplying by a non-negative number keeps an inequality (used for the rounding bounds) |
| PostUnitaire.RoundingHidesExcess | backend/analyse/analyse_post_unitaire.py:176-206 | 40021 posts in 2001 days is more than 20 a day, yet the rounded mean is 20.000 and no motif fires |
| PostUnitaire.RatioFollow | backend/analyse/analyse_post_unitaire.py:178 | the follower ratio is 0 without followings, and otherwise the ratio rounded to three decimals |
| PostUnitaire.StripEmpty | backend/analyse/analyse_post_unitaire.py:179 | `strip()` is empty exactly when every character is whitespace |
| PostUnitaire.BioEmpty | backend/analyse/analyse_post_unitaire.py:179 | the bio counts as empty exactly when it is missing or all whitespace |
| PostUnitaire.NameOf | backend/analyse/analyse_post_unitaire.py:169 | the display name when it is non-empty, else the handle from the URL |
| PostUnitaire.MotifsOfSpec | backend/analyse/analyse_post_unitaire.py:200-214 | the motifs found are exactly those whose rule fires, in detection order, and their summed weight stays within 1.0 |
| PostUnitaire.MotifTexts | backend/analyse/analyse_post_unitaire.py:111-118 | one text per motif, position by position |
| PostUnitaire.CommentBotShape | backend/analyse/analyse_post_unitaire.py:217-234 | a suspicious or bot comment has at least two motifs and is the label's intro followed by the French list of all motif texts |
| PostUnitaire.Zeros | backend/analyse/analyse_post_unitaire.py:186-187 | the starting dictionary has exactly the listed labels, each at 0.0 |
| PostUnitaire.RecordKeys | backend/analyse/analyse_post_unitaire.py:189-197 | the emotion loop keeps exactly the six keys; the toxicity loop adds every label the classifier returns |
| PostUnitaire.RecordUntouched | backend/analyse/analyse_post_unitaire.py:189-197 | a label no prediction names keeps its starting score |
| PostUnitaire.RecordLastWins | backend/analyse/analyse_post_unitaire.py:189-197 | the last prediction for a label sets its score (for emotions only when the label is one of the six) |
| PostUnitaire.FillScores | backend/analyse/analyse_post_unitaire.py:189-197 | the two classifier loops compute the recorded dictionary |
| PostUnitaire.LabelList | backend/analyse/analyse_post_unitaire.py:191-192 | the listed labels are exactly the lower-cased labels of the predictions |
| PostUnitaire.DictKeys | backend/analyse/analyse_post_unitaire.py:184-197 | the toxicity keys listed are exactly the dictionary's and never empty; the emotion dictionary has exactly the six keys |
| PostUnitaire.MaxOver | backend/analyse/analyse_post_unitaire.py:239 | the largest value over the keys: no key exceeds it and some key reaches it |
| PostUnitaire.ToxDesc | backend/analyse/analyse_post_unitaire.py:240-245 | the four toxicity bands, each exactly on its interval (below .01, below .20, below .50, from .50) |
| PostUnitaire.Width | backend/analyse/analyse_post_unitaire.py:248 | the number of decimal digits of a number is at least one and bounds it |
| PostUnitaire.IntTextDigits | backend/analyse/analyse_post_unitaire.py:248 | `str` of a non-negative integer reads back as that integer and has no leading zero |
| PostUnitaire.PadLeadingDigit | backend/analyse/analyse_post_unitaire.py:248 | a number written on exactly its own width does not start with zero |
| PostUnitaire.EmptyTextTone | backend/analyse/analyse_post_unitaire.py:186-249 | for an empty post the classifiers are not called and the tone reads "non toxique" with anger at 0 % |
| PostUnitaire.AnalysisFacts | backend/analyse/analyse_post_unitaire.py:140-293 | an invalid URL gives the URL error; a report always comes from the post at the URI built from the URL, carries the label of its score (at most 1.0) and six emotions |
| PostUnitaire.AnalyserPost | backend/analyse/analyse_post_unitaire.py:140-293 | the method with its two loops computes the same outcome as the specification of `analyser_post` |
| Gitignore.LineLen | githubconnect.py:33 | the first line of a text runs up to its first line break (or the end) and holds no break |
| Gitignore.Rest | githubconnect.py:33 | what follows the first line and its break is shorter and keeps the text's last character |
| Gitignore.SplitLines | githubconnect.py:33 | `splitlines()` gives no line exactly for the empty text |
| Gitignore.SplitAfterBreak | githubconnect.py:33 | a text ending in a break (not a lone `\r` that the next text would widen) splits independently of what follows |
| Gitignore.SplitStep | githubconnect.py:33 | a text continuing past its first break splits into that first line and the lines of the rest |
| Gitignore.RestPrefix | githubconnect.py:33 | splitting off the first line does not look past the first break |
| Gitignore.LineLenPrefix | githubconnect.py:33 | appending text does not change a first line that already ends in a break |
| Gitignore.LineLenAt | githubconnect.py:33 | the first line ends at the first break |
| Gitignore.OneLine | githubconnect.py:33 | a line without break followed by nothing or one terminator is a single line |
| Gitignore.NoBreakLen | githubconnect.py:33 | a text without break is one line as a whole |
| Gitignore.LinesThenLine | githubconnect.py:33 | complete lines followed by one terminated line split into those lines plus that line |
| Gitignore.TailStart | githubconnect.py:33-42 | the last line starts right after the last break and holds none |
| Gitignore.HeadTail | githubconnect.py:33-42 | every text is its complete lines followed by an unterminated rest |
| Gitignore.UnterminatedTail | githubconnect.py:42 | an unterminated last line is the text's rest after its last break; the lines before it are the lines of the head |
| Gitignore.TerminatedTail | githubconnect.py:44 | a newline after an unterminated last line only terminates it |
| Gitignore.CrThenNewline | githubconnect.py:43-44 | a newline after a final `\r` only widens that break to `\r\n` |
| Gitignore.AppendedToEmpty | githubconnect.py:42-44 | appending to an empty file gives the single entry line |
| Gitignore.AppendedToBlankTail | githubconnect.py:42-44 | a blank unterminated last line and the entry become one line (it still strips to the entry) |
| Gitignore.AppendedAfterTail | githubconnect.py:42-44 | a non-blank unterminated last line is terminated, then the entry follows as a line of its own |
| Gitignore.AppendedAfterBlankLine | githubconnect.py:42-44 | after a terminated blank line the entry is a line of its own |
| Gitignore.AppendedAfterLine | githubconnect.py:42-44 | after a terminated non-blank line an empty line is inserted, then the entry |
| Gitignore.AppendedAfterCr | githubconnect.py:42-44 | after a final `\r` the separator joins that break and the entry follows |
| Gitignore.AppendedLines | githubconnect.py:39-45 | the lines after appending, case by case: the existing lines stay and the entry is added as a line (after an empty line when the text ended with a break after a non-blank line) |
| Gitignore.SeparatorOfLines | githubconnect.py:42-43 | the separator is a newline exactly when the last line exists and is not blank |
| Gitignore.AppendedOwnLine | githubconnect.py:42-44 | outside the blank-tail and terminated-non-blank cases, the entry is added as one line after the existing lines |
| Gitignore.AppendStep | githubconnect.py:42-44 | the text written is the existing text, the separator and the entry line, and it has the entry |
| Gitignore.StripBlankPrefix | githubconnect.py:35 | blank text before the entry strips away |
| Gitignore.StripAllSpace | githubconnect.py:35 | a blank line is all whitespace |
| Gitignore.StripLeftSkips | githubconnect.py:35 | stripping skips leading whitespace up to the first non-space character |
| Gitignore.EntryShape | githubconnect.py:29-44 | the entry is non-empty, has no line break and strips to itself |
| Gitignore.EntryLast | githubconnect.py:35 | a text whose last line strips to the entry has the entry |
| Gitignore.StripsToSpec | githubconnect.py:35 | the line-by-line search finds the entry exactly when some line strips to it |
| Gitignore.AppendedHasEntry | githubconnect.py:35-45 | after an append the entry is present |
| Gitignore.CreatedHasEntry | githubconnect.py:26-35 | a freshly created file has the entry |
| Gitignore.GitignoreFile.constructor | githubconnect.py:26 | the file's presence and text are as given |
| Gitignore.GitignoreFile.EnsureModelsIgnored | githubconnect.py:22-45 | a missing file is created with the entry (true); a file with the entry is left alone (false); otherwise the separator and the entry are appended (true); afterwards the file exists and has the entry |
| Gitignore.EnsureTwice | githubconnect.py:22-45 | whatever the first call did, a second call changes nothing and returns false |

## Left out

- The trends and keywords upserts overwrite an existing row's count, means and rank with the batch's values. They do not merge old and new values.
- The Bluesky client (login, `search_posts` pagination, `get_profile`, `get_posts`, `resolve_handle`) is not part of this model. What it returns, or that it fails, is a parameter (`World`, `Env`, `fetch` functions).
- The database driver (psycopg2, SQLAlchemy, `pd.read_sql`, `execute_batch`) is not part of this model. Tables are maps, and the conflict rules (DO NOTHING, DO UPDATE, COALESCE) are written out. A statement that fails is an input set (`upsertFails`, `postFails`, ...).
- The read endpoints receive the database as a function from the query (the WHERE text and its parameters) to its answer. The SQL aggregation itself (`AVG`, `SUM`, `ROW_NUMBER`, `LIMIT 20`) is the database's and is not modelled. `ROUND(..., 4)` is not modelled either.
- KeywordsApi.TopKeywords: the limit of 20 rows and the ranking come from the SQL and are not stated; the contract covers the filter, the row mapping and the error path.
- KeywordsApi.TopKeywordsLegacy: same limit as TopKeywords, for the same reason.
- TrendsApi: the `/trends/stats` query reads the columns `mean_severe` and `mean_identityhate`, but the trends job writes `mean_severe_toxic` and `mean_hate`. Column lists of SELECTs are not modelled, so this mismatch is noted here only.
- The two date windows differ and are modelled as written. The keywords endpoints use `CURRENT_DATE - 7 days`. The trends endpoints use today − 6.
- The ML pipelines (`load_pipe`, the transformers models, `langdetect`) are not part of this model. Their label and score lists and the language codes are inputs.
- Floating point: scores and means are exact reals, bot weights are integer tenths, and IEEE rounding is not modelled. A missing score is `None`, not NaN.
- PostUnitaire.FillScores: scores are stored as the classifier returns them; the `round(..., 3)` applied to each stored score is not modelled.
- PostUnitaire.RoundDiv: Python's `round` is exact half-to-even here, without the binary floating-point representation error.
- PostUnitaire.AnalysisFacts: the report's displayed values are not rounded like the script's `round(score_bot, 3)`. A `posts_count` that is `None` is an escaping exception (`Raised`), and so is any failure of `get_profile` or of `fromisoformat`.
- PostUnitaire.CreatedInstant: an explicit UTC offset in the text is dropped, not applied, as `.replace(tzinfo=utc)` does. Only the fixed-width `fromisoformat` forms are read.
- CreatedAt.FromIsoFormat: only `HH:MM:SS` times (with an optional `.fff` or `.ffffff` fraction) and `±HH:MM` offsets are read. Python also accepts `HH` and `HH:MM` times and `±HH:MM:SS[.ffffff]` offsets, and from Python 3.11 on a `Z` suffix and the basic format without separators. All of those texts are rejected here.
- CreatedAt.Strptime: a field is one or two digits. The space-padded day (`" 5"`) that `%d` also accepts is rejected here.
- CreatedAt.Strptime: `_strptime` reads its fields with `\d`, which also matches non-ASCII decimal digits (Arabic-Indic or fullwidth digits, for instance); only the ASCII digits `0`-`9` are read here.
- CreatedAt.ToUtc: a naive time is shifted by one fixed machine offset, `localOffset`. Python's `astimezone` uses the offset the local zone has at that date, which daylight saving time changes; the zone database is not part of this model.
- CleaningJob.CleanRowOfShape: the INSERT of `04_POSTS_NETTOYAGE.py` writes neither status column; the model gives the row the column default, pending, which the table definition is assumed to declare. The table definitions are not part of this model.
- Text alphabet: `\w`, `\s` and `lower()` are modelled on Latin-1 plus `Œ`, `œ` and `Ÿ`. A character beyond that range is treated as neither a word nor a space character and is not lowered, so the cleaners delete it where Python would keep a non-Latin letter.
- BotScore.UpperChar: only ASCII letters are upper-cased. Every intro of the comment starts with an ASCII capital (BotScore.IntroCapital), so this does not change any comment.
- Clocks (`datetime.now()`, `CURRENT_DATE`, `time.time()`) are parameters. `random.choice` in the bot comment is a chooser function parameter.
- Extraction.ExtractionDb.Run: the endless `while` of the extraction script is bounded by the rounds it is given (`World.roundNow`, one clock reading per round). A run is that many rounds or fewer.
- Extraction: which single statements fail is an input. A failed post INSERT rolls back the account INSERT made just before it, and both tables stay as they were.
- PostsExtraction: the strict date reader is a parameter (`DateReader`) that the script instantiates with the exact `%Y-%m-%dT%H:%M:%S.%fZ` reading.
- PostsExtraction: of the exceptions the per-post `try` catches, the model has the date that fails to parse and the account statements that fail (`Env.accountFails`). Others, such as a record without an author, are not modelled.
- Accounts: in the second completion pass the `cumul_*` counters are incremented before the UPDATE runs, so a failed UPDATE still counts. This is modelled as written.
- Gitignore: the file text is the characters on disk. Text-mode newline translation is not modelled, and neither is a directory standing at the path.
- The interactive loop of the single-post script (`input`, printing), `wrap`/`textwrap` and console output (rich, tqdm, print) are not part of this model.
- `githubconnect.main` and githublocalbackup.py (git subprocess and interactive wrappers) are not part of this model.
- backend/main.py (FastAPI wiring), backend/api/post_count.py, 08_TRAITEMENT_SYNTHESE.py and 10_TEST_SQL.py keep their logic in SQL text or printing. They are not part of this model.
- The React frontend and the Backup scripts are user interface and are not part of this model.
- There is no concurrency: every script runs as a single process.

## Findings

| source | as written | input that shows it | evidently intended | confidence | as-written member | corrected member |
|---|---|---|---|---|---|---|
| backend/api/Trends/api_trends.py:107-110 | `/trends/stats` and `/trends/emotion` pass the category through `CATEGORY_MAPPING` (e.g. `family` → `relationships`), a name the trends job never writes to `categorie` | `categorie=family` on a table filled by the trends job: the filter matches no row, every average is null and is answered as 0.0 | filter on the category name itself, as backend/trends/09_API_TRENDS.py does | not executed | TrendsApi.MappedCategoryMatchesNoTrendRow | TrendsApi.DirectCategoryFindsTrendRows |
| backend/keywords/api_keywords.py:75-89 | with `category=all` the post count sums `post_occurrence` over every row of the period, the per-category rows and the `All` rollup rows alike | one `family` post today: its category row and today's `All` row each hold 1, and the answer is 2 | count each post once, by reading only the `All` rows | not executed | KeywordsApi.OnePostCountedTwice | KeywordsApi.RollupCountsOnce |

=== FILE: accounts.dfy ===
/**
 * The `compte_brut` ledger and its two completion passes. The first pass
 * fills the profile fields (avatar, verified flag, bio, banner) that are
 * still null and sets `compte_completion_01 = 'OK'`; the second fills the
 * publication count, follower count and creation date that are still null
 * and sets `compte_completion_02` to 'OK' or 'COMPTE INVALIDE'. Stored
 * values are never replaced.
 */
module Accounts {
  import opened Common

  type Did = string

  /** A `compte_brut` row; `None` is SQL NULL. */
  datatype Compte = Compte(
    handle: string,
    avatar: Option<string>,
    isVerified: Option<bool>,
    bio: Option<string>,
    banner: Option<string>,
    completion01: Option<string>,
    nbPublications: Option<int>,
    nbFollowers: Option<int>,
    dateCreation: Option<string>,
    completion02: Option<string>,
    premiereAnalyse: Option<int>)

  /** The profile attributes read from the network (`None` when absent). */
  datatype Profile = Profile(
    avatar: Option<string>,
    hasLabels: bool,
    description: Option<string>,
    banner: Option<string>,
    postsCount: Option<int>,
    followersCount: Option<int>,
    createdAt: Option<string>)

  /** The outcome of `get_profile`: a profile, or the text of the exception raised. */
  datatype Fetch = Found(profile: Profile) | Failed(message: string)

  const Ok: string := "OK"
  const Invalide: string := "COMPTE INVALIDE"

  /** `enrich_if_null(old, new)`, and SQL `COALESCE(old, new)`: the stored value unless it is null. */
  function EnrichIfNull<T>(stored: Option<T>, fetched: Option<T>): (r: Option<T>)
    ensures stored.Some? ==> r == stored
    ensures stored.None? ==> r == fetched
  {
    if stored.None? then fetched else stored
  }

  /** Filling twice with the same candidate fills once. */
  lemma EnrichIfNullTwice<T>(stored: Option<T>, fetched: Option<T>)
    ensures EnrichIfNull(stored, EnrichIfNull(stored, fetched)) == EnrichIfNull(stored, fetched)
    ensures EnrichIfNull(stored, fetched).None? <==> stored.None? && fetched.None?
  {
  }

  /** A new row as inserted by the extraction jobs: DID, handle and first-analysis instant only. */
  function NewCompte(handle: string, premiereAnalyse: Option<int>): Compte {
    Compte(handle, None, None, None, None, None, None, None, None, None, premiereAnalyse)
  }

  /**
   * The row after `INSERT (did, handle) ... ON CONFLICT DO NOTHING` followed by
   * `UPDATE ... SET date_premiere_analyse = at WHERE ... IS NULL`.
   */
  function RegisteredRow(existing: Option<Compte>, handle: string, at: int): Compte {
    var c := if existing.None? then NewCompte(handle, None) else existing.value;
    c.(premiereAnalyse := EnrichIfNull(c.premiereAnalyse, Some(at)))
  }

  /** `b` is `a` with at most its first-analysis date filled in. */
  predicate OnlyDated(a: Compte, b: Compte) {
    b == a.(premiereAnalyse := b.premiereAnalyse)
    && (a.premiereAnalyse.Some? ==> b.premiereAnalyse == a.premiereAnalyse)
  }

  /**
   * Registering creates a dated row for a new account; for a known account
   * it only fills a missing first-analysis date; registering again changes
   * nothing.
   */
  lemma RegisteredRowFacts(existing: Option<Compte>, handle: string, at: int, at2: int)
    ensures existing.None? ==> RegisteredRow(existing, handle, at) == NewCompte(handle, Some(at))
    ensures existing.Some? ==> OnlyDated(existing.value, RegisteredRow(existing, handle, at))
    ensures RegisteredRow(existing, handle, at).premiereAnalyse.Some?
    ensures existing.Some? && existing.value.premiereAnalyse.None? ==>
      RegisteredRow(existing, handle, at).premiereAnalyse == Some(at)
    ensures var r := RegisteredRow(existing, handle, at); RegisteredRow(Some(r), handle, at2) == r
  {
  }

  lemma OnlyDatedTrans(a: Compte, b: Compte, c: Compte)
    requires OnlyDated(a, b) && OnlyDated(b, c)
    ensures OnlyDated(a, c)
  {
  }

  // ---------------------------------------------------------------------
  // First pass: profile fields
  // ---------------------------------------------------------------------

  /** Not yet marked OK by the first pass (`IS DISTINCT FROM 'OK'`, NULL included). */
  predicate Incomplete01(c: Compte) {
    c.completion01 != Some(Ok)
  }

  /** One of the four profile columns is still null. */
  predicate MissingProfileField(c: Compte) {
    c.avatar.None? || c.isVerified.None? || c.bio.None? || c.banner.None?
  }

  /** The `new_data` dict: the row's handle and each profile field filled from the profile if null. */
  datatype NewData = NewData(handle: string, avatar: Option<string>, isVerified: Option<bool>,
                             bio: Option<string>, banner: Option<string>)

  function NewDataOf(c: Compte, p: Profile): NewData {
    NewData(c.handle,
            EnrichIfNull(c.avatar, p.avatar),
            EnrichIfNull(c.isVerified, Some(p.hasLabels)),
            EnrichIfNull(c.bio, p.description),
            EnrichIfNull(c.banner, p.banner))
  }

  /** The INSERT ... ON CONFLICT (compte_did) DO UPDATE of the first pass. */
  function UpsertProfile(existing: Option<Compte>, nd: NewData): Compte {
    match existing
    case None =>
      Compte(nd.handle, nd.avatar, nd.isVerified, nd.bio, nd.banner, Some(Ok), None, None, None, None, None)
    case Some(c) =>
      c.(handle := nd.handle,
         avatar := EnrichIfNull(c.avatar, nd.avatar),
         isVerified := EnrichIfNull(c.isVerified, nd.isVerified),
         bio := EnrichIfNull(c.bio, nd.bio),
         banner := EnrichIfNull(c.banner, nd.banner),
         completion01 := Some(Ok))
  }

  /** The errors after which the account is marked OK anyway, so that it is not retried forever. */
  predicate GoneOrSuspended(message: string) {
    Contains(message, "Profile not found") || Contains(message, "Account has been suspended")
  }

  /** The first pass on one row: `upsertFails` / `markFails` say whether that statement raises. */
  function EnrichRow(c: Compte, f: Fetch, upsertFails: bool, markFails: bool): Compte {
    match f
    case Found(p) => if upsertFails then c else UpsertProfile(Some(c), NewDataOf(c, p))
    case Failed(msg) => if GoneOrSuspended(msg) && !markFails then c.(completion01 := Some(Ok)) else c
  }

  /** The first pass only fills nulls: a stored profile field is kept, a null one takes the fetched
    * value when the upsert goes through; the handle and the second-pass columns never change;
    * the row becomes OK exactly on a stored upsert or on a marked gone/suspended account. */
  lemma EnrichRowFillsNullsOnly(c: Compte, f: Fetch, upsertFails: bool, markFails: bool)
    ensures var r := EnrichRow(c, f, upsertFails, markFails);
      var stored := f.Found? && !upsertFails;
      && r.handle == c.handle
      && r.avatar == (if stored then EnrichIfNull(c.avatar, f.profile.avatar) else c.avatar)
      && r.isVerified == (if stored then EnrichIfNull(c.isVerified, Some(f.profile.hasLabels)) else c.isVerified)
      && r.bio == (if stored then EnrichIfNull(c.bio, f.profile.description) else c.bio)
      && r.banner == (if stored then EnrichIfNull(c.banner, f.profile.banner) else c.banner)
      && (c.avatar.Some? ==> r.avatar == c.avatar)
      && (c.isVerified.Some? ==> r.isVerified == c.isVerified)
      && (c.bio.Some? ==> r.bio == c.bio)
      && (c.banner.Some? ==> r.banner == c.banner)
      && r.nbPublications == c.nbPublications && r.nbFollowers == c.nbFollowers
      && r.dateCreation == c.dateCreation && r.completion02 == c.completion02
      && r.premiereAnalyse == c.premiereAnalyse
      && (r.completion01 == Some(Ok) <==>
          stored || (f.Failed? && GoneOrSuspended(f.message) && !markFails) || c.completion01 == Some(Ok))
      && (r.completion01 == c.completion01 || r.completion01 == Some(Ok))
  {
  }

  // ---------------------------------------------------------------------
  // Second pass: metadata
  // ---------------------------------------------------------------------

  /** A value bound in the second pass's UPDATE. */
  datatype FieldValue = IntValue(n: int) | TextValue(s: string)

  /** The `update_fields` dict, in insertion order: each metadata column that is null and
    * was fetched, then the status column. */
  function UpdateFields(c: Compte, p: Profile): seq<(string, FieldValue)> {
    (if c.nbPublications.None? && p.postsCount.Some?
     then [("compte_nombre_publication", IntValue(p.postsCount.value))] else [])
    + (if c.nbFollowers.None? && p.followersCount.Some?
       then [("compte_brut_nombre_followers", IntValue(p.followersCount.value))] else [])
    + (if c.dateCreation.None? && p.createdAt.Some?
       then [("compte_brut_date_creation", TextValue(p.createdAt.value))] else [])
    + [("compte_completion_02", TextValue(Ok))]
  }

  function Keys(fields: seq<(string, FieldValue)>): seq<string> {
    seq(|fields|, i requires 0 <= i < |fields| => fields[i].0)
  }

  /** `", ".join(f"{k} = %s" for k in update_fields)`. */
  function SetClause(fields: seq<(string, FieldValue)>): string {
    Join(seq(|fields|, i requires 0 <= i < |fields| => fields[i].0 + " = %s"), ", ")
  }

  /** `list(update_fields.values()) + [did]`. */
  function UpdateParams(fields: seq<(string, FieldValue)>, did: Did): seq<FieldValue> {
    seq(|fields|, i requires 0 <= i < |fields| => fields[i].1) + [TextValue(did)]
  }

  /** The UPDATE's effect on the row: each assignment of the SET clause. */
  function ApplySet(c: Compte, fields: seq<(string, FieldValue)>): Compte
    decreases |fields|
  {
    if fields == [] then c
    else
      var (k, v) := fields[0];
      var c' :=
        if k == "compte_nombre_publication" && v.IntValue? then c.(nbPublications := Some(v.n))
        else if k == "compte_brut_nombre_followers" && v.IntValue? then c.(nbFollowers := Some(v.n))
        else if k == "compte_brut_date_creation" && v.TextValue? then c.(dateCreation := Some(v.s))
        else if k == "compte_completion_02" && v.TextValue? then c.(completion02 := Some(v.s))
        else c;
      ApplySet(c', fields[1..])
  }

  /** The statement names each column once, the status column last, and binds one value per
    * column followed by the DID. */
  lemma UpdateStatementShape(c: Compte, p: Profile, did: Did)
    ensures var fields := UpdateFields(c, p);
      && 1 <= |fields| <= 4
      && NoDup(Keys(fields))
      && fields[|fields| - 1] == ("compte_completion_02", TextValue(Ok))
      && |UpdateParams(fields, did)| == |fields| + 1
      && UpdateParams(fields, did)[|fields|] == TextValue(did)
      && forall i :: 0 <= i < |fields| ==> UpdateParams(fields, did)[i] == fields[i].1
  {
  }

  /** Applying the built SET clause fills exactly the null metadata columns that were fetched
    * and marks the row OK. */
  lemma UpdateFillsNullsOnly(c: Compte, p: Profile)
    ensures ApplySet(c, UpdateFields(c, p)) ==
      c.(nbPublications := EnrichIfNull(c.nbPublications, p.postsCount),
         nbFollowers := EnrichIfNull(c.nbFollowers, p.followersCount),
         dateCreation := EnrichIfNull(c.dateCreation, p.createdAt),
         completion02 := Some(Ok))
  {
    var a := if c.nbPublications.None? && p.postsCount.Some?
      then [("compte_nombre_publication", IntValue(p.postsCount.value))] else [];
    var b := if c.nbFollowers.None? && p.followersCount.Some?
      then [("compte_brut_nombre_followers", IntValue(p.followersCount.value))] else [];
    var d := if c.dateCreation.None? && p.createdAt.Some?
      then [("compte_brut_date_creation", TextValue(p.createdAt.value))] else [];
    var e := [("compte_completion_02", TextValue(Ok))];
    assert UpdateFields(c, p) == a + (b + (d + e));
    ApplySetAppend(c, a, b + (d + e));
    var c1 := ApplySet(c, a);
    assert c1 == c.(nbPublications := EnrichIfNull(c.nbPublications, p.postsCount)) by {
      if a != [] { SetPublications(c, p.postsCount.value); }
    }
    ApplySetAppend(c1, b, d + e);
    var c2 := ApplySet(c1, b);
    assert c2 == c1.(nbFollowers := EnrichIfNull(c.nbFollowers, p.followersCount)) by {
      if b != [] { SetFollowers(c1, p.followersCount.value); }
    }
    ApplySetAppend(c2, d, e);
    var c3 := ApplySet(c2, d);
    assert c3 == c2.(dateCreation := EnrichIfNull(c.dateCreation, p.createdAt)) by {
      if d != [] { SetCreation(c2, p.createdAt.value); }
    }
    SetStatus(c3, Ok);
  }

  lemma SetPublications(c: Compte, n: int)
    ensures ApplySet(c, [("compte_nombre_publication", IntValue(n))]) == c.(nbPublications := Some(n))
  {
  }

  lemma SetFollowers(c: Compte, n: int)
    ensures ApplySet(c, [("compte_brut_nombre_followers", IntValue(n))]) == c.(nbFollowers := Some(n))
  {
  }

  lemma SetCreation(c: Compte, s: string)
    ensures ApplySet(c, [("compte_brut_date_creation", TextValue(s))]) == c.(dateCreation := Some(s))
  {
  }

  lemma SetStatus(c: Compte, s: string)
    ensures ApplySet(c, [("compte_completion_02", TextValue(s))]) == c.(completion02 := Some(s))
  {
  }

  lemma {:induction false} ApplySetAppend(c: Compte, xs: seq<(string, FieldValue)>, ys: seq<(string, FieldValue)>)
    ensures ApplySet(c, xs + ys) == ApplySet(ApplySet(c, xs), ys)
    decreases |xs|
  {
    if xs != [] {
      assert (xs + ys)[0] == xs[0];
      assert (xs + ys)[1..] == xs[1..] + ys;
      var (k, v) := xs[0];
      var c' :=
        if k == "compte_nombre_publication" && v.IntValue? then c.(nbPublications := Some(v.n))
        else if k == "compte_brut_nombre_followers" && v.IntValue? then c.(nbFollowers := Some(v.n))
        else if k == "compte_brut_date_creation" && v.TextValue? then c.(dateCreation := Some(v.s))
        else if k == "compte_completion_02" && v.TextValue? then c.(completion02 := Some(v.s))
        else c;
      ApplySetAppend(c', xs[1..], ys);
    } else {
      assert xs + ys == ys;
    }
  }

  /** The second pass on one row: `updateFails` / `markFails` say whether that statement raises. */
  function CompleteRow(c: Compte, f: Fetch, updateFails: bool, markFails: bool): Compte {
    if f.Found? && !updateFails then ApplySet(c, UpdateFields(c, f.profile))
    else if markFails then c
    else c.(completion02 := Some(Invalide))
  }

  /** The second pass leaves the first-pass columns alone and only fills null metadata; the
    * status becomes OK on a stored update and COMPTE INVALIDE after any exception. */
  lemma CompleteRowFillsNullsOnly(c: Compte, f: Fetch, updateFails: bool, markFails: bool)
    ensures var r := CompleteRow(c, f, updateFails, markFails);
      var stored := f.Found? && !updateFails;
      && r.handle == c.handle && r.avatar == c.avatar && r.isVerified == c.isVerified
      && r.bio == c.bio && r.banner == c.banner && r.completion01 == c.completion01
      && r.premiereAnalyse == c.premiereAnalyse
      && r.nbPublications == (if stored then EnrichIfNull(c.nbPublications, f.profile.postsCount) else c.nbPublications)
      && r.nbFollowers == (if stored then EnrichIfNull(c.nbFollowers, f.profile.followersCount) else c.nbFollowers)
      && r.dateCreation == (if stored then EnrichIfNull(c.dateCreation, f.profile.createdAt) else c.dateCreation)
      && r.completion02 == (if stored then Some(Ok) else if markFails then c.completion02 else Some(Invalide))
  {
    if f.Found? && !updateFails {
      UpdateFillsNullsOnly(c, f.profile);
    }
  }

  /** What the second pass's counters add for one row: the fields put into `update_fields`
    * (counted before the UPDATE runs), and 1 for an exception. */
  datatype Counters = Counters(publications: nat, followers: nat, creation: nat, invalide: nat)

  function Flag(b: bool): nat {
    if b then 1 else 0
  }

  function RowCounters(c: Compte, f: Fetch, updateFails: bool): Counters {
    match f
    case Found(p) =>
      Counters(Flag(c.nbPublications.None? && p.postsCount.Some?),
               Flag(c.nbFollowers.None? && p.followersCount.Some?),
               Flag(c.dateCreation.None? && p.createdAt.Some?),
               Flag(updateFails))
    case Failed(_) => Counters(0, 0, 0, 1)
  }

  function Plus(a: Counters, b: Counters): Counters {
    Counters(a.publications + b.publications, a.followers + b.followers,
             a.creation + b.creation, a.invalide + b.invalide)
  }

  /** The counters after the rows `dids` (read from the table as it was before the pass). */
  function CountersOf(comptes: map<Did, Compte>, dids: seq<Did>, fetch: Did -> Fetch,
                      updateFails: set<Did>): Counters
    requires forall d :: d in dids ==> d in comptes
  {
    if dids == [] then Counters(0, 0, 0, 0)
    else
      var last := dids[|dids| - 1];
      Plus(CountersOf(comptes, dids[..|dids| - 1], fetch, updateFails),
           RowCounters(comptes[last], fetch(last), last in updateFails))
  }

  /** Each field counter counts at most one per row read. */
  lemma {:induction false} CountersBounded(comptes: map<Did, Compte>, dids: seq<Did>, fetch: Did -> Fetch,
                                           updateFails: set<Did>)
    requires forall d :: d in dids ==> d in comptes
    ensures var k := CountersOf(comptes, dids, fetch, updateFails);
      && k.publications <= |dids| && k.followers <= |dids| && k.creation <= |dids|
    decreases |dids|
  {
    if dids != [] {
      var n := |dids| - 1;
      var p := dids[..n];
      CountersBounded(comptes, p, fetch, updateFails);
      var last := dids[n];
      assert CountersOf(comptes, dids, fetch, updateFails) == Plus(CountersOf(comptes, p, fetch, updateFails),
           RowCounters(comptes[last], fetch(last), last in updateFails));
    }
  }

  lemma CountersSnoc(comptes: map<Did, Compte>, dids: seq<Did>, i: nat, fetch: Did -> Fetch, updateFails: set<Did>)
    requires i < |dids| && forall d :: d in dids ==> d in comptes
    ensures CountersOf(comptes, dids[..i + 1], fetch, updateFails)
         == Plus(CountersOf(comptes, dids[..i], fetch, updateFails),
                 RowCounters(comptes[dids[i]], fetch(dids[i]), dids[i] in updateFails))
  {
    var q := dids[..i + 1];
    assert q[..|q| - 1] == dids[..i];
    assert q[|q| - 1] == dids[i];
  }

  /** A row raised when its profile fetch or its UPDATE raised. */
  predicate Raised(d: Did, fetch: Did -> Fetch, updateFails: set<Did>) {
    fetch(d).Failed? || d in updateFails
  }

  /** The positions of `dids` whose row raised. */
  function RaisedAt(dids: seq<Did>, fetch: Did -> Fetch, updateFails: set<Did>): set<nat> {
    set i: nat | i < |dids| && Raised(dids[i], fetch, updateFails)
  }

  lemma RaisedAtSnoc(dids: seq<Did>, d: Did, fetch: Did -> Fetch, updateFails: set<Did>)
    ensures RaisedAt(dids + [d], fetch, updateFails)
         == RaisedAt(dids, fetch, updateFails) + (if Raised(d, fetch, updateFails) then {|dids|} else {})
  {
    var q := dids + [d];
    assert forall i :: 0 <= i < |dids| ==> q[i] == dids[i];
    assert q[|dids|] == d;
  }

  /** `cumul_invalide` counts exactly the rows that raised. */
  lemma {:induction false} InvalideCountsRaised(comptes: map<Did, Compte>, dids: seq<Did>, fetch: Did -> Fetch,
                                                updateFails: set<Did>)
    requires forall d :: d in dids ==> d in comptes
    ensures CountersOf(comptes, dids, fetch, updateFails).invalide == |RaisedAt(dids, fetch, updateFails)|
    decreases |dids|
  {
    if dids != [] {
      var n := |dids| - 1;
      var p := dids[..n];
      var last := dids[n];
      InvalideCountsRaised(comptes, p, fetch, updateFails);
      RowInvalide(comptes[last], fetch(last), last in updateFails);
      assert CountersOf(comptes, dids, fetch, updateFails) == Plus(CountersOf(comptes, p, fetch, updateFails),
           RowCounters(comptes[last], fetch(last), last in updateFails));
      SplitLast(dids);
      RaisedCountSnoc(p, last, fetch, updateFails);
    } else {
      RaisedAtNone(fetch, updateFails);
    }
  }

  /** No row, no raised position. */
  lemma RaisedAtNone(fetch: Did -> Fetch, updateFails: set<Did>)
    ensures RaisedAt([], fetch, updateFails) == {}
  {
    forall i: nat | i in RaisedAt([], fetch, updateFails)
      ensures i < 0
    {
    }
  }

  /** A row adds one to `cumul_invalide` exactly when it raised. */
  lemma RowInvalide(c: Compte, f: Fetch, updateFails: bool)
    ensures RowCounters(c, f, updateFails).invalide == Flag(f.Failed? || updateFails)
  {
  }

  /** One more row adds one raised position exactly when it raised. */
  lemma RaisedCountSnoc(dids: seq<Did>, d: Did, fetch: Did -> Fetch, updateFails: set<Did>)
    ensures |RaisedAt(dids + [d], fetch, updateFails)|
         == |RaisedAt(dids, fetch, updateFails)| + Flag(Raised(d, fetch, updateFails))
  {
    RaisedAtSnoc(dids, d, fetch, updateFails);
    assert |dids| !in RaisedAt(dids, fetch, updateFails);
  }

  /** `compte_brut` after step 2: every row not yet OK passes through the first pass. */
  function AfterEtape2(comptes: map<Did, Compte>, fetch: Did -> Fetch, upsertFails: set<Did>,
                       markFails: set<Did>): map<Did, Compte> {
    map d | d in comptes :: if Incomplete01(comptes[d])
                            then EnrichRow(comptes[d], fetch(d), d in upsertFails, d in markFails)
                            else comptes[d]
  }

  /** `compte_brut` after step 3: every row whose second status is null passes through the second pass. */
  function AfterEtape3(comptes: map<Did, Compte>, fetch: Did -> Fetch, updateFails: set<Did>,
                       markFails: set<Did>): map<Did, Compte> {
    map d | d in comptes :: if comptes[d].completion02.None?
                            then CompleteRow(comptes[d], fetch(d), d in updateFails, d in markFails)
                            else comptes[d]
  }

  /** A pass that rewrites exactly the selected rows, with the keys kept, yields `AfterEtape2`. */
  lemma AfterEtape2Of(m: map<Did, Compte>, n: map<Did, Compte>, sel: set<Did>, fetch: Did -> Fetch,
                      upsertFails: set<Did>, markFails: set<Did>)
    requires n.Keys == m.Keys
    requires forall d :: d in sel <==> d in m && Incomplete01(m[d])
    requires forall d :: d in n ==>
      n[d] == if d in sel then EnrichRow(m[d], fetch(d), d in upsertFails, d in markFails) else m[d]
    ensures n == AfterEtape2(m, fetch, upsertFails, markFails)
  {
  }

  /** A pass that rewrites exactly the selected rows, with the keys kept, yields `AfterEtape3`. */
  lemma AfterEtape3Of(m: map<Did, Compte>, n: map<Did, Compte>, sel: set<Did>, fetch: Did -> Fetch,
                      updateFails: set<Did>, markFails: set<Did>)
    requires n.Keys == m.Keys
    requires forall d :: d in sel <==> d in m && m[d].completion02.None?
    requires forall d :: d in n ==>
      n[d] == if d in sel then CompleteRow(m[d], fetch(d), d in updateFails, d in markFails) else m[d]
    ensures n == AfterEtape3(m, fetch, updateFails, markFails)
  {
  }

  class AccountDb {
    /** `compte_brut`, by DID. */
    var comptes: map<Did, Compte>

    constructor (comptes: map<Did, Compte>)
      ensures this.comptes == comptes
    {
      this.comptes := comptes;
    }

    /** Rows the first pass selects: not OK and, for the standalone script, a profile field missing. */
    predicate Selected01(d: Did, onlyMissing: bool)
      reads this
    {
      d in comptes && Incomplete01(comptes[d]) && (!onlyMissing || MissingProfileField(comptes[d]))
    }

    /** Rows the second pass selects: `compte_completion_02 IS NULL`. */
    predicate Selected02(d: Did)
      reads this
    {
      d in comptes && comptes[d].completion02.None?
    }

    function Selection01(onlyMissing: bool): set<Did>
      reads this
    {
      set d | d in comptes && Selected01(d, onlyMissing)
    }

    function Selection02(): set<Did>
      reads this
    {
      set d | d in comptes && Selected02(d)
    }

    /** `INSERT INTO compte_brut (did, handle, date_premiere_analyse) ... ON CONFLICT DO NOTHING`. */
    method InsertNew(did: Did, handle: string, premiereAnalyse: int)
      modifies this
      ensures comptes == if did in old(comptes) then old(comptes)
                         else old(comptes)[did := NewCompte(handle, Some(premiereAnalyse))]
    {
      if did !in comptes {
        comptes := comptes[did := NewCompte(handle, Some(premiereAnalyse))];
      }
    }

    /** The two account statements of the one-shot extraction script for one accepted post. */
    method Register(did: Did, handle: string, at: int)
      modifies this
      ensures comptes == old(comptes)[did := RegisteredRow(if did in old(comptes) then Some(old(comptes)[did]) else None,
                                                           handle, at)]
    {
      if did !in comptes {
        comptes := comptes[did := NewCompte(handle, None)];
      }
      if comptes[did].premiereAnalyse.None? {
        comptes := comptes[did := comptes[did].(premiereAnalyse := Some(at))];
      }
    }

    /** The rows of a SELECT, in some order the database chooses. */
    method ReadSelection(selection: set<Did>) returns (dids: seq<Did>)
      ensures NoDup(dids) && |dids| == |selection|
      ensures forall d :: d in dids <==> d in selection
    {
      var pending := selection;
      dids := [];
      while pending != {}
        invariant pending <= selection
        invariant NoDup(dids) && |dids| + |pending| == |selection|
        invariant forall d :: d in dids <==> d in selection && d !in pending
        decreases |pending|
      {
        var d :| d in pending;
        dids := dids + [d];
        pending := pending - {d};
      }
    }

    /**
     * `etape2_enrichissement`: the first pass over every row not yet OK.
     * Returns the number of rows selected.
     */
    method Etape2(fetch: Did -> Fetch, upsertFails: set<Did>, markFails: set<Did>) returns (count: nat)
      modifies this
      ensures count == |old(Selection01(false))|
      ensures comptes.Keys == old(comptes).Keys
      ensures forall d :: d in comptes ==>
        comptes[d] == if d in old(Selection01(false))
                      then EnrichRow(old(comptes[d]), fetch(d), d in upsertFails, d in markFails)
                      else old(comptes[d])
      ensures comptes == AfterEtape2(old(comptes), fetch, upsertFails, markFails)
    {
      ghost var before := comptes;
      ghost var sel := Selection01(false);
      var dids := ReadSelection(Selection01(false));
      count := Enrich(dids, false, fetch, upsertFails, markFails);
      AfterEtape2Of(before, comptes, sel, fetch, upsertFails, markFails);
    }

    /**
     * `etape3_complement`: the second pass over every row whose status is null.
     * Returns the number of rows selected.
     */
    method Etape3(fetch: Did -> Fetch, updateFails: set<Did>, markFails: set<Did>) returns (count: nat)
      modifies this
      ensures count == |old(Selection02())|
      ensures comptes.Keys == old(comptes).Keys
      ensures forall d :: d in comptes ==>
        comptes[d] == if d in old(Selection02())
                      then CompleteRow(old(comptes[d]), fetch(d), d in updateFails, d in markFails)
                      else old(comptes[d])
      ensures comptes == AfterEtape3(old(comptes), fetch, updateFails, markFails)
    {
      ghost var before := comptes;
      ghost var sel := Selection02();
      var dids := ReadSelection(Selection02());
      var counters := Complete(dids, fetch, updateFails, markFails);
      count := |dids|;
      AfterEtape3Of(before, comptes, sel, fetch, updateFails, markFails);
    }

    /**
     * The first pass over the selected rows `dids` (in the order they were read): fetch the
     * profile, upsert the filled row, or mark a gone/suspended account OK. `onlyMissing` is the
     * standalone script's extra filter; the extraction job's step 2 runs without it. Returns
     * the number of rows read.
     */
    method Enrich(dids: seq<Did>, onlyMissing: bool, fetch: Did -> Fetch,
                  upsertFails: set<Did>, markFails: set<Did>) returns (count: nat)
      requires NoDup(dids) && forall d :: d in dids <==> Selected01(d, onlyMissing)
      requires forall d :: d in dids ==> d in comptes
      modifies this
      ensures count == |dids|
      ensures comptes.Keys == old(comptes).Keys
      ensures forall d :: d in comptes ==>
        comptes[d] == if d in dids then EnrichRow(old(comptes[d]), fetch(d), d in upsertFails, d in markFails)
                      else old(comptes[d])
    {
      var i := 0;
      while i < |dids|
        invariant 0 <= i <= |dids|
        invariant comptes.Keys == old(comptes).Keys
        invariant forall d :: d in comptes ==>
          comptes[d] == if d in dids[..i] then EnrichRow(old(comptes[d]), fetch(d), d in upsertFails, d in markFails)
                        else old(comptes[d])
      {
        var did := dids[i];
        TakeSnoc(dids, i);
        assert did !in dids[..i];
        var row := comptes[did];
        match fetch(did) {
          case Found(profile) =>
            var newData := NewDataOf(row, profile);
            if did !in upsertFails {
              comptes := comptes[did := UpsertProfile(Some(row), newData)];
            }
          case Failed(msg) =>
            if GoneOrSuspended(msg) && did !in markFails {
              comptes := comptes[did := row.(completion01 := Some(Ok))];
            }
        }
        i := i + 1;
      }
      assert dids[..i] == dids;
      count := |dids|;
    }

    /** One row of the second pass; `counters` are the running totals. */
    method CompleteOne(did: Did, counters0: Counters, fetch: Did -> Fetch, updateFails: set<Did>, markFails: set<Did>)
      returns (counters: Counters)
      requires did in comptes
      modifies this
      ensures comptes == old(comptes)[did := CompleteRow(old(comptes[did]), fetch(did), did in updateFails, did in markFails)]
      ensures counters == Plus(counters0, RowCounters(old(comptes[did]), fetch(did), did in updateFails))
    {
      counters := counters0;
      var row := comptes[did];
      match fetch(did) {
        case Found(profile) =>
          var fields := UpdateFields(row, profile);
          if row.nbPublications.None? && profile.postsCount.Some? {
            counters := counters.(publications := counters.publications + 1);
          }
          if row.nbFollowers.None? && profile.followersCount.Some? {
            counters := counters.(followers := counters.followers + 1);
          }
          if row.dateCreation.None? && profile.createdAt.Some? {
            counters := counters.(creation := counters.creation + 1);
          }
          if did !in updateFails {
            comptes := comptes[did := ApplySet(row, fields)];
          } else {
            counters := counters.(invalide := counters.invalide + 1);
            if did !in markFails {
              comptes := comptes[did := row.(completion02 := Some(Invalide))];
            }
          }
        case Failed(_) =>
          counters := counters.(invalide := counters.invalide + 1);
          if did !in markFails {
            comptes := comptes[did := row.(completion02 := Some(Invalide))];
          }
      }
    }

    /**
     * The second pass over the selected rows `dids`: build `update_fields`, run the UPDATE, or
     * mark the row COMPTE INVALIDE when the profile or the UPDATE raises. Returns the counters
     * of the standalone script.
     */
    method Complete(dids: seq<Did>, fetch: Did -> Fetch, updateFails: set<Did>, markFails: set<Did>)
      returns (counters: Counters)
      requires NoDup(dids) && forall d :: d in dids <==> Selected02(d)
      requires forall d :: d in dids ==> d in comptes
      modifies this
      ensures comptes.Keys == old(comptes).Keys
      ensures forall d :: d in comptes ==>
        comptes[d] == if d in dids then CompleteRow(old(comptes[d]), fetch(d), d in updateFails, d in markFails)
                      else old(comptes[d])
      ensures counters == CountersOf(old(comptes), dids, fetch, updateFails)
    {
      counters := Counters(0, 0, 0, 0);
      var i := 0;
      while i < |dids|
        invariant 0 <= i <= |dids|
        invariant comptes.Keys == old(comptes).Keys
        invariant forall d :: d in comptes ==>
          comptes[d] == if d in dids[..i] then CompleteRow(old(comptes[d]), fetch(d), d in updateFails, d in markFails)
                        else old(comptes[d])
        invariant counters == CountersOf(old(comptes), dids[..i], fetch, updateFails)
      {
        var did := dids[i];
        TakeSnoc(dids, i);
        assert did !in dids[..i];
        CountersSnoc(old(comptes), dids, i, fetch, updateFails);
        counters := CompleteOne(did, counters, fetch, updateFails, markFails);
        i := i + 1;
      }
      assert dids[..i] == dids;
    }
  }
}

=== FILE: analysis_job.dfy ===
/**
 * The per-post analysis job: every English cleaned post not yet present in
 * any of the six measure tables is run through the six classifiers, and one
 * row per classifier is inserted into that classifier's table.
 */
module AnalysisJob {
  import opened Common
  import opened Schema
  import opened PostAnalysis

  /** The classifiers, in the order the job runs them. */
  const ModelKeys: seq<string> := ["emotion", "categories", "veracity", "irony", "toxicity", "tone"]

  /** The measure table of each classifier; it is also the prefix of its columns. */
  function TableOf(k: string): string {
    match k
    case "emotion" => "post_clean_mesure_emotion"
    case "categories" => "post_clean_mesure_categories"
    case "veracity" => "post_clean_mesure_veracitedirecte"
    case "irony" => "post_clean_mesure_ironie"
    case "toxicity" => "post_clean_mesure_toxicite"
    case _ => "post_clean_mesure_ton"
  }

  /** The last component of the model directory, recorded in the `_modele` column. */
  function ModelName(k: string): string {
    match k
    case "emotion" => "j-hartmann_emotion-english-distilroberta-base"
    case "categories" => "cardiffnlp_tweet-topic-21-multi"
    case "veracity" => "ghanashyamvtatti_roberta-fake-news"
    case "irony" => "cardiffnlp_twitter-roberta-base-irony"
    case "toxicity" => "unitary_toxic-bert"
    case _ => "finiteautomata_bertweet-base-sentiment-analysis"
  }

  /** Only the topic classifier has its labels mapped. */
  function MappingFor(k: string): Option<map<string, string>> {
    if k == "categories" then Some(LabelMappingCategories) else None
  }

  function Same(labels: seq<string>): seq<(string, string)> {
    seq(|labels|, i requires 0 <= i < |labels| => (labels[i], labels[i]))
  }

  /** The score columns of a classifier: (column suffix, label read from the score dict). */
  function ScoreFields(k: string): seq<(string, string)> {
    match k
    case "emotion" => Same(["anger", "disgust", "fear", "joy", "neutral", "sadness", "surprise"])
    case "categories" => Same(MappedLabels)
    case "veracity" => Same(["real", "fake"])
    case "irony" => Same(["non_irony", "irony"])
    case "toxicity" => Same(["toxic", "severe_toxic", "obscene", "threat", "insult", "identity_hate"])
    case _ => [("positive", "positive"), ("neutre", "neutral"), ("negative", "negative")]
  }

  function BaseColumns(k: string): seq<string> {
    var t := TableOf(k);
    ["post_url", t + "_date_analyse", t + "_duree_analyse", t + "_modele",
     t + "_label_predominant", t + "_score_predominant"]
  }

  function ScoreColumns(k: string): seq<string> {
    var f := ScoreFields(k);
    seq(|f|, i requires 0 <= i < |f| => TableOf(k) + "_score_" + f[i].0)
  }

  function Columns(k: string): seq<string> {
    BaseColumns(k) + ScoreColumns(k)
  }

  /** The `fields` text of the INSERT; the topic classifier's score columns are joined first. */
  function FieldsText(k: string): string {
    if k == "categories" then Join(BaseColumns(k) + [Join(ScoreColumns(k), ", ")], ", ")
    else Join(Columns(k), ", ")
  }

  /** The INSERT names every column once per position, whichever way it was assembled. */
  lemma FieldsTextListsColumns(k: string)
    ensures FieldsText(k) == Join(Columns(k), ", ")
  {
    if k == "categories" {
      JoinFlatten(BaseColumns(k), ScoreColumns(k), ", ");
    }
  }

  function Repeat(n: nat, s: string): (r: seq<string>)
    ensures |r| == n && forall i :: 0 <= i < n ==> r[i] == s
  {
    if n == 0 then [] else [s] + Repeat(n - 1, s)
  }

  /** `", ".join("%s" for _ in values)`. */
  function Placeholders(n: nat): string {
    Join(Repeat(n, "%s"), ", ")
  }

  /** One `%s` per value: n percent signs, in a text of 4n-2 characters. */
  lemma {:induction false} PlaceholdersCount(n: nat)
    ensures multiset(Placeholders(n))['%'] == n
    ensures n > 0 ==> |Placeholders(n)| == 4 * n - 2
  {
    if n > 1 {
      PlaceholdersCount(n - 1);
      assert Repeat(n, "%s") == ["%s"] + Repeat(n - 1, "%s");
      JoinCons("%s", Repeat(n - 1, "%s"), ", ");
      assert Placeholders(n) == "%s" + ", " + Placeholders(n - 1);
      assert multiset(Placeholders(n)) == multiset("%s") + multiset(", ") + multiset(Placeholders(n - 1));
    } else if n == 1 {
      assert Placeholders(1) == "%s";
      assert multiset(Placeholders(1)) == multiset{'%', 's'};
    }
  }

  /** A value bound to an INSERT parameter. */
  datatype SqlValue = Text(text: string) | Timestamp(instant: int) | Real(number: real)

  /** The `values` list of a classifier's row. */
  function RowValues(k: string, u: Url, date: int, duree: real, a: Analysis): seq<SqlValue> {
    [Text(u), Timestamp(date), Real(duree), Text(ModelName(k)), Text(a.pred), Real(a.predScore)]
    + ScoreValues(ScoreFields(k), a.scores.value)
  }

  /** `scores_dict.get(label, 0.0)` for each score column. */
  function ScoreValues(f: seq<(string, string)>, value: map<string, real>): seq<SqlValue> {
    seq(|f|, i requires 0 <= i < |f| => Real(Get(value, f[i].1, 0.0)))
  }

  /** Each classifier's INSERT has as many values as columns and placeholders. */
  lemma RowMatchesColumns(k: string, u: Url, date: int, duree: real, a: Analysis)
    requires k in ModelKeys
    ensures |RowValues(k, u, date, duree, a)| == |Columns(k)| == 6 + |ScoreFields(k)|
    ensures multiset(Placeholders(|Columns(k)|))['%'] == |Columns(k)|
    ensures |Columns(k)| == match k
      case "emotion" => 13 case "categories" => 25 case "veracity" => 8
      case "irony" => 8 case "toxicity" => 12 case _ => 9
  {
    PlaceholdersCount(|Columns(k)|);
  }

  /** What a score column may hold for label l after the classifier returned m: never below 0.0,
    * 0.0 when l was not returned, at least every score returned for l, and 0.0 or one of those scores. */
  ghost predicate LabelScoreSpec(m: seq<Item>, l: string, x: real) {
    && 0.0 <= x
    && (First(m, l) == |m| ==> x == 0.0)
    && (forall j :: 0 <= j < |m| && m[j].name == l ==> m[j].score <= x)
    && (x == 0.0 || exists j :: 0 <= j < |m| && m[j].name == l && m[j].score == x)
  }

  /** The score read for one label, with the 0.0 default. */
  lemma LabelScore(m: seq<Item>, l: string)
    ensures LabelScoreSpec(m, l, Get(Fold(m).value, l, 0.0))
  {
    FoldMeetsSpec(m);
  }

  lemma ScoreValuesOfFold(f: seq<(string, string)>, m: seq<Item>)
    ensures var v := ScoreValues(f, Fold(m).value);
      forall i :: 0 <= i < |f| ==> v[i].Real? && LabelScoreSpec(m, f[i].1, v[i].number)
  {
    forall i | 0 <= i < |f| ensures LabelScoreSpec(m, f[i].1, Get(Fold(m).value, f[i].1, 0.0)) {
      LabelScore(m, f[i].1);
    }
  }

  /** Each score column of an inserted row holds its label's score as `LabelScoreSpec` describes. */
  lemma ScoreColumnsHoldLabelScores(k: string, u: Url, date: int, duree: real, items: seq<Item>)
    requires AnalysisOf(items, MappingFor(k)).Some?
    ensures var row := RowValues(k, u, date, duree, AnalysisOf(items, MappingFor(k)).value);
      var f := ScoreFields(k);
      var m := Relabel(items, MappingFor(k));
      && |row| == 6 + |f|
      && forall i :: 0 <= i < |f| ==> row[6 + i].Real? && LabelScoreSpec(m, f[i].1, row[6 + i].number)
  {
    var m := Relabel(items, MappingFor(k));
    var a := AnalysisOf(items, MappingFor(k)).value;
    PredominantIsFirstMaximum(items, MappingFor(k));
    var f := ScoreFields(k);
    ScoreValuesOfFold(f, m);
    var row := RowValues(k, u, date, duree, a);
    assert row[6..] == ScoreValues(f, Fold(m).value);
  }

  // ---------------------------------------------------------------------
  // The job
  // ---------------------------------------------------------------------

  /** The row a classifier contributes for a post, or None when nothing is inserted: empty
    * content, a classifier that raised, an empty classifier output, or an INSERT that raised. */
  function Outcome(content: string, u: Url, k: string,
                   classify: (string, string) -> Option<seq<Item>>,
                   timing: (Url, string) -> real, now: Url -> int,
                   fails: set<(Url, string)>): Option<seq<SqlValue>>
  {
    if content == "" || (u, k) in fails then None
    else
      match classify(k, content)
      case None => None
      case Some(items) =>
        match AnalysisOf(items, MappingFor(k))
        case None => None
        case Some(a) => Some(RowValues(k, u, now(u), timing(u, k), a))
  }

  /** The outcome of classifier k for each post of `post_clean`. */
  function OutcomeOf(postClean: map<Url, CleanRow>, k: string,
                     classify: (string, string) -> Option<seq<Item>>,
                     timing: (Url, string) -> real, now: Url -> int,
                     fails: set<(Url, string)>): Url -> Option<seq<SqlValue>>
  {
    u => if u in postClean then Outcome(postClean[u].contenu, u, k, classify, timing, now, fails) else None
  }

  /** The rows contributed by the posts `us`. */
  function Collect(us: seq<Url>, o: Url -> Option<seq<SqlValue>>): (r: map<Url, seq<SqlValue>>)
    ensures forall u :: u in r <==> u in us && o(u).Some?
    ensures forall u :: u in r ==> r[u] == o(u).value
  {
    map u | u in us && o(u).Some? :: o(u).value
  }

  /** A table after the post u has had outcome o. */
  function Place(table: map<Url, seq<SqlValue>>, u: Url, o: Option<seq<SqlValue>>): map<Url, seq<SqlValue>> {
    if o.Some? then table[u := o.value] else table
  }

  lemma CollectSnoc(us: seq<Url>, u: Url, o: Url -> Option<seq<SqlValue>>, table: map<Url, seq<SqlValue>>)
    ensures table + Collect(us + [u], o) == Place(table + Collect(us, o), u, o(u))
  {
  }

  lemma ModelKeysDistinct()
    ensures NoDup(ModelKeys)
  {
  }

  class AnalysisDb {
    /** `post_clean`. */
    var postClean: map<Url, CleanRow>
    /** The six measure tables, by classifier: post url to the inserted values. */
    var measures: map<string, map<Url, seq<SqlValue>>>

    constructor (postClean: map<Url, CleanRow>)
      ensures this.postClean == postClean
      ensures forall k :: k in measures <==> k in ModelKeys
      ensures forall k :: k in measures ==> measures[k] == map[]
    {
      this.postClean := postClean;
      this.measures := map k | k in ModelKeys :: map[];
    }

    ghost predicate HasTables()
      reads this
    {
      forall k :: k in measures <==> k in ModelKeys
    }

    /** An English cleaned post absent from every measure table. */
    predicate Pending(u: Url)
      reads this
    {
      u in postClean && postClean[u].langue == "en" && forall k :: k in measures ==> u !in measures[k]
    }

    /** `get_remaining_post_urls`: the English posts minus those of each measure table. */
    method RemainingUrls() returns (remaining: set<Url>)
      requires HasTables()
      ensures forall u :: u in remaining <==> Pending(u)
    {
      remaining := set u | u in postClean && postClean[u].langue == "en";
      var i := 0;
      while i < |ModelKeys|
        invariant 0 <= i <= |ModelKeys|
        invariant forall u :: u in remaining <==>
          u in postClean && postClean[u].langue == "en" && forall j :: 0 <= j < i ==> u !in measures[ModelKeys[j]]
      {
        remaining := remaining - measures[ModelKeys[i]].Keys;
        i := i + 1;
      }
    }

    /** `insert_result`: `ON CONFLICT (post_url) DO NOTHING`. */
    method InsertResult(k: string, u: Url, values: seq<SqlValue>)
      requires k in measures
      modifies this
      ensures postClean == old(postClean)
      ensures measures == if u in old(measures[k]) then old(measures) else old(measures)[k := old(measures[k])[u := values]]
    {
      if u !in measures[k] {
        measures := measures[k := measures[k][u := values]];
      }
    }

    /** One classifier on post u: analyse, build the row, insert it unless the INSERT raises. */
    method AnalyseWith(k: string, u: Url, texte: string, date: int, classify: (string, string) -> Option<seq<Item>>,
                       timing: (Url, string) -> real, now: Url -> int, fails: set<(Url, string)>)
      requires k in measures && u in postClean && texte == postClean[u].contenu && texte != "" && date == now(u)
      requires u !in measures[k]
      modifies this
      ensures postClean == old(postClean)
      ensures measures == old(measures)[k := Place(old(measures[k]), u, OutcomeOf(postClean, k, classify, timing, now, fails)(u))]
    {
      var res := classify(k, texte);
      if res.Some? {
        var a := AnalysePost(res.value, MappingFor(k));
        if a.Some? {
          var values := RowValues(k, u, date, timing(u, k), a.value);
          if (u, k) !in fails {
            InsertResult(k, u, values);
          }
        }
      }
    }

    /** One pass of the main loop with non-empty content: every classifier, in order, on post u. */
    method AnalyseOne(u: Url, texte: string, date: int, classify: (string, string) -> Option<seq<Item>>,
                      timing: (Url, string) -> real, now: Url -> int, fails: set<(Url, string)>)
      requires HasTables() && u in postClean && texte == postClean[u].contenu && texte != "" && date == now(u)
      requires forall k :: k in measures ==> u !in measures[k]
      modifies this
      ensures postClean == old(postClean) && HasTables()
      ensures forall k :: k in ModelKeys ==>
        measures[k] == Place(old(measures[k]), u, OutcomeOf(postClean, k, classify, timing, now, fails)(u))
    {
      var j := 0;
      while j < |ModelKeys|
        invariant 0 <= j <= |ModelKeys|
        invariant postClean == old(postClean) && HasTables()
        invariant forall jj :: 0 <= jj < j ==>
          measures[ModelKeys[jj]] == Place(old(measures[ModelKeys[jj]]), u, OutcomeOf(postClean, ModelKeys[jj], classify, timing, now, fails)(u))
        invariant forall jj :: j <= jj < |ModelKeys| ==> measures[ModelKeys[jj]] == old(measures[ModelKeys[jj]])
      {
        ModelKeysDistinct();
        ghost var before := measures;
        AnalyseWith(ModelKeys[j], u, texte, date, classify, timing, now, fails);
        forall jj | 0 <= jj < |ModelKeys| && jj != j ensures measures[ModelKeys[jj]] == before[ModelKeys[jj]] {
          assert ModelKeys[jj] != ModelKeys[j];
        }
        j := j + 1;
      }
    }

    /** One pass of the main loop: skip an empty content, otherwise run every classifier. */
    method ProcessUrl(u: Url, ghost done: seq<Url>, ghost base: map<string, map<Url, seq<SqlValue>>>,
                      classify: (string, string) -> Option<seq<Item>>,
                      timing: (Url, string) -> real, now: Url -> int, fails: set<(Url, string)>)
      requires HasTables() && u in postClean && u !in done
      requires forall k :: k in ModelKeys ==>
        k in base && u !in base[k] && measures[k] == base[k] + Collect(done, OutcomeOf(postClean, k, classify, timing, now, fails))
      modifies this
      ensures postClean == old(postClean) && HasTables()
      ensures forall k :: k in ModelKeys ==>
        measures[k] == base[k] + Collect(done + [u], OutcomeOf(postClean, k, classify, timing, now, fails))
    {
      var texte := postClean[u].contenu;
      if texte != "" {
        AnalyseOne(u, texte, now(u), classify, timing, now, fails);
      }
      forall k | k in ModelKeys
        ensures measures[k] == base[k] + Collect(done + [u], OutcomeOf(postClean, k, classify, timing, now, fails))
      {
        CollectSnoc(done, u, OutcomeOf(postClean, k, classify, timing, now, fails), base[k]);
      }
    }

    /**
     * The main loop over `urls`, the remaining posts in any order. `classify(k, text)` is
     * classifier k's output (None when it raises), `timing` the measured durations, `now(u)`
     * the instant post u is taken up, and `fails` the inserts that raise.
     */
    method Run(urls: seq<Url>, classify: (string, string) -> Option<seq<Item>>,
               timing: (Url, string) -> real, now: Url -> int, fails: set<(Url, string)>)
      requires HasTables()
      requires NoDup(urls) && forall u :: u in urls <==> Pending(u)
      modifies this
      ensures postClean == old(postClean)
      ensures HasTables()
      ensures forall k :: k in ModelKeys ==>
        measures[k] == old(measures[k]) + Collect(urls, OutcomeOf(old(postClean), k, classify, timing, now, fails))
    {
      var i := 0;
      while i < |urls|
        invariant 0 <= i <= |urls|
        invariant postClean == old(postClean) && HasTables()
        invariant forall k :: k in ModelKeys ==>
          measures[k] == old(measures[k]) + Collect(urls[..i], OutcomeOf(postClean, k, classify, timing, now, fails))
      {
        var u := urls[i];
        TakeSnoc(urls, i);
        assert old(Pending(u));
        assert u !in urls[..i];
        ProcessUrl(u, urls[..i], old(measures), classify, timing, now, fails);
        i := i + 1;
      }
      assert urls[..i] == urls;
    }
  }
}

=== FILE: bot_score.dfy ===
/**
 * Bot-likelihood scoring of accounts. Six motifs, each with a weight in
 * tenths; the score is the sum of the weights of the motifs found; the
 * label is "Probable bot" from 0.6, "Suspicion" from 0.4 and "Probable
 * humain" below; the comment lists the motifs in French. The account
 * job replaces `compte_mesure_bot` by one measure per account read.
 */
module BotScore {
  import opened Common
  import opened Accounts

  // ---------------------------------------------------------------------
  // Motifs, weights, score and label (shared with the single-post analysis)
  // ---------------------------------------------------------------------

  /** The motifs, declared in the order in which they are detected. */
  datatype Motif = BioVide | AucunSite | FreqElevee | PeuFollowers | DiffNomHandle | NonVerifie

  /** Position of a motif in the detection order. */
  function Rank(m: Motif): (r: nat)
    ensures r < 6
  {
    match m
    case BioVide => 0
    case AucunSite => 1
    case FreqElevee => 2
    case PeuFollowers => 3
    case DiffNomHandle => 4
    case NonVerifie => 5
  }

  function MotifAt(r: nat): (m: Motif)
    requires r < 6
    ensures Rank(m) == r
  {
    if r == 0 then BioVide
    else if r == 1 then AucunSite
    else if r == 2 then FreqElevee
    else if r == 3 then PeuFollowers
    else if r == 4 then DiffNomHandle
    else NonVerifie
  }

  /** The key of the motif in the weight and text tables. */
  function MotifName(m: Motif): string {
    match m
    case BioVide => "bio vide"
    case AucunSite => "aucun site"
    case FreqElevee => "fréq élevée"
    case PeuFollowers => "peu followers"
    case DiffNomHandle => "diff nom/handle"
    case NonVerifie => "non vérifié"
  }

  /** `POND`, in tenths: 0.2 for four motifs, 0.1 for the missing site and the missing badge. */
  function Weight(m: Motif): (w: nat)
    ensures 1 <= w <= 2
  {
    match m
    case AucunSite => 1
    case NonVerifie => 1
    case _ => 2
  }

  /** The motifs come out in detection order, hence each at most once. */
  predicate Ordered(ms: seq<Motif>) {
    forall i, j :: 0 <= i < j < |ms| ==> Rank(ms[i]) < Rank(ms[j])
  }

  /** `sum(POND[m] for m in motifs)`, in tenths. */
  function Score(ms: seq<Motif>): (s: nat)
    ensures |ms| <= s <= 2 * |ms|
  {
    if ms == [] then 0 else Weight(ms[0]) + Score(ms[1..])
  }

  /** The total weight of the motifs of rank `r` and above. */
  function WeightFrom(r: nat): nat
    decreases 6 - r
  {
    if r >= 6 then 0 else Weight(MotifAt(r)) + WeightFrom(r + 1)
  }

  lemma {:induction false} WeightFromDecreasing(r: nat, k: nat)
    requires r <= k
    ensures WeightFrom(k) <= WeightFrom(r)
    decreases k - r
  {
    if r < k {
      WeightFromDecreasing(r + 1, k);
    }
  }

  lemma {:induction false} ScoreOrderedFrom(ms: seq<Motif>, r: nat)
    requires Ordered(ms) && forall i :: 0 <= i < |ms| ==> Rank(ms[i]) >= r
    ensures Score(ms) <= WeightFrom(r)
    decreases |ms|
  {
    if ms != [] {
      var k := Rank(ms[0]);
      assert forall i :: 0 <= i < |ms[1..]| ==> Rank(ms[1..][i]) >= k + 1 by {
        forall i | 0 <= i < |ms[1..]|
          ensures Rank(ms[1..][i]) >= k + 1
        {
          assert ms[1..][i] == ms[i + 1];
        }
      }
      ScoreOrderedFrom(ms[1..], k + 1);
      assert MotifAt(k) == ms[0];
      WeightFromDecreasing(r, k);
    }
  }

  /** The score of motifs in detection order is a number of tenths in [0, 1.0]. */
  lemma ScoreAtMostTen(ms: seq<Motif>)
    requires Ordered(ms)
    ensures Score(ms) <= 10
  {
    ScoreOrderedFrom(ms, 0);
  }

  function When(fires: Motif -> bool, k: Motif): seq<Motif> {
    if fires(k) then [k] else []
  }

  /** The motifs of rank `from` and above whose rule fires, in detection order. */
  function DetectFrom(fires: Motif -> bool, from: nat): seq<Motif>
    decreases 6 - from
  {
    if from >= 6 then []
    else When(fires, MotifAt(from)) + DetectFrom(fires, from + 1)
  }

  lemma {:induction false} DetectFromOrdered(fires: Motif -> bool, from: nat)
    ensures var m := DetectFrom(fires, from);
      Ordered(m) && forall i :: 0 <= i < |m| ==> Rank(m[i]) >= from
    decreases 6 - from
  {
    if from < 6 {
      DetectFromOrdered(fires, from + 1);
      var rest := DetectFrom(fires, from + 1);
      var head := When(fires, MotifAt(from));
      var m := head + rest;
      assert m == DetectFrom(fires, from);
      forall i | 0 <= i < |m|
        ensures Rank(m[i]) >= from
        ensures i >= |head| ==> m[i] == rest[i - |head|] && Rank(m[i]) > from
      {
      }
      forall i, j | 0 <= i < j < |m|
        ensures Rank(m[i]) < Rank(m[j])
      {
        if i >= |head| {
          assert m[i] == rest[i - |head|] && m[j] == rest[j - |head|];
        }
      }
    }
  }

  lemma {:induction false} DetectFromMembers(fires: Motif -> bool, from: nat)
    ensures forall k :: k in DetectFrom(fires, from) <==> fires(k) && Rank(k) >= from
    decreases 6 - from
  {
    if from < 6 {
      DetectFromMembers(fires, from + 1);
      forall k
        ensures k in DetectFrom(fires, from) <==> fires(k) && Rank(k) >= from
      {
        assert k in DetectFrom(fires, from) <==> k in When(fires, MotifAt(from)) || k in DetectFrom(fires, from + 1);
        assert Rank(k) >= from <==> k == MotifAt(from) || Rank(k) >= from + 1;
      }
    }
  }

  /** Both scripts test the six rules in turn and append the motif of each rule that fires. */
  function Detect(fires: Motif -> bool): seq<Motif> {
    DetectFrom(fires, 0)
  }

  /** The motifs detected are exactly those whose rule fires, each once, in detection order. */
  lemma DetectSpec(fires: Motif -> bool)
    ensures Ordered(Detect(fires))
    ensures forall k :: k in Detect(fires) <==> fires(k)
  {
    DetectFromOrdered(fires, 0);
    DetectFromMembers(fires, 0);
  }

  datatype Label = ProbableBot | Suspicion | ProbableHumain

  function LabelText(l: Label): string {
    match l
    case ProbableBot => "Probable bot"
    case Suspicion => "Suspicion"
    case ProbableHumain => "Probable humain"
  }

  /** The label of a score in tenths: thresholds 0.6 and 0.4. */
  function LabelOf(score: nat): (l: Label)
    ensures l == ProbableBot <==> score >= 6
    ensures l == Suspicion <==> 4 <= score < 6
    ensures l == ProbableHumain <==> score < 4
  {
    if score >= 6 then ProbableBot else if score >= 4 then Suspicion else ProbableHumain
  }

  /** A label other than "Probable humain" needs at least two motifs, so the motif list is never empty. */
  lemma NonHumanHasTwoMotifs(ms: seq<Motif>)
    requires LabelOf(Score(ms)) != ProbableHumain
    ensures |ms| >= 2
  {
  }

  // ---------------------------------------------------------------------
  // French lists
  // ---------------------------------------------------------------------

  /** `liste_fr`: one item alone; otherwise the first ones joined by ", ", then " et " and the last. */
  function ListeFr(items: seq<string>): string
    requires items != []
  {
    if |items| == 1 then items[0]
    else Join(items[..|items| - 1], ", ") + " et " + items[|items| - 1]
  }

  /** The list read from the front: "a", "a et b", and "a, " before the list of the rest. */
  function ListeFrFromFront(items: seq<string>): string
    requires items != []
  {
    if |items| == 1 then items[0]
    else if |items| == 2 then items[0] + " et " + items[1]
    else items[0] + ", " + ListeFrFromFront(items[1..])
  }

  /** Both readings of the French list agree. */
  lemma {:induction false} ListeFrFront(items: seq<string>)
    requires items != []
    ensures ListeFr(items) == ListeFrFromFront(items)
    decreases |items|
  {
    if |items| == 2 {
      assert items[..1] == [items[0]];
    } else if |items| > 2 {
      var n := |items| - 1;
      var rest := items[1..];
      ListeFrFront(rest);
      assert items[..n] == [items[0]] + rest[..n - 1];
      JoinCons(items[0], rest[..n - 1], ", ");
      assert rest[|rest| - 1] == items[n];
    }
  }

  /** Upper-casing the first character of a phrase (ASCII letters). */
  function UpperChar(c: char): (r: char)
    ensures IsAsciiLower(c) ==> IsAsciiUpper(r)
    ensures !IsAsciiLower(c) ==> r == c
  {
    if IsAsciiLower(c) then (c as int - 32) as char else c
  }

  function Capitalize(s: string): string {
    if s == [] then s else [UpperChar(s[0])] + s[1..]
  }

  /** `random.choice`, with the choice passed in. */
  function Choose(options: seq<string>, k: nat): (r: string)
    requires options != []
    ensures r in options
  {
    options[k % |options|]
  }

  // ---------------------------------------------------------------------
  // The account job
  // ---------------------------------------------------------------------

  /** A timestamp as pandas holds it: without or with a time zone. */
  datatype Moment = Naive(t: int) | Aware(t: int)

  /** A cell of `compte_brut_is_verified` as read: NULL, a boolean, a number or a text. */
  datatype Cell = Null | BoolCell(b: bool) | IntCell(n: int) | TextCell(s: string)

  /** The columns of a `compte_brut` row the detection reads (`None` for NULL, NaT or an absent column). */
  datatype BotInput = BotInput(
    bio: Option<string>,
    urlSite: Option<string>,
    premiereAnalyse: Option<Moment>,
    dateCreation: Option<Moment>,
    nbPublications: Option<int>,
    nbFollowers: Option<int>,
    displayName: Option<string>,
    handle: Option<string>,
    isVerified: Cell)

  /**
   * `safe_days`: whole days from `d2` to `d1` (floored, as `Timedelta.days`),
   * or `None` when a date is missing or only one of them carries a time
   * zone (pandas then raises).
   */
  function SafeDays(d1: Option<Moment>, d2: Option<Moment>): (r: Option<int>)
    ensures r.Some? <==> d1.Some? && d2.Some? && d1.value.Naive? == d2.value.Naive?
  {
    if d1.None? || d2.None? || d1.value.Naive? != d2.value.Naive? then None
    else Some((d1.value.t - d2.value.t) / 86_400_000_000)
  }

  /** The day count is floored: a partial day does not count, and a date before the other gives a negative count. */
  lemma SafeDaysFloor(d1: Option<Moment>, d2: Option<Moment>)
    requires SafeDays(d1, d2).Some?
    ensures var n := SafeDays(d1, d2).value;
      n * 86_400_000_000 <= d1.value.t - d2.value.t < n * 86_400_000_000 + 86_400_000_000
  {
  }

  /** Python truth of an optional text: present and non-empty. */
  predicate Truthy(s: Option<string>) {
    s.Some? && s.value != ""
  }

  function Abs(x: int): nat {
    if x < 0 then -x else x
  }

  /** `in [False, 'False', 'false', 0, '0', None]` (a boolean compares equal to its number). */
  predicate NotVerified(c: Cell) {
    match c
    case Null => true
    case BoolCell(b) => !b
    case IntCell(n) => n == 0
    case TextCell(s) => s == "False" || s == "false" || s == "0"
  }

  /** The rule of each motif. */
  predicate Fires(k: Motif, r: BotInput) {
    match k
    case BioVide => !Truthy(r.bio)
    case AucunSite => !Truthy(r.urlSite)
    case FreqElevee =>
      var jours := SafeDays(r.premiereAnalyse, r.dateCreation);
      jours.Some? && jours.value > 0 && r.nbPublications.Some? && r.nbPublications.value > 20 * jours.value
    case PeuFollowers => r.nbFollowers.Some? && r.nbFollowers.value < 10
    case DiffNomHandle =>
      Truthy(r.displayName) && Truthy(r.handle) && Abs(|r.displayName.value| - |r.handle.value|) > 5
    case NonVerifie => NotVerified(r.isVerified)
  }

  /** `detecter_motifs`: each rule in turn, appending its motif when it fires. */
  function Motifs(r: BotInput): seq<Motif> {
    Detect(k => Fires(k, r))
  }

  /** The motifs found are exactly those whose rule fires, each once, in detection order. */
  lemma MotifsSpec(r: BotInput)
    ensures Ordered(Motifs(r))
    ensures forall k :: k in Motifs(r) <==> Fires(k, r)
  {
    DetectSpec(k => Fires(k, r));
  }

  /**
   * What makes each motif fire: a high frequency needs both dates, of the
   * same kind, at least a day apart and more than 20 publications a day;
   * a missing date never triggers it.
   */
  lemma MotifRules(r: BotInput)
    ensures FreqElevee in Motifs(r) ==>
      r.premiereAnalyse.Some? && r.dateCreation.Some? && r.nbPublications.Some?
      && r.premiereAnalyse.value.t - r.dateCreation.value.t >= 86_400_000_000
    ensures r.premiereAnalyse.None? || r.dateCreation.None? ==> FreqElevee !in Motifs(r)
    ensures PeuFollowers in Motifs(r) <==> r.nbFollowers.Some? && r.nbFollowers.value < 10
    ensures DiffNomHandle in Motifs(r) ==> r.displayName.Some? && r.handle.Some?
    ensures NonVerifie in Motifs(r) <==>
      r.isVerified in {Null, BoolCell(false), IntCell(0), TextCell("False"), TextCell("false"), TextCell("0")}
  {
    MotifsSpec(r);
    if FreqElevee in Motifs(r) {
      SafeDaysFloor(r.premiereAnalyse, r.dateCreation);
    }
  }

  /** The fixed texts of `commentaire`. */
  function Intros(l: Label): (r: seq<string>)
    ensures |r| == 3
  {
    match l
    case ProbableBot => ["Tout porte à croire qu’il s’agit d’un bot :",
                         "Les indices suggèrent un bot probable :",
                         "Ce compte paraît fortement automatisé :"]
    case Suspicion => ["Plusieurs signaux suscitent la méfiance :",
                       // two literals: the verifier cannot index a literal of 45 characters or more
                       "Ce compte présente " + "certains éléments suspects :",
                       "La fiabilité de ce compte est incertaine :"]
    case ProbableHumain => ["Ce compte semble globalement fiable.",
                            "Les indicateurs pointent vers un compte authentique.",
                            "Aucun signe majeur de fraude : ce compte paraît humain."]
  }

  function Fragments(m: Motif): (r: seq<string>)
    ensures |r| == 2
  {
    match m
    case BioVide => ["la biographie n’est pas renseignée", "aucune description n’est fournie"]
    case AucunSite => ["aucun site personnel n’est indiqué", "pas de lien externe référencé"]
    case FreqElevee => ["la fréquence de publication est très élevée",
                        "le rythme d’activité est inhabituellement soutenu"]
    case PeuFollowers => ["le nombre de followers est très faible",
                          "l’audience du compte est presque inexistante"]
    case DiffNomHandle => ["le nom affiché diffère fortement du handle",
                           "l’écart entre nom et handle est inhabituel"]
    case NonVerifie => ["le compte n’est pas vérifié", "le badge de vérification est absent"]
  }

  /** One fragment per motif; `pick(i + 1)` is the `i`-th random choice after the intro's. */
  function Frags(ms: seq<Motif>, pick: nat -> nat): (r: seq<string>)
    ensures |r| == |ms|
    ensures forall i :: 0 <= i < |ms| ==> r[i] in Fragments(ms[i])
  {
    seq(|ms|, i requires 0 <= i < |ms| => Choose(Fragments(ms[i]), pick(i + 1)))
  }

  /** `commentaire(label, motifs)`; `pick(0)` is the intro's random choice. */
  function Commentaire(lab: Label, ms: seq<Motif>, pick: nat -> nat): string
    requires lab == ProbableHumain || ms != []
  {
    var intro := Choose(Intros(lab), pick(0));
    if lab == ProbableHumain then intro
    else Capitalize(intro + " " + ListeFr(Frags(ms, pick)) + ".")
  }

  /** Every intro of a suspicious or bot comment starts with a capital letter. */
  lemma IntroCapital(lab: Label, k: nat)
    requires lab != ProbableHumain
    ensures var intro := Choose(Intros(lab), k); intro != [] && IsAsciiUpper(intro[0])
  {
    var j := k % 3;
    assert Choose(Intros(lab), k) == Intros(lab)[j];
    if j == 0 {
      assert Intros(lab)[0][0] in "TLCPA";
    } else if j == 1 {
      assert Intros(lab)[1][0] in "TLCPA";
    } else {
      assert Intros(lab)[2][0] in "TLCPA";
    }
  }

  /**
   * A suspicious or bot comment is an intro, one fragment per motif as a
   * French list, and a final period; it starts with a capital letter, so
   * capitalising changes nothing.
   */
  lemma CommentaireShape(lab: Label, ms: seq<Motif>, pick: nat -> nat)
    requires lab != ProbableHumain && ms != []
    ensures var c := Commentaire(lab, ms, pick);
      && c == Choose(Intros(lab), pick(0)) + " " + ListeFr(Frags(ms, pick)) + "."
      && c[|c| - 1] == '.'
      && IsAsciiUpper(c[0])
  {
    var intro := Choose(Intros(lab), pick(0));
    var phrase := intro + " " + ListeFr(Frags(ms, pick)) + ".";
    IntroCapital(lab, pick(0));
    assert phrase[0] == intro[0];
    assert Capitalize(phrase) == [phrase[0]] + phrase[1..] == phrase;
  }

  /** A `compte_mesure_bot` row. */
  datatype Mesure = Mesure(score: nat, verdict: Label, commentaire: string, dateAnalyse: int)

  /** The measure of one account at instant `now`. */
  function MesureOf(r: BotInput, now: int, pick: nat -> nat): Mesure {
    var ms := Motifs(r);
    var score := Score(ms);
    var lab := LabelOf(score);
    assert lab == ProbableHumain || ms != [] by {
      if lab != ProbableHumain {
        NonHumanHasTwoMotifs(ms);
      }
    }
    Mesure(score, lab, Commentaire(lab, ms, pick), now)
  }

  /** Every measure has a score of at most 1.0 and the label its score calls for. */
  lemma MesureFacts(r: BotInput, now: int, pick: nat -> nat)
    ensures var m := MesureOf(r, now, pick);
      && m.score <= 10
      && m.verdict == LabelOf(m.score)
      && (m.verdict != ProbableHumain ==> m.commentaire[|m.commentaire| - 1] == '.')
      && m.dateAnalyse == now
  {
    var ms := Motifs(r);
    MotifsSpec(r);
    ScoreAtMostTen(ms);
    if LabelOf(Score(ms)) != ProbableHumain {
      NonHumanHasTwoMotifs(ms);
      CommentaireShape(LabelOf(Score(ms)), ms, pick);
    }
  }

  class BotDb {
    /** `compte_mesure_bot`, by DID. */
    var mesures: map<Did, Mesure>

    constructor (mesures: map<Did, Mesure>)
      ensures this.mesures == mesures
    {
      this.mesures := mesures;
    }

    /**
     * `analyser_et_inserer`: measure every account read (`rows`, keyed by
     * DID, the key of `compte_brut`), delete every old measure, then insert
     * the new ones. The clock is read once per account, while it is
     * measured: `nows(d)` is the reading taken for the account `d`.
     */
    method AnalyserEtInserer(rows: seq<(Did, BotInput)>, nows: Did -> int, picks: Did -> (nat -> nat))
      requires DistinctKeys(rows)
      modifies this
      ensures mesures.Keys == KeysOf(rows)
      ensures forall e :: e in rows ==> mesures[e.0] == MesureOf(e.1, nows(e.0), picks(e.0))
    {
      var res := MapEach(rows, MeasureFn(nows, picks));
      MapRowsDistinct(rows, MeasureFn(nows, picks));
      mesures := map[];
      var i := 0;
      while i < |res|
        invariant 0 <= i <= |res|
        invariant mesures == InsertAll(map[], res[..i])
      {
        InsertAllStep(map[], res, i);
        mesures := mesures[res[i].0 := res[i].1];
        i := i + 1;
      }
      assert res[..|res|] == res;
      MapRowsStored(rows, MeasureFn(nows, picks));
    }
  }

  /** The measure of the account `d` with row `r`, at its own clock reading, with its own random choices. */
  function MeasureFn(nows: Did -> int, picks: Did -> (nat -> nat)): (Did, BotInput) -> Mesure {
    (d: Did, r: BotInput) => MesureOf(r, nows(d), picks(d))
  }
}

=== FILE: cleaning_job.dfy ===
/**
 * The batch cleaning job: every raw post that has a content and no cleaned
 * row yet gets one, holding the cleaned text, its language and its word
 * count. The insert does nothing when the row already exists.
 */
module CleaningJob {
  import opened Common
  import opened Schema
  import opened TextCleaning

  /** The row written for a raw content, at clock reading `now`; the two statuses are the columns' default. */
  function CleanRowOf(content: string, detect: string -> string, now: int): CleanRow {
    var clean := NettoyerTexte(content);
    CleanRow(clean, detect(clean), WordCount(clean), now, Pending, Pending)
  }

  /**
   * The row holds the cleaned text, whose word count is its number of blanks
   * plus one (zero when empty), and it is pending for the trends and keywords jobs.
   */
  lemma CleanRowOfShape(content: string, detect: string -> string, now: int)
    ensures var r := CleanRowOf(content, detect, now);
      && r.contenu == NettoyerTexte(content)
      && Normalized(r.contenu)
      && r.poids == (if r.contenu == [] then 0 else multiset(r.contenu)[' '] + 1)
      && r.langue == detect(r.contenu)
      && r.trendStatus == Pending && r.keywordStatus == Pending
  {
    var t := NettoyerTexte(content);
    WordCountOfNormalized(t);
    assert CleanRowOf(content, detect, now) == CleanRow(t, detect(t), WordCount(t), now, Pending, Pending);
  }

  /**
   * The job's progress after the first `n` selected posts: the rows present
   * before are kept, each of those posts has the row computed from its
   * content, and no other row was added.
   */
  ghost predicate CleanedPrefix(brut: map<Url, Option<string>>, before: map<Url, CleanRow>, after: map<Url, CleanRow>,
                                batch: seq<Url>, n: nat, detect: string -> string, clock: seq<int>)
  {
    && n <= |batch| == |clock|
    && (forall u :: u in before ==> u in after && after[u] == before[u])
    && (forall j :: 0 <= j < n ==>
          batch[j] in brut && brut[batch[j]].Some? && batch[j] in after
          && after[batch[j]] == CleanRowOf(brut[batch[j]].value, detect, clock[j]))
    && (forall u :: u in after <==> u in before || u in batch[..n])
  }

  /** The next selected post has no row yet, and writing its row extends the progress by one. */
  lemma CleanedStep(brut: map<Url, Option<string>>, before: map<Url, CleanRow>, after: map<Url, CleanRow>,
                    batch: seq<Url>, n: nat, detect: string -> string, clock: seq<int>)
    requires CleanedPrefix(brut, before, after, batch, n, detect, clock) && n < |batch| && NoDup(batch)
    requires batch[n] in brut && brut[batch[n]].Some? && batch[n] !in before
    ensures batch[n] !in after
    ensures CleanedPrefix(brut, before, after[batch[n] := CleanRowOf(brut[batch[n]].value, detect, clock[n])],
                          batch, n + 1, detect, clock)
  {
    var u := batch[n];
    var row := CleanRowOf(brut[u].value, detect, clock[n]);
    NotInPrefix(batch, n);
    TakeSnoc(batch, n);
    PrefixExtends(brut, after, batch, n, detect, clock, row);
  }

  /** In a list without duplicates, an element does not occur before its own position. */
  lemma NotInPrefix<T>(s: seq<T>, n: nat)
    requires n < |s| && NoDup(s)
    ensures s[n] !in s[..n]
  {
    forall j | 0 <= j < n
      ensures s[..n][j] != s[n]
    {
    }
  }

  /** Writing the row of the next post keeps the rows of the earlier ones. */
  lemma PrefixExtends(brut: map<Url, Option<string>>, after: map<Url, CleanRow>, batch: seq<Url>, n: nat,
                      detect: string -> string, clock: seq<int>, row: CleanRow)
    requires n < |batch| == |clock| && batch[n] !in batch[..n]
    requires batch[n] in brut && brut[batch[n]].Some?
    requires row == CleanRowOf(brut[batch[n]].value, detect, clock[n])
    requires forall j :: 0 <= j < n ==>
          batch[j] in brut && brut[batch[j]].Some? && batch[j] in after
          && after[batch[j]] == CleanRowOf(brut[batch[j]].value, detect, clock[j])
    ensures forall j :: 0 <= j < n + 1 ==>
          batch[j] in brut && brut[batch[j]].Some? && batch[j] in after[batch[n] := row]
          && after[batch[n] := row][batch[j]] == CleanRowOf(brut[batch[j]].value, detect, clock[j])
  {
    forall j | 0 <= j < n
      ensures batch[j] != batch[n]
    {
      assert batch[..n][j] == batch[j];
    }
  }

  class CleaningDb {
    /** `post_brut`: url to content (`None` for a NULL content). */
    var postBrut: map<Url, Option<string>>
    /** `post_clean`: url to cleaned row. */
    var postClean: map<Url, CleanRow>

    constructor (brut: map<Url, Option<string>>, clean: map<Url, CleanRow>)
      ensures postBrut == brut && postClean == clean
    {
      postBrut := brut;
      postClean := clean;
    }

    /** The posts the job selects: a content and no cleaned row. */
    predicate NeedsCleaning(u: Url)
      reads this
    {
      u in postBrut && postBrut[u].Some? && u !in postClean
    }

    /**
     * One run over the selected posts, in the order the query returned them.
     * `detect` is the language detector and `clock[i]` the clock reading
     * when the i-th post is handled.
     */
    method Run(batch: seq<Url>, detect: string -> string, clock: seq<int>)
      modifies this
      requires NoDup(batch) && forall u :: u in batch <==> NeedsCleaning(u)
      requires |clock| == |batch|
      ensures postBrut == old(postBrut)
      ensures CleanedPrefix(postBrut, old(postClean), postClean, batch, |batch|, detect, clock)
      ensures forall u :: !NeedsCleaning(u)
    {
      var i := 0;
      while i < |batch|
        invariant 0 <= i <= |batch|
        invariant postBrut == old(postBrut)
        invariant CleanedPrefix(postBrut, old(postClean), postClean, batch, i, detect, clock)
      {
        var url := batch[i];
        assert old(NeedsCleaning(url));
        var brut := postBrut[url].value;
        var row := CleanRowOf(brut, detect, clock[i]);
        CleanedStep(postBrut, old(postClean), postClean, batch, i, detect, clock);
        // ON CONFLICT DO NOTHING never fires: a selected post has no cleaned row yet
        assert url !in postClean;
        postClean := postClean[url := row];
        i := i + 1;
      }
      assert batch[..i] == batch;
      forall u | u in old(postBrut) && old(postBrut)[u].Some?
        ensures u in postClean
      {
        assert u in old(postClean) || u in batch;
      }
    }
  }
}

=== FILE: common.dfy ===
/**
 * Shared vocabulary of the pipeline: optional values, the twelve retained
 * categories, the character classes the Python regular expressions use
 * (on Latin-1 plus `Œ`, `œ` and `Ÿ`), and small string helpers.
 */
module Common {

  datatype Option<T> = None | Some(value: T) {
    predicate IsFailure() {
      None?
    }

    function PropagateFailure<U>(): Option<U>
      requires None?
    {
      None
    }

    function Extract(): T
      requires Some?
    {
      value
    }
  }

  /** The twelve categories retained by the trends and keywords jobs. */
  const AllowedCategories: seq<string> := [
    "news_social_concern", "arts_entertainment", "sports_gaming", "pop_culture",
    "learning_educational", "science_technology", "business_entrepreneurship",
    "food_dining", "travel_adventure", "fashion_style", "health_fitness", "family"
  ]

  /** The synthetic rollup category written beside the per-category rows. */
  const AllCategory: string := "All"

  predicate IsAllowed(c: string) {
    c in AllowedCategories
  }

  /** `df[df[...].isin(ALLOWED_CATEGORIES)]`, with `cat` reading a row's category, order kept. */
  function KeepAllowed<T(!new)>(posts: seq<T>, cat: T -> string): (r: seq<T>)
    ensures |r| <= |posts|
    ensures forall i :: 0 <= i < |r| ==> IsAllowed(cat(r[i]))
    ensures forall p :: p in r <==> p in posts && IsAllowed(cat(p))
  {
    if posts == [] then []
    else (if IsAllowed(cat(posts[0])) then [posts[0]] else []) + KeepAllowed(posts[1..], cat)
  }

  predicate NoDup<T(==)>(s: seq<T>) {
    forall i, j :: 0 <= i < j < |s| ==> s[i] != s[j]
  }

  lemma AllowedCategoriesShape()
    ensures |AllowedCategories| == 12
    ensures NoDup(AllowedCategories)
    ensures AllCategory !in AllowedCategories
  {
  }

  /** Every whitelisted category name is longer than the query word `all`. */
  lemma AllowedAreLong(c: string)
    requires IsAllowed(c)
    ensures |c| > 3
  {
  }

  /** The query word `all` is not itself a whitelisted category. */
  lemma AllIsNotAllowed()
    ensures !IsAllowed("all")
  {
    if IsAllowed("all") {
      AllowedAreLong("all");
    }
  }

  // ---------------------------------------------------------------------
  // Character classes (Python `str` regular expressions, on Latin-1 plus `Œ`, `œ` and `Ÿ`)
  // ---------------------------------------------------------------------

  /** `\s` and `str.isspace()`: the ASCII whitespace, the separators 0x1c-0x1f, NEL and the no-break space. */
  predicate IsSpace(c: char) {
    c == ' ' || c == '\t' || c == '\n' || c == '\r' || c == '\U{000B}' || c == '\U{000C}'
    || ('\U{001C}' <= c <= '\U{001F}') || c == '\U{0085}' || c == '\U{00A0}'
  }

  predicate IsAsciiUpper(c: char) { 'A' <= c <= 'Z' }
  predicate IsAsciiLower(c: char) { 'a' <= c <= 'z' }
  predicate IsDigit(c: char) { '0' <= c <= '9' }

  /** The Latin-1 capitals `À`-`Þ` (but `×`), which `str.lower()` shifts by 32. */
  predicate IsLatinUpper(c: char) { '\U{00C0}' <= c <= '\U{00DE}' && c != '\U{00D7}' }

  /** The capitals `str.lower()` changes. */
  predicate IsUpper(c: char) { IsAsciiUpper(c) || IsLatinUpper(c) || c == 'Œ' || c == 'Ÿ' }

  /** The letters and numerals outside ASCII: `ª`, `µ`, `º`, `À`-`ÿ` but `×` and `÷`, `Œ`, `œ`, `Ÿ`, and `²`, `³`, `¹`, `¼`-`¾`. */
  predicate IsLatinWord(c: char) {
    ('\U{00C0}' <= c <= '\U{00FF}' && c != '\U{00D7}' && c != '\U{00F7}')
    || c == 'ª' || c == 'µ' || c == 'º' || c == 'Œ' || c == 'œ' || c == 'Ÿ'
    || c == '²' || c == '³' || c == '¹' || ('¼' <= c <= '¾')
  }

  /** `\w`: letters, digits, numerals and the underscore. */
  predicate IsWord(c: char) {
    IsAsciiUpper(c) || IsAsciiLower(c) || IsDigit(c) || c == '_' || IsLatinWord(c)
  }

  /** `str.lower()` on one character. */
  function LowerChar(c: char): (r: char)
    ensures !IsUpper(r)
    ensures IsWord(r) <==> IsWord(c)
    ensures IsSpace(r) <==> IsSpace(c)
    ensures !IsUpper(c) ==> r == c
    ensures IsUpper(c) ==> r != c
  {
    if IsAsciiUpper(c) || IsLatinUpper(c) then (c as int + 32) as char
    else if c == 'Œ' then 'œ'
    else if c == 'Ÿ' then 'ÿ'
    else c
  }

  /** `str.lower()`. */
  function Lower(s: string): (r: string)
    ensures |r| == |s|
    ensures forall i :: 0 <= i < |s| ==> r[i] == LowerChar(s[i])
  {
    if s == [] then [] else [LowerChar(s[0])] + Lower(s[1..])
  }

  // ---------------------------------------------------------------------
  // String helpers
  // ---------------------------------------------------------------------

  predicate StartsWith(s: string, p: string) {
    |p| <= |s| && s[..|p|] == p
  }

  /** A text that starts with `p` is `p` followed by the rest. */
  lemma StartsWithSplit(s: string, p: string)
    requires StartsWith(s, p)
    ensures s == p + s[|p|..]
  {
    assert s == s[..|p|] + s[|p|..];
  }

  predicate EndsWith(s: string, p: string) {
    |p| <= |s| && s[|s| - |p|..] == p
  }

  /** Python's `sub in s`. */
  predicate Contains(s: string, sub: string) {
    StartsWith(s, sub) || (s != [] && Contains(s[1..], sub))
  }

  /** `sep.join(parts)`. */
  function Join(parts: seq<string>, sep: string): string {
    if |parts| == 0 then ""
    else if |parts| == 1 then parts[0]
    else parts[0] + sep + Join(parts[1..], sep)
  }

  lemma JoinCons(w: string, ws: seq<string>, sep: string)
    requires ws != []
    ensures Join([w] + ws, sep) == w + sep + Join(ws, sep)
  {
    assert ([w] + ws)[1..] == ws;
  }

  /** Joining a group that was itself joined with the same separator flattens it. */
  lemma {:induction false} JoinFlatten(base: seq<string>, xs: seq<string>, sep: string)
    requires xs != []
    ensures Join(base + [Join(xs, sep)], sep) == Join(base + xs, sep)
    decreases |base|
  {
    if base == [] {
      assert base + [Join(xs, sep)] == [Join(xs, sep)];
      assert base + xs == xs;
    } else {
      var rest := base[1..];
      assert base + [Join(xs, sep)] == [base[0]] + (rest + [Join(xs, sep)]);
      assert base + xs == [base[0]] + (rest + xs);
      JoinCons(base[0], rest + [Join(xs, sep)], sep);
      JoinCons(base[0], rest + xs, sep);
      JoinFlatten(rest, xs, sep);
    }
  }

  /** A sequence is its prefix, one element and its suffix. */
  lemma Decompose<T>(t: seq<T>, n: nat)
    requires n < |t|
    ensures t == t[..n] + [t[n]] + t[n + 1..]
  {
  }

  /** Concatenation is associative. */
  lemma AppendAssoc<T>(a: seq<T>, b: seq<T>, c: seq<T>)
    ensures a + b + c == a + (b + c)
  {
  }

  /** Four pieces joined left to right are the same as joined right to left. */
  lemma Regroup4<T>(a: seq<T>, b: seq<T>, c: seq<T>, d: seq<T>)
    ensures a + b + c + d == a + (b + (c + d))
  {
  }

  /** A non-empty sequence is its front followed by its last element. */
  lemma SplitLast<T>(s: seq<T>)
    requires s != []
    ensures s == s[..|s| - 1] + [s[|s| - 1]]
  {
  }

  /** A suffix of a sequence extended by one element is the suffix extended by it. */
  lemma DropSnoc<T>(p: seq<T>, x: T, k: nat)
    requires k <= |p|
    ensures (p + [x])[k..] == p[k..] + [x]
  {
  }

  /** A prefix of a suffix is a slice. */
  lemma SliceOfSuffix<T>(s: seq<T>, a: nat, n: nat)
    requires a + n <= |s|
    ensures s[a..][..n] == s[a..a + n]
  {
  }

  /** Extending a prefix by one element. */
  lemma TakeSnoc<T>(s: seq<T>, i: nat)
    requires i < |s|
    ensures s[..i + 1] == s[..i] + [s[i]]
  {
  }

  function Concat<T>(xs: seq<seq<T>>): seq<T> {
    if xs == [] then [] else xs[0] + Concat(xs[1..])
  }

  lemma {:induction false} ConcatAppend<T>(xs: seq<seq<T>>, y: seq<T>)
    ensures Concat(xs + [y]) == Concat(xs) + y
  {
    if xs == [] {
      assert xs + [y] == [y];
    } else {
      assert (xs + [y])[1..] == xs[1..] + [y];
      ConcatAppend(xs[1..], y);
    }
  }

  /** `s.strip()` with the whitespace of `str.isspace()`. */
  function StripLeft(s: string): (r: string)
    ensures |r| <= |s|
    ensures r == s[|s| - |r|..]
    ensures forall c :: c in r ==> c in s
    ensures r != [] ==> !IsSpace(r[0])
    ensures forall i :: 0 <= i < |s| - |r| ==> IsSpace(s[i])
  {
    if s != [] && IsSpace(s[0]) then StripLeft(s[1..]) else s
  }

  function StripRight(s: string): (r: string)
    ensures |r| <= |s|
    ensures r == s[..|r|]
    ensures forall c :: c in r ==> c in s
    ensures r != [] ==> !IsSpace(r[|r| - 1])
    ensures forall i :: |r| <= i < |s| ==> IsSpace(s[i])
  {
    if s != [] && IsSpace(s[|s| - 1]) then StripRight(s[..|s| - 1]) else s
  }

  function Strip(s: string): string {
    StripRight(StripLeft(s))
  }

  /** A text with no whitespace at either end strips to itself. */
  lemma StripUnchanged(s: string)
    requires s == [] || (!IsSpace(s[0]) && !IsSpace(s[|s| - 1]))
    ensures Strip(s) == s
  {
    assert StripLeft(s) == s;
  }

  /** `s.split()`: the maximal runs of non-whitespace characters, in order. */
  function SplitWords(s: string): (r: seq<string>)
    ensures forall w :: w in r ==> w != [] && forall c :: c in w ==> !IsSpace(c)
    decreases |s|
  {
    if s == [] then []
    else if IsSpace(s[0]) then SplitWords(s[1..])
    else
      var n := WordRun(s);
      [s[..n]] + SplitWords(s[n..])
  }

  /** Length of the leading run of non-whitespace characters. */
  function WordRun(s: string): (n: nat)
    ensures n <= |s|
    ensures forall i :: 0 <= i < n ==> !IsSpace(s[i])
    ensures n < |s| ==> IsSpace(s[n])
    ensures s != [] && !IsSpace(s[0]) ==> n >= 1
  {
    if s == [] || IsSpace(s[0]) then 0 else 1 + WordRun(s[1..])
  }

  /** Number of words of a text, the `poids` column: `len(text.split())`. */
  function WordCount(s: string): nat {
    |SplitWords(s)|
  }

  // ---------------------------------------------------------------------
  // Batch inserts into a keyed table
  // ---------------------------------------------------------------------

  /** The keys of a batch of rows. */
  function KeysOf<K(==), V(==)>(batch: seq<(K, V)>): set<K> {
    set e | e in batch :: e.0
  }

  lemma KeysOfCons<K, V>(e: (K, V), batch: seq<(K, V)>)
    ensures KeysOf([e] + batch) == {e.0} + KeysOf(batch)
  {
    assert forall x :: x in [e] + batch <==> x == e || x in batch;
  }

  lemma KeysOfSnoc<K, V>(batch: seq<(K, V)>)
    requires batch != []
    ensures KeysOf(batch) == KeysOf(batch[..|batch| - 1]) + {batch[|batch| - 1].0}
  {
    var n := |batch| - 1;
    assert batch == batch[..n] + [batch[n]];
    assert forall x :: x in batch <==> x in batch[..n] || x == batch[n];
  }

  predicate DistinctKeys<K(==), V(==)>(batch: seq<(K, V)>) {
    forall i, j :: 0 <= i < j < |batch| ==> batch[i].0 != batch[j].0
  }

  /** A table after `executemany` of the batch with `ON CONFLICT DO NOTHING`: a row whose key is stored is skipped. */
  function InsertAll<K(==), V(==)>(m: map<K, V>, batch: seq<(K, V)>): map<K, V>
    decreases |batch|
  {
    if batch == [] then m
    else
      var prev := InsertAll(m, batch[..|batch| - 1]);
      var e := batch[|batch| - 1];
      if e.0 in prev then prev else prev[e.0 := e.1]
  }

  lemma DistinctCons<K, V>(e: (K, V), batch: seq<(K, V)>)
    requires DistinctKeys(batch) && e.0 !in KeysOf(batch)
    ensures DistinctKeys([e] + batch)
  {
    var b := [e] + batch;
    forall i, j | 0 <= i < j < |b|
      ensures b[i].0 != b[j].0
    {
      assert b[j] == batch[j - 1];
      if i == 0 {
        assert batch[j - 1] in batch;
      } else {
        assert b[i] == batch[i - 1];
      }
    }
  }

  /** Inserting with DO NOTHING adds exactly the batch's keys and never changes a stored row. */
  lemma {:induction false} InsertAllKeys<K, V>(m: map<K, V>, batch: seq<(K, V)>)
    ensures InsertAll(m, batch).Keys == m.Keys + KeysOf(batch)
    ensures forall u :: u in m ==> InsertAll(m, batch)[u] == m[u]
    decreases |batch|
  {
    if batch != [] {
      InsertAllKeys(m, batch[..|batch| - 1]);
      KeysOfSnoc(batch);
    }
  }

  lemma DistinctPrefix<K, V>(batch: seq<(K, V)>, n: nat)
    requires DistinctKeys(batch) && n <= |batch|
    ensures DistinctKeys(batch[..n])
  {
    var p := batch[..n];
    forall i, j | 0 <= i < j < |p|
      ensures p[i].0 != p[j].0
    {
      assert p[i] == batch[i] && p[j] == batch[j];
    }
  }

  /** The last key of a batch of distinct keys is not among the earlier ones. */
  lemma DistinctLast<K, V>(batch: seq<(K, V)>)
    requires DistinctKeys(batch) && batch != []
    ensures batch[|batch| - 1].0 !in KeysOf(batch[..|batch| - 1])
  {
    var n := |batch| - 1;
    var p := batch[..n];
    forall x | x in p
      ensures x.0 != batch[n].0
    {
      var i :| 0 <= i < |p| && p[i] == x;
      assert batch[i] == p[i];
    }
  }

  /** With distinct keys, inserting one more row of the batch stores it as given. */
  lemma InsertAllStep<K, V>(m: map<K, V>, batch: seq<(K, V)>, i: nat)
    requires DistinctKeys(batch) && i < |batch| && batch[i].0 !in m
    ensures InsertAll(m, batch[..i + 1]) == InsertAll(m, batch[..i])[batch[i].0 := batch[i].1]
  {
    DistinctPrefix(batch, i + 1);
    DistinctLast(batch[..i + 1]);
    assert batch[..i + 1][..i] == batch[..i];
    InsertAllKeys(m, batch[..i]);
  }

  /** A batch of distinct keys has as many keys as rows. */
  lemma {:induction false} DistinctCard<K, V>(batch: seq<(K, V)>)
    requires DistinctKeys(batch)
    ensures |KeysOf(batch)| == |batch|
    decreases |batch|
  {
    if batch != [] {
      var n := |batch| - 1;
      DistinctPrefix(batch, n);
      DistinctCard(batch[..n]);
      DistinctLast(batch);
      KeysOfSnoc(batch);
    }
  }

  /** With distinct keys none of which is stored, every batch row is stored as given. */
  lemma {:induction false} InsertAllRows<K, V>(m: map<K, V>, batch: seq<(K, V)>)
    requires DistinctKeys(batch) && KeysOf(batch) !! m.Keys
    ensures forall e :: e in batch ==> e.0 in InsertAll(m, batch) && InsertAll(m, batch)[e.0] == e.1
    decreases |batch|
  {
    if batch != [] {
      var n := |batch| - 1;
      var p := batch[..n];
      KeysOfSnoc(batch);
      DistinctPrefix(batch, n);
      DistinctLast(batch);
      InsertAllRows(m, p);
      InsertAllKeys(m, p);
      forall x | x in batch
        ensures x.0 in InsertAll(m, batch) && InsertAll(m, batch)[x.0] == x.1
      {
        var i :| 0 <= i < |batch| && batch[i] == x;
        if i < n {
          assert p[i] == x;
        }
      }
    }
  }

  /**
   * A batch of distinct keys none of which is stored adds exactly its rows:
   * the stored rows are untouched and the table grows by the batch length.
   */
  lemma InsertAllFresh<K, V>(m: map<K, V>, batch: seq<(K, V)>)
    requires DistinctKeys(batch) && KeysOf(batch) !! m.Keys
    ensures var r := InsertAll(m, batch);
      && r.Keys == m.Keys + KeysOf(batch)
      && |r| == |m| + |batch|
      && (forall u :: u in m ==> r[u] == m[u])
      && (forall e :: e in batch ==> r[e.0] == e.1)
  {
    InsertAllKeys(m, batch);
    InsertAllRows(m, batch);
    DistinctCard(batch);
    var r := InsertAll(m, batch);
    assert |r.Keys| == |m.Keys| + |KeysOf(batch)|;
  }

  /** Each row's key with its value replaced by `f` of the row, in order. */
  function MapRows<K, A, B>(rows: seq<(K, A)>, f: (K, A) -> B): (res: seq<(K, B)>)
    ensures |res| == |rows|
    decreases |rows|
  {
    if rows == [] then []
    else
      var e := rows[|rows| - 1];
      MapRows(rows[..|rows| - 1], f) + [(e.0, f(e.0, e.1))]
  }

  /** Each row keeps its key and gets `f` of itself, at the same position. */
  lemma {:induction false} MapRowsAt<K, A, B>(rows: seq<(K, A)>, f: (K, A) -> B)
    ensures forall j :: 0 <= j < |rows| ==> MapRows(rows, f)[j] == (rows[j].0, f(rows[j].0, rows[j].1))
    decreases |rows|
  {
    if rows != [] {
      var n := |rows| - 1;
      MapRowsAt(rows[..n], f);
      forall j | 0 <= j < n
        ensures rows[..n][j] == rows[j]
      {
      }
    }
  }

  /** A loop over the rows that appends each key with `f` of its row. */
  method MapEach<K, A, B>(rows: seq<(K, A)>, f: (K, A) -> B) returns (res: seq<(K, B)>)
    ensures res == MapRows(rows, f)
  {
    res := [];
    var i := 0;
    while i < |rows|
      invariant 0 <= i <= |rows|
      invariant res == MapRows(rows[..i], f)
    {
      assert rows[..i + 1][..i] == rows[..i];
      res := res + [(rows[i].0, f(rows[i].0, rows[i].1))];
      i := i + 1;
    }
    assert rows[..i] == rows;
  }

  lemma MapRowsDistinct<K, A, B>(rows: seq<(K, A)>, f: (K, A) -> B)
    requires DistinctKeys(rows)
    ensures DistinctKeys(MapRows(rows, f))
  {
    var res := MapRows(rows, f);
    MapRowsAt(rows, f);
    forall i, j | 0 <= i < j < |res|
      ensures res[i].0 != res[j].0
    {
      assert res[i].0 == rows[i].0 && res[j].0 == rows[j].0;
    }
  }

  lemma MapRowsKeys<K, A, B>(rows: seq<(K, A)>, f: (K, A) -> B)
    ensures KeysOf(MapRows(rows, f)) == KeysOf(rows)
  {
    var res := MapRows(rows, f);
    MapRowsAt(rows, f);
    forall u | u in KeysOf(rows)
      ensures u in KeysOf(res)
    {
      var e :| e in rows && e.0 == u;
      var j :| 0 <= j < |rows| && rows[j] == e;
      assert res[j] in res;
    }
    forall u | u in KeysOf(res)
      ensures u in KeysOf(rows)
    {
      var e :| e in res && e.0 == u;
      var j :| 0 <= j < |res| && res[j] == e;
      assert rows[j] in rows;
    }
  }

  /** Storing the mapped rows of distinct keys in an empty table stores `f` of every row under its key, and nothing else. */
  lemma MapRowsStored<K, A, B>(rows: seq<(K, A)>, f: (K, A) -> B)
    requires DistinctKeys(rows)
    ensures var m := InsertAll(map[], MapRows(rows, f));
      && m.Keys == KeysOf(rows)
      && forall e :: e in rows ==> m[e.0] == f(e.0, e.1)
  {
    var res := MapRows(rows, f);
    MapRowsDistinct(rows, f);
    MapRowsKeys(rows, f);
    InsertAllKeys(map[], res);
    InsertAllRows(map[], res);
    MapRowsAt(rows, f);
    forall e | e in rows
      ensures InsertAll(map[], res)[e.0] == f(e.0, e.1)
    {
      var j :| 0 <= j < |rows| && rows[j] == e;
      assert res[j] in res;
    }
  }
}

=== FILE: created_at.dfy ===
/**
 * `parse_created_at`: the `createdAt` strings of Bluesky records read as
 * instants, in microseconds since 1970-01-01T00:00:00Z, on the proleptic
 * Gregorian calendar of Python's `datetime` (years 1 to 9999).
 *
 * Three branches, chosen on the text alone: a string that ends in `Z` and
 * contains a dot goes through `strptime("%Y-%m-%dT%H:%M:%S.%fZ")`, a string
 * that ends in `Z` otherwise through `strptime("%Y-%m-%dT%H:%M:%SZ")`, and any
 * other string through `datetime.fromisoformat` followed by a conversion to
 * UTC. Every exception becomes `None`.
 */
module CreatedAt {
  import opened Common
  import opened Schema

  // ---------------------------------------------------------------------
  // Calendar
  // ---------------------------------------------------------------------

  predicate IsLeap(y: int) {
    y % 4 == 0 && (y % 100 != 0 || y % 400 == 0)
  }

  function DaysInMonth(y: int, m: int): int
    requires 1 <= m <= 12
  {
    if m == 2 then (if IsLeap(y) then 29 else 28)
    else if m == 4 || m == 6 || m == 9 || m == 11 then 30
    else 31
  }

  /** Days of the year before the first of month `m`. */
  function DaysBeforeMonth(y: int, m: int): int
    requires 1 <= m <= 12
  {
    [0, 31, 59, 90, 120, 151, 181, 212, 243, 273, 304, 334][m - 1]
    + (if m > 2 && IsLeap(y) then 1 else 0)
  }

  /** Days from 1970-01-01 to January 1st of year `y`. */
  function DaysBeforeYear(y: int): int
    requires y >= 1
  {
    var n := y - 1;
    365 * n + n / 4 - n / 100 + n / 400 - 719162
  }

  /** Days from 1970-01-01 to the given date (negative before the epoch). */
  function DayNumber(y: int, m: int, d: int): int
    requires y >= 1 && 1 <= m <= 12
  {
    DaysBeforeYear(y) + DaysBeforeMonth(y, m) + d - 1
  }

  /** A broken-down time, as the fields `datetime` is built from. */
  datatype Stamp = Stamp(year: int, month: int, day: int, hour: int, minute: int, second: int, micro: int)

  /** The checks of the `datetime` constructor (its `ValueError` cases). */
  predicate ValidStamp(t: Stamp) {
    && 1 <= t.year <= 9999 && 1 <= t.month <= 12 && 1 <= t.day <= DaysInMonth(t.year, t.month)
    && 0 <= t.hour < 24 && 0 <= t.minute < 60 && 0 <= t.second < 60 && 0 <= t.micro < 1000000
  }

  /** The field ranges the writers below rely on; a valid stamp is writable. */
  predicate Writable(t: Stamp) {
    && 1 <= t.year <= 9999 && 1 <= t.month <= 12 && 1 <= t.day <= 31
    && 0 <= t.hour < 24 && 0 <= t.minute < 60 && 0 <= t.second < 60 && 0 <= t.micro < 1000000
  }

  /** A valid stamp read as UTC. */
  function Instant(t: Stamp): int
    requires ValidStamp(t)
  {
    (DayNumber(t.year, t.month, t.day) * 86400 + t.hour * 3600 + t.minute * 60 + t.second) * 1_000_000
    + t.micro
  }

  /** The calendar day after a valid date. */
  function NextDay(y: int, m: int, d: int): (r: (int, int, int))
    requires 1 <= y && 1 <= m <= 12 && 1 <= d <= DaysInMonth(y, m)
    ensures 1 <= r.0 && 1 <= r.1 <= 12 && 1 <= r.2 <= DaysInMonth(r.0, r.1)
  {
    if d < DaysInMonth(y, m) then (y, m, d + 1)
    else if m < 12 then (y, m + 1, 1)
    else (y + 1, 1, 1)
  }

  lemma YearLength(y: int)
    requires y >= 1
    ensures DaysBeforeYear(y + 1) == DaysBeforeYear(y) + (if IsLeap(y) then 366 else 365)
  {
    var n := y - 1;
    assert y / 4 == n / 4 + (if y % 4 == 0 then 1 else 0);
    assert y / 100 == n / 100 + (if y % 100 == 0 then 1 else 0);
    assert y / 400 == n / 400 + (if y % 400 == 0 then 1 else 0);
  }

  /** The day numbering has no gap and no repetition: the next calendar day is the next number. */
  lemma NextDayIsNextNumber(y: int, m: int, d: int)
    requires 1 <= y && 1 <= m <= 12 && 1 <= d <= DaysInMonth(y, m)
    ensures var n := NextDay(y, m, d); DayNumber(n.0, n.1, n.2) == DayNumber(y, m, d) + 1
  {
    if d == DaysInMonth(y, m) && m == 12 {
      YearLength(y);
    }
  }

  /** The epoch is day zero. */
  lemma EpochIsDayZero()
    ensures DayNumber(1970, 1, 1) == 0
    ensures Instant(Stamp(1970, 1, 1, 0, 0, 0, 0)) == 0
  {
    assert 1969 / 4 == 492 && 1969 / 100 == 19 && 1969 / 400 == 4;
    assert DaysBeforeYear(1970) == 0;
  }

  /** The range bounds are the instants of 0001-01-01T00:00:00 and 9999-12-31T23:59:59.999999. */
  lemma RangeBounds()
    ensures Instant(Stamp(1, 1, 1, 0, 0, 0, 0)) == MinInstant
    ensures Instant(Stamp(9999, 12, 31, 23, 59, 59, 999999)) == MaxInstant
  {
    assert DaysBeforeYear(1) == -719162;
    assert 9998 / 4 == 2499 && 9998 / 100 == 99 && 9998 / 400 == 24;
    assert DaysBeforeYear(9999) == 2932532;
    assert DayNumber(9999, 12, 31) == 2932896;
  }

  /** The first and last instants a `datetime` can hold. */
  const MinInstant: int := -62135596800000000
  const MaxInstant: int := 253402300799999999

  predicate InRange(i: int) {
    MinInstant <= i <= MaxInstant
  }

  // ---------------------------------------------------------------------
  // Digits
  // ---------------------------------------------------------------------

  predicate AllDigits(s: string) {
    forall i :: 0 <= i < |s| ==> IsDigit(s[i])
  }

  function Pow10(n: nat): (r: nat)
    ensures r >= 1
  {
    if n == 0 then 1 else 10 * Pow10(n - 1)
  }

  /** The value of a decimal digit string. */
  function Digits(s: string): (r: nat)
    requires AllDigits(s)
    ensures r < Pow10(|s|)
  {
    if s == [] then 0 else 10 * Digits(s[..|s| - 1]) + (s[|s| - 1] as int - '0' as int)
  }

  /** `n` written on exactly `w` digits, zero-padded (`%0wd`). */
  function Pad(n: nat, w: nat): (r: string)
    ensures |r| == w && AllDigits(r)
    ensures n < Pow10(w) ==> Digits(r) == n
  {
    if w == 0 then []
    else
      var p := Pad(n / 10, w - 1);
      var r := p + [(n % 10 + '0' as int) as char];
      assert r[..|r| - 1] == p;
      r
  }

  /** Length of the leading run of digits. */
  function DigitRun(s: string): (n: nat)
    ensures n <= |s| && AllDigits(s[..n])
    ensures n < |s| ==> !IsDigit(s[n])
  {
    if s != [] && IsDigit(s[0]) then
      var n := 1 + DigitRun(s[1..]);
      assert s[..n] == [s[0]] + s[1..][..n - 1];
      n
    else 0
  }

  /** No digit right after a field. */
  predicate Stops(rest: string) {
    rest == [] || !IsDigit(rest[0])
  }

  lemma {:induction false} DigitRunOf(p: string, rest: string)
    requires AllDigits(p) && Stops(rest)
    ensures DigitRun(p + rest) == |p|
  {
    if p != [] {
      assert (p + rest)[1..] == p[1..] + rest;
      DigitRunOf(p[1..], rest);
    }
  }

  // ---------------------------------------------------------------------
  // Field readers: each consumes a prefix and returns the value and the rest
  // ---------------------------------------------------------------------

  function Lit(s: string, c: char): (r: Option<string>)
    ensures r.Some? ==> s == [c] + r.value
  {
    if s != [] && s[0] == c then Some(s[1..]) else None
  }

  /** A literal of the format string: `strptime` compiles its pattern with IGNORECASE. */
  function LitNoCase(s: string, c: char): (r: Option<string>)
    requires IsAsciiUpper(c)
    ensures r.Some? ==> |s| >= 1 && LowerChar(s[0]) == LowerChar(c) && r.value == s[1..]
  {
    if s != [] && LowerChar(s[0]) == LowerChar(c) then Some(s[1..]) else None
  }

  /** `%Y`: exactly four digits. */
  function Year4(s: string): (r: Option<(int, string)>)
    ensures r.Some? ==> |s| >= 4 && AllDigits(s[..4]) && r.value == (Digits(s[..4]), s[4..])
  {
    if |s| >= 4 && AllDigits(s[..4]) then Some((Digits(s[..4]), s[4..])) else None
  }

  /**
   * `%m`, `%d`, `%H`, `%M`, `%S`: one or two digits, the longer when possible,
   * whose value lies in `[lo, hi]` (the alternatives of `strptime`'s patterns
   * accept exactly these values; a third digit makes the next literal fail).
   */
  function Field(s: string, lo: int, hi: int): (r: Option<(int, string)>)
    ensures r.Some? ==> lo <= r.value.0 <= hi && 1 <= |s| - |r.value.1| <= 2
  {
    var n := if DigitRun(s) >= 2 then 2 else DigitRun(s);
    if n == 0 then None
    else
      var v := Digits(s[..n]);
      if lo <= v <= hi then Some((v, s[n..])) else None
  }

  /** `%f`: one to six digits, read as the leading digits of the microseconds. */
  function Fraction(s: string): (r: Option<(int, string)>)
    ensures r.Some? ==> 0 <= r.value.0 < 1000000
  {
    var n := if DigitRun(s) >= 6 then 6 else DigitRun(s);
    if n == 0 then None
    else
      assert Pow10(n) * Pow10(6 - n) == 1000000 by { PowAdd(n, 6 - n); }
      Some((Digits(s[..n]) * Pow10(6 - n), s[n..]))
  }

  lemma {:induction false} PowAdd(a: nat, b: nat)
    ensures Pow10(a) * Pow10(b) == Pow10(a + b)
  {
    if a > 0 {
      PowAdd(a - 1, b);
    }
  }

  /** `fromisoformat`'s fixed-width two-digit fields. */
  function Two(s: string, lo: int, hi: int): (r: Option<(int, string)>)
    ensures r.Some? ==> lo <= r.value.0 <= hi && |s| >= 2 && r.value.1 == s[2..]
  {
    if |s| >= 2 && AllDigits(s[..2]) && lo <= Digits(s[..2]) <= hi then Some((Digits(s[..2]), s[2..]))
    else None
  }

  // ---------------------------------------------------------------------
  // The strptime branches
  // ---------------------------------------------------------------------

  /** `%Y-%m-%d`, then the `T` separator. */
  function StrpDate(s: string): Option<(int, int, int, string)> {
    var y :- Year4(s);
    var s1 :- Lit(y.1, '-');
    var m :- Field(s1, 1, 12);
    var s2 :- Lit(m.1, '-');
    var d :- Field(s2, 1, 31);
    var s3 :- LitNoCase(d.1, 'T');
    Some((y.0, m.0, d.0, s3))
  }

  /** `%H:%M:%S`; `%S` accepts 60 and 61, which the `datetime` constructor then refuses. */
  function StrpTime(s: string): Option<(int, int, int, string)> {
    var h :- Field(s, 0, 23);
    var s1 :- Lit(h.1, ':');
    var mi :- Field(s1, 0, 59);
    var s2 :- Lit(mi.1, ':');
    var sec :- Field(s2, 0, 61);
    Some((h.0, mi.0, sec.0, sec.1))
  }

  /** The `datetime` constructor: the stamp when valid, the `ValueError` as `None`. */
  function Checked(t: Stamp): (r: Option<Stamp>)
    ensures r.Some? <==> ValidStamp(t)
    ensures r.Some? ==> r.value == t
  {
    if ValidStamp(t) then Some(t) else None
  }

  /**
   * `datetime.strptime(s, "%Y-%m-%dT%H:%M:%S.%fZ")` when `withFraction`, else
   * `datetime.strptime(s, "%Y-%m-%dT%H:%M:%SZ")`; the whole string must be matched.
   */
  function Strptime(s: string, withFraction: bool): (r: Option<Stamp>)
    ensures r.Some? ==> ValidStamp(r.value)
    ensures r.Some? && !withFraction ==> r.value.micro == 0
  {
    var date :- StrpDate(s);
    var time :- StrpTime(date.3);
    var frac :- if withFraction then (var s1 :- Lit(time.3, '.'); Fraction(s1)) else Some((0, time.3));
    var rest :- LitNoCase(frac.1, 'Z');
    if rest != [] then None
    else Checked(Stamp(date.0, date.1, date.2, time.0, time.1, time.2, frac.0))
  }

  // ---------------------------------------------------------------------
  // The fromisoformat branch
  // ---------------------------------------------------------------------

  /** An optional `.fff` or `.ffffff` fraction, as microseconds. */
  function IsoFraction(s: string): Option<(int, string)> {
    if s != [] && s[0] == '.' then
      var f := s[1..];
      var n := DigitRun(f);
      if n == 3 then Some((Digits(f[..3]) * 1000, f[3..]))
      else if n == 6 then Some((Digits(f[..6]), f[6..]))
      else None
    else Some((0, s))
  }

  /** An optional `+HH:MM` / `-HH:MM` offset, in minutes east of UTC; `Some(None)` when absent. */
  function IsoOffset(s: string): Option<Option<int>> {
    if s == [] then Some(None)
    else if s[0] == '+' || s[0] == '-' then
      var h :- Two(s[1..], 0, 23);
      var s1 :- Lit(h.1, ':');
      var m :- Two(s1, 0, 59);
      if m.1 != [] then None
      else
        var east := h.0 * 60 + m.0;
        Some(Some(if s[0] == '-' then -east else east))
    else None
  }

  /**
   * `datetime.fromisoformat(s)`: `YYYY-MM-DD`, or that date, any one
   * separator character, `HH:MM:SS`, an optional fraction and an optional
   * offset. Returns the stamp and the offset, `None` for a naive time.
   */
  function FromIsoFormat(s: string): (r: Option<(Stamp, Option<int>)>)
    ensures r.Some? ==> ValidStamp(r.value.0)
  {
    var date :- IsoDate(s);
    if date.3 == [] then
      var t :- Checked(Stamp(date.0, date.1, date.2, 0, 0, 0, 0));
      Some((t, None))
    else
      var time :- IsoTime(date.3[1..]);
      var frac :- IsoFraction(time.3);
      var offset :- IsoOffset(frac.1);
      var t :- Checked(Stamp(date.0, date.1, date.2, time.0, time.1, time.2, frac.0));
      Some((t, offset))
  }

  /** `YYYY-MM-DD`. */
  function IsoDate(s: string): Option<(int, int, int, string)> {
    var y :- Year4(s);
    var s1 :- Lit(y.1, '-');
    var m :- Two(s1, 1, 12);
    var s2 :- Lit(m.1, '-');
    var d :- Two(s2, 1, 31);
    Some((y.0, m.0, d.0, d.1))
  }

  /** `HH:MM:SS`. */
  function IsoTime(s: string): Option<(int, int, int, string)> {
    var h :- Two(s, 0, 23);
    var s1 :- Lit(h.1, ':');
    var mi :- Two(s1, 0, 59);
    var s2 :- Lit(mi.1, ':');
    var sec :- Two(s2, 0, 59);
    Some((h.0, mi.0, sec.0, sec.1))
  }

  /**
   * `.astimezone(timezone.utc)`: an aware time is shifted by its own offset,
   * a naive one by the machine's offset `localOffset` (minutes east of UTC);
   * a result outside the years 1 to 9999 raises `OverflowError`.
   */
  function ToUtc(t: Stamp, offset: Option<int>, localOffset: int): (r: Option<int>)
    requires ValidStamp(t)
    ensures var east := if offset.Some? then offset.value else localOffset;
      && (r.Some? <==> InRange(Instant(t) - east * 60_000_000))
      && (r.Some? ==> r.value == Instant(t) - east * 60_000_000)
  {
    var east := match offset case Some(o) => o case None => localOffset;
    var i := Instant(t) - east * 60 * 1_000_000;
    if InRange(i) then Some(i) else None
  }

  // ---------------------------------------------------------------------
  // parse_created_at
  // ---------------------------------------------------------------------

  function ParseCreatedAt(s: string, localOffset: int): (r: Option<int>)
  {
    if s == [] then None
    else if Contains(s, ".") && EndsWith(s, "Z") then
      var t :- Strptime(s, true);
      Some(Instant(t))
    else if EndsWith(s, "Z") then
      var t :- Strptime(s, false);
      Some(Instant(t))
    else
      var p :- FromIsoFormat(s);
      ToUtc(p.0, p.1, localOffset)
  }

  // ---------------------------------------------------------------------
  // Writing timestamps, and the round trips
  // ---------------------------------------------------------------------

  /** `YYYY-MM-DD` followed by `rest`. */
  function FormatDate(t: Stamp, rest: string): string
    requires Writable(t)
  {
    Pad(t.year, 4) + ("-" + (Pad(t.month, 2) + ("-" + (Pad(t.day, 2) + rest))))
  }

  /** `HH:MM:SS` followed by `rest`. */
  function FormatTime(t: Stamp, rest: string): string
    requires Writable(t)
  {
    Pad(t.hour, 2) + (":" + (Pad(t.minute, 2) + (":" + (Pad(t.second, 2) + rest))))
  }

  /** `YYYY-MM-DDTHH:MM:SSZ`. */
  function FormatSecondsZ(t: Stamp): string
    requires Writable(t)
  {
    FormatDate(t, "T" + FormatTime(t, "Z"))
  }

  /** `YYYY-MM-DDTHH:MM:SS.` + `w` fraction digits + `Z` (Bluesky writes three). */
  function FormatFractionZ(t: Stamp, v: nat, w: nat): string
    requires Writable(t)
  {
    FormatDate(t, "T" + FormatTime(t, "." + (Pad(v, w) + "Z")))
  }

  /** `±HH:MM` for an offset of `east` minutes. */
  function FormatOffset(east: int): string
    requires -1440 < east < 1440
  {
    var a := if east < 0 then -east else east;
    (if east < 0 then "-" else "+") + (Pad(a / 60, 2) + (":" + Pad(a % 60, 2)))
  }

  /** `YYYY-MM-DDTHH:MM:SS±HH:MM`. */
  function FormatWithOffset(t: Stamp, east: int): string
    requires Writable(t) && -1440 < east < 1440
  {
    FormatDate(t, "T" + FormatTime(t, FormatOffset(east)))
  }

  lemma FieldOfPad(v: nat, lo: int, hi: int, rest: string)
    requires lo <= v <= hi && v < 100 && Stops(rest)
    ensures Field(Pad(v, 2) + rest, lo, hi) == Some((v, rest))
  {
    var s := Pad(v, 2) + rest;
    DigitRunOf(Pad(v, 2), rest);
    assert s[..2] == Pad(v, 2) && s[2..] == rest;
  }

  lemma TwoOfPad(v: nat, lo: int, hi: int, rest: string)
    requires lo <= v <= hi && v < 100
    ensures Two(Pad(v, 2) + rest, lo, hi) == Some((v, rest))
  {
    var s := Pad(v, 2) + rest;
    assert s[..2] == Pad(v, 2) && s[2..] == rest;
  }

  lemma Year4OfPad(v: nat, rest: string)
    requires v < 10000
    ensures Year4(Pad(v, 4) + rest) == Some((v, rest))
  {
    var s := Pad(v, 4) + rest;
    assert s[..4] == Pad(v, 4) && s[4..] == rest;
  }

  lemma FractionOfPad(v: nat, w: nat, rest: string)
    requires 1 <= w <= 6 && v < Pow10(w) && Stops(rest)
    ensures Fraction(Pad(v, w) + rest) == Some((v * Pow10(6 - w), rest))
  {
    var s := Pad(v, w) + rest;
    DigitRunOf(Pad(v, w), rest);
    assert s[..w] == Pad(v, w) && s[w..] == rest;
  }

  lemma StrpDateOfFormat(t: Stamp, rest: string)
    requires Writable(t)
    ensures StrpDate(FormatDate(t, "T" + rest)) == Some((t.year, t.month, t.day, rest))
  {
    var s3 := Pad(t.day, 2) + ("T" + rest);
    var s2 := "-" + s3;
    var s1 := Pad(t.month, 2) + s2;
    Year4OfPad(t.year, "-" + s1);
    FieldOfPad(t.month, 1, 12, s2);
    FieldOfPad(t.day, 1, 31, "T" + rest);
  }

  lemma StrpTimeOfFormat(t: Stamp, rest: string)
    requires Writable(t) && Stops(rest)
    ensures StrpTime(FormatTime(t, rest)) == Some((t.hour, t.minute, t.second, rest))
  {
    var s2 := ":" + (Pad(t.second, 2) + rest);
    var s1 := Pad(t.minute, 2) + s2;
    FieldOfPad(t.hour, 0, 23, ":" + s1);
    LitOfCons(':', s1);
    FieldOfPad(t.minute, 0, 59, s2);
    LitOfCons(':', Pad(t.second, 2) + rest);
    FieldOfPad(t.second, 0, 61, rest);
  }

  /** `Contains(s, [c])` is membership of the character. */
  lemma {:induction false} ContainsChar(s: string, c: char)
    ensures Contains(s, [c]) <==> c in s
  {
    if s != [] {
      ContainsChar(s[1..], c);
      assert s == [s[0]] + s[1..];
    }
  }

  lemma NoDotInDigits(p: string)
    requires AllDigits(p)
    ensures '.' !in p && 'Z' !in p
  {
  }

  /** A literal followed by `rest` is matched and leaves `rest`. */
  lemma LitOfCons(c: char, rest: string)
    ensures Lit([c] + rest, c) == Some(rest)
  {
    assert ([c] + rest)[1..] == rest;
  }

  /** A lone `Z` matches the format's final `Z` and leaves nothing. */
  lemma ZuluLiteral()
    ensures LitNoCase("Z", 'Z') == Some([])
  {
    assert "Z"[1..] == [];
  }

  /** `Strptime` put together from what its date, time, fraction and `Z` steps read. */
  lemma StrptimeOfParts(s: string, withFraction: bool, date: (int, int, int, string),
                        time: (int, int, int, string), frac: (int, string))
    requires StrpDate(s) == Some(date) && StrpTime(date.3) == Some(time)
    requires withFraction ==> Lit(time.3, '.').Some? && Fraction(Lit(time.3, '.').value) == Some(frac)
    requires !withFraction ==> frac == (0, time.3)
    requires LitNoCase(frac.1, 'Z') == Some([])
    ensures Strptime(s, withFraction) == Checked(Stamp(date.0, date.1, date.2, time.0, time.1, time.2, frac.0))
  {
  }

  lemma StrptimeSecondsZ(t: Stamp)
    requires Writable(t) && t.micro == 0
    ensures Strptime(FormatSecondsZ(t), false) == Checked(t)
  {
    var time := FormatTime(t, "Z");
    StrpDateOfFormat(t, time);
    StrpTimeOfFormat(t, "Z");
    ZuluLiteral();
    StrptimeOfParts(FormatSecondsZ(t), false, (t.year, t.month, t.day, time),
                    (t.hour, t.minute, t.second, "Z"), (0, "Z"));
    assert t == Stamp(t.year, t.month, t.day, t.hour, t.minute, t.second, 0);
  }

  lemma StrptimeFractionZ(t: Stamp, v: nat, w: nat)
    requires ValidStamp(t) && 1 <= w <= 6 && v < Pow10(w)
    ensures ValidStamp(t.(micro := v * Pow10(6 - w)))
    ensures Strptime(FormatFractionZ(t, v, w), true) == Some(t.(micro := v * Pow10(6 - w)))
  {
    var m := v * Pow10(6 - w);
    ScaledFraction(v, w);
    StrptimeFractionParts(t, v, w, m);
  }

  /** `w` fraction digits worth `v` are fewer than a million microseconds. */
  lemma ScaledFraction(v: nat, w: nat)
    requires 1 <= w <= 6 && v < Pow10(w)
    ensures 0 <= v * Pow10(6 - w) < 1000000
  {
    PowAdd(w, 6 - w);
    assert Pow10(6) == 1000000;
    assert v * Pow10(6 - w) < Pow10(w) * Pow10(6 - w);
  }

  lemma StrptimeFractionParts(t: Stamp, v: nat, w: nat, m: int)
    requires ValidStamp(t) && 1 <= w <= 6 && v < Pow10(w)
    requires m == v * Pow10(6 - w) && 0 <= m < 1000000
    ensures Strptime(FormatFractionZ(t, v, w), true) == Some(t.(micro := m))
  {
    var tail := "." + (Pad(v, w) + "Z");
    var time := FormatTime(t, tail);
    StrpDateOfFormat(t, time);
    StrpTimeOfFormat(t, tail);
    LitOfCons('.', Pad(v, w) + "Z");
    FractionOfPad(v, w, "Z");
    ZuluLiteral();
    StrptimeOfParts(FormatFractionZ(t, v, w), true, (t.year, t.month, t.day, time),
                    (t.hour, t.minute, t.second, tail), (m, "Z"));
    assert t.(micro := m) == Stamp(t.year, t.month, t.day, t.hour, t.minute, t.second, m);
  }

  lemma SecondsZShape(t: Stamp)
    requires Writable(t)
    ensures !Contains(FormatSecondsZ(t), ".") && EndsWith(FormatSecondsZ(t), "Z")
  {
    var s := FormatSecondsZ(t);
    NoDotInDigits(Pad(t.year, 4));
    NoDotInDigits(Pad(t.month, 2));
    NoDotInDigits(Pad(t.day, 2));
    NoDotInDigits(Pad(t.hour, 2));
    NoDotInDigits(Pad(t.minute, 2));
    NoDotInDigits(Pad(t.second, 2));
    ContainsChar(s, '.');
    assert '.' !in s;
    assert s[|s| - 1] == 'Z';
  }

  lemma FractionZShape(t: Stamp, v: nat, w: nat)
    requires Writable(t)
    ensures Contains(FormatFractionZ(t, v, w), ".") && EndsWith(FormatFractionZ(t, v, w), "Z")
  {
    var s := FormatFractionZ(t, v, w);
    ContainsChar(s, '.');
    assert '.' in "." + (Pad(v, w) + "Z");
    assert '.' in s;
    assert s[|s| - 1] == 'Z';
  }

  /** A whole-second `Z` timestamp is read back as the instant it names. */
  lemma SecondsZRoundTrip(t: Stamp, localOffset: int)
    requires ValidStamp(t) && t.micro == 0
    ensures ParseCreatedAt(FormatSecondsZ(t), localOffset) == Some(Instant(t))
  {
    SecondsZShape(t);
    StrptimeSecondsZ(t);
  }

  /** A `Z` timestamp with `w` fraction digits is read back with those digits as the leading microseconds. */
  lemma FractionZRoundTrip(t: Stamp, v: nat, w: nat, localOffset: int)
    requires ValidStamp(t) && 1 <= w <= 6 && v < Pow10(w)
    ensures ValidStamp(t.(micro := v * Pow10(6 - w)))
    ensures ParseCreatedAt(FormatFractionZ(t, v, w), localOffset) == Some(Instant(t.(micro := v * Pow10(6 - w))))
  {
    FractionZShape(t, v, w);
    StrptimeFractionZ(t, v, w);
  }

  lemma IsoOffsetOfFormat(east: int)
    requires -1440 < east < 1440
    ensures IsoOffset(FormatOffset(east)) == Some(Some(east))
  {
    var a := if east < 0 then -east else east;
    var s := FormatOffset(east);
    var tail := ":" + Pad(a % 60, 2);
    assert s[1..] == Pad(a / 60, 2) + tail;
    TwoOfPad(a / 60, 0, 23, tail);
    TwoOfPad(a % 60, 0, 59, []);
    assert Pad(a % 60, 2) + [] == Pad(a % 60, 2);
  }

  lemma IsoDateOfFormat(t: Stamp, rest: string)
    requires Writable(t)
    ensures IsoDate(FormatDate(t, rest)) == Some((t.year, t.month, t.day, rest))
  {
    var s2 := "-" + (Pad(t.day, 2) + rest);
    var s1 := Pad(t.month, 2) + s2;
    Year4OfPad(t.year, "-" + s1);
    LitOfCons('-', s1);
    TwoOfPad(t.month, 1, 12, s2);
    LitOfCons('-', Pad(t.day, 2) + rest);
    TwoOfPad(t.day, 1, 31, rest);
  }

  lemma IsoTimeOfFormat(t: Stamp, rest: string)
    requires Writable(t)
    ensures IsoTime(FormatTime(t, rest)) == Some((t.hour, t.minute, t.second, rest))
  {
    var s2 := ":" + (Pad(t.second, 2) + rest);
    var s1 := Pad(t.minute, 2) + s2;
    TwoOfPad(t.hour, 0, 23, ":" + s1);
    LitOfCons(':', s1);
    TwoOfPad(t.minute, 0, 59, s2);
    LitOfCons(':', Pad(t.second, 2) + rest);
    TwoOfPad(t.second, 0, 59, rest);
  }

  lemma FromIsoOfFormat(t: Stamp, east: int)
    requires ValidStamp(t) && t.micro == 0 && -1440 < east < 1440
    ensures FromIsoFormat(FormatWithOffset(t, east)) == Some((t, Some(east)))
  {
    var off := FormatOffset(east);
    var time := FormatTime(t, off);
    IsoDateOfFormat(t, "T" + time);
    assert ("T" + time)[1..] == time;
    IsoTimeOfFormat(t, off);
    assert off[0] == '+' || off[0] == '-';
    assert IsoFraction(off) == Some((0, off));
    IsoOffsetOfFormat(east);
  }

  /**
   * A whole-second timestamp with an explicit offset is converted to UTC by
   * subtracting the offset, whatever the machine's own offset, unless the
   * result leaves the years `datetime` can hold.
   */
  lemma OffsetRoundTrip(t: Stamp, east: int, localOffset: int)
    requires ValidStamp(t) && t.micro == 0 && -1440 < east < 1440
    ensures ParseCreatedAt(FormatWithOffset(t, east), localOffset) == ToUtc(t, Some(east), localOffset)
  {
    var s := FormatWithOffset(t, east);
    OffsetShape(t, east);
    FromIsoOfFormat(t, east);
    ParseOfIso(s, t, Some(east), localOffset);
  }

  lemma ParseOfIso(s: string, t: Stamp, offset: Option<int>, localOffset: int)
    requires s != [] && !EndsWith(s, "Z") && FromIsoFormat(s) == Some((t, offset))
    ensures ValidStamp(t)
    ensures ParseCreatedAt(s, localOffset) == ToUtc(t, offset, localOffset)
  {
  }

  lemma EndsWithMember(s: string, c: char)
    ensures EndsWith(s, [c]) ==> c in s
  {
    if EndsWith(s, [c]) {
      assert s[|s| - 1] == c;
    }
  }

  lemma OffsetShape(t: Stamp, east: int)
    requires Writable(t) && -1440 < east < 1440
    ensures !EndsWith(FormatWithOffset(t, east), "Z")
  {
    var s := FormatWithOffset(t, east);
    var a := if east < 0 then -east else east;
    NoDotInDigits(Pad(t.year, 4));
    NoDotInDigits(Pad(t.month, 2));
    NoDotInDigits(Pad(t.day, 2));
    NoDotInDigits(Pad(t.hour, 2));
    NoDotInDigits(Pad(t.minute, 2));
    NoDotInDigits(Pad(t.second, 2));
    NoDotInDigits(Pad(a / 60, 2));
    NoDotInDigits(Pad(a % 60, 2));
    assert 'Z' !in s;
    EndsWithMember(s, 'Z');
  }

  /** The empty string and a day past the end of its month are refused. */
  lemma RefusesEmptyAndImpossibleDays(t: Stamp, localOffset: int)
    requires Writable(t) && t.micro == 0 && t.day > DaysInMonth(t.year, t.month)
    ensures ParseCreatedAt("", localOffset) == None
    ensures ParseCreatedAt(FormatSecondsZ(t), localOffset) == None
  {
    SecondsZShape(t);
    StrptimeSecondsZ(t);
  }
}

=== FILE: emotions_api.dfy ===
// `GET /trends/emotions` of backend/trends/09_API_TRENDS.py: the category is
// checked against the whitelist before the database is touched, the filter
// uses the category name as given, and every failure inside the database
// block (including the endpoint's own 404) is reported as HTTP 500.

module EmotionsApi {
  import opened Common
  import opened SqlFilter
  import TrendsApi

  /** What the database block meets: an exception, no row, or the row of five averages. */
  datatype DbAnswer = DbRaised(message: string) | NoRow | OneRow(values: seq<Option<real>>)

  datatype EmotionsReply = EmotionsReply(period: string, category: string, emotions: map<string, Option<real>>)

  const EmotionLabels: seq<string> := ["anger", "disgust", "fear", "joy", "surprise"]

  /** The conditions, in append order: the category, then the start day. */
  function Conditions(cat: string, start: Option<int>): seq<Cond> {
    (if cat != "all" then [CategoryIs(cat)] else [])
    + (if start.Some? then [PostDateFrom(start.value)] else [])
  }

  /**
   * There is a category condition exactly when the category is not `all`, a
   * date condition exactly when there is a start day, and no `WHERE` at all
   * when there is neither.
   */
  lemma ConditionsShape(cat: string, start: Option<int>)
    ensures (exists i :: 0 <= i < |Conditions(cat, start)| && Conditions(cat, start)[i].CategoryIs?) <==> cat != "all"
    ensures (exists i :: 0 <= i < |Conditions(cat, start)| && Conditions(cat, start)[i].PostDateFrom?) <==> start.Some?
    ensures WherePrefixed(Texts(Conditions(cat, start))) == "" <==> cat == "all" && start.None?
  {
    var cs := Conditions(cat, start);
    WherePrefixedPlaceholders(cs);
    if cat != "all" {
      assert cs[0].CategoryIs?;
    }
    if start.Some? {
      assert cs[|cs| - 1].PostDateFrom?;
    }
  }

  /** The filter keeps the rows of the category (unless `all`) from the start day on. */
  lemma ConditionsSelect(cat: string, start: Option<int>, r: Row, ctx: Ctx)
    ensures Matches(Conditions(cat, start), r, ctx)
        <==> ((cat == "all" || r.cat == cat) && (start.Some? ==> start.value <= r.day))
  {
    var a := if cat != "all" then [CategoryIs(cat)] else [];
    var b := if start.Some? then [PostDateFrom(start.value)] else [];
    TrendsApi.MatchesConcat(a, b, r, ctx);
    TrendsApi.MatchesOne(CategoryIs(cat), r, ctx);
    if start.Some? {
      TrendsApi.MatchesOne(PostDateFrom(start.value), r, ctx);
    }
  }

  /** `get_emotions`, lines building `conditions` and `params`. */
  method BuildConditions(cat: string, start: Option<int>) returns (conditions: seq<string>, params: seq<Value>)
    ensures conditions == Texts(Conditions(cat, start)) && params == AllArgs(Conditions(cat, start))
    ensures Placeholders(WherePrefixed(conditions)) == |params|
  {
    conditions, params := [], [];
    ghost var cs: seq<Cond> := [];
    if cat != "all" {
      conditions := conditions + ["categorie = " + Hole];
      params := params + [TextV(cat)];
      cs := [CategoryIs(cat)];
    }
    if start.Some? {
      conditions := conditions + ["post_date >= " + Hole];
      params := params + [DateV(start.value)];
      TextsSnoc(cs, PostDateFrom(start.value));
      AllArgsSnoc(cs, PostDateFrom(start.value));
      cs := cs + [PostDateFrom(start.value)];
    } else {
      assert cs + [] == cs;
    }
    assert cs == Conditions(cat, start);
    WherePrefixedPlaceholders(Conditions(cat, start));
  }

  /** The `try` block: every failure becomes HTTP 500 with the exception's text. */
  function Answer(period: string, category: string, ans: DbAnswer): (r: Reply<EmotionsReply>)
    ensures r.Failed? || r.Body?
    ensures r.Failed? ==> r.status == 500
    ensures r.Body? <==> ans.OneRow? && |ans.values| >= 5
    ensures ans.DbRaised? ==> r.detail == ans.message
    ensures r.Body? ==> r.value.period == period && r.value.category == category
    ensures r.Body? ==> r.value.emotions.Keys == set l | l in EmotionLabels
    ensures r.Body? ==> forall i :: 0 <= i < 5 ==> r.value.emotions[EmotionLabels[i]] == ans.values[i]
  {
    match ans
    case DbRaised(m) => Failed(500, m)
    case NoRow => Failed(500, "404: Aucune donnée")
    case OneRow(v) =>
      if |v| < 5 then Failed(500, "tuple index out of range")
      else
        Body(EmotionsReply(period, category, map[
          "anger" := v[0], "disgust" := v[1], "fear" := v[2], "joy" := v[3], "surprise" := v[4]]))
  }

  function EmotionsQuery(p: Period, category: string, today: int): Query {
    var cs := Conditions(category, TrendsApi.StartDate(p, today));
    Query(WherePrefixed(Texts(cs)), AllArgs(cs))
  }

  /** `GET /trends/emotions`. */
  method GetEmotions(period: string, category: string, today: int, db: Query -> DbAnswer)
    returns (r: Reply<EmotionsReply>)
    ensures ParsePeriod(period).None? ==> r == Rejected
    ensures ParsePeriod(period).Some? && category != "all" && !IsAllowed(category) ==>
      r == Failed(400, "Catégorie inconnue")
    ensures ParsePeriod(period).Some? && (category == "all" || IsAllowed(category)) ==>
      r == Answer(period, category, db(EmotionsQuery(ParsePeriod(period).value, category, today)))
  {
    var p := ParsePeriod(period);
    if p.None? {
      return Rejected;
    }
    if category != "all" && !IsAllowed(category) {
      return Failed(400, "Catégorie inconnue");
    }
    var start := TrendsApi.StartDate(p.value, today);
    var conditions, params := BuildConditions(category, start);
    var whereClause := WherePrefixed(conditions);
    var ans := db(Query(whereClause, params));
    r := Answer(period, category, ans);
  }
}

=== FILE: extraction.dfy ===
/**
 * The continuous extraction job: rounds over the keyword list, at most
 * `PerKeywordLimit` search results per keyword, each new post of the last 24
 * hours inserted into `post_brut` with its author inserted into
 * `compte_brut`, until `TargetNewPosts` posts have been inserted; every
 * `EnrichInterval` inserted posts the two account-completion passes run.
 */
module Extraction {
  import opened Common
  import opened Schema
  import opened CreatedAt
  import opened Accounts

  const TargetNewPosts: nat := 12000
  const PerKeywordLimit: nat := 10
  const EnrichInterval: nat := 100

  /** A row of the keyword list. */
  datatype Keyword = Keyword(categorie: string, keyword: string)

  /** A search hit: its URI, record fields and author. */
  datatype Post = Post(uri: Url, createdAt: Option<string>, text: string, handle: string, did: Did, hasEmbed: bool)

  /** One call to `search_posts`: an exception, or a page of posts and the next cursor. */
  datatype SearchResult = SearchFailed | Page(posts: seq<Post>, cursor: Option<string>)

  type Search = (string, Option<string>) -> SearchResult

  /** A `post_brut` row (its key, the URI, aside). */
  datatype PostRow = PostRow(
    date: int,
    contenu: string,
    handle: string,
    urlAffichage: string,
    dateScrapping: int,
    categorie: string,
    keyword: string,
    poids: nat,
    did: Did,
    presenceMedia: bool,
    tempsScraping: int)

  // ---------------------------------------------------------------------
  // Text and display URL
  // ---------------------------------------------------------------------

  /** `.replace("\n", " ").replace("\r", "")`. */
  function Unwrap(s: string): (r: string)
    ensures '\n' !in r && '\r' !in r
    ensures '\n' !in s && '\r' !in s ==> r == s
  {
    if s == [] then []
    else
      assert s == [s[0]] + s[1..];
      (if s[0] == '\n' then " " else if s[0] == '\r' then "" else [s[0]]) + Unwrap(s[1..])
  }

  /** The stored post text: line breaks unwrapped, then stripped. */
  function CleanText(s: string): (r: string)
    ensures '\n' !in r && '\r' !in r
    ensures r == [] || (!IsSpace(r[0]) && !IsSpace(r[|r| - 1]))
  {
    Strip(Unwrap(s))
  }

  /** A text with no line break and no surrounding whitespace. */
  predicate Clean(c: string) {
    '\n' !in c && '\r' !in c && (c == [] || (!IsSpace(c[0]) && !IsSpace(c[|c| - 1])))
  }

  /** Cleaning yields a clean text, and a clean text is its own cleaning: cleaning is idempotent. */
  lemma CleanTextIdempotent(s: string)
    ensures Clean(CleanText(s))
    ensures forall c :: Clean(c) ==> CleanText(c) == c
    ensures CleanText(CleanText(s)) == CleanText(s)
  {
    forall c | Clean(c)
      ensures CleanText(c) == c
    {
      CleanIsFixed(c);
    }
  }

  /** A clean text is its own cleaning. */
  lemma CleanIsFixed(c: string)
    requires Clean(c)
    ensures CleanText(c) == c
  {
    assert Unwrap(c) == c;
    StripUnchanged(c);
  }

  /** `uri.split('/')[-1]`: the text after the last slash, or all of it. */
  function LastSegment(s: string): (r: string)
    ensures '/' !in r && |r| <= |s|
  {
    if s == [] || s[|s| - 1] == '/' then [] else LastSegment(s[..|s| - 1]) + [s[|s| - 1]]
  }

  /** The last segment is a suffix, preceded by a slash unless it is the whole text. */
  lemma {:induction false} LastSegmentIsSuffix(s: string)
    ensures var r := LastSegment(s);
      r == s[|s| - |r|..] && (|r| < |s| ==> s[|s| - |r| - 1] == '/')
  {
    if s != [] && s[|s| - 1] != '/' {
      var n := |s| - 1;
      var p := s[..n];
      LastSegmentIsSuffix(p);
      var rp := LastSegment(p);
      SplitLast(s);
      DropSnoc(p, s[n], |p| - |rp|);
      if |rp| < |p| {
        assert s[|s| - |rp| - 2] == p[|p| - |rp| - 1];
      }
    }
  }

  /** The last segment of `prefix/rkey` is `rkey`. */
  lemma LastSegmentAfterSlash(prefix: string, rkey: string)
    requires '/' !in rkey
    ensures LastSegment(prefix + "/" + rkey) == rkey
  {
    var s := prefix + "/" + rkey;
    var r := LastSegment(s);
    LastSegmentIsSuffix(s);
    assert s[|s| - |rkey|..] == rkey;
    assert s[|s| - |rkey| - 1] == '/';
  }

  const ProfilePrefix: string := "https://bsky.app/profile/"

  /** `https://bsky.app/profile/<handle>/post/<last segment of uri>`. */
  function DisplayUrl(handle: string, uri: Url): string {
    ProfilePrefix + handle + "/post/" + LastSegment(uri)
  }

  /** For an AT URI `at://<did>/app.bsky.feed.post/<rkey>` the display URL ends in the record key. */
  lemma DisplayUrlOfPostUri(handle: string, did: string, rkey: string)
    requires '/' !in rkey
    ensures DisplayUrl(handle, "at://" + did + "/app.bsky.feed.post/" + rkey)
         == ProfilePrefix + handle + "/post/" + rkey
  {
    var prefix := "at://" + did + "/app.bsky.feed.post";
    assert "at://" + did + "/app.bsky.feed.post/" + rkey == prefix + "/" + rkey;
    LastSegmentAfterSlash(prefix, rkey);
  }

  // ---------------------------------------------------------------------
  // Collecting the search results of one keyword
  // ---------------------------------------------------------------------

  /**
   * The pagination loop: pages are appended while fewer than
   * `PerKeywordLimit` posts are held; an empty page or a missing cursor ends
   * it (with `stopOnEmptyCursor`, an empty cursor too); an exception loses
   * everything.
   */
  function Gather(search: Search, q: string, buffer: seq<Post>, cursor: Option<string>,
                  stopOnEmptyCursor: bool): (r: Option<seq<Post>>)
    ensures r.Some? ==> buffer <= r.value
    decreases PerKeywordLimit - |buffer|
  {
    if |buffer| >= PerKeywordLimit then Some(buffer)
    else
      match search(q, cursor)
      case SearchFailed => None
      case Page(feed, next) =>
        if feed == [] then Some(buffer)
        else if next.None? || (stopOnEmptyCursor && next == Some("")) then Some(buffer + feed)
        else Gather(search, q, buffer + feed, next, stopOnEmptyCursor)
  }

  /** The posts examined for one keyword: the collected buffer cut to `PerKeywordLimit`. */
  function Examined(search: Search, q: string, stopOnEmptyCursor: bool): (r: Option<seq<Post>>)
    ensures r.Some? ==> |r.value| <= PerKeywordLimit
    ensures r.Some? ==> Gather(search, q, [], None, stopOnEmptyCursor).Some?
                        && r.value <= Gather(search, q, [], None, stopOnEmptyCursor).value
    ensures r.None? <==> Gather(search, q, [], None, stopOnEmptyCursor).None?
  {
    match Gather(search, q, [], None, stopOnEmptyCursor)
    case None => None
    case Some(b) => Some(if |b| > PerKeywordLimit then b[..PerKeywordLimit] else b)
  }

  /** The pagination loop of one keyword. */
  method FetchBuffer(search: Search, q: string, stopOnEmptyCursor: bool) returns (r: Option<seq<Post>>)
    ensures r == Examined(search, q, stopOnEmptyCursor)
  {
    var buffer: seq<Post> := [];
    var cursor: Option<string> := None;
    while |buffer| < PerKeywordLimit
      invariant Gather(search, q, buffer, cursor, stopOnEmptyCursor) == Gather(search, q, [], None, stopOnEmptyCursor)
      decreases PerKeywordLimit - |buffer|
    {
      match search(q, cursor) {
        case SearchFailed =>
          return None;
        case Page(feed, next) =>
          if feed == [] {
            break;
          }
          buffer := buffer + feed;
          if next.None? || (stopOnEmptyCursor && next == Some("")) {
            return Some(if |buffer| > PerKeywordLimit then buffer[..PerKeywordLimit] else buffer);
          }
          cursor := next;
      }
    }
    return Some(if |buffer| > PerKeywordLimit then buffer[..PerKeywordLimit] else buffer);
  }

  // ---------------------------------------------------------------------
  // Accepting a post
  // ---------------------------------------------------------------------

  /** `parse_created_at` of the record's `created_at`, absent included. */
  function ParsedDate(p: Post, localOffset: int): Option<int> {
    if p.createdAt.None? then None else ParseCreatedAt(p.createdAt.value, localOffset)
  }

  /** A post is kept when its URI is unknown and its date parses and is not before the threshold. */
  predicate Acceptable(p: Post, known: set<Url>, seuil: int, localOffset: int) {
    p.uri !in known && ParsedDate(p, localOffset).Some? && ParsedDate(p, localOffset).value >= seuil
  }

  function RowOf(p: Post, kw: Keyword, date: int, scrap: int, millis: int): PostRow {
    var text := CleanText(p.text);
    PostRow(date, text, p.handle, DisplayUrl(p.handle, p.uri), scrap, kw.categorie, kw.keyword,
            WordCount(text), p.did, p.hasEmbed, millis)
  }

  /**
   * What every row this job writes satisfies: its display URL is built from
   * its handle and key, its weight is its word count, its text is clean,
   * its keyword pair is on the list, and its date is at most a day before
   * the start of some round.
   */
  ghost predicate WellFormedRow(u: Url, row: PostRow, keywords: seq<Keyword>, roundNow: seq<int>) {
    && row.urlAffichage == DisplayUrl(row.handle, u)
    && row.poids == WordCount(row.contenu)
    && Clean(row.contenu)
    && Keyword(row.categorie, row.keyword) in keywords
    && exists k :: 0 <= k < |roundNow| && row.date >= roundNow[k] - MicrosPerDay
  }

  lemma RowOfWellFormed(p: Post, kw: Keyword, date: int, scrap: int, millis: int,
                        keywords: seq<Keyword>, roundNow: seq<int>, k: nat)
    requires kw in keywords && k < |roundNow| && date >= roundNow[k] - MicrosPerDay
    ensures WellFormedRow(p.uri, RowOf(p, kw, date, scrap, millis), keywords, roundNow)
  {
    CleanTextIdempotent(p.text);
  }

  /**
   * The `post_brut` part of the run's invariant: the known set is exactly
   * the stored keys; rows present at the start are untouched and the new
   * ones well formed; the counter is the number of new rows and stays
   * within the target.
   */
  ghost predicate PostsStored(postBrut: map<Url, PostRow>, base: map<Url, PostRow>, known: set<Url>,
                              inserted: nat, keywords: seq<Keyword>, roundNow: seq<int>)
  {
    && known == postBrut.Keys
    && base.Keys <= postBrut.Keys
    && (forall u :: u in base ==> postBrut[u] == base[u])
    && NewRowsWellFormed(postBrut, base, keywords, roundNow)
    && inserted == |postBrut| - |base|
    && inserted <= TargetNewPosts
  }

  /** Every row not present at the start is well formed. */
  ghost predicate NewRowsWellFormed(postBrut: map<Url, PostRow>, base: map<Url, PostRow>,
                                    keywords: seq<Keyword>, roundNow: seq<int>)
  {
    forall u :: u in postBrut && u !in base ==> WellFormedRow(u, postBrut[u], keywords, roundNow)
  }

  /** Storing a well-formed row keeps every new row well formed. */
  lemma NewRowsWellFormedInsert(postBrut: map<Url, PostRow>, base: map<Url, PostRow>,
                                keywords: seq<Keyword>, roundNow: seq<int>, u: Url, row: PostRow)
    requires NewRowsWellFormed(postBrut, base, keywords, roundNow) && WellFormedRow(u, row, keywords, roundNow)
    ensures NewRowsWellFormed(postBrut[u := row], base, keywords, roundNow)
  {
    var after := postBrut[u := row];
    forall v | v in after && v !in base
      ensures WellFormedRow(v, after[v], keywords, roundNow)
    {
      if v != u {
        assert after[v] == postBrut[v];
      }
    }
  }

  /** Storing a well-formed row under an unknown URL keeps the invariant, one more row counted. */
  lemma PostsStoredInsert(postBrut: map<Url, PostRow>, base: map<Url, PostRow>, known: set<Url>,
                          inserted: nat, keywords: seq<Keyword>, roundNow: seq<int>, u: Url, row: PostRow)
    requires PostsStored(postBrut, base, known, inserted, keywords, roundNow)
    requires inserted < TargetNewPosts && u !in known && WellFormedRow(u, row, keywords, roundNow)
    ensures PostsStored(postBrut[u := row], base, known + {u}, inserted + 1, keywords, roundNow)
  {
    var after := postBrut[u := row];
    assert after.Keys == postBrut.Keys + {u};
    assert |after| == |postBrut| + 1;
    NewRowsWellFormedInsert(postBrut, base, keywords, roundNow, u, row);
  }

  /** The enrichment counter is the count since the last multiple of the interval, and `runs` the full intervals. */
  predicate Counted(inserted: nat, since: nat, runs: nat) {
    since == inserted % EnrichInterval && runs == inserted / EnrichInterval
  }

  /** The enrichment counter `next` after a step from `inserted` to `after` (at most one more) inserted posts. */
  lemma CounterStep(inserted: nat, after: nat, since: nat, runs: nat, next: nat)
    requires Counted(inserted, since, runs) && inserted <= after <= inserted + 1
    requires next == since + (after - inserted)
    ensures next < EnrichInterval ==> Counted(after, next, runs)
    ensures next >= EnrichInterval ==> Counted(after, 0, runs + 1)
  {
  }

  /** `compte_brut` after steps 2 and 3 of the enrichment. */
  function Enriched(comptes: map<Did, Compte>, w: World): map<Did, Compte> {
    AfterEtape3(AfterEtape2(comptes, w.profile, w.upsertFails, w.markFails01), w.profile, w.updateFails, w.markFails02)
  }

  /** `compte_brut` after the account INSERT of post `p` (DO NOTHING on a known DID), unless it raised. */
  function WithAccount(comptes: map<Did, Compte>, p: Post, scrap: int, w: World): map<Did, Compte> {
    if w.accountFails(p.uri) || p.did in comptes then comptes
    else comptes[p.did := NewCompte(p.handle, Some(scrap))]
  }

  /** The network, the clock and the database failures, as seen by one run. */
  datatype World = World(
    searches: nat -> Search,      // the answers of `search_posts` during each round
    roundNow: seq<int>,           // the clock at the start of each round; one entry per round run
    scrapAt: Url -> int,          // the clock when a post is handled (`date_scrap`)
    millisAt: Url -> int,         // `round(time.time(), 3)` when a post is handled, in milliseconds
    localOffset: int,             // the machine's UTC offset in minutes, for naive dates
    accountFails: Url -> bool,    // the account INSERT raises
    postFails: Url -> bool,       // the post INSERT raises
    profile: Did -> Fetch,        // `get_profile` during the completion passes
    upsertFails: set<Did>,
    markFails01: set<Did>,
    updateFails: set<Did>,
    markFails02: set<Did>)

  class ExtractionDb {
    /** `post_brut`, by URI. */
    var postBrut: map<Url, PostRow>
    /** `compte_brut`, shared with the completion passes. */
    const accounts: AccountDb

    constructor (postBrut: map<Url, PostRow>, accounts: AccountDb)
      ensures this.postBrut == postBrut && this.accounts == accounts
    {
      this.postBrut := postBrut;
      this.accounts := accounts;
    }

    /**
     * The stored part of the loop invariant: the known set is exactly the
     * stored keys; rows present at the start are untouched and the new ones
     * well formed; the counter is the number of new rows and stays within
     * the target; no account disappears.
     */
    ghost predicate Stored(base: map<Url, PostRow>, baseAccounts: set<Did>, known: set<Url>,
                           inserted: nat, keywords: seq<Keyword>, roundNow: seq<int>)
      reads this, accounts
    {
      && PostsStored(postBrut, base, known, inserted, keywords, roundNow)
      && baseAccounts <= accounts.comptes.Keys
    }

    /**
     * The loop invariant of the run: the stored part, and the enrichment
     * counter is the count since the last multiple of the interval while the
     * passes ran once per full interval.
     */
    ghost predicate Progress(base: map<Url, PostRow>, baseAccounts: set<Did>, known: set<Url>,
                             inserted: nat, since: nat, runs: nat, keywords: seq<Keyword>, roundNow: seq<int>)
      reads this, accounts
    {
      && Stored(base, baseAccounts, known, inserted, keywords, roundNow)
      && Counted(inserted, since, runs)
    }

    /** Steps 2 and 3, run when the enrichment counter reaches the interval. */
    method Enrichment(w: World)
      modifies accounts
      ensures accounts.comptes == Enriched(old(accounts.comptes), w)
    {
      var count2 := accounts.Etape2(w.profile, w.upsertFails, w.markFails01);
      var count3 := accounts.Etape3(w.profile, w.updateFails, w.markFails02);
    }

    /** The account INSERT and the post INSERT of an accepted post. */
    method Insert(p: Post, row: PostRow, w: World, keywords: seq<Keyword>, known: set<Url>, inserted: nat,
                  ghost base: map<Url, PostRow>, ghost baseAccounts: set<Did>)
      returns (known': set<Url>, inserted': nat)
      requires Stored(base, baseAccounts, known, inserted, keywords, w.roundNow)
      requires inserted < TargetNewPosts && p.uri !in known
      requires WellFormedRow(p.uri, row, keywords, w.roundNow)
      modifies this, accounts
      ensures Stored(base, baseAccounts, known', inserted', keywords, w.roundNow)
      ensures inserted' == if w.postFails(p.uri) then inserted else inserted + 1
      ensures known' == if w.postFails(p.uri) then known else known + {p.uri}
      ensures postBrut == if w.postFails(p.uri) then old(postBrut) else old(postBrut)[p.uri := row]
      ensures accounts.comptes == if w.postFails(p.uri) then old(accounts.comptes)
                                  else WithAccount(old(accounts.comptes), p, row.dateScrapping, w)
    {
      known', inserted' := known, inserted;
      // A failed post INSERT rolls back the account INSERT made before it.
      if !w.postFails(p.uri) {
        PostsStoredInsert(postBrut, base, known, inserted, keywords, w.roundNow, p.uri, row);
        if !w.accountFails(p.uri) {
          accounts.InsertNew(p.did, p.handle, row.dateScrapping);
        }
        postBrut := postBrut[p.uri := row];
        known' := known + {p.uri};
        inserted' := inserted + 1;
      }
    }

    /** One examined post of keyword `kw` in round `k`. */
    method ProcessPost(p: Post, kw: Keyword, k: nat, w: World, keywords: seq<Keyword>,
                       known: set<Url>, inserted: nat, since: nat, ghost runs: nat,
                       ghost base: map<Url, PostRow>, ghost baseAccounts: set<Did>)
      returns (known': set<Url>, inserted': nat, since': nat, ghost runs': nat)
      requires Progress(base, baseAccounts, known, inserted, since, runs, keywords, w.roundNow)
      requires inserted < TargetNewPosts && kw in keywords && k < |w.roundNow|
      modifies this, accounts
      ensures Progress(base, baseAccounts, known', inserted', since', runs', keywords, w.roundNow)
      ensures var stored := Acceptable(p, known, w.roundNow[k] - MicrosPerDay, w.localOffset) && !w.postFails(p.uri);
        && inserted' == (if stored then inserted + 1 else inserted)
        && postBrut == if stored
                       then old(postBrut)[p.uri := RowOf(p, kw, ParsedDate(p, w.localOffset).value,
                                                         w.scrapAt(p.uri), w.millisAt(p.uri))]
                       else old(postBrut)
      ensures var stored := Acceptable(p, known, w.roundNow[k] - MicrosPerDay, w.localOffset) && !w.postFails(p.uri);
        && known' == (if stored then known + {p.uri} else known)
        && accounts.comptes == if !stored then old(accounts.comptes)
                               else var c := WithAccount(old(accounts.comptes), p, w.scrapAt(p.uri), w);
                                    if since + 1 >= EnrichInterval then Enriched(c, w) else c
    {
      known', inserted', since', runs' := known, inserted, since, runs;
      var seuil := w.roundNow[k] - MicrosPerDay;
      var date := ParsedDate(p, w.localOffset);
      if p.uri !in known && date.Some? && date.value >= seuil {
        assert Acceptable(p, known, seuil, w.localOffset);
        var row := RowOf(p, kw, date.value, w.scrapAt(p.uri), w.millisAt(p.uri));
        RowOfWellFormed(p, kw, date.value, w.scrapAt(p.uri), w.millisAt(p.uri), keywords, w.roundNow, k);
        known', inserted', since', runs' := Accept(p, row, w, keywords, known, inserted, since, runs, base, baseAccounts);
      }
    }

    /** An accepted post: the account and post INSERTs, then the enrichment counter. */
    method Accept(p: Post, row: PostRow, w: World, keywords: seq<Keyword>,
                  known: set<Url>, inserted: nat, since: nat, ghost runs: nat,
                  ghost base: map<Url, PostRow>, ghost baseAccounts: set<Did>)
      returns (known': set<Url>, inserted': nat, since': nat, ghost runs': nat)
      requires Progress(base, baseAccounts, known, inserted, since, runs, keywords, w.roundNow)
      requires inserted < TargetNewPosts && p.uri !in known
      requires WellFormedRow(p.uri, row, keywords, w.roundNow)
      modifies this, accounts
      ensures Progress(base, baseAccounts, known', inserted', since', runs', keywords, w.roundNow)
      ensures known' == if w.postFails(p.uri) then known else known + {p.uri}
      ensures inserted' == if w.postFails(p.uri) then inserted else inserted + 1
      ensures postBrut == if w.postFails(p.uri) then old(postBrut) else old(postBrut)[p.uri := row]
      ensures accounts.comptes == if w.postFails(p.uri) then old(accounts.comptes)
                                  else var c := WithAccount(old(accounts.comptes), p, row.dateScrapping, w);
                                       if since + 1 >= EnrichInterval then Enriched(c, w) else c
    {
      known', inserted' := Insert(p, row, w, keywords, known, inserted, base, baseAccounts);
      ghost var stored := postBrut;
      since', runs' := Tick(w, known', inserted, inserted', since, runs, keywords, base, baseAccounts);
      assert postBrut == stored;
    }

    /** The enrichment counter after an insertion attempt: steps 2 and 3 run when it reaches the interval. */
    method Tick(w: World, known: set<Url>, inserted: nat, inserted': nat, since: nat, ghost runs: nat,
                keywords: seq<Keyword>, ghost base: map<Url, PostRow>, ghost baseAccounts: set<Did>)
      returns (since': nat, ghost runs': nat)
      requires Stored(base, baseAccounts, known, inserted', keywords, w.roundNow)
      requires Counted(inserted, since, runs)
      requires inserted <= inserted' <= inserted + 1
      modifies accounts
      ensures Progress(base, baseAccounts, known, inserted', since', runs', keywords, w.roundNow)
      ensures accounts.comptes == if since + (inserted' - inserted) >= EnrichInterval
                                  then Enriched(old(accounts.comptes), w) else old(accounts.comptes)
    {
      since', runs' := since + (inserted' - inserted), runs;
      CounterStep(inserted, inserted', since, runs, since');
      if since' >= EnrichInterval {
        Enrichment(w);
        since' := 0;
        runs' := runs' + 1;
      }
    }

    /** The posts examined for one keyword in round `k`. */
    method ProcessKeyword(kw: Keyword, k: nat, w: World, keywords: seq<Keyword>,
                          known: set<Url>, inserted: nat, since: nat, ghost runs: nat,
                          ghost base: map<Url, PostRow>, ghost baseAccounts: set<Did>)
      returns (known': set<Url>, inserted': nat, since': nat, ghost runs': nat)
      requires Progress(base, baseAccounts, known, inserted, since, runs, keywords, w.roundNow)
      requires kw in keywords && k < |w.roundNow|
      modifies this, accounts
      ensures Progress(base, baseAccounts, known', inserted', since', runs', keywords, w.roundNow)
      ensures inserted <= inserted'
    {
      known', inserted', since', runs' := known, inserted, since, runs;
      var buffer := FetchBuffer(w.searches(k), kw.keyword, false);
      if buffer.None? {
        return;
      }
      var posts := buffer.value;
      var i := 0;
      while i < |posts|
        invariant 0 <= i <= |posts|
        invariant Progress(base, baseAccounts, known', inserted', since', runs', keywords, w.roundNow)
        invariant inserted <= inserted'
      {
        if inserted' >= TargetNewPosts {
          break;
        }
        known', inserted', since', runs' :=
          ProcessPost(posts[i], kw, k, w, keywords, known', inserted', since', runs', base, baseAccounts);
        i := i + 1;
      }
    }

    /** One round over the keyword list. */
    method ProcessRound(k: nat, w: World, keywords: seq<Keyword>,
                        known: set<Url>, inserted: nat, since: nat, ghost runs: nat,
                        ghost base: map<Url, PostRow>, ghost baseAccounts: set<Did>)
      returns (known': set<Url>, inserted': nat, since': nat, ghost runs': nat)
      requires Progress(base, baseAccounts, known, inserted, since, runs, keywords, w.roundNow)
      requires k < |w.roundNow|
      modifies this, accounts
      ensures Progress(base, baseAccounts, known', inserted', since', runs', keywords, w.roundNow)
      ensures inserted <= inserted'
    {
      known', inserted', since', runs' := known, inserted, since, runs;
      var j := 0;
      while j < |keywords|
        invariant 0 <= j <= |keywords|
        invariant Progress(base, baseAccounts, known', inserted', since', runs', keywords, w.roundNow)
        invariant inserted <= inserted'
      {
        if inserted' >= TargetNewPosts {
          break;
        }
        known', inserted', since', runs' :=
          ProcessKeyword(keywords[j], k, w, keywords, known', inserted', since', runs', base, baseAccounts);
        j := j + 1;
      }
    }

    /**
     * `main`: rounds until the target is reached, one round per entry of
     * `w.roundNow`. Returns the number of posts inserted and, as a ghost,
     * the number of times steps 2 and 3 ran.
     */
    method Run(keywords: seq<Keyword>, w: World) returns (inserted: nat, ghost runs: nat)
      modifies this, accounts
      ensures old(postBrut).Keys <= postBrut.Keys
      ensures forall u :: u in old(postBrut) ==> postBrut[u] == old(postBrut)[u]
      ensures forall u :: u in postBrut && u !in old(postBrut) ==> WellFormedRow(u, postBrut[u], keywords, w.roundNow)
      ensures inserted == |postBrut| - |old(postBrut)| && inserted <= TargetNewPosts
      ensures runs == inserted / EnrichInterval
      ensures old(accounts.comptes).Keys <= accounts.comptes.Keys
    {
      ghost var base := postBrut;
      ghost var baseAccounts := accounts.comptes.Keys;
      var known := postBrut.Keys;
      inserted := 0;
      var since := 0;
      runs := 0;
      var k := 0;
      while inserted < TargetNewPosts && k < |w.roundNow|
        invariant 0 <= k <= |w.roundNow|
        invariant Progress(base, baseAccounts, known, inserted, since, runs, keywords, w.roundNow)
        invariant base == old(postBrut) && baseAccounts == old(accounts.comptes).Keys
      {
        known, inserted, since, runs := ProcessRound(k, w, keywords, known, inserted, since, runs, base, baseAccounts);
        k := k + 1;
      }
    }
  }
}

=== FILE: gitignore.dfy ===
// `ensure_models_ignored` of githubconnect.py: make sure `.gitignore` holds
// a `models/` line, creating the file or appending to it. The file is
// modelled by whether it exists and by its characters (the newline
// translation of text mode is not part of this model).

module Gitignore {
  import opened Common

  const Entry: string := "models/"

  /** The line boundaries of `str.splitlines()`; `\r\n` counts as one. */
  predicate IsBreak(c: char) {
    c == '\n' || c == '\r' || c == '\U{000B}' || c == '\U{000C}'
    || c == '\U{001C}' || c == '\U{001D}' || c == '\U{001E}'
    || c == '\U{0085}' || c == '\U{2028}' || c == '\U{2029}'
  }

  predicate NoBreak(s: string) {
    forall i :: 0 <= i < |s| ==> !IsBreak(s[i])
  }

  /** The length of the first line, before its break (or the whole text). */
  function LineLen(s: string): (n: nat)
    ensures n <= |s|
    ensures NoBreak(s[..n])
    ensures n < |s| ==> IsBreak(s[n])
  {
    if s == [] || IsBreak(s[0]) then 0 else 1 + LineLen(s[1..])
  }

  /** The width of the break after the first line: two for `\r\n`. */
  function BreakLen(s: string, n: nat): nat
    requires n < |s|
  {
    if s[n] == '\r' && n + 1 < |s| && s[n + 1] == '\n' then 2 else 1
  }

  /** The text after the first line and its break. */
  function Rest(x: string): (r: string)
    requires LineLen(x) < |x|
    ensures |r| < |x|
    ensures r != [] ==> r[|r| - 1] == x[|x| - 1]
  {
    x[LineLen(x) + BreakLen(x, LineLen(x))..]
  }

  /** `s.splitlines()`. */
  function SplitLines(s: string): (lines: seq<string>)
    ensures lines == [] <==> s == []
    decreases |s|
  {
    if s == [] then []
    else
      var n := LineLen(s);
      if n == |s| then [s]
      else [s[..n]] + SplitLines(Rest(s))
  }

  /** `e in (line.strip() for line in lines)`: the lines are stripped one by one up to the first match. */
  predicate StripsTo(lines: seq<string>, e: string) {
    lines != [] && (Strip(lines[0]) == e || StripsTo(lines[1..], e))
  }

  /** Some line of the text strips to `e` exactly when the search finds one. */
  lemma {:induction false} StripsToSpec(lines: seq<string>, e: string)
    ensures StripsTo(lines, e) <==> exists l :: l in lines && Strip(l) == e
  {
    if lines != [] {
      StripsToSpec(lines[1..], e);
      assert forall l :: l in lines <==> l == lines[0] || l in lines[1..];
    }
  }

  /** The file already ignores `models/`. */
  predicate HasEntry(s: string) {
    StripsTo(SplitLines(s), Entry)
  }

  predicate Blank(l: string) {
    Strip(l) == []
  }

  /** The last line of a non-empty text. */
  function LastLine(s: string): string
    requires s != []
  {
    var lines := SplitLines(s);
    lines[|lines| - 1]
  }

  /** What is written before `"models/\n"`: a newline when there are lines and the last is not blank. */
  function Separator(s: string): string {
    if s != [] && !Blank(LastLine(s)) then "\n" else ""
  }

  // ---------------------------------------------------------------------
  // Lines of a concatenation
  // ---------------------------------------------------------------------

  predicate EndsWithBreak(s: string) {
    s != [] && IsBreak(s[|s| - 1])
  }

  /**
   * Text that ends with a line break, not a `\r` that the next text would
   * turn into `\r\n`, splits independently of what follows.
   */
  predicate Separable(x: string, y: string) {
    x == [] || (EndsWithBreak(x) && !(x[|x| - 1] == '\r' && y != [] && y[0] == '\n'))
  }

  lemma {:induction false} SplitAfterBreak(x: string, y: string)
    requires Separable(x, y)
    ensures SplitLines(x + y) == SplitLines(x) + SplitLines(y)
    decreases |x|
  {
    if x == [] {
      assert x + y == y;
    } else {
      SplitStep(x, y);
      SplitAfterBreak(Rest(x), y);
      ConsAssoc(SplitLines(x + y), SplitLines(x), SplitLines(y),
        [x[..LineLen(x)]], SplitLines(Rest(x)), SplitLines(Rest(x) + y));
    }
  }

  /** Sequence algebra kept apart from the line splitting it is applied to. */
  lemma ConsAssoc<T>(whole: seq<T>, front: seq<T>, back: seq<T>, h: seq<T>, rest: seq<T>, restBack: seq<T>)
    requires whole == h + restBack && front == h + rest && restBack == rest + back
    ensures whole == front + back
  {
  }

  /** The first line of a text that continues past its first break. */
  lemma SplitStep(x: string, y: string)
    requires EndsWithBreak(x) && !(x[|x| - 1] == '\r' && y != [] && y[0] == '\n')
    ensures LineLen(x) < |x|
    ensures SplitLines(x + y) == [x[..LineLen(x)]] + SplitLines(Rest(x) + y)
    ensures SplitLines(x) == [x[..LineLen(x)]] + SplitLines(Rest(x))
  {
    RestPrefix(x, y);
  }

  /** A text ending with a break has a first line that ends before its end. */
  lemma FirstLineEnds(x: string)
    requires EndsWithBreak(x)
    ensures LineLen(x) < |x|
  {
    assert x[..|x|] == x;
    BreakBreaksNoBreak(x, |x| - 1);
  }

  lemma BreakBreaksNoBreak(s: string, i: nat)
    requires i < |s| && IsBreak(s[i])
    ensures !NoBreak(s)
  {
  }

  /** Splitting off the first line does not look past the first break. */
  lemma RestPrefix(x: string, y: string)
    requires EndsWithBreak(x) && !(x[|x| - 1] == '\r' && y != [] && y[0] == '\n')
    ensures LineLen(x) < |x| && LineLen(x + y) == LineLen(x)
    ensures (x + y)[..LineLen(x)] == x[..LineLen(x)]
    ensures Rest(x + y) == Rest(x) + y
  {
    var n := LineLen(x);
    FirstLineEnds(x);
    LineLenPrefix(x, y);
    var k := BreakLen(x, n);
    BreakLenPrefix(x, y, n);
    assert Rest(x) == x[n + k..];
    assert Rest(x + y) == (x + y)[n + k..];
    SlicesOfConcat(x, y, n, n + k);
  }

  /** Sequence algebra kept apart from the line splitting it is applied to. */
  lemma SlicesOfConcat<T>(x: seq<T>, y: seq<T>, n: nat, m: nat)
    requires n <= m <= |x|
    ensures (x + y)[..n] == x[..n]
    ensures (x + y)[m..] == x[m..] + y
  {
  }

  /** A break of `x` keeps its width in `x + y`, unless it is a final `\r` that `y` continues. */
  lemma BreakLenPrefix(x: string, y: string, n: nat)
    requires n < |x|
    requires !(x[|x| - 1] == '\r' && y != [] && y[0] == '\n')
    ensures BreakLen(x + y, n) == BreakLen(x, n)
  {
    assert (x + y)[n] == x[n];
    if n + 1 < |x| {
      assert (x + y)[n + 1] == x[n + 1];
    }
  }

  lemma LineLenPrefix(x: string, y: string)
    requires LineLen(x) < |x|
    ensures LineLen(x + y) == LineLen(x)
  {
    var n := LineLen(x);
    LineLenAt(x + y, n);
  }

  /** The first line ends at the first break. */
  lemma {:induction false} LineLenAt(s: string, n: nat)
    requires n < |s| && IsBreak(s[n]) && NoBreak(s[..n])
    ensures LineLen(s) == n
    decreases n
  {
    if n > 0 {
      assert s[1..][..n - 1] == s[1..n];
      assert s[0] == s[..n][0];
      LineLenAt(s[1..], n - 1);
    }
  }

  /** The line terminators a single line can end with here. */
  predicate LineEnd(b: string) {
    b == "" || b == "\n" || b == "\r" || b == "\r\n"
  }

  /** A line without a break, then nothing or one terminator, is one line. */
  lemma OneLine(z: string, b: string)
    requires NoBreak(z) && LineEnd(b) && z + b != []
    ensures SplitLines(z + b) == [z]
  {
    if b == "" {
      assert z + b == z;
      NoBreakLen(z);
    } else {
      LineLenAt(z + b, |z|);
      assert (z + b)[..|z|] == z;
      assert Rest(z + b) == [];
    }
  }

  lemma {:induction false} NoBreakLen(z: string)
    requires NoBreak(z)
    ensures LineLen(z) == |z|
    decreases |z|
  {
    if z != [] {
      NoBreakLen(z[1..]);
    }
  }

  /** Complete lines, then one more line with its terminator. */
  lemma LinesThenLine(p: string, t: string, b: string)
    requires p == [] || EndsWithBreak(p)
    requires NoBreak(t) && LineEnd(b) && t + b != []
    requires Separable(p, t + b)
    ensures SplitLines(p + t + b) == SplitLines(p) + [t]
  {
    assert p + t + b == p + (t + b);
    SplitAfterBreak(p, t + b);
    OneLine(t, b);
  }

  lemma NoBreakConcat(t: string, e: string)
    requires NoBreak(t) && NoBreak(e)
    ensures NoBreak(t + e)
  {
  }

  /** Where the last line of a text starts: after its last break. */
  function TailStart(s: string): (k: nat)
    ensures k <= |s|
    ensures k == 0 || IsBreak(s[k - 1])
    ensures NoBreak(s[k..])
    decreases |s|
  {
    if s == [] then 0
    else if IsBreak(s[|s| - 1]) then |s|
    else
      var k := TailStart(s[..|s| - 1]);
      assert s[k..] == s[..|s| - 1][k..] + [s[|s| - 1]];
      k
  }

  /** A text is its complete lines, then an unterminated rest without a break. */
  lemma HeadTail(s: string) returns (p: string, t: string)
    ensures s == p + t && (p == [] || EndsWithBreak(p)) && NoBreak(t)
  {
    var k := TailStart(s);
    p, t := s[..k], s[k..];
    assert s == p + t;
    if k > 0 {
      assert p[k - 1] == s[k - 1];
    }
  }

  /** Sequence algebra kept apart from the line splitting it is applied to. */
  lemma Snoc<T>(whole: seq<T>, front: seq<T>, x: T)
    requires whole == front + [x]
    ensures whole != [] && whole[..|whole| - 1] == front && whole[|whole| - 1] == x
  {
  }

  lemma Snoc2<T>(whole: seq<T>, mid: seq<T>, front: seq<T>, x: T, y: T)
    requires whole == mid + [y] && mid == front + [x]
    ensures whole == front + [x, y]
  {
  }

  /** Sequence algebra kept apart from the line splitting it is applied to. */
  lemma Regroup<T>(s: seq<T>, sep: seq<T>, e: seq<T>, nl: seq<T>)
    ensures s + sep + e + nl == (s + sep) + (e + nl)
  {
  }

  lemma RegroupEmpty<T>(s: seq<T>, e: seq<T>, nl: seq<T>)
    ensures s + [] + e + nl == s + (e + nl)
  {
    assert s + [] == s;
  }

  lemma RegroupTail<T>(s: seq<T>, p: seq<T>, t: seq<T>, e: seq<T>, nl: seq<T>)
    requires s == p + t
    ensures s + [] + e + nl == p + (t + e) + nl
  {
    assert s + [] == s;
  }

  lemma ConcatAssoc<T>(p: seq<T>, t: seq<T>, nl: seq<T>, s: seq<T>)
    requires s == p + t
    ensures p + t + nl == s + nl
  {
  }

  lemma AppendEmpty<T>(s: seq<T>)
    ensures s + [] == s
  {
  }

  lemma PairSnoc<T>(a: seq<T>, x: T, y: T)
    ensures a + [x, y] == (a + [x]) + [y]
  {
  }

  // ---------------------------------------------------------------------
  // Appending the entry
  // ---------------------------------------------------------------------

  /** The text after `ensure_models_ignored` appends to an existing file. */
  function Appended(s: string, e: string): string {
    s + Separator(s) + e + "\n"
  }

  lemma AppendedToEmpty(e: string)
    requires e != [] && NoBreak(e)
    ensures SplitLines(Appended([], e)) == [e]
  {
    assert Appended([], e) == e + "\n";
    OneLine(e, "\n");
  }

  /** An unterminated last line is the unterminated rest of the text. */
  lemma UnterminatedTail(s: string) returns (p: string, t: string)
    requires s != [] && !EndsWithBreak(s)
    ensures s == p + t && (p == [] || EndsWithBreak(p)) && NoBreak(t) && t != []
    ensures SplitLines(s) == SplitLines(p) + [t]
    ensures LastLine(s) == t
    ensures SplitLines(s)[..|SplitLines(s)| - 1] == SplitLines(p)
  {
    p, t := HeadTail(s);
    LinesThenLine(p, t, "");
    assert p + t + "" == s;
    Snoc(SplitLines(s), SplitLines(p), t);
  }

  /** A blank unterminated last line and the entry become one line. */
  lemma AppendedToBlankTail(s: string, e: string)
    requires e != [] && NoBreak(e)
    requires s != [] && !EndsWithBreak(s) && Blank(LastLine(s))
    ensures var lines := SplitLines(s);
      SplitLines(Appended(s, e)) == lines[..|lines| - 1] + [lines[|lines| - 1] + e]
  {
    var p, t := UnterminatedTail(s);
    assert Separator(s) == "";
    RegroupTail(s, p, t, e, "\n");
    NoBreakConcat(t, e);
    assert Separable(p, t + e + "\n") by {
      assert (t + e + "\n")[0] == t[0];
    }
    LinesThenLine(p, t + e, "\n");
  }

  /** A non-blank unterminated last line is terminated, then the entry follows. */
  lemma AppendedAfterTail(s: string, e: string)
    requires e != [] && NoBreak(e)
    requires s != [] && !EndsWithBreak(s) && !Blank(LastLine(s))
    ensures SplitLines(Appended(s, e)) == SplitLines(s) + [e]
  {
    var p, t := UnterminatedTail(s);
    assert Separator(s) == "\n";
    TerminatedTail(s, p, t);
    Regroup(s, "\n", e, "\n");
    SplitAfterBreak(s + "\n", e + "\n");
    OneLine(e, "\n");
  }

  lemma TerminatedTail(s: string, p: string, t: string)
    requires s == p + t && (p == [] || EndsWithBreak(p)) && NoBreak(t) && t != []
    requires SplitLines(s) == SplitLines(p) + [t]
    ensures SplitLines(s + "\n") == SplitLines(s)
  {
    LinesThenLine(p, t, "\n");
    ConcatAssoc(p, t, "\n", s);
  }

  /** After a terminated blank line the entry is a line of its own. */
  lemma AppendedAfterBlankLine(s: string, e: string)
    requires e != [] && NoBreak(e)
    requires EndsWithBreak(s) && Blank(LastLine(s))
    ensures SplitLines(Appended(s, e)) == SplitLines(s) + [e]
  {
    assert Separator(s) == "";
    RegroupEmpty(s, e, "\n");
    SplitAfterBreak(s, e + "\n");
    OneLine(e, "\n");
  }

  /** After a terminated non-blank line a blank line, then the entry. */
  lemma AppendedAfterLine(s: string, e: string)
    requires e != [] && NoBreak(e)
    requires EndsWithBreak(s) && !Blank(LastLine(s)) && s[|s| - 1] != '\r'
    ensures SplitLines(Appended(s, e)) == SplitLines(s) + ["", e]
  {
    assert Separator(s) == "\n";
    Regroup(s, "\n", e, "\n");
    SplitAfterBreak(s, "\n");
    OneLine([], "\n");
    assert [] + "\n" == "\n";
    SplitAfterBreak(s + "\n", e + "\n");
    OneLine(e, "\n");
    Snoc2(SplitLines(Appended(s, e)), SplitLines(s + "\n"), SplitLines(s), "", e);
  }

  /** A newline after a final `\r` only widens that break to `\r\n`. */
  lemma CrThenNewline(s: string)
    requires s != [] && s[|s| - 1] == '\r'
    ensures SplitLines(s + "\n") == SplitLines(s)
  {
    var p, t := HeadTail(s[..|s| - 1]);
    assert s == p + t + "\r";
    assert s + "\n" == p + t + "\r\n";
    LinesThenLine(p, t, "\r");
    LinesThenLine(p, t, "\r\n");
  }

  /** After a final `\r` the separator joins it, and the entry follows. */
  lemma AppendedAfterCr(s: string, e: string)
    requires e != [] && NoBreak(e)
    requires EndsWithBreak(s) && !Blank(LastLine(s)) && s[|s| - 1] == '\r'
    ensures SplitLines(Appended(s, e)) == SplitLines(s) + [e]
  {
    assert Separator(s) == "\n";
    Regroup(s, "\n", e, "\n");
    CrThenNewline(s);
    SplitAfterBreak(s + "\n", e + "\n");
    OneLine(e, "\n");
  }

  /**
   * The lines after appending: the existing lines stay, a blank last line
   * without a break absorbs the entry, and otherwise the entry is a line of
   * its own, after a blank line when the text ended with a break (other than
   * a lone `\r`, which the separator widens to `\r\n`) after a non-blank line.
   */
  lemma AppendedLines(s: string, e: string)
    requires e != [] && NoBreak(e)
    ensures var lines := SplitLines(s);
      var after := SplitLines(Appended(s, e));
      if s == [] then after == [e]
      else if !EndsWithBreak(s) && Blank(LastLine(s)) then
        after == lines[..|lines| - 1] + [LastLine(s) + e]
      else if EndsWithBreak(s) && !Blank(LastLine(s)) && s[|s| - 1] != '\r' then
        after == lines + ["", e]
      else
        after == lines + [e]
  {
    if s == [] {
      AppendedToEmpty(e);
    } else if !EndsWithBreak(s) {
      if Blank(LastLine(s)) {
        AppendedToBlankTail(s, e);
      } else {
        AppendedAfterTail(s, e);
      }
    } else if Blank(LastLine(s)) {
      AppendedAfterBlankLine(s, e);
    } else if s[|s| - 1] != '\r' {
      AppendedAfterLine(s, e);
    } else {
      AppendedAfterCr(s, e);
    }
  }

  /** Blank text before the entry strips away. */
  lemma StripBlankPrefix(w: string)
    requires Blank(w)
    ensures Strip(w + Entry) == Entry
  {
    assert forall i :: 0 <= i < |w| ==> IsSpace(w[i]) by {
      StripAllSpace(w);
    }
    StripLeftSkips(w, Entry);
    assert StripLeft(w + Entry) == Entry;
  }

  lemma StripAllSpace(w: string)
    requires Blank(w)
    ensures forall i :: 0 <= i < |w| ==> IsSpace(w[i])
  {
    var l := StripLeft(w);
    assert forall i :: 0 <= i < |l| ==> IsSpace(l[i]);
  }

  lemma {:induction false} StripLeftSkips(w: string, t: string)
    requires forall i :: 0 <= i < |w| ==> IsSpace(w[i])
    requires t != [] && !IsSpace(t[0])
    ensures StripLeft(w + t) == t
    decreases |w|
  {
    if w == [] {
      assert w + t == t;
    } else {
      assert (w + t)[1..] == w[1..] + t;
      StripLeftSkips(w[1..], t);
    }
  }

  lemma EntryShape()
    ensures Entry != [] && NoBreak(Entry) && Strip(Entry) == Entry
  {
    EntryNoBreak();
    EntryStrip();
  }

  lemma EntryNoBreak()
    ensures NoBreak(Entry)
  {
  }

  lemma EntryStrip()
    ensures Strip(Entry) == Entry
  {
    StripUnchanged(Entry);
  }

  /** A text whose last line strips to the entry has the entry. */
  lemma EntryLast(text: string, front: seq<string>, l: string)
    requires SplitLines(text) == front + [l] && Strip(l) == Entry
    ensures HasEntry(text)
  {
    assert SplitLines(text)[|front|] == l;
    StripsToSpec(SplitLines(text), Entry);
  }

  /** The two writes of the append give the appended text, which has the entry. */
  lemma AppendStep(s: string, lines: seq<string>, text: string)
    requires lines == SplitLines(s)
    requires text == (if lines != [] && Strip(lines[|lines| - 1]) != [] then s + "\n" else s) + Entry + "\n"
    ensures text == Appended(s, Entry) && HasEntry(text)
  {
    SeparatorOfLines(s);
    if lines != [] && Strip(lines[|lines| - 1]) != [] {
      assert Separator(s) == "\n";
    } else {
      assert Separator(s) == "";
      AppendEmpty(s);
    }
    assert text == Appended(s, Entry);
    AppendedHasEntry(s);
  }

  /** The separator is decided on the lines, as the script decides it. */
  lemma SeparatorOfLines(s: string)
    ensures var lines := SplitLines(s);
      Separator(s) == if lines != [] && Strip(lines[|lines| - 1]) != [] then "\n" else ""
  {
  }

  /** After an append the entry is present, so the next call changes nothing. */
  lemma AppendedHasEntry(s: string)
    ensures HasEntry(Appended(s, Entry))
  {
    EntryShape();
    if s == [] {
      AppendedToEmpty(Entry);
      EntryLast(Appended(s, Entry), [], Entry);
    } else if !EndsWithBreak(s) && Blank(LastLine(s)) {
      BlankTailHasEntry(s);
    } else if EndsWithBreak(s) && !Blank(LastLine(s)) && s[|s| - 1] != '\r' {
      AfterLineHasEntry(s);
    } else {
      AppendedOwnLine(s, Entry);
      EntryLast(Appended(s, Entry), SplitLines(s), Entry);
    }
  }

  lemma BlankTailHasEntry(s: string)
    requires s != [] && !EndsWithBreak(s) && Blank(LastLine(s))
    ensures HasEntry(Appended(s, Entry))
  {
    EntryShape();
    AppendedToBlankTail(s, Entry);
    StripBlankPrefix(LastLine(s));
    var lines := SplitLines(s);
    EntryLast(Appended(s, Entry), lines[..|lines| - 1], LastLine(s) + Entry);
  }

  lemma AfterLineHasEntry(s: string)
    requires EndsWithBreak(s) && !Blank(LastLine(s)) && s[|s| - 1] != '\r'
    ensures HasEntry(Appended(s, Entry))
  {
    EntryShape();
    AppendedAfterLine(s, Entry);
    PairSnoc(SplitLines(s), "", Entry);
    EntryLast(Appended(s, Entry), SplitLines(s) + [""], Entry);
  }

  /** The three cases where the entry is appended as a line of its own right after the existing lines. */
  lemma AppendedOwnLine(s: string, e: string)
    requires e != [] && NoBreak(e) && s != []
    requires !(!EndsWithBreak(s) && Blank(LastLine(s)))
    requires !(EndsWithBreak(s) && !Blank(LastLine(s)) && s[|s| - 1] != '\r')
    ensures SplitLines(Appended(s, e)) == SplitLines(s) + [e]
  {
    if !EndsWithBreak(s) {
      AppendedAfterTail(s, e);
    } else if Blank(LastLine(s)) {
      AppendedAfterBlankLine(s, e);
    } else {
      AppendedAfterCr(s, e);
    }
  }

  lemma CreatedHasEntry()
    ensures HasEntry(Entry + "\n")
  {
    EntryShape();
    OneLine(Entry, "\n");
    EntryLast(Entry + "\n", [], Entry);
  }

  // ---------------------------------------------------------------------
  // The file
  // ---------------------------------------------------------------------

  class GitignoreFile {
    var present: bool
    var text: string

    constructor (present: bool, text: string)
      ensures this.present == present && this.text == text
    {
      this.present := present;
      this.text := text;
    }

    /** `ensure_models_ignored`: true when the file was created or extended. */
    method EnsureModelsIgnored() returns (changed: bool)
      modifies this
      ensures !old(present) ==> text == Entry + "\n" && changed
      ensures old(present) && HasEntry(old(text)) ==> text == old(text) && !changed
      ensures old(present) && !HasEntry(old(text)) ==>
        text == Appended(old(text), Entry) && changed
      ensures present && HasEntry(text)
    {
      if !present {
        present, text := true, Entry + "\n";
        CreatedHasEntry();
        assert HasEntry(text);
        return true;
      }
      var lines := SplitLines(text);
      ghost var s := text;
      if StripsTo(lines, Entry) {
        return false;
      }
      if lines != [] && Strip(lines[|lines| - 1]) != [] {
        text := text + "\n";
      }
      text := text + Entry + "\n";
      AppendStep(s, lines, text);
      changed := true;
    }
  }

  /** A second call after any first call leaves the file alone and answers false. */
  method EnsureTwice(f: GitignoreFile) returns (first: bool, second: bool)
    modifies f
    ensures !second
    ensures f.present && HasEntry(f.text)
  {
    first := f.EnsureModelsIgnored();
    var before := f.text;
    second := f.EnsureModelsIgnored();
    assert f.text == before;
  }
}

=== FILE: keywords_api.dfy ===
// The keyword endpoints: `GET /api/keywords` and `GET /api/post-count` of
// backend/keywords/api_keywords.py, and the older `GET /api/keywords` of
// backend/api_keywords.py. Both files filter the same way: the period is
// written with `CURRENT_DATE` in the SQL text, the category is bound as a
// parameter, and `WHERE` appears only when there is a condition.

module KeywordsApi {
  import opened Common
  import opened SqlFilter
  import opened TrendsResults
  import TrendsApi

  /** The conditions, in append order: the period, then the category. */
  function KeywordConds(p: Period, cat: string): seq<Cond> {
    (match p
     case Today => [PostDateIsToday]
     case Week => [PostDateLastWeek]
     case AllTime => [])
    + (if cat != "all" then [CategoryIs(cat)] else [])
  }

  /** The days of a period for these endpoints: `week` reaches back seven days before today. */
  predicate InKeywordPeriod(p: Period, today: int, day: int) {
    match p
    case Today => day == today
    case Week => today - 7 <= day
    case AllTime => true
  }

  /**
   * The category adds exactly one condition and one parameter, the period
   * adds a condition but no parameter, and without conditions there is no
   * `WHERE`.
   */
  lemma KeywordCondsShape(p: Period, cat: string)
    ensures AllArgs(KeywordConds(p, cat)) == if cat != "all" then [TextV(cat)] else []
    ensures |KeywordConds(p, cat)| == (if p == AllTime then 0 else 1) + (if cat != "all" then 1 else 0)
    ensures WherePrefixed(Texts(KeywordConds(p, cat))) == "" <==> p == AllTime && cat == "all"
  {
    var cs := KeywordConds(p, cat);
    WherePrefixedPlaceholders(cs);
    if p != AllTime && cat != "all" {
      assert cs[1..] == [CategoryIs(cat)];
      assert cs[1..][1..] == [];
      assert AllArgs(cs[1..]) == Args(CategoryIs(cat)) + AllArgs([]);
      assert AllArgs(cs) == Args(cs[0]) + AllArgs(cs[1..]);
    } else if cat != "all" {
      assert cs == [CategoryIs(cat)];
      assert cs[1..] == [];
    } else if p != AllTime {
      assert cs[1..] == [];
    }
  }

  lemma KeywordCondsSelect(p: Period, cat: string, r: Row, ctx: Ctx)
    ensures Matches(KeywordConds(p, cat), r, ctx)
        <==> (InKeywordPeriod(p, ctx.today, r.day) && (cat == "all" || r.cat == cat))
  {
    var a := match p case Today => [PostDateIsToday] case Week => [PostDateLastWeek] case AllTime => [];
    var b := if cat != "all" then [CategoryIs(cat)] else [];
    TrendsApi.MatchesConcat(a, b, r, ctx);
    TrendsApi.MatchesOne(CategoryIs(cat), r, ctx);
    TrendsApi.MatchesOne(PostDateIsToday, r, ctx);
    TrendsApi.MatchesOne(PostDateLastWeek, r, ctx);
  }

  /** The lines building `where` and `params`, identical in both files and both endpoints. */
  method BuildKeywordFilter(p: Period, cat: string) returns (where: seq<string>, params: seq<Value>)
    ensures where == Texts(KeywordConds(p, cat)) && params == AllArgs(KeywordConds(p, cat))
    ensures Placeholders(WherePrefixed(where)) == |params|
  {
    where, params := [], [];
    ghost var cs: seq<Cond> := [];
    if p == Today {
      where := where + ["post_date = CURRENT_DATE"];
      cs := [PostDateIsToday];
    } else if p == Week {
      where := where + ["post_date >= CURRENT_DATE" + " - INTERVAL " + "'7 days'"];
      cs := [PostDateLastWeek];
    }
    assert AllArgs(cs) == [];
    if cat != "all" {
      where := where + ["categorie = " + Hole];
      params := params + [TextV(cat)];
      TextsSnoc(cs, CategoryIs(cat));
      AllArgsSnoc(cs, CategoryIs(cat));
      cs := cs + [CategoryIs(cat)];
    } else {
      assert cs + [] == cs;
    }
    assert cs == KeywordConds(p, cat);
    WherePrefixedPlaceholders(KeywordConds(p, cat));
  }

  function KeywordQuery(p: Period, cat: string): Query {
    Query(WherePrefixed(Texts(KeywordConds(p, cat))), AllArgs(KeywordConds(p, cat)))
  }

  // ---------------------------------------------------------------------
  // Responses
  // ---------------------------------------------------------------------

  /** A result row `(keyword, occ, rank)`. */
  datatype KeywordRow = KeywordRow(keyword: string, occ: Option<int>, rank: int)

  datatype KeywordEntry = KeywordEntry(rank: int, keyword: string, occurrence: int)

  datatype RankedKeyword = RankedKeyword(rank: int, keyword: string)

  datatype RowsAnswer = RowsRaised(message: string) | Rows(rows: seq<KeywordRow>)

  datatype CountAnswer = CountRaised(message: string) | Total(n: int)

  /** `{"rank": r[2], "keyword": r[0], "occurrence": r[1] or 0}` for each row, in order. */
  function Entries(rows: seq<KeywordRow>): (es: seq<KeywordEntry>)
    ensures |es| == |rows|
    ensures forall i :: 0 <= i < |rows| ==>
      es[i].rank == rows[i].rank && es[i].keyword == rows[i].keyword
      && es[i].occurrence == (if rows[i].occ.Some? then rows[i].occ.value else 0)
  {
    seq(|rows|, i requires 0 <= i < |rows| =>
      KeywordEntry(rows[i].rank, rows[i].keyword, if rows[i].occ.Some? then rows[i].occ.value else 0))
  }

  /** The older file's `{"rank": r[2], "keyword": r[0]}`. */
  function RankedKeywords(rows: seq<KeywordRow>): seq<RankedKeyword> {
    seq(|rows|, i requires 0 <= i < |rows| => RankedKeyword(rows[i].rank, rows[i].keyword))
  }

  /** The older endpoint answers the newer one's entries without their occurrence. */
  lemma RankedKeywordsDropOccurrence(rows: seq<KeywordRow>)
    ensures |RankedKeywords(rows)| == |Entries(rows)|
    ensures forall i :: 0 <= i < |rows| ==>
      RankedKeywords(rows)[i] == RankedKeyword(Entries(rows)[i].rank, Entries(rows)[i].keyword)
  {
  }

  // ---------------------------------------------------------------------
  // Endpoints
  // ---------------------------------------------------------------------

  /** `GET /api/keywords` (backend/keywords/api_keywords.py): database errors become HTTP 500. */
  method TopKeywords(period: string, category: string, db: Query -> RowsAnswer)
    returns (r: Reply<seq<KeywordEntry>>)
    ensures ParsePeriod(period).None? ==> r == Rejected
    ensures ParsePeriod(period).Some? ==>
      match db(KeywordQuery(ParsePeriod(period).value, category))
      case RowsRaised(m) => r == Failed(500, m)
      case Rows(rows) => r == Body(Entries(rows))
  {
    var p := ParsePeriod(period);
    if p.None? {
      return Rejected;
    }
    var where, params := BuildKeywordFilter(p.value, category);
    var ans := db(Query(WherePrefixed(where), params));
    match ans
    case RowsRaised(m) => r := Failed(500, m);
    case Rows(rows) => r := Body(Entries(rows));
  }

  /** `GET /api/post-count`: the sum of `post_occurrence` over the filtered rows. */
  method PostCount(period: string, category: string, db: Query -> CountAnswer)
    returns (r: Reply<int>)
    ensures ParsePeriod(period).None? ==> r == Rejected
    ensures ParsePeriod(period).Some? ==>
      match db(KeywordQuery(ParsePeriod(period).value, category))
      case CountRaised(m) => r == Failed(500, m)
      case Total(n) => r == Body(n)
  {
    var p := ParsePeriod(period);
    if p.None? {
      return Rejected;
    }
    var where, params := BuildKeywordFilter(p.value, category);
    var ans := db(Query(WherePrefixed(where), params));
    match ans
    case CountRaised(m) => r := Failed(500, m);
    case Total(n) => r := Body(n);
  }

  /** `GET /api/keywords` (backend/api_keywords.py): a database error is not caught. */
  method TopKeywordsLegacy(period: string, category: string, db: Query -> RowsAnswer)
    returns (r: Reply<seq<RankedKeyword>>)
    ensures ParsePeriod(period).None? ==> r == Rejected
    ensures ParsePeriod(period).Some? ==>
      match db(KeywordQuery(ParsePeriod(period).value, category))
      case RowsRaised(_) => r == Crashed
      case Rows(rows) => r == Body(RankedKeywords(rows))
  {
    var p := ParsePeriod(period);
    if p.None? {
      return Rejected;
    }
    var where, params := BuildKeywordFilter(p.value, category);
    var ans := db(Query(WherePrefixed(where), params));
    match ans
    case RowsRaised(_) => r := Crashed;
    case Rows(rows) => r := Body(RankedKeywords(rows));
  }

  // ---------------------------------------------------------------------
  // The rows `/api/post-count` adds up
  // ---------------------------------------------------------------------

  /** The `trends_results` rows a filter keeps. */
  function CountedRows(table: map<BucketKey, Bucket>, conds: seq<Cond>, ctx: Ctx): set<BucketKey> {
    set k | k in table && Matches(conds, Row(k.day, k.cat), ctx)
  }

  /**
   * As written: with `category=all` there is no category condition, so a
   * post of the day is counted once in its category's row and once more in
   * the day's `All` rollup row, and both rows are summed.
   */
  lemma PostCountCountsTwice(posts: seq<TrendPost>, p: TrendPost, ctx: Ctx)
    requires p in posts && p.day == ctx.today
    ensures var rows := CountedRows(Aggregate(posts), KeywordConds(Today, "all"), ctx);
      && BucketKey(p.day, p.cat) in rows && BucketKey(p.day, AllCategory) in rows
      && (p.cat != AllCategory ==> BucketKey(p.day, p.cat) != BucketKey(p.day, AllCategory))
      && p in GroupOf(posts, BucketKey(p.day, p.cat)) && p in GroupOf(posts, BucketKey(p.day, AllCategory))
  {
    var k1, k2 := BucketKey(p.day, p.cat), BucketKey(p.day, AllCategory);
    assert k1 in BucketKeys(posts) && k2 in BucketKeys(posts);
    KeywordCondsSelect(Today, "all", Row(k1.day, k1.cat), ctx);
    KeywordCondsSelect(Today, "all", Row(k2.day, k2.cat), ctx);
  }

  /** A single post of the day: two rows of one post each are summed, giving 2. */
  lemma OnePostCountedTwice(ctx: Ctx)
    ensures var p := TrendPost("u", ctx.today, "family", []);
      var t := Aggregate([p]);
      var k1, k2 := BucketKey(ctx.today, "family"), BucketKey(ctx.today, AllCategory);
      && CountedRows(t, KeywordConds(Today, "all"), ctx) == {k1, k2}
      && t[k1].count + t[k2].count == 2
  {
    var p := TrendPost("u", ctx.today, "family", []);
    var k1, k2 := BucketKey(ctx.today, "family"), BucketKey(ctx.today, AllCategory);
    SinglePostKeys(p);
    SinglePostGroup(p, k1);
    SinglePostGroup(p, k2);
    TodayKeepsEveryBucket([p], ctx);
  }

  /** When every post is of the day, the `category=all` filter keeps every bucket written. */
  lemma TodayKeepsEveryBucket(posts: seq<TrendPost>, ctx: Ctx)
    requires forall q :: q in posts ==> q.day == ctx.today
    ensures CountedRows(Aggregate(posts), KeywordConds(Today, "all"), ctx) == BucketKeys(posts)
  {
    assert Aggregate(posts).Keys == BucketKeys(posts);
    forall k | k in BucketKeys(posts)
      ensures Matches(KeywordConds(Today, "all"), Row(k.day, k.cat), ctx)
    {
      var q :| q in posts && (k == BucketKey(q.day, q.cat) || k == BucketKey(q.day, AllCategory));
      KeywordCondsSelect(Today, "all", Row(k.day, k.cat), ctx);
    }
  }

  /** The buckets of a lone post: its category's and the `All` rollup of its day. */
  lemma SinglePostKeys(p: TrendPost)
    ensures BucketKeys([p]) == {BucketKey(p.day, p.cat), BucketKey(p.day, AllCategory)}
  {
    assert forall q :: q in [p] <==> q == p;
  }

  /** A lone post makes up the whole group of every bucket it falls in. */
  lemma SinglePostGroup(p: TrendPost, k: BucketKey)
    requires InBucket(p, k)
    ensures GroupOf([p], k) == [p]
  {
    assert [p][1..] == [];
  }

  /** The filter with the `All` rollup read for `category=all`. */
  function RollupConds(p: Period, cat: string): seq<Cond> {
    (match p
     case Today => [PostDateIsToday]
     case Week => [PostDateLastWeek]
     case AllTime => [])
    + [CategoryIs(if cat == "all" then AllCategory else cat)]
  }

  /**
   * Corrected: for `category=all` only the day's `All` row is summed, and it
   * counts every post of the day exactly once.
   */
  lemma RollupCountsOnce(posts: seq<TrendPost>, ctx: Ctx)
    ensures var rows := CountedRows(Aggregate(posts), RollupConds(Today, "all"), ctx);
      var key := BucketKey(ctx.today, AllCategory);
      && (forall k :: k in rows ==> k == key)
      && (forall q :: q in posts && q.day == ctx.today ==> key in rows)
      && (key in rows ==> Aggregate(posts)[key].count == |GroupOf(posts, key)|)
      && (forall q :: q in GroupOf(posts, key) <==> q in posts && q.day == ctx.today)
  {
    var key := BucketKey(ctx.today, AllCategory);
    var rows := CountedRows(Aggregate(posts), RollupConds(Today, "all"), ctx);
    forall k | k in rows
      ensures k == key
    {
      RollupSelect(ctx, Row(k.day, k.cat));
    }
    forall q | q in posts && q.day == ctx.today
      ensures key in rows
    {
      assert key in BucketKeys(posts);
      RollupSelect(ctx, Row(key.day, key.cat));
    }
  }

  lemma RollupSelect(ctx: Ctx, r: Row)
    ensures Matches(RollupConds(Today, "all"), r, ctx) <==> r.day == ctx.today && r.cat == AllCategory
  {
    assert RollupConds(Today, "all") == [PostDateIsToday] + [CategoryIs(AllCategory)];
    TrendsApi.MatchesConcat([PostDateIsToday], [CategoryIs(AllCategory)], r, ctx);
    TrendsApi.MatchesOne(PostDateIsToday, r, ctx);
    TrendsApi.MatchesOne(CategoryIs(AllCategory), r, ctx);
  }
}

=== FILE: keywords_job.dfy ===
/**
 * The keywords job as a whole: load the pending cleaned posts of the window,
 * mark them done, keep the twelve retained categories, count and rank the
 * keywords and upsert the top twenty of every group (an existing row gets
 * the new rank and count).
 */
module KeywordsJob {
  import opened Common
  import opened Schema
  import opened KeywordsResults

  /** The category of a loaded post, the column the whitelist filter reads. */
  function KwCat(p: KwPost): string {
    p.cat
  }

  class KeywordsDb {
    /** `post_clean`. */
    var postClean: map<Url, CleanRow>
    /** `post_clean_mesure_categories`: url to predominant label. */
    var categories: map<Url, string>
    /** `keywords_results`, keyed by (day, category, keyword). */
    var keywordsResults: map<KwKey, KwResult>

    constructor (clean: map<Url, CleanRow>, cats: map<Url, string>, results: map<KwKey, KwResult>)
      ensures postClean == clean && categories == cats && keywordsResults == results
    {
      postClean := clean;
      categories := cats;
      keywordsResults := results;
    }

    /** The rows the job loads: keyword status pending, cleaned inside the window. */
    predicate Selected(window: int, today: int, u: Url)
      reads this
    {
      u in postClean && postClean[u].keywordStatus == Pending
      && InWindow(window, today, postClean[u].nettoyage)
    }

    /** `COALESCE(label_predominant, 'other')` of the left join. */
    function CategoryOf(u: Url): string
      reads this
    {
      if u in categories then categories[u] else "other"
    }

    function Loaded(urls: seq<Url>): (posts: seq<KwPost>)
      reads this
      requires forall u :: u in urls ==> u in postClean
      ensures |posts| == |urls|
    {
      if urls == [] then []
      else
        var u := urls[0];
        [KwPost(u, DayOf(postClean[u].nettoyage), CategoryOf(u), postClean[u].contenu)] + Loaded(urls[1..])
    }

    method Run(window: int, today: int, loaded: seq<Url>, stopwords: set<string>)
      modifies this
      requires NoDup(loaded)
      requires forall u :: u in loaded <==> Selected(window, today, u)
      ensures categories == old(categories)
      ensures postClean.Keys == old(postClean).Keys
      ensures forall u :: u in postClean ==>
                postClean[u] == if u in loaded then old(postClean)[u].(keywordStatus := Done)
                                else old(postClean)[u]
      ensures old(forall u :: u in loaded ==> u in postClean)
      ensures keywordsResults
              == old(keywordsResults) + TopRows(Records(KeepAllowed(old(Loaded(loaded)), KwCat), stopwords))
    {
      var posts := Loaded(loaded);
      if |posts| == 0 {
        NothingRecorded(keywordsResults, KeepAllowed(posts, KwCat), stopwords);
        return;
      }
      var i := 0;
      while i < |loaded|
        invariant 0 <= i <= |loaded|
        invariant categories == old(categories) && keywordsResults == old(keywordsResults)
        invariant postClean.Keys == old(postClean).Keys
        invariant forall u :: u in postClean ==>
                    postClean[u] == if u in loaded[..i] then old(postClean)[u].(keywordStatus := Done)
                                    else old(postClean)[u]
      {
        var u := loaded[i];
        postClean := postClean[u := postClean[u].(keywordStatus := Done)];
        TakeSnoc(loaded, i);
        i := i + 1;
      }
      assert loaded[..i] == loaded;
      var kept := KeepAllowed(posts, KwCat);
      if |kept| == 0 {
        NothingRecorded(keywordsResults, kept, stopwords);
        return;
      }
      var records := BuildRecords(kept, stopwords);
      keywordsResults := keywordsResults + TopRows(records);
    }
  }

  /** Recording no post adds no row. */
  lemma NothingRecorded(m: map<KwKey, KwResult>, posts: seq<KwPost>, stopwords: set<string>)
    requires posts == []
    ensures m + TopRows(Records(posts, stopwords)) == m
  {
    assert Records(posts, stopwords) == [];
    assert TopRows([]) == map[];
  }
}

=== FILE: keywords_results.dfy ===
/**
 * The keywords aggregation job: per day and category (and for the `All`
 * rollup), the occurrence count of every non-stop-word token of the pending
 * cleaned posts, ranked best first; the top twenty of each group are
 * upserted into `keywords_results`.
 */
module KeywordsResults {
  import opened Common
  import opened Schema
  import opened Tokenizer
  import opened Ranking

  /** Number of ranked keywords kept per (day, category). */
  const TopN: nat := 20

  /** A loaded post: url, day of cleaning, category (`'other'` when missing), cleaned text. */
  datatype KwPost = KwPost(url: Url, day: int, cat: string, content: string)

  /** Primary key of `keywords_results`. */
  datatype KwKey = KwKey(day: int, cat: string, kw: string)

  datatype KwResult = KwResult(ranking: nat, occurrence: nat)

  // ---------------------------------------------------------------------
  // Fan-out of the tokens into (day, category, keyword) records
  // ---------------------------------------------------------------------

  /** Each token counts once for the post's category and once for `All`. */
  function Fan(day: int, cat: string, toks: seq<string>): seq<KwKey>
    decreases |toks|
  {
    if toks == [] then []
    else Fan(day, cat, toks[..|toks| - 1])
         + [KwKey(day, cat, toks[|toks| - 1]), KwKey(day, AllCategory, toks[|toks| - 1])]
  }

  function PostRecords(p: KwPost, stopwords: set<string>): seq<KwKey> {
    Fan(p.day, p.cat, KeptTokens(p.content, stopwords))
  }

  function Records(posts: seq<KwPost>, stopwords: set<string>): seq<KwKey>
    decreases |posts|
  {
    if posts == [] then []
    else Records(posts[..|posts| - 1], stopwords) + PostRecords(posts[|posts| - 1], stopwords)
  }

  /** The loop that fills `records`, post by post and token by token. */
  method BuildRecords(posts: seq<KwPost>, stopwords: set<string>) returns (records: seq<KwKey>)
    ensures records == Records(posts, stopwords)
  {
    records := [];
    for i := 0 to |posts|
      invariant records == Records(posts[..i], stopwords)
    {
      var p := posts[i];
      var tokens := KeptTokens(p.content, stopwords);
      ghost var before := records;
      for j := 0 to |tokens|
        invariant records == before + Fan(p.day, p.cat, tokens[..j])
      {
        var pair := [KwKey(p.day, p.cat, tokens[j]), KwKey(p.day, AllCategory, tokens[j])];
        FanStep(p.day, p.cat, tokens, j);
        AppendAssoc(before, Fan(p.day, p.cat, tokens[..j]), pair);
        records := records + pair;
      }
      assert tokens[..|tokens|] == tokens;
      RecordsStep(posts, stopwords, i);
    }
    assert posts[..|posts|] == posts;
  }

  lemma FanStep(day: int, cat: string, toks: seq<string>, j: nat)
    requires j < |toks|
    ensures Fan(day, cat, toks[..j + 1])
            == Fan(day, cat, toks[..j]) + [KwKey(day, cat, toks[j]), KwKey(day, AllCategory, toks[j])]
  {
    var t := toks[..j + 1];
    assert t[..|t| - 1] == toks[..j];
  }

  lemma RecordsStep(posts: seq<KwPost>, stopwords: set<string>, i: nat)
    requires i < |posts|
    ensures Records(posts[..i + 1], stopwords) == Records(posts[..i], stopwords) + PostRecords(posts[i], stopwords)
  {
    var q := posts[..i + 1];
    assert q[..|q| - 1] == posts[..i];
  }

  // ---------------------------------------------------------------------
  // Occurrences and ranks
  // ---------------------------------------------------------------------

  /** `groupby(['d','cat','kw']).size()`. */
  function Occ(records: seq<KwKey>, k: KwKey): nat {
    multiset(records)[k]
  }

  /** The keywords of one group, in record order (with repetitions). */
  function GroupWords(records: seq<KwKey>, day: int, cat: string): (r: seq<string>)
    ensures forall w :: w in r <==> KwKey(day, cat, w) in records
  {
    if records == [] then []
    else
      var k := records[0];
      (if k.day == day && k.cat == cat then [k.kw] else []) + GroupWords(records[1..], day, cat)
  }

  function GroupOcc(records: seq<KwKey>, day: int, cat: string): map<string, nat> {
    map w | w in GroupWords(records, day, cat) :: Occ(records, KwKey(day, cat, w))
  }

  function GroupRanking(records: seq<KwKey>, day: int, cat: string): seq<string> {
    RankWords(GroupOcc(records, day, cat), GroupWords(records, day, cat))
  }

  /** `sort_values(['d','cat','occ'], ascending=[True,True,False]).groupby(['d','cat']).cumcount() + 1`. */
  function RankOf(records: seq<KwKey>, k: KwKey): nat
    requires k in records
  {
    var r := GroupRanking(records, k.day, k.cat);
    assert k.kw in r;
    IndexOf(r, k.kw) + 1
  }

  /** The rows sent to the upsert: `kw_df[kw_df['rank'] <= TOP_N]`. */
  function TopRows(records: seq<KwKey>): map<KwKey, KwResult> {
    map k | k in records && RankOf(records, k) <= TopN :: KwResult(RankOf(records, k), Occ(records, k))
  }

  // ---------------------------------------------------------------------
  // Properties of the ranking
  // ---------------------------------------------------------------------

  /** The ranking of a group holds each of its keywords once, best first. */
  lemma GroupRankingShape(records: seq<KwKey>, day: int, cat: string)
    ensures var r := GroupRanking(records, day, cat);
      && NoDup(r)
      && Ranked(GroupOcc(records, day, cat), r)
      && forall w :: w in r <==> KwKey(day, cat, w) in records
  {
  }

  /**
   * The rank of a keyword is one plus the number of keywords of its group
   * that occur more often, or as often and sort before it.
   */
  lemma RankCountsBetter(records: seq<KwKey>, k: KwKey)
    requires k in records
    ensures RankOf(records, k)
            == 1 + |set w | w in GroupWords(records, k.day, k.cat)
                            && Before(GroupOcc(records, k.day, k.cat), w, k.kw)|
  {
    var occ := GroupOcc(records, k.day, k.cat);
    var r := GroupRanking(records, k.day, k.cat);
    PositionCountsBetter(occ, r, k.kw);
    assert (set w | w in r && Before(occ, w, k.kw))
        == (set w | w in GroupWords(records, k.day, k.cat) && Before(occ, w, k.kw));
  }

  /** The occurrence used for ranking is the group-by count. */
  lemma GroupOccIsCount(records: seq<KwKey>, k: KwKey)
    requires k in records
    ensures OccOf(GroupOcc(records, k.day, k.cat), k.kw) == Occ(records, k) >= 1
  {
  }

  /**
   * Within one group, a smaller rank means a larger count, or the same count
   * and an alphabetically smaller keyword; different keywords never share a rank.
   */
  lemma RankOrder(records: seq<KwKey>, k1: KwKey, k2: KwKey)
    requires k1 in records && k2 in records
    requires k1.day == k2.day && k1.cat == k2.cat && k1.kw != k2.kw
    ensures RankOf(records, k1) != RankOf(records, k2)
    ensures RankOf(records, k1) < RankOf(records, k2)
            <==> (Occ(records, k1) > Occ(records, k2)
                  || (Occ(records, k1) == Occ(records, k2) && StringOrder.LexLess(k1.kw, k2.kw)))
  {
    var occ := GroupOcc(records, k1.day, k1.cat);
    var r := GroupRanking(records, k1.day, k1.cat);
    GroupOccIsCount(records, k1);
    GroupOccIsCount(records, k2);
    var i, j := IndexOf(r, k1.kw), IndexOf(r, k2.kw);
    assert i != j;
    if i < j {
      assert Before(occ, k1.kw, k2.kw);
    } else {
      assert Before(occ, k2.kw, k1.kw);
      BeforeAsymmetricHelper(occ, k1.kw, k2.kw);
    }
  }

  /** The rows kept for a group are exactly the first twenty keywords of its ranking. */
  lemma TopRowsAreRankingPrefix(records: seq<KwKey>, day: int, cat: string, w: string)
    ensures var r := GroupRanking(records, day, cat);
      KwKey(day, cat, w) in TopRows(records)
      <==> w in r[..if |r| < TopN then |r| else TopN]
  {
    var r := GroupRanking(records, day, cat);
    var n := if |r| < TopN then |r| else TopN;
    var k := KwKey(day, cat, w);
    if k in TopRows(records) {
      var i := IndexOf(r, w);
      assert r[..n][i] == w;
    }
    if w in r[..n] {
      var i :| 0 <= i < n && r[..n][i] == w;
      assert r[i] == w;
      assert k in records;
      assert NoDup(r);
      assert IndexOf(r, w) == i;
    }
  }

  /** Every upserted row carries a rank in 1..20 and the keyword's count. */
  lemma TopRowsValues(records: seq<KwKey>, k: KwKey)
    requires k in TopRows(records)
    ensures 1 <= TopRows(records)[k].ranking <= TopN
    ensures TopRows(records)[k].occurrence == multiset(records)[k] >= 1
  {
  }

  // ---------------------------------------------------------------------
  // The `All` rollup is the sum of the categories
  // ---------------------------------------------------------------------

  /** Total occurrence of a keyword on a day over a list of categories. */
  function SumCats(records: seq<KwKey>, day: int, w: string, cats: seq<string>): nat {
    if cats == [] then 0
    else Occ(records, KwKey(day, cats[0], w)) + SumCats(records, day, w, cats[1..])
  }

  lemma {:induction false} SumCatsAdditive(a: seq<KwKey>, b: seq<KwKey>, day: int, w: string, cats: seq<string>)
    ensures SumCats(a + b, day, w, cats) == SumCats(a, day, w, cats) + SumCats(b, day, w, cats)
    decreases |cats|
  {
    if cats != [] {
      SumCatsAdditive(a, b, day, w, cats[1..]);
    }
  }

  lemma {:induction false} SumCatsOfNothing(day: int, w: string, cats: seq<string>)
    ensures SumCats([], day, w, cats) == 0
    decreases |cats|
  {
    if cats != [] {
      SumCatsOfNothing(day, w, cats[1..]);
    }
  }

  /** The records of one post: its category and `All`, once each per token. */
  lemma {:induction false} FanCounts(day: int, cat: string, toks: seq<string>, w: string)
    requires cat != AllCategory
    ensures Occ(Fan(day, cat, toks), KwKey(day, AllCategory, w)) == Occ(Fan(day, cat, toks), KwKey(day, cat, w))
    ensures forall k :: k in Fan(day, cat, toks) ==> k.cat == cat || k.cat == AllCategory
    decreases |toks|
  {
    if toks != [] {
      FanCounts(day, cat, toks[..|toks| - 1], w);
    }
  }

  /** Summing over distinct categories when only `c` (and `All`) occur. */
  lemma {:induction false} SumCatsSingle(records: seq<KwKey>, day: int, w: string, c: string, cats: seq<string>)
    requires forall k :: k in records ==> k.cat == c || k.cat == AllCategory
    requires NoDup(cats) && AllCategory !in cats
    ensures SumCats(records, day, w, cats) == if c in cats then Occ(records, KwKey(day, c, w)) else 0
    decreases |cats|
  {
    if cats != [] {
      assert NoDup(cats[1..]);
      SumCatsSingle(records, day, w, c, cats[1..]);
      if cats[0] != c {
        assert KwKey(day, cats[0], w) !in records;
      } else {
        assert c !in cats[1..];
      }
    }
  }

  /** One post: its `All` records balance its category records. */
  lemma PostAllIsSum(p: KwPost, stopwords: set<string>, day: int, w: string)
    requires IsAllowed(p.cat)
    ensures Occ(PostRecords(p, stopwords), KwKey(day, AllCategory, w))
            == SumCats(PostRecords(p, stopwords), day, w, AllowedCategories)
  {
    var toks := KeptTokens(p.content, stopwords);
    var fan := Fan(p.day, p.cat, toks);
    AllowedCategoriesShape();
    FanCounts(p.day, p.cat, toks, w);
    FanDays(p.day, p.cat, toks);
    SumCatsSingle(fan, day, w, p.cat, AllowedCategories);
    if day != p.day {
      assert KwKey(day, AllCategory, w) !in fan;
      assert KwKey(day, p.cat, w) !in fan;
    }
  }

  /**
   * For every day and keyword, the `All` count equals the sum of the counts
   * of the twelve retained categories (the posts were filtered to them).
   */
  lemma {:induction false} AllIsSumOfCategories(posts: seq<KwPost>, stopwords: set<string>, day: int, w: string)
    requires forall i :: 0 <= i < |posts| ==> IsAllowed(posts[i].cat)
    ensures Occ(Records(posts, stopwords), KwKey(day, AllCategory, w))
            == SumCats(Records(posts, stopwords), day, w, AllowedCategories)
    decreases |posts|
  {
    if posts != [] {
      var init, p := posts[..|posts| - 1], posts[|posts| - 1];
      AllIsSumOfCategories(init, stopwords, day, w);
      PostAllIsSum(p, stopwords, day, w);
      SumCatsAdditive(Records(init, stopwords), PostRecords(p, stopwords), day, w, AllowedCategories);
      assert Records(posts, stopwords) == Records(init, stopwords) + PostRecords(p, stopwords);
      assert multiset(Records(posts, stopwords))
          == multiset(Records(init, stopwords)) + multiset(PostRecords(p, stopwords));
      var k := KwKey(day, AllCategory, w);
      assert Occ(Records(posts, stopwords), k)
          == Occ(Records(init, stopwords), k) + Occ(PostRecords(p, stopwords), k);
      assert Occ(Records(init, stopwords), k) == SumCats(Records(init, stopwords), day, w, AllowedCategories);
      assert Occ(PostRecords(p, stopwords), k) == SumCats(PostRecords(p, stopwords), day, w, AllowedCategories);
    } else {
      SumCatsOfNothing(day, w, AllowedCategories);
    }
  }

  lemma {:induction false} FanDays(day: int, cat: string, toks: seq<string>)
    ensures forall k :: k in Fan(day, cat, toks) ==> k.day == day
    decreases |toks|
  {
    if toks != [] {
      FanDays(day, cat, toks[..|toks| - 1]);
    }
  }

  /** Every record holds a non-stop-word token of its post, under the post's category or `All`. */
  lemma {:induction false} RecordsShape(posts: seq<KwPost>, stopwords: set<string>)
    ensures forall k :: k in Records(posts, stopwords) ==>
              IsToken(k.kw) && k.kw !in stopwords
              && exists i :: 0 <= i < |posts| && k.day == posts[i].day
                             && (k.cat == posts[i].cat || k.cat == AllCategory)
    decreases |posts|
  {
    if posts != [] {
      var init, p := posts[..|posts| - 1], posts[|posts| - 1];
      RecordsShape(init, stopwords);
      FanShape(p.day, p.cat, KeptTokens(p.content, stopwords), stopwords);
      forall k | k in Records(posts, stopwords)
        ensures exists i :: 0 <= i < |posts| && k.day == posts[i].day
                            && (k.cat == posts[i].cat || k.cat == AllCategory)
      {
        if k in Records(init, stopwords) {
          var i :| 0 <= i < |init| && k.day == init[i].day && (k.cat == init[i].cat || k.cat == AllCategory);
          assert posts[i] == init[i];
        } else {
          assert posts[|posts| - 1] == p;
        }
      }
    }
  }

  lemma {:induction false} FanShape(day: int, cat: string, toks: seq<string>, stopwords: set<string>)
    requires forall i :: 0 <= i < |toks| ==> IsToken(toks[i]) && toks[i] !in stopwords
    ensures forall k :: k in Fan(day, cat, toks) ==>
              IsToken(k.kw) && k.kw !in stopwords && k.day == day && (k.cat == cat || k.cat == AllCategory)
    decreases |toks|
  {
    if toks != [] {
      FanShape(day, cat, toks[..|toks| - 1], stopwords);
    }
  }
}

=== FILE: post_analysis.dfy ===
/**
 * Per-model analysis of one post: the classifier returns a list of
 * (label, score) items; labels are lower-cased and, for the topic model,
 * mapped onto the project's category names; the score of a label is the
 * largest score seen for it (never below 0.0); the predominant label is the
 * first label, in insertion order, with the largest score.
 */
module PostAnalysis {
  import opened Common
  import opened StringOrder

  datatype Item = Item(name: string, score: real)

  /** Topic-model labels (lower-cased) to category names. */
  const LabelMappingCategories: map<string, string> := map[
    "news_&_social_concern" := "news_social_concern",
    "celebrity_&_pop_culture" := "pop_culture",
    "diaries_&_daily_life" := "other",
    "arts_&_culture" := "arts_entertainment",
    "travel_&_adventure" := "travel_adventure",
    "music" := "pop_culture",
    "film_tv_&_video" := "arts_entertainment",
    "other_hobbies" := "other",
    "business_&_entrepreneurs" := "business_entrepreneurship",
    "relationships" := "relationships_dating",
    "fashion_&_style" := "fashion_style",
    "family" := "family",
    "learning_&_educational" := "learning_educational",
    "fitness_&_health" := "health_fitness",
    "youth_&_student_life" := "youth_student_life",
    "science_&_technology" := "science_technology",
    "gaming" := "sports_gaming",
    "food_&_dining" := "food_dining",
    "sports" := "sports_gaming",
    "religion_&_spirituality" := "religion_spirituality",
    "pop_&_culture" := "pop_culture",
    "environment" := "environment",
    "pets_&_animals" := "pets_animals",
    "lgbtq" := "lgbtq",
    "other" := "other"
  ]

  /** `sorted(set(LABEL_MAPPING_CATEGORIES.values()))`: the category score columns. */
  const MappedLabels: seq<string> := [
    "arts_entertainment", "business_entrepreneurship", "environment", "family",
    "fashion_style", "food_dining", "health_fitness", "learning_educational", "lgbtq",
    "news_social_concern", "other", "pets_animals", "pop_culture", "relationships_dating",
    "religion_spirituality", "science_technology", "sports_gaming", "travel_adventure",
    "youth_student_life"
  ]

  predicate StrictlySorted(s: seq<string>) {
    forall i :: 0 <= i < |s| - 1 ==> LexLess(s[i], s[i + 1])
  }

  lemma {:induction false} StrictlySortedPairs(s: seq<string>, i: nat, j: nat)
    requires StrictlySorted(s) && i < j < |s|
    ensures LexLess(s[i], s[j])
    decreases j - i
  {
    if j > i + 1 {
      StrictlySortedPairs(s, i, j - 1);
      LexLessTransitive(s[i], s[j - 1], s[j]);
    }
  }

  lemma MappedLabelsSorted()
    ensures StrictlySorted(MappedLabels)
  {
    forall i | 0 <= i < |MappedLabels| - 1
      ensures LexLess(MappedLabels[i], MappedLabels[i + 1])
    {
      MappedLabelsPair(i);
    }
  }

  /** Each column name is below the next one. */
  lemma MappedLabelsPair(i: nat)
    requires i < |MappedLabels| - 1
    ensures LexLess(MappedLabels[i], MappedLabels[i + 1])
  {
    if i < 9 {
      MappedLabelsPairLow(i);
    } else {
      MappedLabelsPairHigh(i);
    }
  }

  /** The first nine column names are each below the next one. */
  lemma MappedLabelsPairLow(i: nat)
    requires 0 <= i < 9
    ensures LexLess(MappedLabels[i], MappedLabels[i + 1])
  {
    if i == 0 {
    } else if i == 1 {
    } else if i == 2 {
    } else if i == 3 {
      LexLessAt(MappedLabels[3], MappedLabels[4], 2);
    } else if i == 4 {
      LexLessAt(MappedLabels[4], MappedLabels[5], 1);
    } else if i == 5 {
    } else if i == 6 {
    } else if i == 7 {
      LexLessAt(MappedLabels[7], MappedLabels[8], 1);
    } else {
    }
  }

  /** The last nine column names are each below the next one. */
  lemma MappedLabelsPairHigh(i: nat)
    requires 9 <= i < 18
    ensures LexLess(MappedLabels[i], MappedLabels[i + 1])
  {
    if i == 9 {
    } else if i == 10 {
    } else if i == 11 {
      LexLessAt(MappedLabels[11], MappedLabels[12], 1);
    } else if i == 12 {
    } else if i == 13 {
      LexLessAt(MappedLabels[13], MappedLabels[14], 3);
    } else if i == 14 {
    } else if i == 15 {
      LexLessAt(MappedLabels[15], MappedLabels[16], 1);
    } else if i == 16 {
    } else {
    }
  }

  /** The category score columns are the distinct mapped names, in increasing order. */
  lemma MappedLabelsDistinct()
    ensures StrictlySorted(MappedLabels)
    ensures NoDup(MappedLabels)
  {
    MappedLabelsSorted();
    forall i, j | 0 <= i < j < |MappedLabels| ensures MappedLabels[i] != MappedLabels[j] {
      StrictlySortedPairs(MappedLabels, i, j);
      LexLessIrreflexive(MappedLabels[i]);
    }
  }

  /** Every mapped name has a column and every column is a mapped name. */
  lemma MappedLabelsAreValues()
    ensures forall l :: l in MappedLabels <==> l in LabelMappingCategories.Values
  {
    ValuesAreColumns();
    ColumnsAreValues();
  }

  lemma ValuesAreColumns()
    ensures forall k | k in LabelMappingCategories.Keys :: LabelMappingCategories[k] in MappedLabels
  {
  }

  lemma ColumnsAreValues()
    ensures forall l | l in MappedLabels :: l in LabelMappingCategories.Values
  {
    // one topic label per category column
    assert LabelMappingCategories["arts_&_culture"] == "arts_entertainment";
    assert LabelMappingCategories["business_&_entrepreneurs"] == "business_entrepreneurship";
    assert LabelMappingCategories["environment"] == "environment";
    assert LabelMappingCategories["family"] == "family";
    assert LabelMappingCategories["fashion_&_style"] == "fashion_style";
    assert LabelMappingCategories["food_&_dining"] == "food_dining";
    assert LabelMappingCategories["fitness_&_health"] == "health_fitness";
    assert LabelMappingCategories["learning_&_educational"] == "learning_educational";
    assert LabelMappingCategories["lgbtq"] == "lgbtq";
    assert LabelMappingCategories["news_&_social_concern"] == "news_social_concern";
    assert LabelMappingCategories["other"] == "other";
    assert LabelMappingCategories["pets_&_animals"] == "pets_animals";
    assert LabelMappingCategories["music"] == "pop_culture";
    assert LabelMappingCategories["relationships"] == "relationships_dating";
    assert LabelMappingCategories["religion_&_spirituality"] == "religion_spirituality";
    assert LabelMappingCategories["science_&_technology"] == "science_technology";
    assert LabelMappingCategories["sports"] == "sports_gaming";
    assert LabelMappingCategories["travel_&_adventure"] == "travel_adventure";
    assert LabelMappingCategories["youth_&_student_life"] == "youth_student_life";
    forall l | l in MappedLabels ensures l in LabelMappingCategories.Values {
    }
  }

  // ---------------------------------------------------------------------
  // Score table of one classification
  // ---------------------------------------------------------------------

  /** The label under which a returned label is recorded: lower-cased, then mapped when a non-empty mapping is given. */
  function MapLabel(raw: string, mapping: Option<map<string, string>>): (l: string)
    ensures mapping.None? || mapping.value == map[] || Lower(raw) !in mapping.value ==> l == Lower(raw)
    ensures mapping.Some? && Lower(raw) in mapping.value ==> l == mapping.value[Lower(raw)]
  {
    var lower := Lower(raw);
    if mapping.Some? && mapping.value != map[] && lower in mapping.value then mapping.value[lower] else lower
  }

  /** The returned items with their labels lower-cased and mapped. */
  function Relabel(items: seq<Item>, mapping: Option<map<string, string>>): (m: seq<Item>)
    ensures |m| == |items|
    ensures forall i :: 0 <= i < |items| ==> m[i] == Item(MapLabel(items[i].name, mapping), items[i].score)
  {
    seq(|items|, i requires 0 <= i < |items| => Item(MapLabel(items[i].name, mapping), items[i].score))
  }

  /** A Python dict from labels to scores: its keys in insertion order and its entries. */
  datatype Scores = Scores(order: seq<string>, value: map<string, real>)

  function Max(a: real, b: real): real {
    if a >= b then a else b
  }

  /** `scores.get(l, default)`. */
  function Get(value: map<string, real>, l: string, default: real): real {
    if l in value then value[l] else default
  }

  /** One step of the loop: `scores[l] = max(scores.get(l, 0.0), x)`. */
  function Record(s: Scores, it: Item): Scores {
    Scores(if it.name in s.value then s.order else s.order + [it.name],
           s.value[it.name := Max(Get(s.value, it.name, 0.0), it.score)])
  }

  /** The dict after the loop has gone through the relabelled items. */
  function Fold(m: seq<Item>): Scores {
    if m == [] then Scores([], map[]) else Record(Fold(m[..|m| - 1]), m[|m| - 1])
  }

  function ScoresOf(items: seq<Item>, mapping: Option<map<string, string>>): Scores {
    Fold(Relabel(items, mapping))
  }

  /** Position of the first item carrying label l (|m| when there is none). */
  function First(m: seq<Item>, l: string): (n: nat)
    ensures n <= |m|
    ensures forall i :: 0 <= i < n ==> m[i].name != l
    ensures n < |m| ==> m[n].name == l
  {
    if m == [] then 0 else if m[0].name == l then 0 else 1 + First(m[1..], l)
  }

  lemma {:induction false} FirstSnoc(m: seq<Item>, x: Item, l: string)
    ensures First(m + [x], l) == if First(m, l) < |m| then First(m, l) else if x.name == l then |m| else |m| + 1
  {
    var n := First(m + [x], l);
    var k := First(m, l);
    if k < |m| {
      assert (m + [x])[k] == m[k];
    } else if x.name == l {
      assert (m + [x])[|m|] == x;
    }
  }

  /** What the loop builds: one entry per label, at least every score returned for it and
    * never below 0.0, equal to 0.0 or to one of those scores, keys in first-appearance order. */
  ghost predicate FoldSpec(m: seq<Item>, s: Scores) {
    && NoDup(s.order)
    && (forall l :: l in s.order <==> l in s.value)
    && (forall l :: l in s.value <==> First(m, l) < |m|)
    && (forall i :: 0 <= i < |m| ==> m[i].name in s.value && m[i].score <= s.value[m[i].name])
    && (forall l :: l in s.value ==> 0.0 <= s.value[l])
    && (forall l :: l in s.value ==> s.value[l] == 0.0 || exists i :: 0 <= i < |m| && m[i].name == l && m[i].score == s.value[l])
    && (forall a, b :: 0 <= a < b < |s.order| ==> First(m, s.order[a]) < First(m, s.order[b]))
  }

  lemma FoldMeetsSpec(m: seq<Item>)
    ensures FoldSpec(m, Fold(m))
  {
    FoldKeys(m);
    FoldBounds(m);
    FoldAttained(m);
    FoldOrder(m);
  }

  lemma {:induction false} FoldKeys(m: seq<Item>)
    ensures NoDup(Fold(m).order)
    ensures forall l :: l in Fold(m).order <==> l in Fold(m).value
    ensures forall l :: l in Fold(m).value <==> First(m, l) < |m|
    decreases |m|
  {
    if m != [] {
      var p := m[..|m| - 1];
      var x := m[|m| - 1];
      assert m == p + [x];
      FoldKeys(p);
      var s := Fold(p);
      var t := Fold(m);
      forall l ensures l in t.value <==> First(m, l) < |m| {
        FirstSnoc(p, x, l);
      }
      if x.name !in s.value {
        forall a, b | 0 <= a < b < |t.order| ensures t.order[a] != t.order[b] {
          if b == |s.order| {
            assert t.order[a] == s.order[a];
          }
        }
      }
    }
  }

  lemma {:induction false} FoldBounds(m: seq<Item>)
    ensures forall i :: 0 <= i < |m| ==> m[i].name in Fold(m).value && m[i].score <= Fold(m).value[m[i].name]
    ensures forall l :: l in Fold(m).value ==> 0.0 <= Fold(m).value[l]
    decreases |m|
  {
    if m != [] {
      var p := m[..|m| - 1];
      var x := m[|m| - 1];
      FoldBounds(p);
      var t := Fold(m);
      forall i | 0 <= i < |m| ensures m[i].name in t.value && m[i].score <= t.value[m[i].name] {
        if i < |p| {
          assert m[i] == p[i];
        }
      }
    }
  }

  lemma {:induction false} FoldAttained(m: seq<Item>)
    ensures forall l :: l in Fold(m).value ==>
      Fold(m).value[l] == 0.0 || exists i :: 0 <= i < |m| && m[i].name == l && m[i].score == Fold(m).value[l]
    decreases |m|
  {
    if m != [] {
      var p := m[..|m| - 1];
      var x := m[|m| - 1];
      FoldAttained(p);
      var s := Fold(p);
      var t := Fold(m);
      forall l | l in t.value
        ensures t.value[l] == 0.0 || exists i :: 0 <= i < |m| && m[i].name == l && m[i].score == t.value[l]
      {
        if l == x.name && t.value[l] == x.score {
          assert m[|p|] == x;
        } else if l in s.value && t.value[l] == s.value[l] && s.value[l] != 0.0 {
          var i :| 0 <= i < |p| && p[i].name == l && p[i].score == s.value[l];
          assert m[i] == p[i];
        }
      }
    }
  }

  lemma {:induction false} FoldOrder(m: seq<Item>)
    ensures forall a, b :: 0 <= a < b < |Fold(m).order| ==> First(m, Fold(m).order[a]) < First(m, Fold(m).order[b])
    decreases |m|
  {
    if m != [] {
      var p := m[..|m| - 1];
      var x := m[|m| - 1];
      assert m == p + [x];
      FoldOrder(p);
      FoldKeys(p);
      var s := Fold(p);
      var t := Fold(m);
      forall l ensures First(m, l) == if First(p, l) < |p| then First(p, l) else if x.name == l then |p| else |p| + 1 {
        FirstSnoc(p, x, l);
      }
      forall a, b | 0 <= a < b < |t.order| ensures First(m, t.order[a]) < First(m, t.order[b]) {
        if b < |s.order| {
          assert t.order[a] == s.order[a] && t.order[b] == s.order[b];
        } else {
          assert t.order[a] == s.order[a] && s.order[a] in s.value;
        }
      }
    }
  }

  // ---------------------------------------------------------------------
  // Predominant label: `max(scores, key=scores.get)`
  // ---------------------------------------------------------------------

  /** Index in `order` of the first key whose score is the largest (Python's `max` keeps the first maximum). */
  function ArgMax(order: seq<string>, value: map<string, real>): (k: nat)
    requires order != [] && forall l :: l in order ==> l in value
    ensures k < |order|
    ensures forall i :: 0 <= i < |order| ==> value[order[i]] <= value[order[k]]
    ensures forall i :: 0 <= i < k ==> value[order[i]] < value[order[k]]
  {
    if |order| == 1 then 0
    else
      var b := ArgMax(order[..|order| - 1], value);
      if value[order[|order| - 1]] > value[order[b]] then |order| - 1 else b
  }

  /** What `analyse_post` returns besides its duration. */
  datatype Analysis = Analysis(pred: string, predScore: real, scores: Scores)

  /** None when the classifier returned no item: `max` of an empty dict raises. */
  function AnalysisOf(items: seq<Item>, mapping: Option<map<string, string>>): Option<Analysis> {
    var s := ScoresOf(items, mapping);
    if s.order == [] then None
    else
      FoldMeetsSpec(Relabel(items, mapping));
      var k := ArgMax(s.order, s.value);
      Some(Analysis(s.order[k], s.value[s.order[k]], s))
  }

  /** The fold extended by one item. */
  lemma FoldSnoc(m: seq<Item>, x: Item)
    ensures Fold(m + [x]) == Record(Fold(m), x)
  {
    assert (m + [x])[..|m|] == m;
  }

  /** `analyse_post`: the loop over the returned items, then the predominant label. */
  method AnalysePost(items: seq<Item>, mapping: Option<map<string, string>>) returns (r: Option<Analysis>)
    ensures r == AnalysisOf(items, mapping)
  {
    var s := Scores([], map[]);
    var i := 0;
    while i < |items|
      invariant 0 <= i <= |items|
      invariant s == Fold(Relabel(items, mapping)[..i])
    {
      var l := MapLabel(items[i].name, mapping);
      s := Scores(if l in s.value then s.order else s.order + [l],
                  s.value[l := Max(Get(s.value, l, 0.0), items[i].score)]);
      TakeSnoc(Relabel(items, mapping), i);
      FoldSnoc(Relabel(items, mapping)[..i], Relabel(items, mapping)[i]);
      i := i + 1;
    }
    assert Relabel(items, mapping)[..i] == Relabel(items, mapping);
    if s.order == [] {
      return None;
    }
    FoldKeys(Relabel(items, mapping));
    var k := ArgMax(s.order, s.value);
    r := Some(Analysis(s.order[k], s.value[s.order[k]], s));
  }

  /** The analysis fails exactly when the classifier returned nothing; otherwise the predominant
    * label is a returned label with the largest score, and every label returned before it scores less. */
  lemma PredominantIsFirstMaximum(items: seq<Item>, mapping: Option<map<string, string>>)
    ensures AnalysisOf(items, mapping).Some? <==> items != []
    ensures AnalysisOf(items, mapping).Some? ==>
      var a := AnalysisOf(items, mapping).value;
      var m := Relabel(items, mapping);
      && a.scores == ScoresOf(items, mapping)
      && First(m, a.pred) < |m|
      && a.pred in a.scores.value && a.predScore == a.scores.value[a.pred]
      && (forall l :: l in a.scores.value ==> a.scores.value[l] <= a.predScore)
      && (forall l :: l in a.scores.value && First(m, l) < First(m, a.pred) ==> a.scores.value[l] < a.predScore)
  {
    var m := Relabel(items, mapping);
    var s := Fold(m);
    FoldKeys(m);
    if items != [] {
      assert m[0].name in s.value;
      assert s.order != [] by {
        assert m[0].name in s.order;
      }
      FoldOrder(m);
      var k := ArgMax(s.order, s.value);
      ArgMaxIsFirst(s.order, s.value, m);
      forall l | l in s.value ensures s.value[l] <= s.value[s.order[k]] {
        var i :| 0 <= i < |s.order| && s.order[i] == l;
      }
    } else {
      assert m == [];
    }
  }

  /** When the keys are listed by first appearance, keys appearing before the chosen one score less. */
  lemma ArgMaxIsFirst(order: seq<string>, value: map<string, real>, m: seq<Item>)
    requires order != [] && forall l :: l in order ==> l in value
    requires forall a, b :: 0 <= a < b < |order| ==> First(m, order[a]) < First(m, order[b])
    ensures forall l :: l in order && First(m, l) < First(m, order[ArgMax(order, value)]) ==>
      value[l] < value[order[ArgMax(order, value)]]
  {
    var k := ArgMax(order, value);
    forall l | l in order && First(m, l) < First(m, order[k]) ensures value[l] < value[order[k]] {
      var i :| 0 <= i < |order| && order[i] == l;
      if i >= k {
        assert false;
      }
    }
  }
}

=== FILE: post_unitaire.dfy ===
/**
 * The single-post analysis (`analyser_post`): a Bluesky post URL is checked
 * and turned into an AT URI; the post, its author's profile and two text
 * classifiers (toxicity, emotions) give a report with a surface bot score,
 * a comment on the motifs and a comment on the tone. The network, the
 * clock and the classifiers are parameters.
 */
module PostUnitaire {
  import opened Common
  import opened CreatedAt
  import opened TextCleaning
  import opened PostAnalysis
  import opened Extraction
  import opened BotScore

  // ---------------------------------------------------------------------
  // The URL and the URI
  // ---------------------------------------------------------------------

  const ProfilePath: string := "bsky.app/profile/"

  /** `https?://`: the rest of the URL after the scheme. */
  function AfterScheme(url: string): (r: Option<string>)
    ensures r.Some? ==> (url == "https://" + r.value || url == "http://" + r.value)
  {
    if StartsWith(url, "https://") then Some(url[8..])
    else if StartsWith(url, "http://") then Some(url[7..])
    else None
  }

  /** Index of the first `c` in `s`, or `|s|`. */
  function IndexOf(s: string, c: char): (i: nat)
    ensures i <= |s|
    ensures c !in s[..i]
    ensures i < |s| ==> s[i] == c
  {
    if s == [] then 0
    else if s[0] == c then 0
    else
      var j := IndexOf(s[1..], c);
      assert s[..j + 1] == [s[0]] + s[1..][..j];
      j + 1
  }

  /** `bsky.app/profile/<handle>/post/<rkey>`. */
  function UrlPath(handle: string, rkey: string): string {
    ProfilePath + handle + "/post/" + rkey
  }

  /** What the pattern `https?://bsky\.app/profile/([^/]+)/post/([^/?#]+)` matches in full, with its two groups. */
  predicate UrlMatches(url: string, handle: string, rkey: string) {
    && (url == "https://" + UrlPath(handle, rkey) || url == "http://" + UrlPath(handle, rkey))
    && handle != [] && '/' !in handle
    && rkey != [] && '/' !in rkey && '?' !in rkey && '#' !in rkey
  }

  /** `re.fullmatch` of the post URL pattern: the handle and the record key, or `None`. */
  function ParseUrl(url: string): Option<(string, string)> {
    var rest :- AfterScheme(url);
    ParsePath(rest)
  }

  /** `bsky\.app/profile/([^/]+)/post/([^/?#]+)` on what follows the scheme. */
  function ParsePath(rest: string): Option<(string, string)> {
    if !StartsWith(rest, ProfilePath) then None
    else
      var s := rest[|ProfilePath|..];
      var i := IndexOf(s, '/');
      if i == 0 || !StartsWith(s[i..], "/post/") then None
      else
        var rkey := s[i + 6..];
        if rkey == [] || '/' in rkey || '?' in rkey || '#' in rkey then None
        else Some((s[..i], rkey))
  }

  /** Whatever the parser accepts matches the pattern, with the groups it returns. */
  lemma ParseUrlSound(url: string)
    requires ParseUrl(url).Some?
    ensures UrlMatches(url, ParseUrl(url).value.0, ParseUrl(url).value.1)
  {
    ParsePathSound(AfterScheme(url).value);
  }

  /** What the path parser accepts is the path of its two groups. */
  lemma ParsePathSound(rest: string)
    requires ParsePath(rest).Some?
    ensures var g := ParsePath(rest).value;
      && rest == UrlPath(g.0, g.1)
      && g.0 != [] && '/' !in g.0
      && g.1 != [] && '/' !in g.1 && '?' !in g.1 && '#' !in g.1
  {
    var s := rest[|ProfilePath|..];
    var i := IndexOf(s, '/');
    var h := s[..i];
    var rkey := s[i + 6..];
    StartsWithSplit(rest, ProfilePath);
    StartsWithSplit(s[i..], "/post/");
    assert s[i..][6..] == rkey;
    assert s == h + s[i..];
    Regroup4(ProfilePath, h, "/post/", rkey);
  }

  lemma AfterSchemeOf(rest: string)
    ensures AfterScheme("https://" + rest) == Some(rest)
    ensures AfterScheme("http://" + rest) == Some(rest)
  {
    var u := "https://" + rest;
    assert u[..8] == "https://" && u[8..] == rest;
    var v := "http://" + rest;
    assert v[..7] == "http://" && v[7..] == rest;
    assert v[4] == ':' && "https://"[4] == 's';
  }

  lemma ParsePathOf(handle: string, rkey: string)
    requires handle != [] && '/' !in handle
    requires rkey != [] && '/' !in rkey && '?' !in rkey && '#' !in rkey
    ensures ParsePath(UrlPath(handle, rkey)) == Some((handle, rkey))
  {
    var rest := UrlPath(handle, rkey);
    var s := handle + "/post/" + rkey;
    assert rest[|ProfilePath|..] == s;
    assert IndexOf(s, '/') == |handle| by {
      var i := IndexOf(s, '/');
      assert s[..|handle|] == handle;
      assert forall j :: 0 <= j < |handle| ==> s[j] == handle[j] && s[j] != '/';
      assert s[|handle|] == '/';
    }
    assert s[|handle|..] == "/post/" + rkey;
    assert s[|handle| + 6..] == rkey;
    assert s[..|handle|] == handle;
  }

  /** Every URL matching the pattern is accepted, with its own handle and record key. */
  lemma ParseUrlComplete(url: string, handle: string, rkey: string)
    requires UrlMatches(url, handle, rkey)
    ensures ParseUrl(url) == Some((handle, rkey))
  {
    AfterSchemeOf(UrlPath(handle, rkey));
    ParsePathOf(handle, rkey);
  }

  /** The AT URI of the post: `at://<did>/app.bsky.feed.post/<rkey>`. */
  function PostUri(did: string, rkey: string): string {
    "at://" + did + "/app.bsky.feed.post/" + rkey
  }

  /** The record key of an accepted URL comes back as the last segment of the URI built from it. */
  lemma PostUriKey(url: string, did: string)
    requires ParseUrl(url).Some?
    ensures LastSegment(PostUri(did, ParseUrl(url).value.1)) == ParseUrl(url).value.1
  {
    var rkey := ParseUrl(url).value.1;
    ParseUrlSound(url);
    var prefix := "at://" + did + "/app.bsky.feed.post";
    assert PostUri(did, rkey) == prefix + "/" + rkey;
    LastSegmentAfterSlash(prefix, rkey);
  }

  // ---------------------------------------------------------------------
  // The text of the post
  // ---------------------------------------------------------------------

  /** `s.replace(c, "")`. */
  function Without(s: string, c: char): (r: string)
    ensures c !in r
    ensures forall x :: x in r ==> x in s
  {
    if s == [] then []
    else (if s[0] == c then [] else [s[0]]) + Without(s[1..], c)
  }

  predicate NoDoubleNewline(s: string) {
    forall i :: 0 <= i < |s| - 1 ==> !(s[i] == '\n' && s[i + 1] == '\n')
  }

  /** `re.sub(r"\n{2,}", "\n", s)`: every run of newlines becomes a single one. */
  function Squeeze(s: string): string {
    if s == [] then []
    else if |s| >= 2 && s[0] == '\n' && s[1] == '\n' then Squeeze(s[1..])
    else [s[0]] + Squeeze(s[1..])
  }

  /** Squeezing leaves no two newlines in a row, keeps the first and last characters and loses only newlines. */
  lemma {:induction false} SqueezeFacts(s: string)
    ensures var r := Squeeze(s);
      && NoDoubleNewline(r)
      && (s != [] ==> r != [] && r[0] == s[0] && r[|r| - 1] == s[|s| - 1])
      && Without(r, '\n') == Without(s, '\n')
      && (forall x :: x in r ==> x in s)
  {
    if s != [] {
      var t := s[1..];
      SqueezeFacts(t);
      var rt := Squeeze(t);
      if |s| >= 2 && s[0] == '\n' && s[1] == '\n' {
        assert Without(s, '\n') == Without(t, '\n');
      } else {
        var r := [s[0]] + rt;
        assert r[1..] == rt;
        assert Without(r, '\n') == (if s[0] == '\n' then [] else [s[0]]) + Without(rt, '\n');
        forall i | 0 <= i < |r| - 1
          ensures !(r[i] == '\n' && r[i + 1] == '\n')
        {
          if i > 0 {
            assert r[i] == rt[i - 1] && r[i + 1] == rt[i];
          } else if s[0] == '\n' {
            assert t != [] ==> rt[0] == t[0] && t[0] != '\n';
          }
        }
      }
    }
  }

  /** `text_raw`: carriage returns removed, surrounding whitespace stripped, runs of newlines squeezed. */
  function TextRaw(text: Option<string>): string {
    var t := if text.None? then "" else text.value;
    Squeeze(Strip(Without(t, '\r')))
  }

  /** The text has no carriage return, no blank line and no surrounding whitespace. */
  lemma TextRawClean(text: Option<string>)
    ensures var r := TextRaw(text);
      && '\r' !in r
      && NoDoubleNewline(r)
      && (r != [] ==> !IsSpace(r[0]) && !IsSpace(r[|r| - 1]))
  {
    var t := if text.None? then "" else text.value;
    var w := Without(t, '\r');
    var l := StripLeft(w);
    var st := StripRight(l);
    SqueezeFacts(st);
    assert '\r' !in st by {
      assert forall c :: c in st ==> c in l;
    }
    if st != [] {
      assert l != [] && st[0] == l[0];
    }
  }

  /** `int(x or 0)` for a count the API may leave out. */
  function OrZero(x: Option<nat>): nat {
    if x.None? then 0 else x.value
  }

  // ---------------------------------------------------------------------
  // Rounding
  // ---------------------------------------------------------------------

  /** `a / b` rounded to the nearest integer, a tie to the even one (Python's `round`). */
  function RoundDiv(a: int, b: int): (q: int)
    requires b > 0
    ensures -b <= 2 * (a - q * b) <= b
    ensures 2 * (a - q * b) == b ==> q % 2 == 0
    ensures 2 * (a - q * b) == -b ==> q % 2 == 0
  {
    var f := a / b;
    var r := a % b;
    if 2 * r > b then f + 1
    else if 2 * r < b then f
    else if f % 2 == 0 then f
    else f + 1
  }

  /** `round(x)` for a real, a tie to the even integer. */
  function RoundReal(x: real): (n: int)
    ensures -0.5 <= x - n as real <= 0.5
  {
    var f := x.Floor;
    var d := x - f as real;
    if d > 0.5 then f + 1
    else if d < 0.5 then f
    else if f % 2 == 0 then f
    else f + 1
  }

  // ---------------------------------------------------------------------
  // The profile
  // ---------------------------------------------------------------------

  /** What `get_profile` returns that the analysis reads. */
  datatype Profile = Profile(
    displayName: Option<string>,
    description: Option<string>,
    createdAt: string,
    followsCount: Option<nat>,
    followersCount: Option<nat>,
    postsCount: Option<int>,
    labels: seq<string>)

  /** `s.rstrip("Z")`. */
  function RStripZ(s: string): (r: string)
    ensures |r| <= |s| && r == s[..|r|]
    ensures r != [] ==> r[|r| - 1] != 'Z'
  {
    if s != [] && s[|s| - 1] == 'Z' then RStripZ(s[..|s| - 1]) else s
  }

  /**
   * `fromisoformat(created_at.rstrip("Z")).replace(tzinfo=utc)`: the time
   * read as UTC; an offset written in the text is dropped, not applied.
   * `None` where `fromisoformat` raises.
   */
  function CreatedInstant(s: string): (r: Option<int>)
    ensures r.Some? <==> FromIsoFormat(RStripZ(s)).Some?
    ensures r.Some? ==> r.value == Instant(FromIsoFormat(RStripZ(s)).value.0)
  {
    var parsed :- FromIsoFormat(RStripZ(s));
    Some(Instant(parsed.0))
  }

  /** `max((now - created).days, 1)`: whole days, never less than one. */
  function DaysLive(now: int, created: int): (d: int)
    ensures d >= 1
    ensures d == 1 || (d * 86_400_000_000 <= now - created < d * 86_400_000_000 + 86_400_000_000)
  {
    var days := (now - created) / 86_400_000_000;
    if days >= 1 then days else 1
  }

  /** `round(total_posts / days_live, 3)`, in thousandths. */
  function PerDay(total: int, daysLive: int): int
    requires daysLive >= 1
  {
    RoundDiv(1000 * total, daysLive)
  }

  /**
   * The frequency motif fires when the rounded daily mean exceeds 20, that
   * is when the exact mean is above 20.0005 (a tie rounds down to 20.000).
   */
  lemma PerDayAboveTwenty(total: int, daysLive: int)
    requires daysLive >= 1
    ensures PerDay(total, daysLive) > 20000 <==> 2000 * total > 40001 * daysLive
  {
    var q := PerDay(total, daysLive);
    RoundedAboveTwenty(1000 * total, daysLive, q, 1000 * total - q * daysLive);
  }

  /** A quotient rounded half to even exceeds 20000 exactly when `a / d` exceeds 20000.5. */
  lemma RoundedAboveTwenty(a: int, d: int, q: int, e: int)
    requires d >= 1 && a == q * d + e
    requires -d <= 2 * e <= d
    requires 2 * e == -d ==> q % 2 == 0
    ensures q > 20000 <==> 2 * a > 40001 * d
  {
    if q > 20001 {
      MulMono(q, 20002, d);
    } else if q == 20001 {
      assert q * d == 20001 * d;
    } else {
      MulMono(20000, q, d);
    }
  }

  lemma MulMono(x: int, y: int, d: int)
    requires x >= y && d >= 0
    ensures x * d >= y * d
  {
  }

  /** The rounding hides a small excess: 40021 posts in 2001 days is above 20 a day, yet no motif. */
  lemma RoundingHidesExcess()
    ensures 40021 > 20 * 2001
    ensures PerDay(40021, 2001) == 20000
  {
  }

  /** `round(followers / following, 3) if following else 0`, in thousandths. */
  function RatioFollow(followers: nat, following: nat): (r: int)
    ensures following == 0 ==> r == 0
    ensures following > 0 ==> -(following as int) <= 2 * (1000 * followers - r * following) <= following
  {
    if following == 0 then 0 else RoundDiv(1000 * followers, following)
  }

  /** `s.strip()` is empty exactly when every character is whitespace. */
  lemma StripEmpty(s: string)
    ensures Strip(s) == [] <==> forall c :: c in s ==> IsSpace(c)
  {
    var l := StripLeft(s);
    var st := StripRight(l);
    assert l != [] ==> !IsSpace(l[0]);
    assert st != [] ==> st[|st| - 1] in s;
    if forall c :: c in s ==> IsSpace(c) {
      assert forall c :: c in l ==> IsSpace(c);
    }
  }

  /** `not bool(description and description.strip())`. */
  function BioEmpty(description: Option<string>): (b: bool)
    ensures b <==> description.None? || forall c :: c in description.value ==> IsSpace(c)
  {
    if description.None? then true
    else
      StripEmpty(description.value);
      Strip(description.value) == []
  }

  /** `re.search(r"https?://|bsky://", description or "")`. */
  predicate SiteWeb(description: Option<string>) {
    var d := if description.None? then "" else description.value;
    Contains(d, "http://") || Contains(d, "https://") || Contains(d, "bsky://")
  }

  /** A label whose value is `verified`. */
  predicate BadgeOk(labels: seq<string>) {
    exists i :: 0 <= i < |labels| && labels[i] == "verified"
  }

  /** `display_name or handle_in_url`. */
  function NameOf(displayName: Option<string>, handle: string): (n: string)
    ensures displayName.Some? && displayName.value != [] ==> n == displayName.value
    ensures displayName.None? || displayName.value == [] ==> n == handle
  {
    if Truthy(displayName) then displayName.value else handle
  }

  // ---------------------------------------------------------------------
  // The surface bot score
  // ---------------------------------------------------------------------

  /** What the motif rules read, already computed from the profile. */
  datatype Signals = Signals(
    bioVide: bool, siteWeb: bool, perDay: int, followers: nat,
    name: string, handle: string, badgeOk: bool)

  /** The rule of each motif in this script. */
  predicate FiresOn(s: Signals, k: Motif) {
    match k
    case BioVide => s.bioVide
    case AucunSite => !s.siteWeb
    case FreqElevee => s.perDay > 20000
    case PeuFollowers => s.followers < 10
    case DiffNomHandle => s.name != [] && Abs(|s.name| - |s.handle|) > 5
    case NonVerifie => !s.badgeOk
  }

  function MotifsOf(s: Signals): seq<Motif> {
    Detect(k => FiresOn(s, k))
  }

  /** The motifs found are those whose rule fires, in detection order; the score stays within 1.0. */
  lemma MotifsOfSpec(s: Signals)
    ensures Ordered(MotifsOf(s))
    ensures forall k :: k in MotifsOf(s) <==> FiresOn(s, k)
    ensures Score(MotifsOf(s)) <= 10
  {
    DetectSpec(k => FiresOn(s, k));
    ScoreAtMostTen(MotifsOf(s));
  }

  /** The short text of each motif. */
  function MotifText(m: Motif): string {
    match m
    case BioVide => "biographie vide"
    case AucunSite => "pas de site web"
    case FreqElevee => "fréquence de publication très élevée"
    case PeuFollowers => "très peu de followers"
    case DiffNomHandle => "nom différent du handle"
    case NonVerifie => "pas de badge vérifié"
  }

  function MotifTexts(ms: seq<Motif>): (r: seq<string>)
    ensures |r| == |ms|
    ensures forall i :: 0 <= i < |ms| ==> r[i] == MotifText(ms[i])
  {
    seq(|ms|, i requires 0 <= i < |ms| => MotifText(ms[i]))
  }

  const HumanComment: string := "Au vu des signaux observés, le profil semble géré par une personne réelle."

  function BotIntro(lab: Label): string {
    if lab == ProbableBot then "Tout indique un compte automatisé : "
    else "Certains signaux invitent à la prudence : "
  }

  /** `comment_bot`: a fixed text for a human, else the label's intro and the French list of the motifs. */
  function CommentBot(ms: seq<Motif>): string {
    var lab := LabelOf(Score(ms));
    if lab == ProbableHumain then HumanComment
    else
      NonHumanHasTwoMotifs(ms);
      BotIntro(lab) + ListeFr(MotifTexts(ms)) + "."
  }

  /** A suspicious or bot comment is the label's intro and the list of all the motif texts, read from the front. */
  lemma CommentBotShape(ms: seq<Motif>)
    requires LabelOf(Score(ms)) != ProbableHumain
    ensures |ms| >= 2
    ensures CommentBot(ms) == BotIntro(LabelOf(Score(ms))) + ListeFrFromFront(MotifTexts(ms)) + "."
  {
    NonHumanHasTwoMotifs(ms);
    ListeFrFront(MotifTexts(ms));
  }

  // ---------------------------------------------------------------------
  // Toxicity and emotions
  // ---------------------------------------------------------------------

  /** One label and score of a classifier's output. */
  datatype Pred = Pred(tag: string, score: real)

  const ToxLabels: seq<string> := ["toxic", "obscene", "insult", "severe_toxic", "identity_hate", "threat"]
  const EmoLabels: seq<string> := ["anger", "disgust", "fear", "joy", "sadness", "surprise"]

  /** `{k: 0.0 for k in labels}`. */
  function Zeros(labels: seq<string>): (d: map<string, real>)
    ensures d.Keys == set l | l in labels
    ensures forall l :: l in d ==> d[l] == 0.0
  {
    map l | l in labels :: 0.0
  }

  /**
   * The dictionary after the loop over the predictions: each lower-cased
   * label gets its score; with `onlyKnown` (emotions) a label not already
   * in the dictionary is skipped.
   */
  function Record(d: map<string, real>, preds: seq<Pred>, onlyKnown: bool): map<string, real>
    decreases |preds|
  {
    if preds == [] then d
    else
      var prev := Record(d, preds[..|preds| - 1], onlyKnown);
      var p := preds[|preds| - 1];
      var l := Lower(p.tag);
      if onlyKnown && l !in prev then prev else prev[l := p.score]
  }

  /** The labels of the predictions, lower-cased. */
  function LabelsOf(preds: seq<Pred>): set<string> {
    set p | p in preds :: Lower(p.tag)
  }

  /** The emotion loop keeps exactly the starting keys; the toxicity loop adds every new label. */
  lemma {:induction false} RecordKeys(d: map<string, real>, preds: seq<Pred>, onlyKnown: bool)
    ensures onlyKnown ==> Record(d, preds, onlyKnown).Keys == d.Keys
    ensures !onlyKnown ==> Record(d, preds, onlyKnown).Keys == d.Keys + LabelsOf(preds)
    decreases |preds|
  {
    if preds != [] {
      var n := |preds| - 1;
      RecordKeys(d, preds[..n], onlyKnown);
      assert LabelsOf(preds) == LabelsOf(preds[..n]) + {Lower(preds[n].tag)} by {
        assert preds == preds[..n] + [preds[n]];
        assert forall p :: p in preds <==> p in preds[..n] || p == preds[n];
      }
    }
  }

  /** A key that no prediction names keeps its starting score (0.0 here). */
  lemma {:induction false} RecordUntouched(d: map<string, real>, preds: seq<Pred>, onlyKnown: bool, k: string)
    requires k in d && k !in LabelsOf(preds)
    ensures k in Record(d, preds, onlyKnown) && Record(d, preds, onlyKnown)[k] == d[k]
    decreases |preds|
  {
    if preds != [] {
      var n := |preds| - 1;
      assert preds[n] in preds;
      assert LabelsOf(preds[..n]) <= LabelsOf(preds) by {
        assert forall p :: p in preds[..n] ==> p in preds;
      }
      RecordUntouched(d, preds[..n], onlyKnown, k);
    }
  }

  /** The last prediction naming a key sets its score (for emotions, when the key is one of the six). */
  lemma {:induction false} RecordLastWins(d: map<string, real>, preds: seq<Pred>, onlyKnown: bool, i: nat)
    requires i < |preds|
    requires forall j :: i < j < |preds| ==> Lower(preds[j].tag) != Lower(preds[i].tag)
    requires onlyKnown ==> Lower(preds[i].tag) in d
    ensures var r := Record(d, preds, onlyKnown);
      Lower(preds[i].tag) in r && r[Lower(preds[i].tag)] == preds[i].score
    decreases |preds|
  {
    var n := |preds| - 1;
    var k := Lower(preds[i].tag);
    if i < n {
      RecordLastWins(d, preds[..n], onlyKnown, i);
    } else {
      RecordKeys(d, preds[..n], onlyKnown);
    }
  }

  /** The loop `for p in preds: dict[p["label"].lower()] = p["score"]` (with the membership test for emotions). */
  method FillScores(d0: map<string, real>, preds: seq<Pred>, onlyKnown: bool) returns (d: map<string, real>)
    ensures d == Record(d0, preds, onlyKnown)
  {
    d := d0;
    var i := 0;
    while i < |preds|
      invariant 0 <= i <= |preds|
      invariant d == Record(d0, preds[..i], onlyKnown)
    {
      assert preds[..i + 1][..i] == preds[..i];
      var l := Lower(preds[i].tag);
      if !onlyKnown || l in d {
        d := d[l := preds[i].score];
      }
      i := i + 1;
    }
    assert preds[..i] == preds;
  }

  /** The largest value of `d` over `keys` (`max(tox_dict.values())` when the keys cover the dictionary). */
  function MaxOver(keys: seq<string>, d: map<string, real>): (v: real)
    requires keys != [] && forall k :: k in keys ==> k in d
    ensures forall k :: k in keys ==> d[k] <= v
    ensures exists k :: k in keys && d[k] == v
  {
    d[keys[ArgMax(keys, d)]]
  }

  /** The toxicity band of the largest score. */
  function ToxDesc(v: real): (s: string)
    ensures s == "non toxique" <==> v < 0.01
    ensures s == "légèrement toxique" <==> 0.01 <= v < 0.20
    ensures s == "modérément toxique" <==> 0.20 <= v < 0.50
    ensures s == "fortement toxique" <==> v >= 0.50
  {
    if v < 0.01 then "non toxique"
    else if v < 0.20 then "légèrement toxique"
    else if v < 0.50 then "modérément toxique"
    else "fortement toxique"
  }

  function EmoFr(e: string): string {
    if e == "anger" then "colère"
    else if e == "disgust" then "dégoût"
    else if e == "fear" then "peur"
    else if e == "joy" then "joie"
    else if e == "sadness" then "tristesse"
    else "surprise"
  }

  /** Number of decimal digits of `n` (at least one). */
  function Width(n: nat): (w: nat)
    ensures w >= 1 && n < Pow10(w)
  {
    if n < 10 then 1 else 1 + Width(n / 10)
  }

  /** `str(n)` for an integer. */
  function IntText(n: int): string {
    if n < 0 then "-" + Pad(-n, Width(-n)) else Pad(n, Width(n))
  }

  /** The text of a non-negative integer reads back as that integer, and has no leading zero. */
  lemma IntTextDigits(n: nat)
    ensures AllDigits(IntText(n)) && Digits(IntText(n)) == n
    ensures |IntText(n)| > 1 ==> IntText(n)[0] != '0'
  {
    var w := Width(n);
    if w > 1 {
      PadLeadingDigit(n, w);
    }
  }

  /** A number of exactly `w` digits written on `w` digits does not start with zero. */
  lemma {:induction false} PadLeadingDigit(n: nat, w: nat)
    requires w >= 2 && Width(n) == w
    ensures Pad(n, w)[0] != '0'
    decreases w
  {
    var p := Pad(n / 10, w - 1);
    assert Pad(n, w)[0] == p[0];
    if w > 2 {
      PadLeadingDigit(n / 10, w - 1);
    } else {
      assert 1 <= n / 10 < 10;
      assert p == Pad(n / 10 / 10, 0) + [(n / 10 % 10 + '0' as int) as char];
    }
  }

  /** `comment_tone`; `toxKeys` lists the keys of the toxicity dictionary. */
  function ToneComment(toxKeys: seq<string>, tox: map<string, real>, emo: map<string, real>): string
    requires toxKeys != [] && forall k :: k in toxKeys ==> k in tox
    requires forall k :: k in EmoLabels ==> k in emo
  {
    var main := EmoLabels[ArgMax(EmoLabels, emo)];
    var pct := RoundReal(emo[main] * 100.0);
    "Le post est " + ToxDesc(MaxOver(toxKeys, tox))
    + " et exprime principalement de la " + EmoFr(main) + " (" + IntText(pct) + " %)."
  }

  // ---------------------------------------------------------------------
  // The whole analysis
  // ---------------------------------------------------------------------

  /** What `get_posts` returns that the analysis reads. */
  datatype PostView = PostView(text: Option<string>, replyCount: Option<nat>, repostCount: Option<nat>, likeCount: Option<nat>)

  /** The network, the clock and the two classifiers. */
  datatype Env = Env(
    now: int,
    resolve: string -> Option<string>,
    getPost: string -> Option<PostView>,
    getProfile: string -> Option<Profile>,
    toxModel: string -> seq<Pred>,
    emoModel: string -> seq<Pred>)

  datatype Report = Report(
    url: string, text: string, replies: nat, reposts: nat, likes: nat,
    name: string, created: int, following: nat, followers: nat, ratio: int,
    totalPosts: int, perDay: int, bioVide: bool, siteWeb: bool, badgeOk: bool,
    tox: map<string, real>, emo: map<string, real>,
    scoreBot: nat, labelBot: Label, commentBot: string, commentTone: string)

  /** An error dictionary, an exception that escapes, or the report. */
  datatype Outcome = Failed(error: string) | Raised | Done(report: Report)

  /** Everything but the two classifier loops, given their dictionaries. */
  function Assemble(url: string, handle: string, post: PostView, profile: Profile, created: int, total: int,
                    now: int, toxKeys: seq<string>, tox: map<string, real>, emo: map<string, real>): Report
    requires toxKeys != [] && forall k :: k in toxKeys ==> k in tox
    requires forall k :: k in EmoLabels ==> k in emo
  {
    var following := OrZero(profile.followsCount);
    var followers := OrZero(profile.followersCount);
    var perDay := PerDay(total, DaysLive(now, created));
    var name := NameOf(profile.displayName, handle);
    var sig := Signals(BioEmpty(profile.description), SiteWeb(profile.description), perDay, followers,
                       name, handle, BadgeOk(profile.labels));
    var ms := MotifsOf(sig);
    Report(url, TextRaw(post.text), OrZero(post.replyCount), OrZero(post.repostCount), OrZero(post.likeCount),
           name, created, following, followers, RatioFollow(followers, following),
           total, perDay, sig.bioVide, sig.siteWeb, sig.badgeOk, tox, emo,
           Score(ms), LabelOf(Score(ms)), CommentBot(ms), ToneComment(toxKeys, tox, emo))
  }

  /** The classifiers' dictionaries: left at 0.0 for an empty text. */
  function ToxOf(text: string, env: Env): map<string, real> {
    if text == [] then Zeros(ToxLabels) else Record(Zeros(ToxLabels), env.toxModel(Nettoyer(text)), false)
  }

  function EmoOf(text: string, env: Env): map<string, real> {
    if text == [] then Zeros(EmoLabels) else Record(Zeros(EmoLabels), env.emoModel(Nettoyer(text)), true)
  }

  /** The lower-cased labels of the predictions, in order. */
  function LabelList(preds: seq<Pred>): (ls: seq<string>)
    ensures forall l :: l in ls <==> l in LabelsOf(preds)
  {
    var ls := seq(|preds|, i requires 0 <= i < |preds| => Lower(preds[i].tag));
    assert forall l :: l in ls ==> l in LabelsOf(preds) by {
      forall l | l in ls
        ensures l in LabelsOf(preds)
      {
        var i :| 0 <= i < |ls| && ls[i] == l;
        assert preds[i] in preds;
      }
    }
    assert forall l :: l in LabelsOf(preds) ==> l in ls by {
      forall l | l in LabelsOf(preds)
        ensures l in ls
      {
        var p :| p in preds && Lower(p.tag) == l;
        var i :| 0 <= i < |preds| && preds[i] == p;
        assert ls[i] == l;
      }
    }
    ls
  }

  /** The keys of the toxicity dictionary in insertion order, possibly repeated. */
  function ToxKeys(text: string, env: Env): seq<string> {
    if text == [] then ToxLabels else ToxLabels + LabelList(env.toxModel(Nettoyer(text)))
  }

  /** The toxicity keys listed are exactly the dictionary's; the emotion keys are the six. */
  lemma DictKeys(text: string, env: Env)
    ensures ToxKeys(text, env) != []
    ensures forall k :: k in ToxKeys(text, env) <==> k in ToxOf(text, env)
    ensures EmoOf(text, env).Keys == set l | l in EmoLabels
  {
    if text != [] {
      RecordKeys(Zeros(ToxLabels), env.toxModel(Nettoyer(text)), false);
      RecordKeys(Zeros(EmoLabels), env.emoModel(Nettoyer(text)), true);
    }
  }

  /** `analyser_post(url)`. */
  function Analysis(url: string, env: Env): Outcome {
    match ParseUrl(url)
    case None => Failed("URL Bluesky invalide.")
    case Some(groups) =>
      match env.resolve(groups.0)
      case None => Failed("Impossible de résoudre le DID pour ce handle.")
      case Some(did) =>
        match env.getPost(PostUri(did, groups.1))
        case None => Failed("Post introuvable ou supprimé.")
        case Some(post) =>
          match env.getProfile(did)
          case None => Raised
          case Some(profile) =>
            match CreatedInstant(profile.createdAt)
            case None => Raised
            case Some(created) =>
              if profile.postsCount.None? then Raised
              else
                var text := TextRaw(post.text);
                DictKeys(text, env);
                Done(Assemble(url, groups.0, post, profile, created, profile.postsCount.value, env.now,
                              ToxKeys(text, env), ToxOf(text, env), EmoOf(text, env)))
  }

  /**
   * An invalid URL gives the URL error and nothing else is asked of the
   * network; a report always reads the post at the URI built from the URL,
   * carries the label of its score, at most 1.0, and six emotions.
   */
  lemma AnalysisFacts(url: string, env: Env)
    ensures ParseUrl(url).None? ==> Analysis(url, env) == Failed("URL Bluesky invalide.")
    ensures Analysis(url, env).Done? ==>
      && ParseUrl(url).Some?
      && env.resolve(ParseUrl(url).value.0).Some?
      && env.getPost(PostUri(env.resolve(ParseUrl(url).value.0).value, ParseUrl(url).value.1)).Some?
    ensures Analysis(url, env).Done? ==>
      var r := Analysis(url, env).report;
      && r.scoreBot <= 10
      && r.labelBot == LabelOf(r.scoreBot)
      && r.emo.Keys == set l | l in EmoLabels
  {
    if Analysis(url, env).Done? {
      var groups := ParseUrl(url).value;
      var did := env.resolve(groups.0).value;
      var post := env.getPost(PostUri(did, groups.1)).value;
      var profile := env.getProfile(did).value;
      var created := CreatedInstant(profile.createdAt).value;
      var text := TextRaw(post.text);
      DictKeys(text, env);
      var following := OrZero(profile.followsCount);
      var followers := OrZero(profile.followersCount);
      var perDay := PerDay(profile.postsCount.value, DaysLive(env.now, created));
      var name := NameOf(profile.displayName, groups.0);
      var sig := Signals(BioEmpty(profile.description), SiteWeb(profile.description), perDay, followers,
                         name, groups.0, BadgeOk(profile.labels));
      MotifsOfSpec(sig);
    }
  }

  /** For an empty text the classifiers are not called: the tone is "non toxique", anger at 0 %. */
  lemma EmptyTextTone(env: Env)
    ensures ToneComment(ToxKeys("", env), ToxOf("", env), EmoOf("", env))
      == "Le post est " + "non toxique" + " et exprime principalement de la " + "colère" + " (" + "0" + " %)."
  {
    var tox := ToxOf("", env);
    var emo := EmoOf("", env);
    var k := ArgMax(EmoLabels, emo);
    assert emo[EmoLabels[0]] == 0.0 && emo[EmoLabels[k]] == 0.0;
    assert k == 0;
    assert EmoFr(EmoLabels[0]) == "colère";
    var v := MaxOver(ToxLabels, tox);
    assert v == 0.0;
    assert ToxDesc(v) == "non toxique";
    assert RoundReal(0.0 * 100.0) == 0;
    assert IntText(0) == "0";
  }

  /** The method form of `analyser_post`: the two classifier loops run as loops. */
  method AnalyserPost(url: string, env: Env) returns (o: Outcome)
    ensures o == Analysis(url, env)
  {
    var groups := ParseUrl(url);
    if groups.None? {
      return Failed("URL Bluesky invalide.");
    }
    var handle := groups.value.0;
    var rkey := groups.value.1;
    var did := env.resolve(handle);
    if did.None? {
      return Failed("Impossible de résoudre le DID pour ce handle.");
    }
    var post := env.getPost(PostUri(did.value, rkey));
    if post.None? {
      return Failed("Post introuvable ou supprimé.");
    }
    var profile := env.getProfile(did.value);
    if profile.None? {
      return Raised;
    }
    var created := CreatedInstant(profile.value.createdAt);
    if created.None? || profile.value.postsCount.None? {
      return Raised;
    }
    var text := TextRaw(post.value.text);
    var tox := Zeros(ToxLabels);
    var emo := Zeros(EmoLabels);
    if text != [] {
      tox := FillScores(tox, env.toxModel(Nettoyer(text)), false);
      emo := FillScores(emo, env.emoModel(Nettoyer(text)), true);
    }
    DictKeys(text, env);
    o := Done(Assemble(url, handle, post.value, profile.value, created.value, profile.value.postsCount.value,
                       env.now, ToxKeys(text, env), tox, emo));
  }
}

=== FILE: posts_extraction.dfy ===
/**
 * The one-shot extraction script: `Rounds` passes over the keyword list;
 * for each keyword at most `PerKeywordLimit` search results are examined,
 * the new posts of the last 24 hours (their date in the exact
 * `%Y-%m-%dT%H:%M:%S.%fZ` form) are collected into a batch while their
 * authors are registered in `compte_brut`, and the batch is written with
 * one `executemany` and committed. A failed batch is rolled back, account
 * statements included, but its URIs stay known for the rest of the run.
 * A failed account statement drops its post and leaves the transaction
 * aborted: every later statement fails until the next rollback, which only
 * a non-empty batch reaches.
 */
module PostsExtraction {
  import opened Common
  import opened Schema
  import opened CreatedAt
  import opened Accounts
  import opened Extraction

  /** `NB_BOUCLES`. */
  const Rounds: nat := 5

  /** The clock, the network and the database failures, as seen by one run. */
  datatype Env = Env(
    now: int,                        // `datetime.utcnow()` when the script starts
    searches: nat -> Search,         // the answers of `search_posts` during each round
    scrapAt: Url -> int,             // the clock when a post is accepted (`date_scrap`)
    millisAt: Url -> int,            // `round(time.time(), 3)` when a post is accepted, in milliseconds
    accountFails: (nat, nat) -> Url -> bool,  // the account statements for a post of keyword `j` in round `k` raise
    batchFails: (nat, nat) -> bool)  // the batch of keyword `j` in round `k` raises on write or commit

  /** `seuil_date`: 24 hours before the start of the run. */
  function Threshold(now: int): (r: int)
    ensures r < now && now - r == MicrosPerDay
  {
    now - MicrosPerDay
  }

  /** The record's `created_at` read with the exact `%Y-%m-%dT%H:%M:%S.%fZ` format, as a naive UTC instant. */
  function StrictDate(p: Post): (r: Option<int>)
    ensures r.Some? ==> p.createdAt.Some?
  {
    if p.createdAt.None? then None
    else
      var t :- Strptime(p.createdAt.value, true);
      Some(Instant(t))
  }

  /**
   * How a post's date is read. The script uses `StrictDate`; the batch is
   * specified for any reader so that its properties do not depend on the
   * date format.
   */
  type DateReader = Post -> Option<int>

  /** The post date is acceptable: it was read, and it is not before the threshold. */
  predicate Recent(p: Post, seuil: int, dateOf: DateReader) {
    dateOf(p).Some? && dateOf(p).value >= seuil
  }

  /** A post goes into the batch when its URI is unknown and its date is recent. */
  predicate Accepted(p: Post, known: set<Url>, seuil: int, dateOf: DateReader) {
    p.uri !in known && Recent(p, seuil, dateOf)
  }

  /** The batch row of an accepted post. */
  function Entry(p: Post, kw: Keyword, env: Env, dateOf: DateReader): (Url, PostRow)
    requires dateOf(p).Some?
  {
    (p.uri, RowOf(p, kw, dateOf(p).value, env.scrapAt(p.uri), env.millisAt(p.uri)))
  }

  /**
   * `valeurs_batch` for the examined posts `posts` of keyword `kw`: the
   * accepted ones, in order, each URI becoming known as soon as it is taken.
   * The first accepted post whose account statements fail (`fails`) is
   * dropped and aborts the transaction: no later post is taken.
   */
  function BatchOf(posts: seq<Post>, kw: Keyword, known: set<Url>, seuil: int, env: Env,
                   dateOf: DateReader, fails: Url -> bool): seq<(Url, PostRow)>
    decreases |posts|
  {
    if posts == [] then []
    else if Accepted(posts[0], known, seuil, dateOf) then
      if fails(posts[0].uri) then []
      else [Entry(posts[0], kw, env, dateOf)] + BatchOf(posts[1..], kw, known + {posts[0].uri}, seuil, env, dateOf, fails)
    else BatchOf(posts[1..], kw, known, seuil, env, dateOf, fails)
  }

  /** Some accepted post of the examined ones has failing account statements, which aborts the transaction. */
  predicate Aborts(posts: seq<Post>, known: set<Url>, seuil: int, dateOf: DateReader, fails: Url -> bool)
    decreases |posts|
  {
    if posts == [] then false
    else if Accepted(posts[0], known, seuil, dateOf) then
      fails(posts[0].uri) || Aborts(posts[1..], known + {posts[0].uri}, seuil, dateOf, fails)
    else Aborts(posts[1..], known, seuil, dateOf, fails)
  }

  /** The URIs of the examined posts whose date is recent. */
  function Candidates(posts: seq<Post>, seuil: int, dateOf: DateReader): set<Url> {
    set p | p in posts && Recent(p, seuil, dateOf) :: p.uri
  }

  lemma CandidatesCons(posts: seq<Post>, seuil: int, dateOf: DateReader)
    requires posts != []
    ensures Candidates(posts, seuil, dateOf)
         == (if Recent(posts[0], seuil, dateOf) then {posts[0].uri} else {}) + Candidates(posts[1..], seuil, dateOf)
  {
    assert posts == [posts[0]] + posts[1..];
    assert forall x :: x in posts <==> x == posts[0] || x in posts[1..];
  }

  /**
   * The batch takes only URIs of recent examined posts that were not known,
   * and, unless an account statement failed, exactly those: a recent post
   * is never lost, and a known URI is never taken.
   */
  lemma {:induction false} BatchUris(posts: seq<Post>, kw: Keyword, known: set<Url>, seuil: int, env: Env,
                                     dateOf: DateReader, fails: Url -> bool)
    ensures KeysOf(BatchOf(posts, kw, known, seuil, env, dateOf, fails)) <= Candidates(posts, seuil, dateOf) - known
    ensures !Aborts(posts, known, seuil, dateOf, fails) ==>
      KeysOf(BatchOf(posts, kw, known, seuil, env, dateOf, fails)) == Candidates(posts, seuil, dateOf) - known
    decreases |posts|
  {
    if posts != [] {
      var p := posts[0];
      var known1 := if Accepted(p, known, seuil, dateOf) then known + {p.uri} else known;
      BatchUris(posts[1..], kw, known1, seuil, env, dateOf, fails);
      CandidatesCons(posts, seuil, dateOf);
      if Accepted(p, known, seuil, dateOf) && !fails(p.uri) {
        KeysOfCons(Entry(p, kw, env, dateOf), BatchOf(posts[1..], kw, known1, seuil, env, dateOf, fails));
      }
    }
  }

  /** A batch holds at most one row per examined post and never the same URI twice. */
  lemma {:induction false} BatchShape(posts: seq<Post>, kw: Keyword, known: set<Url>, seuil: int, env: Env,
                                      dateOf: DateReader, fails: Url -> bool)
    ensures var b := BatchOf(posts, kw, known, seuil, env, dateOf, fails);
      |b| <= |posts| && DistinctKeys(b)
    decreases |posts|
  {
    if posts != [] {
      var p := posts[0];
      var known1 := if Accepted(p, known, seuil, dateOf) then known + {p.uri} else known;
      BatchShape(posts[1..], kw, known1, seuil, env, dateOf, fails);
      if Accepted(p, known, seuil, dateOf) && !fails(p.uri) {
        var t := BatchOf(posts[1..], kw, known1, seuil, env, dateOf, fails);
        BatchUris(posts[1..], kw, known1, seuil, env, dateOf, fails);
        DistinctCons(Entry(p, kw, env, dateOf), t);
      }
    }
  }

  /** Every batch row of keyword `kw` is a well formed `post_brut` row for the run started at `now`. */
  lemma {:induction false} BatchWellFormed(posts: seq<Post>, kw: Keyword, known: set<Url>, env: Env,
                                           dateOf: DateReader, fails: Url -> bool, keywords: seq<Keyword>)
    requires kw in keywords
    ensures forall e :: e in BatchOf(posts, kw, known, Threshold(env.now), env, dateOf, fails) ==>
      WellFormedRow(e.0, e.1, keywords, [env.now])
    decreases |posts|
  {
    var seuil := Threshold(env.now);
    if posts != [] {
      var p := posts[0];
      var known1 := if Accepted(p, known, seuil, dateOf) then known + {p.uri} else known;
      BatchWellFormed(posts[1..], kw, known1, env, dateOf, fails, keywords);
      if Accepted(p, known, seuil, dateOf) && !fails(p.uri) {
        var t := BatchOf(posts[1..], kw, known1, seuil, env, dateOf, fails);
        var x := Entry(p, kw, env, dateOf);
        RowOfWellFormed(p, kw, dateOf(p).value, env.scrapAt(p.uri), env.millisAt(p.uri), keywords, [env.now], 0);
        assert forall e :: e in [x] + t <==> e == x || e in t;
      }
    }
  }

  // ---------------------------------------------------------------------
  // Accounts and posts written for one batch
  // ---------------------------------------------------------------------

  /** `compte_brut` after the account statements of the batch rows, in order. */
  function RegisterAll(comptes: map<Did, Compte>, batch: seq<(Url, PostRow)>): map<Did, Compte>
    decreases |batch|
  {
    if batch == [] then comptes
    else
      var c := RegisterAll(comptes, batch[..|batch| - 1]);
      var row := batch[|batch| - 1].1;
      c[row.did := RegisteredRow(if row.did in c then Some(c[row.did]) else None, row.handle, row.dateScrapping)]
  }

  /**
   * Registering a batch keeps every account, only fills missing first-analysis
   * dates of the existing ones, and leaves every author of the batch with a
   * dated account.
   */
  lemma RegisterAllFacts(comptes: map<Did, Compte>, batch: seq<(Url, PostRow)>)
    ensures var r := RegisterAll(comptes, batch);
      && comptes.Keys <= r.Keys
      && (forall d :: d in comptes ==> OnlyDated(comptes[d], r[d]))
      && (forall i :: 0 <= i < |batch| ==> batch[i].1.did in r && r[batch[i].1.did].premiereAnalyse.Some?)
      && (forall d :: d in r && d !in comptes ==> exists i :: 0 <= i < |batch| && batch[i].1.did == d)
  {
    RegisterAllKeeps(comptes, batch);
    RegisterAllDates(comptes, batch);
    RegisterAllFromBatch(comptes, batch);
  }

  /** Registering a batch keeps every account and only fills missing first-analysis dates. */
  lemma {:induction false} RegisterAllKeeps(comptes: map<Did, Compte>, batch: seq<(Url, PostRow)>)
    ensures var r := RegisterAll(comptes, batch);
      && comptes.Keys <= r.Keys
      && (forall d :: d in comptes ==> OnlyDated(comptes[d], r[d]))
    decreases |batch|
  {
    if batch != [] {
      var n := |batch| - 1;
      var p := batch[..n];
      RegisterAllKeeps(comptes, p);
      var c := RegisterAll(comptes, p);
      var row := batch[n].1;
      var r := RegisterAll(comptes, batch);
      var e := if row.did in c then Some(c[row.did]) else None;
      RegisteredRowFacts(e, row.handle, row.dateScrapping, row.dateScrapping);
      forall d | d in comptes
        ensures OnlyDated(comptes[d], r[d])
      {
        if d == row.did {
          OnlyDatedTrans(comptes[d], c[d], r[d]);
        }
      }
    }
  }

  /** After registering a batch, every author of the batch has a dated account. */
  lemma {:induction false} RegisterAllDates(comptes: map<Did, Compte>, batch: seq<(Url, PostRow)>)
    ensures var r := RegisterAll(comptes, batch);
      forall i :: 0 <= i < |batch| ==> batch[i].1.did in r && r[batch[i].1.did].premiereAnalyse.Some?
    decreases |batch|
  {
    if batch != [] {
      var n := |batch| - 1;
      var p := batch[..n];
      RegisterAllDates(comptes, p);
      var c := RegisterAll(comptes, p);
      var row := batch[n].1;
      var r := RegisterAll(comptes, batch);
      var e := if row.did in c then Some(c[row.did]) else None;
      RegisteredRowFacts(e, row.handle, row.dateScrapping, row.dateScrapping);
      forall i | 0 <= i < |batch|
        ensures batch[i].1.did in r && r[batch[i].1.did].premiereAnalyse.Some?
      {
        if i < n {
          assert batch[i] == p[i];
          var d := batch[i].1.did;
          if d != row.did {
            assert r[d] == c[d];
          }
        }
      }
    }
  }

  /** Registering a batch creates accounts only for authors of the batch. */
  lemma {:induction false} RegisterAllFromBatch(comptes: map<Did, Compte>, batch: seq<(Url, PostRow)>)
    ensures var r := RegisterAll(comptes, batch);
      forall d :: d in r && d !in comptes ==> exists i :: 0 <= i < |batch| && batch[i].1.did == d
    decreases |batch|
  {
    if batch != [] {
      var n := |batch| - 1;
      var p := batch[..n];
      RegisterAllFromBatch(comptes, p);
      var row := batch[n].1;
      var r := RegisterAll(comptes, batch);
      forall d | d in r && d !in comptes
        ensures exists i :: 0 <= i < |batch| && batch[i].1.did == d
      {
        if d != row.did {
          var i :| 0 <= i < |p| && p[i].1.did == d;
          assert batch[i] == p[i];
        }
      }
    }
  }

  // ---------------------------------------------------------------------
  // The script
  // ---------------------------------------------------------------------

  /**
   * The per-post loop of keyword `kw`: builds the batch, registers the
   * author of each accepted post, and adds each accepted URI to the known
   * set. In an aborted transaction (`aborted`, or once an account statement
   * failed) the account statements of every accepted post raise, and the
   * post is dropped.
   */
  method CollectBatch(db: ExtractionDb, posts: seq<Post>, kw: Keyword, known: set<Url>, env: Env,
                      dateOf: DateReader, fails: Url -> bool, aborted: bool)
    returns (batch: seq<(Url, PostRow)>, known': set<Url>, aborted': bool)
    modifies db.accounts
    ensures batch == if aborted then [] else BatchOf(posts, kw, known, Threshold(env.now), env, dateOf, fails)
    ensures aborted' == (aborted || Aborts(posts, known, Threshold(env.now), dateOf, fails))
    ensures known' == known + KeysOf(batch)
    ensures db.accounts.comptes == RegisterAll(old(db.accounts.comptes), batch)
  {
    var seuil := Threshold(env.now);
    ghost var start := db.accounts.comptes;
    ghost var whole := BatchOf(posts, kw, known, seuil, env, dateOf, fails);
    ghost var aborts := Aborts(posts, known, seuil, dateOf, fails);
    batch, known', aborted' := [], known, aborted;
    var i := 0;
    while i < |posts|
      invariant 0 <= i <= |posts|
      invariant aborted ==> aborted' && batch == []
      invariant !aborted && aborted' ==> aborts && batch == whole
      invariant !aborted' ==> batch + BatchOf(posts[i..], kw, known', seuil, env, dateOf, fails) == whole
      invariant !aborted' ==> aborts == Aborts(posts[i..], known', seuil, dateOf, fails)
      invariant known' == known + KeysOf(batch)
      invariant db.accounts.comptes == RegisterAll(start, batch)
    {
      var p := posts[i];
      BatchStep(posts, i, kw, known', seuil, env, dateOf, fails);
      var date := dateOf(p);
      if p.uri !in known' && date.Some? && date.value >= seuil {
        if aborted' || fails(p.uri) {
          if !aborted' {
            assert batch + [] == batch;
          }
          aborted' := true;
        } else {
          db.accounts.Register(p.did, p.handle, env.scrapAt(p.uri));
          var e := Entry(p, kw, env, dateOf);
          ghost var rest := BatchOf(posts[i + 1..], kw, known' + {p.uri}, seuil, env, dateOf, fails);
          SnocThenRest(batch, e, rest);
          RegisterAllSnoc(start, batch, e);
          KeysOfSnoc(batch + [e]);
          batch := batch + [e];
          known' := known' + {p.uri};
        }
      }
      i := i + 1;
    }
    if !aborted' {
      assert posts[i..] == [];
      assert batch + [] == batch;
    }
  }

  /** Unfolding the batch and the abort test at position `i`. */
  lemma BatchStep(posts: seq<Post>, i: nat, kw: Keyword, known: set<Url>, seuil: int, env: Env, dateOf: DateReader,
                  fails: Url -> bool)
    requires i < |posts|
    ensures BatchOf(posts[i..], kw, known, seuil, env, dateOf, fails)
         == if !Accepted(posts[i], known, seuil, dateOf)
            then BatchOf(posts[i + 1..], kw, known, seuil, env, dateOf, fails)
            else if fails(posts[i].uri) then []
            else [Entry(posts[i], kw, env, dateOf)] + BatchOf(posts[i + 1..], kw, known + {posts[i].uri}, seuil, env, dateOf, fails)
    ensures Aborts(posts[i..], known, seuil, dateOf, fails)
         == if !Accepted(posts[i], known, seuil, dateOf)
            then Aborts(posts[i + 1..], known, seuil, dateOf, fails)
            else fails(posts[i].uri) || Aborts(posts[i + 1..], known + {posts[i].uri}, seuil, dateOf, fails)
  {
    assert posts[i..][0] == posts[i];
    assert posts[i..][1..] == posts[i + 1..];
  }

  lemma SnocThenRest<T>(a: seq<T>, x: T, r: seq<T>)
    ensures a + ([x] + r) == (a + [x]) + r
  {
  }

  lemma RegisterAllSnoc(comptes: map<Did, Compte>, batch: seq<(Url, PostRow)>, e: (Url, PostRow))
    ensures var c := RegisterAll(comptes, batch);
      RegisterAll(comptes, batch + [e])
      == c[e.1.did := RegisteredRow(if e.1.did in c then Some(c[e.1.did]) else None, e.1.handle, e.1.dateScrapping)]
  {
    assert (batch + [e])[..|batch|] == batch;
  }

  /** `cur.executemany(insert_post, valeurs_batch)`: one DO NOTHING insert per row, in order. */
  method InsertMany(db: ExtractionDb, batch: seq<(Url, PostRow)>)
    modifies db
    ensures db.postBrut == InsertAll(old(db.postBrut), batch)
  {
    var i := 0;
    while i < |batch|
      invariant 0 <= i <= |batch|
      invariant db.postBrut == InsertAll(old(db.postBrut), batch[..i])
    {
      var e := batch[i];
      assert batch[..i + 1][..i] == batch[..i];
      if e.0 !in db.postBrut {
        db.postBrut := db.postBrut[e.0 := e.1];
      }
      i := i + 1;
    }
    assert batch[..|batch|] == batch;
  }

  /**
   * What the run keeps true: every known URI set includes the stored keys,
   * the rows present at the start are untouched, the new ones are well
   * formed, the total is the number of new rows, and the accounts present
   * at the start are kept, at most gaining a first-analysis date.
   */
  ghost predicate Kept(base: map<Url, PostRow>, baseAccounts: map<Did, Compte>,
                       postBrut: map<Url, PostRow>, comptes: map<Did, Compte>,
                       known: set<Url>, total: nat, keywords: seq<Keyword>, now: int)
  {
    && postBrut.Keys <= known
    && base.Keys <= postBrut.Keys
    && (forall u :: u in base ==> postBrut[u] == base[u])
    && (forall u :: u in postBrut && u !in base ==> WellFormedRow(u, postBrut[u], keywords, [now]))
    && total == |postBrut| - |base|
    && baseAccounts.Keys <= comptes.Keys
    && (forall d :: d in baseAccounts ==> OnlyDated(baseAccounts[d], comptes[d]))
  }

  /** A committed batch keeps the run invariant and adds its length to the total. */
  lemma CommitKept(base: map<Url, PostRow>, baseAccounts: map<Did, Compte>,
                   postBrut: map<Url, PostRow>, comptes: map<Did, Compte>,
                   known: set<Url>, total: nat, keywords: seq<Keyword>, now: int,
                   batch: seq<(Url, PostRow)>)
    requires Kept(base, baseAccounts, postBrut, comptes, known, total, keywords, now)
    requires DistinctKeys(batch) && KeysOf(batch) !! known
    requires forall e :: e in batch ==> WellFormedRow(e.0, e.1, keywords, [now])
    ensures Kept(base, baseAccounts, InsertAll(postBrut, batch), RegisterAll(comptes, batch),
                 known + KeysOf(batch), total + |batch|, keywords, now)
  {
    InsertAllFresh(postBrut, batch);
    RegisterAllFacts(comptes, batch);
    var r := InsertAll(postBrut, batch);
    var c := RegisterAll(comptes, batch);
    forall u | u in r && u !in base
      ensures WellFormedRow(u, r[u], keywords, [now])
    {
      if u !in postBrut {
        var e :| e in batch && e.0 == u;
      }
    }
    forall d | d in baseAccounts
      ensures OnlyDated(baseAccounts[d], c[d])
    {
      OnlyDatedTrans(baseAccounts[d], comptes[d], c[d]);
    }
  }

  /**
   * The batch of keyword `j` in round `k` for the examined posts `posts`,
   * and whether the transaction is aborted once they are gathered.
   */
  function KeywordBatch(posts: seq<Post>, kw: Keyword, k: nat, j: nat, env: Env, known: set<Url>,
                        aborted: bool): seq<(Url, PostRow)>
  {
    if aborted then [] else BatchOf(posts, kw, known, Threshold(env.now), env, StrictDate, env.accountFails(k, j))
  }

  predicate KeywordAborts(posts: seq<Post>, k: nat, j: nat, env: Env, known: set<Url>, aborted: bool) {
    aborted || Aborts(posts, known, Threshold(env.now), StrictDate, env.accountFails(k, j))
  }

  /**
   * One keyword of round `k` (its index `j`): gather, build the batch, then
   * write and commit it; on failure roll back this keyword's statements.
   * `aborted` is the connection's state: an aborted transaction refuses
   * every statement until a rollback.
   */
  method ProcessKeyword(db: ExtractionDb, kw: Keyword, k: nat, j: nat, keywords: seq<Keyword>, env: Env,
                        known: set<Url>, total: nat, aborted: bool,
                        ghost base: map<Url, PostRow>, ghost baseAccounts: map<Did, Compte>)
    returns (known': set<Url>, total': nat, aborted': bool)
    requires kw in keywords
    requires Kept(base, baseAccounts, db.postBrut, db.accounts.comptes, known, total, keywords, env.now)
    modifies db, db.accounts
    ensures Kept(base, baseAccounts, db.postBrut, db.accounts.comptes, known', total', keywords, env.now)
    ensures var buffer := Examined(env.searches(k), kw.keyword, true);
      buffer.None? ==>
        && known' == known && total' == total && aborted' == aborted
        && db.postBrut == old(db.postBrut) && db.accounts.comptes == old(db.accounts.comptes)
    ensures var buffer := Examined(env.searches(k), kw.keyword, true);
      buffer.Some? ==>
        var batch := KeywordBatch(buffer.value, kw, k, j, env, known, aborted);
        var failed := KeywordAborts(buffer.value, k, j, env, known, aborted);
        && known' == known + KeysOf(batch) && KeysOf(batch) !! known
        && aborted' == (failed && batch == [])
        && if batch != [] && !failed && !env.batchFails(k, j) then
             && db.postBrut == InsertAll(old(db.postBrut), batch)
             && db.accounts.comptes == RegisterAll(old(db.accounts.comptes), batch)
             && total' == total + |batch|
           else
             && db.postBrut == old(db.postBrut)
             && db.accounts.comptes == old(db.accounts.comptes)
             && total' == total
  {
    known', total', aborted' := known, total, aborted;
    var buffer := FetchBuffer(env.searches(k), kw.keyword, true);
    if buffer.None? {
      return;
    }
    var saved := db.accounts.comptes;
    var fails := env.accountFails(k, j);
    var batch;
    batch, known', aborted' := CollectBatch(db, buffer.value, kw, known, env, StrictDate, fails, aborted);
    BatchUris(buffer.value, kw, known, Threshold(env.now), env, StrictDate, fails);
    BatchShape(buffer.value, kw, known, Threshold(env.now), env, StrictDate, fails);
    BatchWellFormed(buffer.value, kw, known, env, StrictDate, fails, keywords);
    CommitKept(base, baseAccounts, db.postBrut, saved, known, total, keywords, env.now, batch);
    if batch != [] {
      if aborted' || env.batchFails(k, j) {
        db.accounts.comptes := saved;
        aborted' := false;
      } else {
        InsertMany(db, batch);
        total' := total + |batch|;
      }
    }
  }

  /**
   * The whole script over the keyword list: returns `total_posts_insérés`.
   * Rows present before are untouched, every new row is well formed, the
   * total is the number of new rows, and accounts are only added or dated.
   */
  method Run(db: ExtractionDb, keywords: seq<Keyword>, env: Env) returns (total: nat)
    modifies db, db.accounts
    ensures old(db.postBrut).Keys <= db.postBrut.Keys
    ensures forall u :: u in old(db.postBrut) ==> db.postBrut[u] == old(db.postBrut)[u]
    ensures forall u :: u in db.postBrut && u !in old(db.postBrut) ==>
      WellFormedRow(u, db.postBrut[u], keywords, [env.now])
    ensures total == |db.postBrut| - |old(db.postBrut)|
    ensures old(db.accounts.comptes).Keys <= db.accounts.comptes.Keys
    ensures forall d :: d in old(db.accounts.comptes) ==> OnlyDated(old(db.accounts.comptes)[d], db.accounts.comptes[d])
  {
    ghost var base := db.postBrut;
    ghost var baseAccounts := db.accounts.comptes;
    var known := db.postBrut.Keys;
    var aborted := false;
    total := 0;
    var k := 0;
    while k < Rounds
      invariant 0 <= k <= Rounds
      invariant Kept(base, baseAccounts, db.postBrut, db.accounts.comptes, known, total, keywords, env.now)
      invariant base == old(db.postBrut) && baseAccounts == old(db.accounts.comptes)
    {
      var j := 0;
      while j < |keywords|
        invariant 0 <= j <= |keywords|
        invariant Kept(base, baseAccounts, db.postBrut, db.accounts.comptes, known, total, keywords, env.now)
      {
        known, total, aborted := ProcessKeyword(db, keywords[j], k, j, keywords, env, known, total, aborted, base, baseAccounts);
        j := j + 1;
      }
      k := k + 1;
    }
  }
}

=== FILE: ranking.dfy ===
/**
 * Ranking of the keywords of one (day, category) group: by decreasing
 * occurrence count, ties broken by increasing keyword (the order in which
 * the grouped keyword table arrives at the stable multi-column sort).
 */
module Ranking {
  import opened Common
  import opened StringOrder

  function OccOf(occ: map<string, nat>, w: string): nat {
    if w in occ then occ[w] else 0
  }

  /** `a` is ranked before `b`. */
  predicate Before(occ: map<string, nat>, a: string, b: string) {
    OccOf(occ, a) > OccOf(occ, b) || (OccOf(occ, a) == OccOf(occ, b) && LexLess(a, b))
  }

  predicate Ranked(occ: map<string, nat>, r: seq<string>) {
    forall i, j :: 0 <= i < j < |r| ==> Before(occ, r[i], r[j])
  }

  lemma BeforeTotal(occ: map<string, nat>, a: string, b: string)
    requires a != b
    ensures Before(occ, a, b) || Before(occ, b, a)
  {
    LexLessTotal(a, b);
  }

  lemma BeforeTransitive(occ: map<string, nat>, a: string, b: string, c: string)
    requires Before(occ, a, b) && Before(occ, b, c)
    ensures Before(occ, a, c)
  {
    if OccOf(occ, a) == OccOf(occ, b) == OccOf(occ, c) {
      LexLessTransitive(a, b, c);
    }
  }

  lemma BeforeIrreflexive(occ: map<string, nat>, a: string)
    ensures !Before(occ, a, a)
  {
    LexLessIrreflexive(a);
  }

  /** The distinct elements of a sequence. */
  function Distinct(xs: seq<string>): (r: seq<string>)
    ensures NoDup(r)
    ensures forall x :: x in r <==> x in xs
  {
    if xs == [] then []
    else if xs[0] in xs[1..] then Distinct(xs[1..])
    else [xs[0]] + Distinct(xs[1..])
  }

  function Insert(occ: map<string, nat>, x: string, s: seq<string>): seq<string> {
    if s == [] then [x]
    else if Before(occ, x, s[0]) then [x] + s
    else [s[0]] + Insert(occ, x, s[1..])
  }

  lemma {:induction false} InsertRanked(occ: map<string, nat>, x: string, s: seq<string>)
    requires Ranked(occ, s) && x !in s
    ensures Ranked(occ, Insert(occ, x, s))
    ensures multiset(Insert(occ, x, s)) == multiset(s) + multiset{x}
    decreases |s|
  {
    InsertMultiset(occ, x, s);
    if s == [] {
    } else if Before(occ, x, s[0]) {
      HeadBeforeAll(occ, s);
      forall y | y in s
        ensures Before(occ, x, y)
      {
        if y != s[0] {
          assert y in s[1..];
          BeforeTransitive(occ, x, s[0], y);
        }
      }
      RankedCons(occ, x, s);
    } else {
      BeforeTotal(occ, x, s[0]);
      RankedTail(occ, s);
      InsertRanked(occ, x, s[1..]);
      HeadBeforeAll(occ, s);
      var t := Insert(occ, x, s[1..]);
      forall y | y in t
        ensures Before(occ, s[0], y)
      {
        assert y in multiset(t);
      }
      RankedCons(occ, s[0], t);
    }
  }

  /** Insertion adds the element once and keeps the others. */
  lemma {:induction false} InsertMultiset(occ: map<string, nat>, x: string, s: seq<string>)
    ensures multiset(Insert(occ, x, s)) == multiset(s) + multiset{x}
    decreases |s|
  {
    if s != [] && !Before(occ, x, s[0]) {
      InsertMultiset(occ, x, s[1..]);
      assert s == [s[0]] + s[1..];
    }
  }

  /** An element ranked before every element of a ranked sequence can head it. */
  lemma RankedCons(occ: map<string, nat>, a: string, t: seq<string>)
    requires Ranked(occ, t) && forall y :: y in t ==> Before(occ, a, y)
    ensures Ranked(occ, [a] + t)
  {
    var r := [a] + t;
    forall i, j | 0 <= i < j < |r|
      ensures Before(occ, r[i], r[j])
    {
      assert r[j] == t[j - 1];
      if i > 0 {
        assert r[i] == t[i - 1];
      }
    }
  }

  /** The tail of a ranked sequence is ranked. */
  lemma RankedTail(occ: map<string, nat>, s: seq<string>)
    requires Ranked(occ, s) && s != []
    ensures Ranked(occ, s[1..])
  {
    forall i, j | 0 <= i < j < |s| - 1
      ensures Before(occ, s[1..][i], s[1..][j])
    {
      assert s[1..][i] == s[i + 1] && s[1..][j] == s[j + 1];
    }
  }

  /** The head of a ranked sequence is ranked before the rest. */
  lemma HeadBeforeAll(occ: map<string, nat>, s: seq<string>)
    requires Ranked(occ, s) && s != []
    ensures forall y :: y in s[1..] ==> Before(occ, s[0], y)
  {
    forall y | y in s[1..]
      ensures Before(occ, s[0], y)
    {
      var k :| 0 <= k < |s| - 1 && s[1..][k] == y;
      assert s[k + 1] == y;
    }
  }

  /** Insertion sort by `Before`. */
  function Sort(occ: map<string, nat>, xs: seq<string>): seq<string> {
    if xs == [] then [] else Insert(occ, xs[0], Sort(occ, xs[1..]))
  }

  lemma {:induction false} SortRanked(occ: map<string, nat>, xs: seq<string>)
    requires NoDup(xs)
    ensures Ranked(occ, Sort(occ, xs))
    ensures multiset(Sort(occ, xs)) == multiset(xs)
    decreases |xs|
  {
    if xs != [] {
      assert NoDup(xs[1..]);
      SortRanked(occ, xs[1..]);
      assert xs == [xs[0]] + xs[1..];
      assert xs[0] !in multiset(Sort(occ, xs[1..]));
      InsertRanked(occ, xs[0], Sort(occ, xs[1..]));
    }
  }

  /**
   * The ranking of a group: its distinct keywords, best first. Ranks are
   * positions plus one.
   */
  function RankWords(occ: map<string, nat>, words: seq<string>): (r: seq<string>)
    ensures Ranked(occ, r)
    ensures NoDup(r)
    ensures forall w :: w in r <==> w in words
  {
    var d := Distinct(words);
    SortRanked(occ, d);
    var r := Sort(occ, d);
    assert forall w :: w in r <==> w in multiset(d);
    forall i, j | 0 <= i < j < |r| ensures r[i] != r[j] {
      BeforeIrreflexive(occ, r[i]);
    }
    r
  }

  /** A strictly ranked sequence is determined by its elements. */
  lemma {:induction false} RankedUnique(occ: map<string, nat>, r1: seq<string>, r2: seq<string>)
    requires Ranked(occ, r1) && Ranked(occ, r2)
    requires forall w :: w in r1 <==> w in r2
    ensures r1 == r2
    decreases |r1|
  {
    assert r1 != [] ==> r1[0] in r1;
    assert r2 != [] ==> r2[0] in r2;
    if r1 != [] && r2 != [] {
      if r1[0] != r2[0] {
        BeforeTotal(occ, r1[0], r2[0]);
        assert r1[0] in r1 && r2[0] in r2;
        if Before(occ, r1[0], r2[0]) {
          assert r1[0] in r2;
          var k :| 0 <= k < |r2| && r2[k] == r1[0];
          assert Before(occ, r2[0], r2[k]);
          BeforeAsymmetricHelper(occ, r2[0], r1[0]);
        } else {
          assert false;
        }
      } else {
        forall w ensures w in r1[1..] <==> w in r2[1..] {
          if w in r1[1..] {
            var k :| 0 <= k < |r1[1..]| && r1[1..][k] == w;
            assert Before(occ, r1[0], r1[k + 1]);
            BeforeIrreflexive(occ, w);
            assert w in r2 && w != r2[0];
            var m :| 0 <= m < |r2| && r2[m] == w;
            assert r2[1..][m - 1] == w;
          }
          if w in r2[1..] {
            var k :| 0 <= k < |r2[1..]| && r2[1..][k] == w;
            assert Before(occ, r2[0], r2[k + 1]);
            BeforeIrreflexive(occ, w);
            assert w in r1 && w != r1[0];
            var m :| 0 <= m < |r1| && r1[m] == w;
            assert r1[1..][m - 1] == w;
          }
        }
        RankedUnique(occ, r1[1..], r2[1..]);
        assert r1 == [r1[0]] + r1[1..] && r2 == [r2[0]] + r2[1..];
      }
    }
  }

  lemma BeforeAsymmetricHelper(occ: map<string, nat>, a: string, b: string)
    ensures !(Before(occ, a, b) && Before(occ, b, a))
  {
    LexLessAsymmetric(a, b);
  }

  /** Position of an element in a sequence. */
  function IndexOf(r: seq<string>, x: string): (i: nat)
    requires x in r
    ensures i < |r| && r[i] == x
    ensures forall j :: 0 <= j < i ==> r[j] != x
  {
    if r[0] == x then 0 else 1 + IndexOf(r[1..], x)
  }

  lemma {:induction false} DistinctCardinality(s: seq<string>)
    requires NoDup(s)
    ensures |set x | x in s| == |s|
    decreases |s|
  {
    if s != [] {
      var t := s[1..];
      assert NoDup(t);
      DistinctCardinality(t);
      assert (set x | x in s) == {s[0]} + (set x | x in t);
      assert s[0] !in (set x | x in t);
    }
  }

  /**
   * In a ranking, the position of a keyword is the number of keywords ranked
   * before it: rank = 1 + |{w | w better than x}|.
   */
  lemma PositionCountsBetter(occ: map<string, nat>, r: seq<string>, x: string)
    requires Ranked(occ, r) && NoDup(r) && x in r
    ensures IndexOf(r, x) == |set w | w in r && Before(occ, w, x)|
  {
    var i := IndexOf(r, x);
    var better := set w | w in r && Before(occ, w, x);
    assert better == set w | w in r[..i] by {
      forall w | w in r && Before(occ, w, x) ensures w in r[..i] {
        var j :| 0 <= j < |r| && r[j] == w;
        if j >= i {
          if j == i { BeforeIrreflexive(occ, x); }
          else { BeforeAsymmetricHelper(occ, w, x); }
        }
        assert r[..i][j] == w;
      }
      forall w | w in r[..i] ensures w in r && Before(occ, w, x) {
        var j :| 0 <= j < i && r[..i][j] == w;
      }
    }
    assert NoDup(r[..i]);
    DistinctCardinality(r[..i]);
  }
}

=== FILE: read_filter.dfy ===
// The WHERE clauses of the read-side endpoints: each endpoint appends SQL
// conditions to a `where` list and their values to a `params` list, then
// joins the conditions with " AND ". A condition is modelled by what it
// renders to (its SQL text with `%s` placeholders), the values it binds and
// what it selects; the lemmas show that the rendered clause always carries
// exactly as many placeholders as there are parameters, in order.

module SqlFilter {
  import opened Common

  /** A bound query parameter: a `datetime.date` (a day number) or a string. */
  datatype Value = DateV(day: int) | TextV(text: string)

  /** The `period` query parameter, validated against `^(today|week|all)$`. */
  datatype Period = Today | Week | AllTime

  function PeriodText(p: Period): string {
    match p
    case Today => "today"
    case Week => "week"
    case AllTime => "all"
  }

  /** Query validation: anything but the three words is refused (HTTP 422). */
  function ParsePeriod(s: string): Option<Period> {
    if s == "today" then Some(Today)
    else if s == "week" then Some(Week)
    else if s == "all" then Some(AllTime)
    else None
  }

  /** Exactly the three period words are accepted, and each names its period. */
  lemma ParsePeriodExact(s: string, p: Period)
    ensures ParsePeriod(PeriodText(p)) == Some(p)
    ensures ParsePeriod(s) == Some(p) <==> s == PeriodText(p)
    ensures ParsePeriod(s).None? <==> s != "today" && s != "week" && s != "all"
  {
  }

  // ---------------------------------------------------------------------
  // Conditions
  // ---------------------------------------------------------------------

  /** The conditions the endpoints append to their `where` lists. */
  datatype Cond =
    | BrutDateWindow(start: int, end: int)  // post_brut_date >= %s AND post_brut_date < %s
    | CategoryIs(cat: string)                // categorie = %s
    | PostDateBetween(lo: string, hi: string)// post_date BETWEEN %s AND %s
    | PostDateFrom(start: int)              // post_date >= %s
    | PostDateIsToday                       // post_date = CURRENT_DATE
    | PostDateLastWeek                      // post_date >= CURRENT_DATE - INTERVAL '7 days'

  const Hole: string := "%s"

  /** The SQL text appended to `where` for a condition. */
  function Sql(c: Cond): string {
    match c
    case BrutDateWindow(_, _) => "post_brut_date >= " + Hole + " AND " + "post_brut_date < " + Hole
    case CategoryIs(_) => "categorie = " + Hole
    case PostDateBetween(_, _) => "post_date BETWEEN " + Hole + " AND " + Hole
    case PostDateFrom(_) => "post_date >= " + Hole
    case PostDateIsToday => "post_date = CURRENT_DATE"
    case PostDateLastWeek => "post_date >= CURRENT_DATE" + " - INTERVAL " + "'7 days'"
  }

  /** The values appended to `params` with the condition, in placeholder order. */
  function Args(c: Cond): seq<Value> {
    match c
    case BrutDateWindow(start, end) => [DateV(start), DateV(end)]
    case CategoryIs(cat) => [TextV(cat)]
    case PostDateBetween(lo, hi) => [TextV(lo), TextV(hi)]
    case PostDateFrom(start) => [DateV(start)]
    case PostDateIsToday => []
    case PostDateLastWeek => []
  }

  /** A row as the filters see it: its date column (as a day) and its `categorie`. */
  datatype Row = Row(day: int, cat: string)

  /**
   * What the database knows when it evaluates a filter: `CURRENT_DATE`, and how
   * it reads a date string bound as text.
   */
  datatype Ctx = Ctx(today: int, castDate: string -> int)

  /** Whether a row satisfies a condition. */
  predicate Holds(c: Cond, r: Row, ctx: Ctx) {
    match c
    case BrutDateWindow(start, end) => start <= r.day < end
    case CategoryIs(cat) => r.cat == cat
    case PostDateBetween(lo, hi) => ctx.castDate(lo) <= r.day <= ctx.castDate(hi)
    case PostDateFrom(start) => start <= r.day
    case PostDateIsToday => r.day == ctx.today
    case PostDateLastWeek => ctx.today - 7 <= r.day
  }

  /** A conjunction of conditions; the empty one is `1=1`. */
  predicate Matches(conds: seq<Cond>, r: Row, ctx: Ctx) {
    forall i :: 0 <= i < |conds| ==> Holds(conds[i], r, ctx)
  }

  function Texts(conds: seq<Cond>): (ts: seq<string>)
    ensures |ts| == |conds|
    ensures forall i :: 0 <= i < |conds| ==> ts[i] == Sql(conds[i])
  {
    seq(|conds|, i requires 0 <= i < |conds| => Sql(conds[i]))
  }

  function AllArgs(conds: seq<Cond>): seq<Value> {
    if conds == [] then [] else Args(conds[0]) + AllArgs(conds[1..])
  }

  lemma TextsSnoc(conds: seq<Cond>, c: Cond)
    ensures Texts(conds + [c]) == Texts(conds) + [Sql(c)]
  {
  }

  lemma {:induction false} AllArgsSnoc(conds: seq<Cond>, c: Cond)
    ensures AllArgs(conds + [c]) == AllArgs(conds) + Args(c)
    decreases |conds|
  {
    if conds == [] {
      assert conds + [c] == [c];
      assert [c][1..] == [];
    } else {
      assert (conds + [c])[1..] == conds[1..] + [c];
      AllArgsSnoc(conds[1..], c);
    }
  }

  /** A query as sent to the database: the WHERE text and the bound values. */
  datatype Query = Query(where: string, params: seq<Value>)

  /**
   * An endpoint's answer: refused by query validation (HTTP 422), an
   * `HTTPException` raised by the endpoint itself, an uncaught exception
   * (HTTP 500 from the framework), or a JSON body.
   */
  datatype Reply<T> = Rejected | Failed(status: nat, detail: string) | Crashed | Body(value: T)

  /** `" AND ".join(where) if where else "1=1"`. */
  function WhereOr1(where: seq<string>): string {
    if where == [] then "1=1" else Join(where, " AND ")
  }

  /** `"WHERE " + " AND ".join(where) if where else ""`. */
  function WherePrefixed(where: seq<string>): string {
    if where == [] then "" else "WHERE " + Join(where, " AND ")
  }

  // ---------------------------------------------------------------------
  // Placeholders
  // ---------------------------------------------------------------------

  /** The number of `%s` placeholders in a query text. */
  function Placeholders(s: string): nat {
    if |s| < 2 then 0
    else (if s[0] == '%' && s[1] == 's' then 1 else 0) + Placeholders(s[1..])
  }

  predicate NoPercent(s: string) {
    forall i :: 0 <= i < |s| ==> s[i] != '%'
  }

  /** Placeholders add up over a concatenation that does not create one at the seam. */
  lemma {:induction false} PlaceholdersConcat(a: string, b: string)
    requires a == [] || b == [] || a[|a| - 1] != '%' || b[0] != 's'
    ensures Placeholders(a + b) == Placeholders(a) + Placeholders(b)
    decreases |a|
  {
    if a == [] {
      assert a + b == b;
    } else if b == [] {
      assert a + b == a;
    } else if |a| == 1 {
      assert (a + b)[1..] == b;
    } else {
      assert (a + b)[1..] == a[1..] + b;
      PlaceholdersConcat(a[1..], b);
    }
  }

  lemma {:induction false} NoPercentNoPlaceholder(s: string)
    requires NoPercent(s)
    ensures Placeholders(s) == 0
    decreases |s|
  {
    if |s| >= 2 {
      NoPercentNoPlaceholder(s[1..]);
    }
  }

  /** Text, then one placeholder. */
  lemma TextThenHole(t: string)
    requires t != [] && NoPercent(t)
    ensures Placeholders(t + Hole) == 1
  {
    NoPercentNoPlaceholder(t);
    PlaceholdersConcat(t, Hole);
  }

  /** Text, a placeholder, more text and a second placeholder. */
  lemma TwoHoles(t: string, u: string)
    requires t != [] && NoPercent(t) && u != [] && NoPercent(u)
    ensures Placeholders(t + Hole + u + Hole) == 2
  {
    TextThenHole(t);
    TextThenHole(u);
    assert t + Hole + u + Hole == (t + Hole) + (u + Hole);
    PlaceholdersConcat(t + Hole, u + Hole);
  }

  lemma NoPlaceholderToday()
    ensures Placeholders("post_date = CURRENT_DATE") == 0
  {
    NoPercentNoPlaceholder("post_date = CURRENT_DATE");
  }

  lemma NoPlaceholderLastWeek()
    ensures Placeholders(Sql(PostDateLastWeek)) == 0
  {
    NoPercentNoPlaceholder(Sql(PostDateLastWeek));
  }

  /** Every condition's text has one placeholder per value it binds. */
  lemma SqlPlaceholders(c: Cond)
    ensures Placeholders(Sql(c)) == |Args(c)|
  {
    match c
    case BrutDateWindow(_, _) =>
      TwoHoles("post_brut_date >= ", " AND " + "post_brut_date < ");
      assert Sql(c) == "post_brut_date >= " + Hole + (" AND " + "post_brut_date < ") + Hole;
    case CategoryIs(_) =>
      TextThenHole("categorie = ");
    case PostDateBetween(_, _) =>
      TwoHoles("post_date BETWEEN ", " AND ");
    case PostDateFrom(_) =>
      TextThenHole("post_date >= ");
    case PostDateIsToday =>
      NoPlaceholderToday();
    case PostDateLastWeek =>
      NoPlaceholderLastWeek();
  }

  /** Joining condition texts with " AND " keeps every placeholder and adds none. */
  lemma {:induction false} JoinPlaceholders(conds: seq<Cond>)
    requires conds != []
    ensures Placeholders(Join(Texts(conds), " AND ")) == |AllArgs(conds)|
    decreases |conds|
  {
    SqlPlaceholders(conds[0]);
    if |conds| > 1 {
      var rest := conds[1..];
      assert Texts(conds)[1..] == Texts(rest);
      var head := Sql(conds[0]);
      var tail := Join(Texts(rest), " AND ");
      assert Join(Texts(conds), " AND ") == head + " AND " + tail;
      NoPercentNoPlaceholder(" AND ");
      PlaceholdersConcat(head, " AND ");
      PlaceholdersConcat(head + " AND ", tail);
      JoinPlaceholders(rest);
      assert Placeholders(Join(Texts(conds), " AND ")) == |Args(conds[0])| + |AllArgs(rest)|;
    }
  }

  /** The `1=1` form binds exactly the collected parameters. */
  lemma WhereOr1Placeholders(conds: seq<Cond>)
    ensures Placeholders(WhereOr1(Texts(conds))) == |AllArgs(conds)|
  {
    if conds == [] {
      assert WhereOr1(Texts(conds)) == "1=1";
      NoPercentNoPlaceholder("1=1");
    } else {
      JoinPlaceholders(conds);
    }
  }

  /** The `WHERE`-prefixed form binds exactly the collected parameters, and is empty without conditions. */
  lemma WherePrefixedPlaceholders(conds: seq<Cond>)
    ensures Placeholders(WherePrefixed(Texts(conds))) == |AllArgs(conds)|
    ensures WherePrefixed(Texts(conds)) == "" <==> conds == []
    ensures conds != [] ==> WherePrefixed(Texts(conds))[..6] == "WHERE "
  {
    if conds != [] {
      var w := WherePrefixed(Texts(conds));
      assert w == "WHERE " + Join(Texts(conds), " AND ");
      JoinPlaceholders(conds);
      NoPercentNoPlaceholder("WHERE ");
      PlaceholdersConcat("WHERE ", Join(Texts(conds), " AND "));
      assert |w| >= 6;
    }
  }
}

=== FILE: schema.dfy ===
/**
 * Rows of the PostgreSQL tables shared by several jobs. A table is a map
 * from its primary key to its row; instants are microseconds since the Unix
 * epoch and days are whole days since the epoch (UTC).
 */
module Schema {

  type Url = string

  const MicrosPerSecond: int := 1_000_000
  const MicrosPerDay: int := 86_400 * MicrosPerSecond

  /** `DATE(ts)`: the calendar day an instant falls in. */
  function DayOf(instant: int): int {
    instant / MicrosPerDay
  }

  /**
   * The sliding window of the trends and keywords jobs: `window == 0` keeps
   * the whole history, otherwise the instant must be at or after midnight
   * `window` days before `today`.
   */
  predicate InWindow(window: int, today: int, instant: int) {
    window == 0 || instant >= (today - window) * MicrosPerDay
  }

  /** Progress flag of a cleaned post in the trends and keywords jobs. */
  datatype Status = Pending | Done

  /**
   * A `post_clean` row. The cleaning job does not write the two status
   * columns; the model gives them the value `'pending'` that the trends and
   * keywords jobs select on.
   */
  datatype CleanRow = CleanRow(
    contenu: string,
    langue: string,
    poids: nat,
    nettoyage: int,
    trendStatus: Status,
    keywordStatus: Status)
}

=== FILE: string_order.dfy ===
/**
 * Code-point lexicographic order on strings, the order Python uses to
 * compare `str` values and pandas uses to sort them.
 */
module StringOrder {

  /** `a < b` on Python strings. */
  predicate LexLess(a: string, b: string)
    decreases |a|
  {
    if a == [] then b != []
    else b != [] && (a[0] < b[0] || (a[0] == b[0] && LexLess(a[1..], b[1..])))
  }

  lemma {:induction false} LexLessIrreflexive(a: string)
    ensures !LexLess(a, a)
    decreases |a|
  {
    if a != [] {
      LexLessIrreflexive(a[1..]);
    }
  }

  lemma {:induction false} LexLessAsymmetric(a: string, b: string)
    ensures !(LexLess(a, b) && LexLess(b, a))
    decreases |a|
  {
    if a != [] && b != [] && a[0] == b[0] {
      LexLessAsymmetric(a[1..], b[1..]);
    }
  }

  lemma {:induction false} LexLessTransitive(a: string, b: string, c: string)
    requires LexLess(a, b) && LexLess(b, c)
    ensures LexLess(a, c)
    decreases |a|
  {
    if a != [] && a[0] == b[0] && b[0] == c[0] {
      LexLessTransitive(a[1..], b[1..], c[1..]);
    }
  }

  /** Two different strings are always ordered one way or the other. */
  lemma {:induction false} LexLessTotal(a: string, b: string)
    requires a != b
    ensures LexLess(a, b) || LexLess(b, a)
    decreases |a|
  {
    if a != [] && b != [] && a[0] == b[0] {
      assert a == [a[0]] + a[1..] && b == [b[0]] + b[1..];
      LexLessTotal(a[1..], b[1..]);
    }
  }

  /** Strings that agree up to position k and differ there are ordered by that position. */
  lemma {:induction false} LexLessAt(a: string, b: string, k: nat)
    requires k < |a| && k < |b| && a[..k] == b[..k] && a[k] < b[k]
    ensures LexLess(a, b)
    decreases k
  {
    if k > 0 {
      assert a[0] == a[..k][0] == b[..k][0] == b[0];
      assert a[1..][..k - 1] == a[1..k] == a[..k][1..];
      assert b[1..][..k - 1] == b[1..k] == b[..k][1..];
      LexLessAt(a[1..], b[1..], k - 1);
    }
  }
}

=== FILE: text_cleaning.dfy ===
/**
 * Text normalisation of post contents.
 *
 * Two cleaners share one shape: a single left-to-right substitution pass of
 * the alternation `http\S+ | [@#]\S+ | <one punctuation character>` followed
 * by collapsing whitespace runs to one blank and trimming.
 *  - `NettoyerTexte` (batch cleaning job) lower-cases first, deletes every
 *    match and treats every non-word, non-space character as punctuation;
 *  - `Nettoyer` (single-post analysis) replaces matches with a blank and
 *    keeps the two apostrophes `'` and `’`.
 */
module TextCleaning {
  import opened Common

  // ---------------------------------------------------------------------
  // Whitespace normalisation: re.sub(r"\s+", " ", s).strip()
  // ---------------------------------------------------------------------

  /** Length of the leading run of whitespace. */
  function SpaceRun(s: string): (n: nat)
    ensures n <= |s|
    ensures forall i :: 0 <= i < n ==> IsSpace(s[i])
    ensures n < |s| ==> !IsSpace(s[n])
  {
    if s != [] && IsSpace(s[0]) then 1 + SpaceRun(s[1..]) else 0
  }

  /** Every maximal whitespace run replaced by one blank. */
  function Collapse(s: string): (r: string)
    ensures forall i :: 0 <= i < |r| && IsSpace(r[i]) ==> r[i] == ' '
    ensures forall i :: 0 <= i < |r| - 1 ==> !(IsSpace(r[i]) && IsSpace(r[i + 1]))
    ensures s != [] ==> r != [] && (IsSpace(r[0]) <==> IsSpace(s[0]))
    ensures forall c :: c in r ==> c == ' ' || (c in s && !IsSpace(c))
    decreases |s|
  {
    if s == [] then []
    else if IsSpace(s[0]) then " " + Collapse(s[SpaceRun(s)..])
    else [s[0]] + Collapse(s[1..])
  }

  /** Shape of a normalised text: blanks only, never two in a row, none at either end. */
  predicate Normalized(t: string) {
    (forall i :: 0 <= i < |t| && IsSpace(t[i]) ==> t[i] == ' ')
    && (forall i :: 0 <= i < |t| - 1 ==> !(IsSpace(t[i]) && IsSpace(t[i + 1])))
    && (t != [] ==> !IsSpace(t[0]) && !IsSpace(t[|t| - 1]))
  }

  function Normalize(s: string): (r: string)
    ensures Normalized(r)
    ensures forall c :: c in r ==> c == ' ' || (c in s && !IsSpace(c))
  {
    var c := Collapse(s);
    StripKeepsCollapsed(c);
    Strip(c)
  }

  /** Whitespace is only the blank, and never two in a row. */
  predicate SingleBlanks(t: string) {
    (forall i :: 0 <= i < |t| && IsSpace(t[i]) ==> t[i] == ' ')
    && (forall i :: 0 <= i < |t| - 1 ==> !(IsSpace(t[i]) && IsSpace(t[i + 1])))
  }

  /** Trimming a text with single blanks only gives a normalised text. */
  lemma StripKeepsCollapsed(c: string)
    requires SingleBlanks(c)
    ensures Normalized(Strip(c))
  {
    var l := StripLeft(c);
    SuffixKeepsBlanks(c, |c| - |l|);
    assert SingleBlanks(l);
    var r := StripRight(l);
    PrefixKeepsBlanks(l, |r|);
    assert SingleBlanks(r);
    assert r != [] ==> r[0] == l[0];
    NormalizedOfEnds(r);
  }

  /** Single blanks and no whitespace at either end make a normalised text. */
  lemma NormalizedOfEnds(t: string)
    requires SingleBlanks(t)
    requires t != [] ==> !IsSpace(t[0]) && !IsSpace(t[|t| - 1])
    ensures Normalized(t)
  {
  }

  /** A suffix of a text with single blanks only has single blanks only. */
  lemma SuffixKeepsBlanks(c: string, a: nat)
    requires a <= |c| && SingleBlanks(c)
    ensures SingleBlanks(c[a..])
  {
    var t := c[a..];
    forall i | 0 <= i < |t|
      ensures t[i] == c[a + i]
    {
    }
  }

  /** A prefix of a text with single blanks only has single blanks only. */
  lemma PrefixKeepsBlanks(c: string, b: nat)
    requires b <= |c| && SingleBlanks(c)
    ensures SingleBlanks(c[..b])
  {
    var t := c[..b];
    forall i | 0 <= i < |t|
      ensures t[i] == c[i]
    {
    }
  }

  // ---------------------------------------------------------------------
  // The substitution pass
  // ---------------------------------------------------------------------

  /** A match of `http\S+` or `[@#]\S+` starts here; it spans the whole non-space run. */
  predicate DroppedRunAt(s: string) {
    (StartsWith(s, "http") && |s| > 4 && !IsSpace(s[4]))
    || (|s| > 1 && (s[0] == '@' || s[0] == '#') && !IsSpace(s[1]))
  }

  /**
   * One pass of `re.sub(r"http\S+|[@#]\S+|[^\w\s<keep>]", repl, s)`: matches are
   * tried at each position in the order of the alternation and never overlap.
   */
  function Scrub(s: string, keep: set<char>, repl: string): (r: string)
    ensures forall c :: c in r ==> c in repl || (c in s && (IsWord(c) || IsSpace(c) || c in keep))
    decreases |s|
  {
    if s == [] then []
    else if DroppedRunAt(s) then repl + Scrub(s[WordRun(s)..], keep, repl)
    else if !IsWord(s[0]) && !IsSpace(s[0]) && s[0] !in keep then repl + Scrub(s[1..], keep, repl)
    else [s[0]] + Scrub(s[1..], keep, repl)
  }

  /** `nettoyer_texte` of the batch cleaning job. */
  function NettoyerTexte(s: string): (r: string)
    ensures Normalized(r)
    ensures forall c :: c in r ==> c == ' ' || (IsWord(c) && !IsUpper(c))
  {
    var low := Lower(s);
    LowerHasNoUpper(s);
    Normalize(Scrub(low, {}, ""))
  }

  /** Lower-casing leaves no capital. */
  lemma LowerHasNoUpper(s: string)
    ensures forall c :: c in Lower(s) ==> !IsUpper(c)
  {
    var low := Lower(s);
    forall c | c in low
      ensures !IsUpper(c)
    {
      var i :| 0 <= i < |low| && low[i] == c;
      assert c == LowerChar(s[i]);
    }
  }

  const Apostrophes: set<char> := {'\'', '’'}

  /** `nettoyer` of the single-post analysis: case is kept, matches become blanks. */
  function Nettoyer(s: string): (r: string)
    ensures Normalized(r)
    ensures forall c :: c in r ==> c == ' ' || IsWord(c) || c in Apostrophes
  {
    Normalize(Scrub(s, Apostrophes, " "))
  }

  // ---------------------------------------------------------------------
  // Properties
  // ---------------------------------------------------------------------

  /** After the first blank of a normalised text, the remainder is normalised too. */
  lemma NormalizedAfterBlank(t: string, n: nat)
    requires Normalized(t) && n < |t| && t[n] == ' '
    ensures n < |t| - 1
    ensures Normalized(t[n + 1..])
  {
    var rest := t[n + 1..];
    forall i | 0 <= i < |rest| - 1
      ensures !(IsSpace(rest[i]) && IsSpace(rest[i + 1]))
    {
      assert rest[i] == t[n + 1 + i] && rest[i + 1] == t[n + 1 + i + 1];
    }
  }

  /** `str.split()` of a text made of a word, a blank and a remainder. */
  lemma SplitAtBlank(t: string, n: nat)
    requires t != [] && !IsSpace(t[0]) && n == WordRun(t) && n < |t| - 1 && !IsSpace(t[n + 1])
    ensures SplitWords(t) == [t[..n]] + SplitWords(t[n + 1..])
  {
    assert t[n..][1..] == t[n + 1..];
  }

  /** The words of a normalised text, joined by single blanks, give the text back. */
  lemma {:induction false} WordsJoinBack(t: string)
    requires Normalized(t)
    ensures Join(SplitWords(t), " ") == t
    ensures t != [] ==> |SplitWords(t)| >= 1
    decreases |t|
  {
    if t != [] {
      var n := WordRun(t);
      if n == |t| {
        assert t[n..] == [];
        assert SplitWords(t) == [t[..n]];
      } else {
        NormalizedAfterBlank(t, n);
        var rest := t[n + 1..];
        WordsJoinBack(rest);
        SplitAtBlank(t, n);
        JoinCons(t[..n], SplitWords(rest), " ");
        Decompose(t, n);
      }
    }
  }

  /**
   * The `poids` column, `len(clean.split())`, of a normalised text is its
   * number of blanks plus one, and zero for the empty text.
   */
  lemma {:induction false} WordCountOfNormalized(t: string)
    requires Normalized(t)
    ensures WordCount(t) == if t == [] then 0 else multiset(t)[' '] + 1
    decreases |t|
  {
    if t != [] {
      var n := WordRun(t);
      if n == |t| {
        OneWord(t);
      } else {
        NormalizedAfterBlank(t, n);
        WordCountOfNormalized(t[n + 1..]);
        SplitAtBlank(t, n);
        BlankCount(t, n);
      }
    }
  }

  /** A text without blank is one word. */
  lemma OneWord(t: string)
    requires t != [] && WordRun(t) == |t|
    ensures SplitWords(t) == [t] && multiset(t)[' '] == 0
  {
    assert t[|t|..] == [];
    assert t[..|t|] == t;
    assert ' ' !in t;
  }

  /** The blanks of a text whose first word ends at `n`: that one and those after it. */
  lemma BlankCount(t: string, n: nat)
    requires n == WordRun(t) && n < |t| && t[n] == ' '
    ensures multiset(t)[' '] == multiset(t[n + 1..])[' '] + 1
  {
    var w := t[..n];
    assert ' ' !in w;
    Decompose(t, n);
    assert multiset(t) == multiset(w) + multiset([t[n]]) + multiset(t[n + 1..]);
  }

  // ---------------------------------------------------------------------
  // Links, mentions and hashtags vanish
  // ---------------------------------------------------------------------

  predicate NoSpace(s: string) {
    forall i :: 0 <= i < |s| ==> !IsSpace(s[i])
  }

  lemma {:induction false} WordRunBeforeBlank(p: string, rest: string)
    requires NoSpace(p)
    ensures WordRun(p + " " + rest) == |p|
    decreases |p|
  {
    if p != [] {
      assert (p + " " + rest)[1..] == p[1..] + " " + rest;
      WordRunBeforeBlank(p[1..], rest);
    }
  }

  lemma {:induction false} SpaceRunOfBlanks(w: string, y: string)
    requires forall i :: 0 <= i < |w| ==> IsSpace(w[i])
    ensures SpaceRun(w + y) == |w| + SpaceRun(y)
    decreases |w|
  {
    if w != [] {
      assert (w + y)[0] == w[0];
      assert (w + y)[1..] == w[1..] + y;
      SpaceRunOfBlanks(w[1..], y);
    } else {
      assert w + y == y;
    }
  }

  /** Leading whitespace never reaches the normalised text. */
  lemma NormalizeDropsLeadingBlanks(w: string, y: string)
    requires w != [] && forall i :: 0 <= i < |w| ==> IsSpace(w[i])
    ensures Normalize(w + y) == Normalize(y)
  {
    SpaceRunOfBlanks(w, y);
    var k := SpaceRun(y);
    assert (w + y)[|w| + k..] == y[k..];
    assert Collapse(w + y) == " " + Collapse(y[k..]);
    if k == 0 {
      assert y[k..] == y;
      assert StripLeft(" " + Collapse(y)) == StripLeft(Collapse(y));
    } else {
      assert Collapse(y) == " " + Collapse(y[k..]);
    }
  }

  /** A blank is kept by the pass. */
  lemma ScrubBlank(rest: string, keep: set<char>, repl: string)
    ensures Scrub(" " + rest, keep, repl) == " " + Scrub(rest, keep, repl)
  {
    var s := " " + rest;
    assert s[0] == ' ';
    assert !DroppedRunAt(s);
    assert s[1..] == rest;
  }

  lemma DroppedRunAtExtends(p: string, q: string)
    requires DroppedRunAt(p)
    ensures DroppedRunAt(p + q)
  {
    var s := p + q;
    if StartsWith(p, "http") && |p| > 4 {
      assert s[..4] == p[..4];
      assert s[4] == p[4];
    } else {
      assert s[0] == p[0] && s[1] == p[1];
    }
  }

  /** A whole link, mention or hashtag followed by a blank is one match of the pass. */
  lemma ScrubDropsToken(p: string, rest: string, keep: set<char>, repl: string)
    requires DroppedRunAt(p) && NoSpace(p)
    ensures Scrub(p + " " + rest, keep, repl) == repl + " " + Scrub(rest, keep, repl)
  {
    var s := p + " " + rest;
    DroppedRunAtExtends(p, " " + rest);
    assert s == p + (" " + rest);
    WordRunBeforeBlank(p, rest);
    assert s[|p|..] == " " + rest;
    assert Scrub(s, keep, repl) == repl + Scrub(" " + rest, keep, repl);
    ScrubBlank(rest, keep, repl);
  }

  predicate IsMarker(m: string) {
    m == "@" || m == "#" || m == "http"
  }

  lemma LowerConcat(a: string, b: string)
    ensures Lower(a + b) == Lower(a) + Lower(b)
  {
  }

  /** A marker followed by at least one non-space character starts a match. */
  lemma MarkerStartsMatch(m: string, h: string)
    requires IsMarker(m) && h != [] && NoSpace(h)
    ensures DroppedRunAt(m + h) && NoSpace(m + h)
  {
    var p := m + h;
    forall i | 0 <= i < |p| ensures !IsSpace(p[i]) {
      if i >= |m| { assert p[i] == h[i - |m|]; }
    }
    assert p[..|m|] == m;
    if m == "http" { assert p[4] == h[0]; } else { assert p[1] == h[0]; }
  }

  lemma LowerKeepsNoSpace(h: string)
    requires NoSpace(h)
    ensures NoSpace(Lower(h)) && |Lower(h)| == |h|
  {
  }

  lemma LowerOfMarkedToken(m: string, h: string, rest: string)
    requires IsMarker(m)
    ensures Lower(m + h + " " + rest) == m + Lower(h) + " " + Lower(rest)
  {
    var lh := Lower(h);
    var lr := Lower(rest);
    Regroup4(m, h, " ", rest);
    Regroup4(m, lh, " ", lr);
    LowerConcat(" ", rest);
    LowerKeepsLower(" ");
    assert Lower(" " + rest) == " " + lr;
    LowerConcat(h, " " + rest);
    assert Lower(h + (" " + rest)) == lh + (" " + lr);
    LowerConcat(m, h + (" " + rest));
    MarkerIsLower(m);
    LowerKeepsLower(m);
  }

  /** The markers are written in lower case. */
  lemma MarkerIsLower(m: string)
    requires IsMarker(m)
    ensures forall i :: 0 <= i < |m| ==> !IsUpper(m[i])
  {
  }

  // ---------------------------------------------------------------------
  // A token anywhere in the text
  // ---------------------------------------------------------------------

  /** A non-space prefix is read whole by the run that starts the text. */
  lemma {:induction false} WordRunUpToBlank(a: string, b: string)
    ensures WordRun(a + " " + b) == WordRun(a)
    decreases |a|
  {
    if a != [] {
      assert (a + " " + b)[0] == a[0];
      assert (a + " " + b)[1..] == a[1..] + " " + b;
      WordRunUpToBlank(a[1..], b);
    }
  }

  /** The pass never crosses a blank: each side is scrubbed on its own. */
  lemma {:induction false} ScrubSplitsAtBlank(a: string, b: string, keep: set<char>, repl: string)
    ensures Scrub(a + " " + b, keep, repl) == Scrub(a, keep, repl) + " " + Scrub(b, keep, repl)
    decreases |a|
  {
    if a == [] {
      assert a + " " + b == " " + b;
      ScrubBlank(b, keep, repl);
    } else if DroppedRunAt(a + " " + b) {
      DroppedRunBeforeBlank(a, b);
      ScrubSplitsAtBlank(a[WordRun(a)..], b, keep, repl);
      ScrubSplitsDropped(a, b, keep, repl);
    } else {
      ScrubSplitsAtBlank(a[1..], b, keep, repl);
      ScrubSplitsKept(a, b, keep, repl);
    }
  }

  /** A match that starts before a blank lies wholly before it. */
  lemma DroppedRunBeforeBlank(a: string, b: string)
    requires a != [] && DroppedRunAt(a + " " + b)
    ensures DroppedRunAt(a) && WordRun(a) >= 1
  {
    var s := a + " " + b;
    if StartsWith(s, "http") && |s| > 4 && !IsSpace(s[4]) {
      assert s[..4] == "http" && s[|a|] == ' ';
      assert |a| > 4 && a[..4] == s[..4] && a[4] == s[4];
    } else {
      assert s[|a|] == ' ';
      assert |a| > 1 && a[0] == s[0] && a[1] == s[1];
    }
  }

  /** The split step when a match starts the text. */
  lemma ScrubSplitsDropped(a: string, b: string, keep: set<char>, repl: string)
    requires a != [] && DroppedRunAt(a + " " + b) && DroppedRunAt(a)
    requires Scrub(a[WordRun(a)..] + " " + b, keep, repl)
          == Scrub(a[WordRun(a)..], keep, repl) + " " + Scrub(b, keep, repl)
    ensures Scrub(a + " " + b, keep, repl) == Scrub(a, keep, repl) + " " + Scrub(b, keep, repl)
  {
    var s := a + " " + b;
    var n := WordRun(a);
    WordRunUpToBlank(a, b);
    DropBeforeBlank(a, b, n);
    assert Scrub(s, keep, repl) == repl + Scrub(a[n..] + " " + b, keep, repl);
    assert Scrub(a, keep, repl) == repl + Scrub(a[n..], keep, repl);
    RegroupAroundBlank(repl, Scrub(a[n..], keep, repl), Scrub(b, keep, repl));
  }

  lemma DropBeforeBlank(a: string, b: string, n: nat)
    requires n <= |a|
    ensures (a + " " + b)[n..] == a[n..] + " " + b
  {
  }

  /** The split step when the first character is handled on its own. */
  lemma ScrubSplitsKept(a: string, b: string, keep: set<char>, repl: string)
    requires a != [] && !DroppedRunAt(a + " " + b)
    requires Scrub(a[1..] + " " + b, keep, repl)
          == Scrub(a[1..], keep, repl) + " " + Scrub(b, keep, repl)
    ensures Scrub(a + " " + b, keep, repl) == Scrub(a, keep, repl) + " " + Scrub(b, keep, repl)
  {
    var s := a + " " + b;
    AppendAssoc(a, " ", b);
    if DroppedRunAt(a) {
      DroppedRunAtExtends(a, " " + b);
      assert false;
    }
    assert s[0] == a[0];
    DropBeforeBlank(a, b, 1);
    var head := if !IsWord(a[0]) && !IsSpace(a[0]) && a[0] !in keep then repl else [a[0]];
    assert Scrub(a, keep, repl) == head + Scrub(a[1..], keep, repl);
    assert Scrub(s, keep, repl) == head + Scrub(a[1..] + " " + b, keep, repl);
    RegroupAroundBlank(head, Scrub(a[1..], keep, repl), Scrub(b, keep, repl));
  }

  lemma RegroupAroundBlank(h: string, x: string, y: string)
    ensures h + (x + " " + y) == h + x + " " + y
  {
  }

  /** A marked token on its own is one match of the pass. */
  lemma ScrubOfToken(p: string, keep: set<char>, repl: string)
    requires DroppedRunAt(p) && NoSpace(p)
    ensures Scrub(p, keep, repl) == repl
  {
    assert p + " " + [] == p + " ";
    WordRunUpToBlank(p, []);
    assert WordRun(p + " ") == |p|;
    assert p[|p|..] == [];
  }

  /** A marked token between two blanks leaves the replacement between them. */
  lemma ScrubDropsInnerToken(x: string, p: string, y: string, keep: set<char>, repl: string)
    requires DroppedRunAt(p) && NoSpace(p)
    ensures Scrub(x + " " + p + " " + y, keep, repl)
         == Scrub(x, keep, repl) + " " + repl + " " + Scrub(y, keep, repl)
  {
    ScrubSplitsAtBlank(p, y, keep, repl);
    ScrubOfToken(p, keep, repl);
    RegroupBlanks(x, p, y);
    ScrubSplitsAtBlank(x, p + " " + y, keep, repl);
    RegroupBlanks(Scrub(x, keep, repl), repl, Scrub(y, keep, repl));
  }

  lemma RegroupBlanks(x: string, p: string, y: string)
    ensures x + " " + p + " " + y == x + " " + (p + " " + y)
  {
  }

  /** A marked token after a last blank leaves the replacement after it. */
  lemma ScrubDropsLastToken(x: string, p: string, keep: set<char>, repl: string)
    requires DroppedRunAt(p) && NoSpace(p)
    ensures Scrub(x + " " + p, keep, repl) == Scrub(x, keep, repl) + " " + repl
  {
    ScrubSplitsAtBlank(x, p, keep, repl);
    ScrubOfToken(p, keep, repl);
  }

  /** A non-space character is kept by the collapse. */
  lemma CollapseWordCons(c: char, t: string)
    requires !IsSpace(c)
    ensures Collapse([c] + t) == [c] + Collapse(t)
  {
    assert ([c] + t)[1..] == t;
  }

  /** A whitespace character before a non-space one becomes one blank. */
  lemma CollapseSpaceCons(c: char, t: string)
    requires IsSpace(c) && (t == [] || !IsSpace(t[0]))
    ensures Collapse([c] + t) == " " + Collapse(t)
  {
    var s := [c] + t;
    assert s[0] == c;
    assert t != [] ==> s[1] == t[0];
    assert SpaceRun(s) == 1;
    assert s[1..] == t;
  }

  /** A whitespace character before another one is absorbed by it. */
  lemma CollapseDoubledCons(c: char, t: string)
    requires IsSpace(c) && t != [] && IsSpace(t[0])
    ensures Collapse([c] + t) == Collapse(t)
  {
    var s := [c] + t;
    assert s[0] == c && s[1..] == t;
    SpaceRunCons(c, t);
  }

  lemma SpaceRunCons(c: char, t: string)
    requires IsSpace(c)
    ensures SpaceRun([c] + t) == 1 + SpaceRun(t)
    ensures ([c] + t)[SpaceRun([c] + t)..] == t[SpaceRun(t)..]
  {
    assert ([c] + t)[1..] == t;
  }

  /** A non-empty whitespace prefix collapses to one blank. */
  lemma CollapseBlankPrefix(w: string, y: string)
    requires w != [] && forall i :: 0 <= i < |w| ==> IsSpace(w[i])
    ensures Collapse(w + y) == " " + Collapse(y[SpaceRun(y)..])
  {
    assert (w + y)[0] == w[0];
    SpaceRunAfterBlanks(w, y);
  }

  /** The whitespace run of a text with a whitespace prefix ends where the suffix's run ends. */
  lemma SpaceRunAfterBlanks(w: string, y: string)
    requires forall i :: 0 <= i < |w| ==> IsSpace(w[i])
    ensures (w + y)[SpaceRun(w + y)..] == y[SpaceRun(y)..]
  {
    SpaceRunOfBlanks(w, y);
    assert (w + y)[|w| + SpaceRun(y)..] == y[SpaceRun(y)..];
  }

  /** Any non-empty whitespace run between two texts collapses to one blank. */
  lemma {:induction false} CollapseBlanks(x: string, w: string, y: string)
    requires w != [] && forall i :: 0 <= i < |w| ==> IsSpace(w[i])
    ensures Collapse(x + w + y) == Collapse(x + " " + y)
    decreases |x|
  {
    if x == [] {
      assert x + w + y == w + y && x + " " + y == " " + y;
      CollapseBlankPrefix(w, y);
      CollapseBlankPrefix(" ", y);
    } else {
      var c, t1, t2 := x[0], x[1..] + w + y, x[1..] + " " + y;
      assert x + w + y == [c] + t1;
      assert x + " " + y == [c] + t2;
      assert t1[0] == (if |x| == 1 then w[0] else x[1]);
      assert t2[0] == (if |x| == 1 then ' ' else x[1]);
      CollapseBlanks(x[1..], w, y);
      if !IsSpace(c) {
        CollapseWordCons(c, t1);
        CollapseWordCons(c, t2);
      } else if IsSpace(t1[0]) {
        CollapseDoubledCons(c, t1);
        CollapseDoubledCons(c, t2);
      } else {
        CollapseSpaceCons(c, t1);
        CollapseSpaceCons(c, t2);
      }
    }
  }

  /** A whitespace run between two texts is normalised to one blank. */
  lemma NormalizeBlanks(x: string, w: string, y: string)
    requires w != [] && forall i :: 0 <= i < |w| ==> IsSpace(w[i])
    ensures Normalize(x + w + y) == Normalize(x + " " + y)
  {
    CollapseBlanks(x, w, y);
  }

  /** Collapsing a text with one more blank at its end. */
  lemma {:induction false} CollapseSnocBlank(x: string)
    ensures Collapse(x + " ")
         == if x != [] && IsSpace(x[|x| - 1]) then Collapse(x) else Collapse(x) + " "
    decreases |x|
  {
    if x == [] {
      CollapseSpaceCons(' ', []);
      assert x + " " == [' '] + [];
    } else {
      var c, t := x[0], x[1..];
      assert x == [c] + t;
      CollapseSnocBlank(t);
      if !IsSpace(c) {
        CollapseSnocWord(c, t);
      } else {
        CollapseSnocSpace(c, t);
      }
    }
  }

  /** The step of `CollapseSnocBlank` for a text that starts with a non-space character. */
  lemma CollapseSnocWord(c: char, t: string)
    requires !IsSpace(c)
    requires Collapse(t + " ")
          == if t != [] && IsSpace(t[|t| - 1]) then Collapse(t) else Collapse(t) + " "
    ensures Collapse([c] + t + " ")
         == if t != [] && IsSpace(t[|t| - 1]) then Collapse([c] + t) else Collapse([c] + t) + " "
  {
    AppendAssoc([c], t, " ");
    CollapseWordCons(c, t + " ");
    CollapseWordCons(c, t);
    AppendAssoc([c], Collapse(t), " ");
  }

  /** The step of `CollapseSnocBlank` for a text that starts with whitespace. */
  lemma CollapseSnocSpace(c: char, t: string)
    requires IsSpace(c)
    requires Collapse(t + " ")
          == if t != [] && IsSpace(t[|t| - 1]) then Collapse(t) else Collapse(t) + " "
    ensures Collapse([c] + t + " ")
         == if t == [] || IsSpace(t[|t| - 1]) then Collapse([c] + t) else Collapse([c] + t) + " "
  {
    AppendAssoc([c], t, " ");
    assert (t + " ")[0] == (if t == [] then ' ' else t[0]);
    if t == [] {
      CollapseDoubledCons(c, t + " ");
      CollapseSpaceCons(c, t);
    } else if IsSpace(t[0]) {
      CollapseDoubledCons(c, t + " ");
      CollapseDoubledCons(c, t);
    } else {
      CollapseSpaceCons(c, t + " ");
      CollapseSpaceCons(c, t);
      AppendAssoc(" ", Collapse(t), " ");
    }
  }

  /** Stripping ignores one more blank at the end. */
  lemma {:induction false} StripSnocBlank(c: string)
    ensures Strip(c + " ") == Strip(c)
    decreases |c|
  {
    var s := c + " ";
    if c == [] {
      assert StripLeft(" ") == StripLeft([]);
    } else if IsSpace(c[0]) {
      assert s[0] == c[0] && s[1..] == c[1..] + " ";
      StripSnocBlank(c[1..]);
    } else {
      assert s[0] == c[0];
      assert StripLeft(s) == s && StripLeft(c) == c;
      assert s[..|s| - 1] == c;
    }
  }

  /** Trailing whitespace never reaches the normalised text. */
  lemma NormalizeDropsTrailingBlank(x: string)
    ensures Normalize(x + " ") == Normalize(x)
  {
    CollapseSnocBlank(x);
    var c := Collapse(x);
    if !(x != [] && IsSpace(x[|x| - 1])) {
      StripSnocBlank(c);
    }
  }

  /** What a deleted token leaves between two blanks is normalised away. */
  lemma NormalizeAroundRepl(x: string, repl: string, y: string)
    requires repl == [] || repl == " "
    ensures Normalize(x + " " + repl + " " + y) == Normalize(x + " " + y)
  {
    if repl == [] {
      assert x + " " + repl + " " + y == x + "  " + y;
      NormalizeBlanks(x, "  ", y);
    } else {
      assert x + " " + repl + " " + y == x + "   " + y;
      NormalizeBlanks(x, "   ", y);
    }
  }

  /** What a deleted last token leaves is normalised away. */
  lemma NormalizeAfterRepl(x: string, repl: string)
    requires repl == [] || repl == " "
    ensures Normalize(x + " " + repl) == Normalize(x)
  {
    if repl == " " {
      assert x + " " + repl == x + "  " + [];
      NormalizeBlanks(x, "  ", []);
      assert x + " " + [] == x + " ";
    } else {
      assert x + " " + repl == x + " ";
    }
    NormalizeDropsTrailingBlank(x);
  }

  /** Lower-casing distributes over a text with one blank. */
  lemma LowerAroundBlank(a: string, rest: string)
    ensures Lower(a + " " + rest) == Lower(a) + " " + Lower(rest)
  {
    LowerConcat(a + " ", rest);
    LowerConcat(a, " ");
    assert Lower(" ") == " " by {
      assert LowerChar(' ') == ' ';
    }
  }

  /** Lower-casing distributes over a text with two blanks. */
  lemma LowerAroundBlanks(a: string, t: string, rest: string)
    ensures Lower(a + " " + t + " " + rest) == Lower(a) + " " + Lower(t) + " " + Lower(rest)
  {
    LowerAroundBlank(a + " " + t, rest);
    LowerAroundBlank(a, t);
  }

  /** The deletion pass over the lower-cased text around one blank. */
  lemma ScrubLowerAroundBlank(a: string, rest: string)
    ensures Scrub(Lower(a + " " + rest), {}, "")
         == Scrub(Lower(a), {}, "") + " " + Scrub(Lower(rest), {}, "")
  {
    LowerAroundBlank(a, rest);
    ScrubSplitsAtBlank(Lower(a), Lower(rest), {}, "");
  }

  /** The deletion pass over the lower-cased text with a token between two blanks. */
  lemma ScrubLowerInnerToken(a: string, m: string, h: string, rest: string)
    requires IsMarker(m) && h != [] && NoSpace(h)
    ensures Scrub(Lower(a + " " + m + h + " " + rest), {}, "")
         == Scrub(Lower(a), {}, "") + " " + "" + " " + Scrub(Lower(rest), {}, "")
  {
    LowerOfToken(m, h);
    assert a + " " + m + h + " " + rest == a + " " + (m + h) + " " + rest;
    LowerAroundBlanks(a, m + h, rest);
    ScrubDropsInnerToken(Lower(a), m + Lower(h), Lower(rest), {}, "");
  }

  /** The deletion pass over the lower-cased text with a last token. */
  lemma ScrubLowerLastToken(a: string, m: string, h: string)
    requires IsMarker(m) && h != [] && NoSpace(h)
    ensures Scrub(Lower(a + " " + m + h), {}, "") == Scrub(Lower(a), {}, "") + " " + ""
  {
    LowerOfToken(m, h);
    assert a + " " + m + h == a + " " + (m + h);
    LowerAroundBlank(a, m + h);
    ScrubDropsLastToken(Lower(a), m + Lower(h), {}, "");
  }

  /** A marked token is a match both before and after lower-casing. */
  lemma LowerOfToken(m: string, h: string)
    requires IsMarker(m) && h != [] && NoSpace(h)
    ensures Lower(m + h) == m + Lower(h)
    ensures DroppedRunAt(m + Lower(h)) && NoSpace(m + Lower(h))
  {
    LowerConcat(m, h);
    MarkerIsLower(m);
    LowerKeepsLower(m);
    LowerKeepsNoSpace(h);
    MarkerStartsMatch(m, Lower(h));
  }

  /**
   * Batch cleaning: a link (`http...`), a mention (`@...`) or a hashtag
   * (`#...`) leaves no trace wherever it stands, deleted up to the next
   * blank or the end of the post: at the head, between two words, at the
   * end, or as the whole post.
   */
  lemma NettoyerTexteDropsToken(a: string, m: string, h: string, rest: string)
    requires IsMarker(m) && h != [] && NoSpace(h)
    ensures NettoyerTexte(m + h + " " + rest) == NettoyerTexte(rest)
    ensures NettoyerTexte(a + " " + m + h + " " + rest) == NettoyerTexte(a + " " + rest)
    ensures NettoyerTexte(a + " " + m + h) == NettoyerTexte(a)
    ensures NettoyerTexte(m + h) == []
  {
    NettoyerTexteDropsHead(m, h, rest);
    NettoyerTexteDropsInner(a, m, h, rest);
    NettoyerTexteDropsLast(a, m, h);
    LowerOfToken(m, h);
    ScrubOfToken(m + Lower(h), {}, "");
  }

  lemma NettoyerTexteDropsHead(m: string, h: string, rest: string)
    requires IsMarker(m) && h != [] && NoSpace(h)
    ensures NettoyerTexte(m + h + " " + rest) == NettoyerTexte(rest)
  {
    var lh := Lower(h);
    LowerKeepsNoSpace(h);
    LowerOfMarkedToken(m, h, rest);
    MarkerStartsMatch(m, lh);
    var x := Scrub(Lower(rest), {}, "");
    ScrubDropsToken(m + lh, Lower(rest), {}, "");
    assert m + lh + " " + Lower(rest) == (m + lh) + " " + Lower(rest);
    assert Scrub(Lower(m + h + " " + rest), {}, "") == " " + x;
    NormalizeDropsLeadingBlanks(" ", x);
  }

  lemma NettoyerTexteDropsInner(a: string, m: string, h: string, rest: string)
    requires IsMarker(m) && h != [] && NoSpace(h)
    ensures NettoyerTexte(a + " " + m + h + " " + rest) == NettoyerTexte(a + " " + rest)
  {
    ScrubLowerInnerToken(a, m, h, rest);
    ScrubLowerAroundBlank(a, rest);
    NormalizeAroundRepl(Scrub(Lower(a), {}, ""), "", Scrub(Lower(rest), {}, ""));
  }

  lemma NettoyerTexteDropsLast(a: string, m: string, h: string)
    requires IsMarker(m) && h != [] && NoSpace(h)
    ensures NettoyerTexte(a + " " + m + h) == NettoyerTexte(a)
  {
    ScrubLowerLastToken(a, m, h);
    NormalizeAfterRepl(Scrub(Lower(a), {}, ""), "");
  }

  /** Single-post cleaning: the same three kinds of token leave no trace anywhere either. */
  lemma NettoyerDropsToken(a: string, m: string, h: string, rest: string)
    requires IsMarker(m) && h != [] && NoSpace(h)
    ensures Nettoyer(m + h + " " + rest) == Nettoyer(rest)
    ensures Nettoyer(a + " " + m + h + " " + rest) == Nettoyer(a + " " + rest)
    ensures Nettoyer(a + " " + m + h) == Nettoyer(a)
    ensures Nettoyer(m + h) == []
  {
    NettoyerDropsHead(m, h, rest);
    NettoyerDropsInner(a, m, h, rest);
    NettoyerDropsLast(a, m, h);
    MarkerStartsMatch(m, h);
    ScrubOfToken(m + h, Apostrophes, " ");
    assert Normalize(" ") == [];
  }

  lemma NettoyerDropsHead(m: string, h: string, rest: string)
    requires IsMarker(m) && h != [] && NoSpace(h)
    ensures Nettoyer(m + h + " " + rest) == Nettoyer(rest)
  {
    MarkerStartsMatch(m, h);
    var x := Scrub(rest, Apostrophes, " ");
    ScrubDropsToken(m + h, rest, Apostrophes, " ");
    assert Scrub(m + h + " " + rest, Apostrophes, " ") == "  " + x;
    NormalizeDropsLeadingBlanks("  ", x);
  }

  lemma NettoyerDropsInner(a: string, m: string, h: string, rest: string)
    requires IsMarker(m) && h != [] && NoSpace(h)
    ensures Nettoyer(a + " " + m + h + " " + rest) == Nettoyer(a + " " + rest)
  {
    MarkerStartsMatch(m, h);
    assert a + " " + m + h + " " + rest == a + " " + (m + h) + " " + rest;
    ScrubDropsInnerToken(a, m + h, rest, Apostrophes, " ");
    NormalizeAroundRepl(Scrub(a, Apostrophes, " "), " ", Scrub(rest, Apostrophes, " "));
    ScrubSplitsAtBlank(a, rest, Apostrophes, " ");
  }

  lemma NettoyerDropsLast(a: string, m: string, h: string)
    requires IsMarker(m) && h != [] && NoSpace(h)
    ensures Nettoyer(a + " " + m + h) == Nettoyer(a)
  {
    MarkerStartsMatch(m, h);
    assert a + " " + m + h == a + " " + (m + h);
    ScrubDropsLastToken(a, m + h, Apostrophes, " ");
    NormalizeAfterRepl(Scrub(a, Apostrophes, " "), " ");
  }

  // ---------------------------------------------------------------------
  // Cleaned text without links is left as it is
  // ---------------------------------------------------------------------

  lemma {:induction false} CollapseKeepsSingleBlanks(t: string)
    requires SingleBlanks(t)
    ensures Collapse(t) == t
    decreases |t|
  {
    if t != [] {
      assert SingleBlanks(t[1..]) by {
        forall i | 0 <= i < |t[1..]| - 1
          ensures !(IsSpace(t[1..][i]) && IsSpace(t[1..][i + 1]))
        {
          assert t[1..][i] == t[i + 1] && t[1..][i + 1] == t[i + 2];
        }
      }
      CollapseKeepsSingleBlanks(t[1..]);
      if IsSpace(t[0]) {
        assert |t| > 1 ==> !IsSpace(t[1]);
        assert SpaceRun(t) == 1;
      }
      Decompose(t, 0);
    }
  }

  /** Text made of word characters and blanks, with no `http` inside, passes the scrub unchanged. */
  lemma {:induction false} ScrubKeepsPlainText(t: string, keep: set<char>, repl: string)
    requires forall i :: 0 <= i < |t| ==> IsWord(t[i]) || t[i] == ' '
    requires !Contains(t, "http")
    ensures Scrub(t, keep, repl) == t
    decreases |t|
  {
    if t != [] {
      assert !StartsWith(t, "http");
      assert !DroppedRunAt(t);
      ScrubKeepsPlainText(t[1..], keep, repl);
      Decompose(t, 0);
    }
  }

  /**
   * The batch cleaner leaves alone a text that already has the shape of its
   * output and contains no `http`: on such texts it is idempotent.
   */
  lemma NettoyerTexteFixesCleanText(t: string)
    requires Normalized(t)
    requires forall i :: 0 <= i < |t| ==> t[i] == ' ' || (IsWord(t[i]) && !IsUpper(t[i]))
    requires !Contains(t, "http")
    ensures NettoyerTexte(t) == t
  {
    CleanCharsAreLower(t);
    CleanCharsPassScrub(t);
    NormalizeKeepsNormalized(t);
    NettoyerTexteOfFixed(t);
  }

  /** Blanks and lower-case word characters are their own lower-casing. */
  lemma CleanCharsAreLower(t: string)
    requires forall i :: 0 <= i < |t| ==> t[i] == ' ' || (IsWord(t[i]) && !IsUpper(t[i]))
    ensures Lower(t) == t
  {
    LowerKeepsLower(t);
  }

  /** Blanks and lower-case word characters with no `http` pass the deletion pass unchanged. */
  lemma CleanCharsPassScrub(t: string)
    requires forall i :: 0 <= i < |t| ==> t[i] == ' ' || (IsWord(t[i]) && !IsUpper(t[i]))
    requires !Contains(t, "http")
    ensures Scrub(t, {}, "") == t
  {
    ScrubKeepsPlainText(t, {}, "");
  }

  /** A text that each of the three passes leaves alone is its own batch cleaning. */
  lemma NettoyerTexteOfFixed(t: string)
    requires Lower(t) == t && Scrub(t, {}, "") == t && Normalize(t) == t
    ensures NettoyerTexte(t) == t
  {
  }

  /** A normalised text is its own normalisation. */
  lemma NormalizeKeepsNormalized(t: string)
    requires Normalized(t)
    ensures Normalize(t) == t
  {
    CollapseKeepsSingleBlanks(t);
    StripUnchanged(t);
  }

  /** A text without capitals is its own lower-casing. */
  lemma LowerKeepsLower(t: string)
    requires forall i :: 0 <= i < |t| ==> !IsUpper(t[i])
    ensures Lower(t) == t
  {
  }
}

=== FILE: tokenizer.dfy ===
/**
 * Keyword tokenisation of cleaned posts: the text is lower-cased and every
 * maximal run of at least three characters of the class
 * `[a-zàâçéèêëîïôûùüÿñæœ']` is a token; stop-words are then dropped.
 */
module Tokenizer {
  import opened Common

  /** The characters a keyword is made of (after lower-casing). */
  predicate IsTokenChar(c: char) {
    ('a' <= c <= 'z') || c == '\''
    || c == 'à' || c == 'â' || c == 'ç' || c == 'é' || c == 'è' || c == 'ê' || c == 'ë'
    || c == 'î' || c == 'ï' || c == 'ô' || c == 'û' || c == 'ù' || c == 'ü' || c == 'ÿ'
    || c == 'ñ' || c == 'æ' || c == 'œ'
  }

  /** Minimum keyword length, the `{3,}` of the token pattern. */
  const MinTokenLength: nat := 3

  /** Lower-casing keeps every token character. */
  lemma LowerKeepsTokenChars(c: char)
    requires IsTokenChar(c)
    ensures LowerChar(c) == c
  {
  }

  /** Length of the leading run of token characters. */
  function TokenRun(s: string): (n: nat)
    ensures n <= |s|
    ensures forall i :: 0 <= i < n ==> IsTokenChar(s[i])
    ensures n < |s| ==> !IsTokenChar(s[n])
    ensures s != [] && IsTokenChar(s[0]) ==> n >= 1
  {
    if s != [] && IsTokenChar(s[0]) then 1 + TokenRun(s[1..]) else 0
  }

  predicate IsToken(t: string) {
    |t| >= MinTokenLength && forall i :: 0 <= i < |t| ==> IsTokenChar(t[i])
  }

  /** `re.findall` of the token pattern on an already lower-cased text. */
  function Tokens(s: string): (r: seq<string>)
    ensures forall i :: 0 <= i < |r| ==> IsToken(r[i])
    decreases |s|
  {
    if s == [] then []
    else if !IsTokenChar(s[0]) then Tokens(s[1..])
    else
      var n := TokenRun(s);
      (if n >= MinTokenLength then [s[..n]] else []) + Tokens(s[n..])
  }

  /** `tokenize(txt)`. */
  function Tokenize(txt: string): seq<string> {
    Tokens(Lower(txt))
  }

  /** The tokens of a post that are not stop-words, in text order. */
  function KeptTokens(txt: string, stopwords: set<string>): (r: seq<string>)
    ensures forall i :: 0 <= i < |r| ==> IsToken(r[i]) && r[i] !in stopwords
    ensures forall t :: t in r <==> t in Tokenize(txt) && t !in stopwords
  {
    Without(Tokenize(txt), stopwords)
  }

  function Without(ts: seq<string>, stopwords: set<string>): (r: seq<string>)
    ensures forall t :: t in r <==> t in ts && t !in stopwords
    ensures forall i :: 0 <= i < |r| ==> r[i] in ts
  {
    if ts == [] then []
    else (if ts[0] in stopwords then [] else [ts[0]]) + Without(ts[1..], stopwords)
  }

  // ---------------------------------------------------------------------
  // Properties
  // ---------------------------------------------------------------------

  lemma {:induction false} TokenRunBeforeSeparator(a: string, sep: char, b: string)
    requires !IsTokenChar(sep)
    ensures TokenRun(a + [sep] + b) == TokenRun(a)
    decreases |a|
  {
    if a != [] {
      assert (a + [sep] + b)[1..] == a[1..] + [sep] + b;
      TokenRunBeforeSeparator(a[1..], sep, b);
    }
  }

  /** A character outside the class separates tokens: tokenisation distributes over it. */
  lemma {:induction false} TokensSplitAtSeparator(a: string, sep: char, b: string)
    requires !IsTokenChar(sep)
    ensures Tokens(a + [sep] + b) == Tokens(a) + Tokens(b)
    decreases |a|
  {
    var s := a + [sep] + b;
    if a == [] {
      assert s[1..] == b;
    } else if !IsTokenChar(a[0]) {
      assert s[1..] == a[1..] + [sep] + b;
      TokensSplitAtSeparator(a[1..], sep, b);
    } else {
      var n := TokenRun(a);
      TokenRunBeforeSeparator(a, sep, b);
      assert s[..n] == a[..n];
      assert s[n..] == a[n..] + [sep] + b;
      TokensSplitAtSeparator(a[n..], sep, b);
    }
  }

  /** A keyword-shaped word is exactly one token. */
  lemma TokensOfToken(w: string)
    requires IsToken(w)
    ensures Tokens(w) == [w]
  {
    var n := TokenRun(w);
    assert n == |w|;
    assert w[..n] == w;
    assert w[n..] == [];
  }

  /** Tokenising keyword-shaped words joined by blanks gives back those words. */
  lemma {:induction false} TokensOfJoinedWords(ws: seq<string>)
    requires forall i :: 0 <= i < |ws| ==> IsToken(ws[i])
    ensures Tokens(Join(ws, " ")) == ws
    decreases |ws|
  {
    if |ws| == 0 {
    } else if |ws| == 1 {
      TokensOfToken(ws[0]);
    } else {
      TokensOfToken(ws[0]);
      TokensOfJoinedWords(ws[1..]);
      assert Join(ws, " ") == ws[0] + [' '] + Join(ws[1..], " ");
      TokensSplitAtSeparator(ws[0], ' ', Join(ws[1..], " "));
      assert ws == [ws[0]] + ws[1..];
    }
  }

  /** Letters are lower-cased before matching: tokenising a lower-cased text changes nothing. */
  lemma TokenizeIgnoresCase(s: string)
    ensures Tokenize(Lower(s)) == Tokenize(s)
  {
    assert Lower(Lower(s)) == Lower(s) by {
      forall i | 0 <= i < |s| ensures LowerChar(LowerChar(s[i])) == LowerChar(s[i]) {
      }
    }
  }
}

=== FILE: trends_api.dfy ===
// The three read endpoints of backend/api/Trends/api_trends.py: the post
// count over `post_brut`, and the toxicity and emotion averages over
// `trends_results`. Each builds its filter by appending conditions and
// values; the database is a parameter that answers a query.

module TrendsApi {
  import opened Common
  import opened SqlFilter
  import opened TrendsResults

  /** `CATEGORY_MAPPING`: front-end category names to topic-classifier labels. */
  const CategoryMapping: map<string, string> := map[
    "arts_entertainment" := "arts_&_culture",
    "business_entrepreneurship" := "business_&_entrepreneurs",
    "pop_culture" := "celebrity_&_pop_culture",
    "science_technology" := "science_&_technology",
    "youth_student_life" := "youth_&_student_life",
    "learning_educational" := "learning_&_educational",
    "health_fitness" := "fitness_&_health",
    "fashion_style" := "fashion_&_style",
    "food_dining" := "food_&_dining",
    "travel_adventure" := "travel_&_adventure",
    "family" := "relationships",
    "sports_gaming" := "gaming",
    "news_social_concern" := "news_&_social_concern"
  ]

  /** `CATEGORY_MAPPING.get(c, c)`. */
  function Mapped(c: string): string {
    if c in CategoryMapping then CategoryMapping[c] else c
  }

  /** `CategoryEnum`: `all` and the twelve categories; anything else is refused. */
  predicate IsCategoryEnum(c: string) {
    c == "all" || IsAllowed(c)
  }

  // ---------------------------------------------------------------------
  // Date windows
  // ---------------------------------------------------------------------

  /** The `[start, end)` window of `/trends/count`, in days; `all` has none. */
  function CountWindow(p: Period, today: int): (w: Option<(int, int)>)
    ensures w.None? <==> p == AllTime
    ensures w.Some? ==> w.value.0 <= today < w.value.1 == today + 1
    ensures w.Some? ==> w.value.1 - w.value.0 == (if p == Today then 1 else 7)
  {
    match p
    case Today => Some((today, today + 1))
    case Week => Some((today - 6, today + 1))
    case AllTime => None
  }

  /** `get_start_date`: the first day of the period, none for `all`. */
  function StartDate(p: Period, today: int): (d: Option<int>)
    ensures d.None? <==> p == AllTime
    ensures d.Some? ==> d.value <= today && today - d.value == (if p == Today then 0 else 6)
  {
    match p
    case Today => Some(today)
    case Week => Some(today - 6)
    case AllTime => None
  }

  /** The emotion endpoints start where the count window starts, but have no end. */
  lemma StartIsWindowStart(p: Period, today: int)
    ensures StartDate(p, today).Some? <==> CountWindow(p, today).Some?
    ensures StartDate(p, today).Some? ==> StartDate(p, today).value == CountWindow(p, today).value.0
  {
  }

  /** The days of a period, as the count endpoint reads them. */
  predicate InPeriod(p: Period, today: int, day: int) {
    match p
    case Today => day == today
    case Week => today - 6 <= day <= today
    case AllTime => true
  }

  // ---------------------------------------------------------------------
  // Filters
  // ---------------------------------------------------------------------

  function CategoryConds(cat: string): seq<Cond> {
    if cat == "all" then [] else [CategoryIs(Mapped(cat))]
  }

  /** The conditions of `/trends/count`: the window first, then the category. */
  function CountConds(p: Period, cat: string, today: int): seq<Cond> {
    (match CountWindow(p, today)
     case Some(w) => [BrutDateWindow(w.0, w.1)]
     case None => [])
    + CategoryConds(cat)
  }

  /** `start_date and end_date`: both given and neither empty. */
  predicate BothDates(start: Option<string>, end: Option<string>) {
    start.Some? && start.value != [] && end.Some? && end.value != []
  }

  /** The conditions of `/trends/stats`: the category first, then the dates. */
  function StatsConds(cat: string, start: Option<string>, end: Option<string>): seq<Cond> {
    CategoryConds(cat)
    + (if BothDates(start, end) then [PostDateBetween(start.value, end.value)] else [])
  }

  /** The conditions of `/trends/emotion`: the category first, then the start day. */
  function EmotionConds(p: Period, cat: string, today: int): seq<Cond> {
    CategoryConds(cat)
    + (match StartDate(p, today)
       case Some(d) => [PostDateFrom(d)]
       case None => [])
  }

  function QueryOf(conds: seq<Cond>): Query {
    Query(WhereOr1(Texts(conds)), AllArgs(conds))
  }

  lemma MatchesConcat(a: seq<Cond>, b: seq<Cond>, r: Row, ctx: Ctx)
    ensures Matches(a + b, r, ctx) <==> Matches(a, r, ctx) && Matches(b, r, ctx)
  {
    if Matches(a, r, ctx) && Matches(b, r, ctx) {
      forall i | 0 <= i < |a + b|
        ensures Holds((a + b)[i], r, ctx)
      {
        if i >= |a| {
          assert (a + b)[i] == b[i - |a|];
        }
      }
    }
    if Matches(a + b, r, ctx) {
      forall i | 0 <= i < |a|
        ensures Holds(a[i], r, ctx)
      {
        assert (a + b)[i] == a[i];
      }
      forall i | 0 <= i < |b|
        ensures Holds(b[i], r, ctx)
      {
        assert (a + b)[|a| + i] == b[i];
      }
    }
  }

  lemma MatchesOne(c: Cond, r: Row, ctx: Ctx)
    ensures Matches([c], r, ctx) <==> Holds(c, r, ctx)
    ensures Matches([], r, ctx)
  {
    assert [c][0] == c;
  }

  lemma CategorySelect(cat: string, r: Row, ctx: Ctx)
    ensures Matches(CategoryConds(cat), r, ctx) <==> (cat == "all" || r.cat == Mapped(cat))
  {
    MatchesOne(CategoryIs(Mapped(cat)), r, ctx);
  }

  /** `/trends/count` counts the rows of the period, in the mapped category unless `all`. */
  lemma CountCondsSelect(p: Period, cat: string, today: int, r: Row, ctx: Ctx)
    ensures Matches(CountConds(p, cat, today), r, ctx)
        <==> (InPeriod(p, today, r.day) && (cat == "all" || r.cat == Mapped(cat)))
  {
    CategorySelect(cat, r, ctx);
    if p != AllTime {
      var w := CountWindow(p, today).value;
      MatchesOne(BrutDateWindow(w.0, w.1), r, ctx);
    } else {
      MatchesOne(CategoryIs(cat), r, ctx);
    }
    var w := match CountWindow(p, today) case Some(w) => [BrutDateWindow(w.0, w.1)] case None => [];
    MatchesConcat(w, CategoryConds(cat), r, ctx);
  }

  /** `/trends/stats` filters on dates only when both are given. */
  lemma StatsCondsSelect(cat: string, start: Option<string>, end: Option<string>, r: Row, ctx: Ctx)
    ensures Matches(StatsConds(cat, start, end), r, ctx)
        <==> ((cat == "all" || r.cat == Mapped(cat))
          && (BothDates(start, end) ==> ctx.castDate(start.value) <= r.day <= ctx.castDate(end.value)))
  {
    CategorySelect(cat, r, ctx);
    if BothDates(start, end) {
      MatchesOne(PostDateBetween(start.value, end.value), r, ctx);
    } else {
      MatchesOne(CategoryIs(cat), r, ctx);
    }
    var d := if BothDates(start, end) then [PostDateBetween(start.value, end.value)] else [];
    MatchesConcat(CategoryConds(cat), d, r, ctx);
  }

  /** `/trends/emotion` keeps the rows from the period's first day on, with no upper bound. */
  lemma EmotionCondsSelect(p: Period, cat: string, today: int, r: Row, ctx: Ctx)
    ensures Matches(EmotionConds(p, cat, today), r, ctx)
        <==> ((cat == "all" || r.cat == Mapped(cat))
          && (p != AllTime ==> StartDate(p, today).value <= r.day))
  {
    CategorySelect(cat, r, ctx);
    if p != AllTime {
      MatchesOne(PostDateFrom(StartDate(p, today).value), r, ctx);
    } else {
      MatchesOne(CategoryIs(cat), r, ctx);
    }
    var d := match StartDate(p, today) case Some(d) => [PostDateFrom(d)] case None => [];
    MatchesConcat(CategoryConds(cat), d, r, ctx);
  }

  // ---------------------------------------------------------------------
  // Filter builders (the `where.append` / `params.append` sequences)
  // ---------------------------------------------------------------------

  method AppendCategory(where0: seq<string>, params0: seq<Value>, ghost conds: seq<Cond>, cat: string)
    returns (where: seq<string>, params: seq<Value>)
    requires where0 == Texts(conds) && params0 == AllArgs(conds)
    ensures where == Texts(conds + CategoryConds(cat)) && params == AllArgs(conds + CategoryConds(cat))
  {
    where, params := where0, params0;
    if cat != "all" {
      var mapped := Mapped(cat);
      where := where + ["categorie = " + Hole];
      params := params + [TextV(mapped)];
      TextsSnoc(conds, CategoryIs(mapped));
      AllArgsSnoc(conds, CategoryIs(mapped));
    } else {
      assert conds + [] == conds;
    }
  }

  /** `get_post_count`, lines building `where` and `params`. */
  method BuildCountFilter(p: Period, cat: string, today: int) returns (where: seq<string>, params: seq<Value>)
    ensures where == Texts(CountConds(p, cat, today)) && params == AllArgs(CountConds(p, cat, today))
    ensures Placeholders(WhereOr1(where)) == |params|
  {
    var start: Option<int> := None;
    var end: Option<int> := None;
    if p == Today {
      start, end := Some(today), Some(today + 1);
    } else if p == Week {
      start, end := Some(today - 6), Some(today + 1);
    }
    assert start.Some? == end.Some? && (start.Some? ==> CountWindow(p, today) == Some((start.value, end.value)));
    where, params := [], [];
    ghost var conds: seq<Cond> := [];
    if start.Some? && end.Some? {
      where := where + ["post_brut_date >= " + Hole + " AND " + "post_brut_date < " + Hole];
      params := params + [DateV(start.value), DateV(end.value)];
      conds := [BrutDateWindow(start.value, end.value)];
    }
    where, params := AppendCategory(where, params, conds, cat);
    WhereOr1Placeholders(CountConds(p, cat, today));
  }

  /** `get_toxicity_stats`, lines building `where` and `params`. */
  method BuildStatsFilter(cat: string, start: Option<string>, end: Option<string>)
    returns (where: seq<string>, params: seq<Value>)
    ensures where == Texts(StatsConds(cat, start, end)) && params == AllArgs(StatsConds(cat, start, end))
    ensures Placeholders(WhereOr1(where)) == |params|
  {
    where, params := AppendCategory([], [], [], cat);
    if BothDates(start, end) {
      where := where + ["post_date BETWEEN " + Hole + " AND " + Hole];
      params := params + [TextV(start.value), TextV(end.value)];
      TextsSnoc(CategoryConds(cat), PostDateBetween(start.value, end.value));
      AllArgsSnoc(CategoryConds(cat), PostDateBetween(start.value, end.value));
    } else {
      assert CategoryConds(cat) + [] == CategoryConds(cat);
    }
    WhereOr1Placeholders(StatsConds(cat, start, end));
  }

  /** `get_emotion_stats`, lines building `where` and `params`. */
  method BuildEmotionFilter(p: Period, cat: string, today: int) returns (where: seq<string>, params: seq<Value>)
    ensures where == Texts(EmotionConds(p, cat, today)) && params == AllArgs(EmotionConds(p, cat, today))
    ensures Placeholders(WhereOr1(where)) == |params|
  {
    var start: Option<int> := None;
    if p == Today {
      start := Some(today);
    } else if p == Week {
      start := Some(today - 6);
    }
    EmotionCondsOfStart(p, cat, today, start);
    where, params := AppendCategory([], [], [], cat);
    if start.Some? {
      where := where + ["post_date >= " + Hole];
      params := params + [DateV(start.value)];
      TextsSnoc(CategoryConds(cat), PostDateFrom(start.value));
      AllArgsSnoc(CategoryConds(cat), PostDateFrom(start.value));
    } else {
      assert CategoryConds(cat) + [] == CategoryConds(cat);
    }
    WhereOr1Placeholders(EmotionConds(p, cat, today));
  }

  /** The emotion conditions are the category's, then one from the start day when there is one. */
  lemma EmotionCondsOfStart(p: Period, cat: string, today: int, start: Option<int>)
    requires start == StartDate(p, today)
    ensures EmotionConds(p, cat, today)
            == CategoryConds(cat) + (if start.Some? then [PostDateFrom(start.value)] else [])
  {
  }

  // ---------------------------------------------------------------------
  // Responses
  // ---------------------------------------------------------------------

  const StatLabels: seq<string> := ["toxic", "severe", "insult", "obscene", "threat", "identityhate"]

  const EmotionLabels: seq<string> := ["anger", "disgust", "fear", "joy", "surprise"]

  /** `float(score or 0.0)`: a null average reads as zero. */
  function Score(x: Option<real>): real {
    if x.Some? then x.value else 0.0
  }

  /** `{label: float(score or 0.0) for label, score in zip(labels, result)}`. */
  function StatsBody(row: seq<Option<real>>): (d: map<string, real>)
    ensures forall i :: 0 <= i < |StatLabels| && i < |row| ==> StatLabels[i] in d && d[StatLabels[i]] == Score(row[i])
    ensures forall l :: l in d ==> exists i :: 0 <= i < |StatLabels| && i < |row| && l == StatLabels[i]
  {
    map i | 0 <= i < |StatLabels| && i < |row| :: StatLabels[i] := Score(row[i])
  }

  /** A full row of six averages gives the six labels, nulls read as zero. */
  lemma StatsBodyComplete(row: seq<Option<real>>)
    requires |row| == 6
    ensures StatsBody(row).Keys == set l | l in StatLabels
    ensures forall i :: 0 <= i < 6 && row[i].None? ==> StatsBody(row)[StatLabels[i]] == 0.0
  {
    var d := StatsBody(row);
    forall l | l in StatLabels
      ensures l in d
    {
      var i :| 0 <= i < 6 && StatLabels[i] == l;
    }
  }

  /** `[{"label": label, "score": float(score or 0.0)} for label, score in zip(labels, result)]`. */
  function EmotionBody(row: seq<Option<real>>): (r: seq<(string, real)>)
    ensures |r| == if |row| < 5 then |row| else 5
    ensures forall i :: 0 <= i < |r| ==> r[i] == (EmotionLabels[i], Score(row[i]))
  {
    seq(if |row| < 5 then |row| else 5, i requires 0 <= i < 5 && i < |row| => (EmotionLabels[i], Score(row[i])))
  }

  /** A full row of five averages lists anger, disgust, fear, joy and surprise, in that order. */
  lemma EmotionBodyOrder(row: seq<Option<real>>)
    requires |row| == 5
    ensures |EmotionBody(row)| == 5
    ensures EmotionBody(row)[0].0 == "anger" && EmotionBody(row)[1].0 == "disgust"
    ensures EmotionBody(row)[2].0 == "fear" && EmotionBody(row)[3].0 == "joy"
    ensures EmotionBody(row)[4].0 == "surprise"
    ensures forall i :: 0 <= i < 5 ==> EmotionBody(row)[i].1 >= 0.0 || row[i].Some?
  {
  }

  // ---------------------------------------------------------------------
  // Endpoints
  // ---------------------------------------------------------------------

  /** `GET /trends/count`: a database failure propagates. */
  method GetPostCount(period: string, category: string, today: int, db: Query -> Option<int>)
    returns (r: Reply<int>)
    ensures ParsePeriod(period).None? || !IsCategoryEnum(category) ==> r == Rejected
    ensures ParsePeriod(period).Some? && IsCategoryEnum(category) ==>
      var ans := db(QueryOf(CountConds(ParsePeriod(period).value, category, today)));
      r == if ans.None? then Crashed else Body(ans.value)
  {
    var p := ParsePeriod(period);
    if p.None? || !IsCategoryEnum(category) {
      return Rejected;
    }
    var where, params := BuildCountFilter(p.value, category, today);
    var ans := db(Query(WhereOr1(where), params));
    r := if ans.None? then Crashed else Body(ans.value);
  }

  /** `GET /trends/stats`. */
  method GetToxicityStats(categorie: string, start: Option<string>, end: Option<string>,
                          db: Query -> Option<seq<Option<real>>>)
    returns (r: Reply<map<string, real>>)
    ensures var ans := db(QueryOf(StatsConds(categorie, start, end)));
      r == if ans.None? then Crashed else Body(StatsBody(ans.value))
  {
    var where, params := BuildStatsFilter(categorie, start, end);
    var ans := db(Query(WhereOr1(where), params));
    r := if ans.None? then Crashed else Body(StatsBody(ans.value));
  }

  /** `GET /trends/emotion`. */
  method GetEmotionStats(period: string, category: string, today: int,
                         db: Query -> Option<seq<Option<real>>>)
    returns (r: Reply<seq<(string, real)>>)
    ensures ParsePeriod(period).None? ==> r == Rejected
    ensures ParsePeriod(period).Some? ==>
      var ans := db(QueryOf(EmotionConds(ParsePeriod(period).value, category, today)));
      r == if ans.None? then Crashed else Body(EmotionBody(ans.value))
  {
    var p := ParsePeriod(period);
    if p.None? {
      return Rejected;
    }
    var where, params := BuildEmotionFilter(p.value, category, today);
    var ans := db(Query(WhereOr1(where), params));
    r := if ans.None? then Crashed else Body(EmotionBody(ans.value));
  }

  // ---------------------------------------------------------------------
  // The category names sent to `trends_results`
  // ---------------------------------------------------------------------

  /**
   * Every one of the twelve categories is renamed by the mapping to a label
   * that is neither a retained category nor the `All` rollup.
   */
  lemma MappedNamesAreNotStored(c: string)
    requires IsAllowed(c)
    ensures Mapped(c) != c && !IsAllowed(Mapped(c)) && Mapped(c) != AllCategory
  {
    var i :| 0 <= i < 12 && AllowedCategories[i] == c;
    EveryCategoryIsMapped(i);
    MappedLabelShape(c);
    NoAmpersandInCategories();
    var m := Mapped(c);
    if '&' in m {
      assert !IsAllowed(m);
    } else {
      assert m == "relationships" || m == "gaming";
      assert !IsAllowed(m);
    }
  }

  lemma EveryCategoryIsMapped(i: nat)
    requires i < 12
    ensures AllowedCategories[i] in CategoryMapping
  {
  }

  lemma NoAmpersandInCategories()
    ensures forall i :: 0 <= i < 12 ==> '&' !in AllowedCategories[i]
  {
  }

  lemma MappedLabelShape(c: string)
    requires c in CategoryMapping
    ensures '&' in CategoryMapping[c] || CategoryMapping[c] == "relationships" || CategoryMapping[c] == "gaming"
  {
  }

  /** The trends job writes only the twelve categories and the `All` rollup. */
  lemma StoredCategory(posts: seq<TrendPost>, k: BucketKey)
    requires forall p :: p in posts ==> IsAllowed(p.cat)
    requires k in Aggregate(posts)
    ensures IsAllowed(k.cat) || k.cat == AllCategory
  {
    var p :| p in posts && (k == BucketKey(p.day, p.cat) || k == BucketKey(p.day, AllCategory));
  }

  lemma MappedCategoryMatchesNoStoredRow(c: string, r: Row, ctx: Ctx)
    requires IsAllowed(c)
    requires IsAllowed(r.cat) || r.cat == AllCategory
    ensures !Holds(CategoryIs(Mapped(c)), r, ctx)
    ensures forall s, e :: !Matches(StatsConds(c, s, e), r, ctx)
    ensures forall p, today :: !Matches(EmotionConds(p, c, today), r, ctx)
  {
    MappedNamesAreNotStored(c);
    assert c != "all";
    forall s, e
      ensures !Matches(StatsConds(c, s, e), r, ctx)
    {
      StatsCondsSelect(c, s, e, r, ctx);
    }
    forall p, today
      ensures !Matches(EmotionConds(p, c, today), r, ctx)
    {
      EmotionCondsSelect(p, c, today, r, ctx);
    }
  }

  /**
   * As written: for a table filled by the trends job, the category filter of
   * `/trends/stats` and `/trends/emotion` matches no row at all, so every
   * average comes back null and is reported as 0.0.
   */
  lemma MappedCategoryMatchesNoTrendRow(posts: seq<TrendPost>, c: string, k: BucketKey, ctx: Ctx)
    requires forall p :: p in posts ==> IsAllowed(p.cat)
    requires IsAllowed(c)
    requires k in Aggregate(posts)
    ensures !Holds(CategoryIs(Mapped(c)), Row(k.day, k.cat), ctx)
    ensures forall s, e :: !Matches(StatsConds(c, s, e), Row(k.day, k.cat), ctx)
    ensures forall p, today :: !Matches(EmotionConds(p, c, today), Row(k.day, k.cat), ctx)
  {
    StoredCategory(posts, k);
    MappedCategoryMatchesNoStoredRow(c, Row(k.day, k.cat), ctx);
  }

  /** The category filter as `09_API_TRENDS.py` writes it: the name itself. */
  function DirectCategoryConds(cat: string): seq<Cond> {
    if cat == "all" then [] else [CategoryIs(cat)]
  }

  lemma PostBucketStored(posts: seq<TrendPost>, p: TrendPost)
    requires p in posts
    ensures BucketKey(p.day, p.cat) in Aggregate(posts)
  {
    assert BucketKey(p.day, p.cat) in BucketKeys(posts);
  }

  /**
   * Corrected: filtering on the category name itself selects exactly the
   * rows of that category, and the trends job has written such a row for
   * every day on which a post of the category was aggregated.
   */
  lemma DirectCategoryFindsTrendRows(posts: seq<TrendPost>, c: string, p: TrendPost, r: Row, ctx: Ctx)
    requires IsAllowed(c) && p in posts && p.cat == c
    ensures BucketKey(p.day, c) in Aggregate(posts)
    ensures Matches(DirectCategoryConds(c), r, ctx) <==> r.cat == c
  {
    PostBucketStored(posts, p);
    AllIsNotAllowed();
    MatchesOne(CategoryIs(c), r, ctx);
  }
}

=== FILE: trends_job.dfy ===
/**
 * The trends job as a whole: load the pending cleaned posts of the window
 * with their category, emotion and toxicity scores (left joins), mark them
 * done, keep the twelve retained categories and upsert one row per
 * (day, category) and per (day, `All`), overwriting an existing row.
 */
module TrendsJob {
  import opened Common
  import opened Schema
  import opened TrendsResults

  /** Emotion columns read, in `ScoreColumns` order. */
  const EmotionLabels: seq<string> := ["anger", "disgust", "fear", "joy", "surprise"]
  /** Toxicity columns read (`identity_hate` is read as `hate`). */
  const ToxicityLabels: seq<string> := ["toxic", "severe_toxic", "obscene", "threat", "insult", "identity_hate"]

  /** The category of a loaded post, the column the whitelist filter reads. */
  function TrendCat(p: TrendPost): string {
    p.cat
  }

  /** Column values of a left-joined measure row: `None` for a missing row or column. */
  function Lookup(table: map<Url, map<string, real>>, u: Url, labels: seq<string>): (r: seq<Option<real>>)
    ensures |r| == |labels|
    ensures forall i :: 0 <= i < |r| ==>
              r[i] == if u in table && labels[i] in table[u] then Some(table[u][labels[i]]) else None
  {
    if labels == [] then []
    else
      [if u in table && labels[0] in table[u] then Some(table[u][labels[0]]) else None]
      + Lookup(table, u, labels[1..])
  }

  class TrendsDb {
    /** `post_clean`. */
    var postClean: map<Url, CleanRow>
    /** `post_clean_mesure_categories`: url to predominant label. */
    var categories: map<Url, string>
    /** `post_clean_mesure_emotion` and `post_clean_mesure_toxicite`: url to label scores. */
    var emotion: map<Url, map<string, real>>
    var toxicity: map<Url, map<string, real>>
    /** `trends_results`, keyed by (day, category). */
    var trendsResults: map<BucketKey, Bucket>

    constructor (clean: map<Url, CleanRow>, cats: map<Url, string>,
                 emo: map<Url, map<string, real>>, tox: map<Url, map<string, real>>,
                 results: map<BucketKey, Bucket>)
      ensures postClean == clean && categories == cats && emotion == emo && toxicity == tox
      ensures trendsResults == results
    {
      postClean := clean;
      categories := cats;
      emotion := emo;
      toxicity := tox;
      trendsResults := results;
    }

    /** The rows the job loads: trend status pending, cleaned inside the window. */
    predicate Selected(window: int, today: int, u: Url)
      reads this
    {
      u in postClean && postClean[u].trendStatus == Pending
      && InWindow(window, today, postClean[u].nettoyage)
    }

    function CategoryOf(u: Url): string
      reads this
    {
      if u in categories then categories[u] else "other"
    }

    /** One row of the query. */
    function LoadedPost(u: Url): (p: TrendPost)
      reads this
      requires u in postClean
      ensures |p.scores| == NumScores
    {
      TrendPost(u, DayOf(postClean[u].nettoyage), CategoryOf(u),
                Lookup(emotion, u, EmotionLabels) + Lookup(toxicity, u, ToxicityLabels))
    }

    function Loaded(urls: seq<Url>): (posts: seq<TrendPost>)
      reads this
      requires forall u :: u in urls ==> u in postClean
      ensures |posts| == |urls|
      ensures forall i :: 0 <= i < |urls| ==> posts[i] == LoadedPost(urls[i])
    {
      if urls == [] then [] else [LoadedPost(urls[0])] + Loaded(urls[1..])
    }

    method Run(window: int, today: int, loaded: seq<Url>)
      modifies this
      requires NoDup(loaded)
      requires forall u :: u in loaded <==> Selected(window, today, u)
      ensures categories == old(categories) && emotion == old(emotion) && toxicity == old(toxicity)
      ensures postClean.Keys == old(postClean).Keys
      ensures forall u :: u in postClean ==>
                postClean[u] == if u in loaded then old(postClean)[u].(trendStatus := Done)
                                else old(postClean)[u]
      ensures old(forall u :: u in loaded ==> u in postClean)
      ensures trendsResults == old(trendsResults) + Aggregate(KeepAllowed(old(Loaded(loaded)), TrendCat))
    {
      var posts := Loaded(loaded);
      if |posts| == 0 {
        NothingAggregated(trendsResults, KeepAllowed(posts, TrendCat));
        return;
      }
      var i := 0;
      while i < |loaded|
        invariant 0 <= i <= |loaded|
        invariant categories == old(categories) && emotion == old(emotion) && toxicity == old(toxicity)
        invariant trendsResults == old(trendsResults)
        invariant postClean.Keys == old(postClean).Keys
        invariant forall u :: u in postClean ==>
                    postClean[u] == if u in loaded[..i] then old(postClean)[u].(trendStatus := Done)
                                    else old(postClean)[u]
      {
        var u := loaded[i];
        postClean := postClean[u := postClean[u].(trendStatus := Done)];
        TakeSnoc(loaded, i);
        i := i + 1;
      }
      assert loaded[..i] == loaded;
      var kept := KeepAllowed(posts, TrendCat);
      if |kept| == 0 {
        NothingAggregated(trendsResults, kept);
        return;
      }
      trendsResults := trendsResults + Aggregate(kept);
    }
  }

  /** Aggregating no post adds no bucket. */
  lemma NothingAggregated(m: map<BucketKey, Bucket>, posts: seq<TrendPost>)
    requires posts == []
    ensures m + Aggregate(posts) == m
  {
    assert Aggregate(posts) == map[];
  }
}

=== FILE: trends_results.dfy ===
/**
 * The trends aggregation: per day and category, and per day over all
 * retained categories (`All`), the number of pending cleaned posts and the
 * mean of each of the eleven emotion and toxicity scores, ignoring missing
 * scores.
 */
module TrendsResults {
  import opened Common

  /** The eleven scores read per post, in column order. */
  const ScoreColumns: seq<string> := [
    "anger", "disgust", "fear", "joy", "surprise",
    "toxic", "severe_toxic", "obscene", "threat", "insult", "hate"
  ]

  const NumScores: nat := 11

  /** A loaded post: url, day of cleaning, category, and its scores (`None` when missing). */
  datatype TrendPost = TrendPost(url: string, day: int, cat: string, scores: seq<Option<real>>)

  /** Primary key of `trends_results`. */
  datatype BucketKey = BucketKey(day: int, cat: string)

  /** `post_occurrence` and the eleven `mean_*` columns (`None` when no score was present). */
  datatype Bucket = Bucket(count: nat, means: seq<Option<real>>)

  function ScoreAt(p: TrendPost, j: nat): Option<real> {
    if j < |p.scores| then p.scores[j] else None
  }

  // ---------------------------------------------------------------------
  // Means ignoring missing values (pandas `mean` skips NaN)
  // ---------------------------------------------------------------------

  function PresentCount(g: seq<TrendPost>, j: nat): nat {
    if g == [] then 0 else (if ScoreAt(g[0], j).Some? then 1 else 0) + PresentCount(g[1..], j)
  }

  function PresentSum(g: seq<TrendPost>, j: nat): real {
    if g == [] then 0.0
    else (if ScoreAt(g[0], j).Some? then ScoreAt(g[0], j).value else 0.0) + PresentSum(g[1..], j)
  }

  /** Mean of column `j` over a group: `None` when every value is missing. */
  function Mean(g: seq<TrendPost>, j: nat): (m: Option<real>)
    ensures m.None? <==> PresentCount(g, j) == 0
    ensures m.Some? ==> m.value * (PresentCount(g, j) as real) == PresentSum(g, j)
  {
    var n := PresentCount(g, j);
    if n == 0 then None else Some(PresentSum(g, j) / (n as real))
  }

  function Means(g: seq<TrendPost>, j: nat): (r: seq<Option<real>>)
    requires j <= NumScores
    ensures |r| == NumScores - j
    ensures forall i :: 0 <= i < |r| ==> r[i] == Mean(g, j + i)
    decreases NumScores - j
  {
    if j == NumScores then [] else [Mean(g, j)] + Means(g, j + 1)
  }

  function BucketOf(g: seq<TrendPost>): Bucket {
    Bucket(|g|, Means(g, 0))
  }

  // ---------------------------------------------------------------------
  // Grouping
  // ---------------------------------------------------------------------

  /** The posts of a bucket: its day and category, or its day alone for `All`. */
  predicate InBucket(p: TrendPost, k: BucketKey) {
    p.day == k.day && (k.cat == AllCategory || p.cat == k.cat)
  }

  function GroupOf(posts: seq<TrendPost>, k: BucketKey): (g: seq<TrendPost>)
    ensures forall p :: p in g <==> p in posts && InBucket(p, k)
    ensures |g| <= |posts|
  {
    if posts == [] then []
    else (if InBucket(posts[0], k) then [posts[0]] else []) + GroupOf(posts[1..], k)
  }

  function BucketKeys(posts: seq<TrendPost>): set<BucketKey> {
    (set p | p in posts :: BucketKey(p.day, p.cat)) + (set p | p in posts :: BucketKey(p.day, AllCategory))
  }

  /** `concat([agg_cat, agg_all])`: one bucket per (day, category) and per (day, `All`). */
  function Aggregate(posts: seq<TrendPost>): map<BucketKey, Bucket> {
    map k | k in BucketKeys(posts) :: BucketOf(GroupOf(posts, k))
  }

  // ---------------------------------------------------------------------
  // Properties
  // ---------------------------------------------------------------------

  /** Every bucket written holds at least one post. */
  lemma BucketsNonEmpty(posts: seq<TrendPost>, k: BucketKey)
    requires k in Aggregate(posts)
    ensures Aggregate(posts)[k].count >= 1
    ensures |Aggregate(posts)[k].means| == NumScores
  {
    var p :| p in posts && (k == BucketKey(p.day, p.cat) || k == BucketKey(p.day, AllCategory));
    assert p in GroupOf(posts, k);
  }

  predicate ScoresWithin(g: seq<TrendPost>, j: nat, lo: real, hi: real) {
    forall i :: 0 <= i < |g| && ScoreAt(g[i], j).Some? ==> lo <= ScoreAt(g[i], j).value <= hi
  }

  /** A sum of `c` values, each between `lo` and `hi`, lies between `lo * c` and `hi * c`. */
  predicate SumWithin(lo: real, hi: real, c: real, sum: real) {
    lo * c <= sum <= hi * c
  }

  lemma {:induction false} PresentBounds(g: seq<TrendPost>, j: nat, lo: real, hi: real)
    requires ScoresWithin(g, j, lo, hi)
    ensures SumWithin(lo, hi, PresentCount(g, j) as real, PresentSum(g, j))
    decreases |g|
  {
    if g != [] {
      var t := g[1..];
      ScoresWithinTail(g, j, lo, hi);
      PresentBounds(t, j, lo, hi);
      if ScoreAt(g[0], j).Some? {
        BoundStep(lo, ScoreAt(g[0], j).value, hi, PresentCount(t, j) as real, PresentSum(t, j),
          PresentCount(g, j) as real, PresentSum(g, j));
      } else {
        assert PresentCount(g, j) == PresentCount(t, j) && PresentSum(g, j) == PresentSum(t, j);
      }
    }
  }

  lemma ScoresWithinTail(g: seq<TrendPost>, j: nat, lo: real, hi: real)
    requires g != [] && ScoresWithin(g, j, lo, hi)
    ensures ScoresWithin(g[1..], j, lo, hi)
    ensures ScoreAt(g[0], j).Some? ==> lo <= ScoreAt(g[0], j).value <= hi
  {
    var t := g[1..];
    forall i | 0 <= i < |t| && ScoreAt(t[i], j).Some?
      ensures lo <= ScoreAt(t[i], j).value <= hi
    {
      assert t[i] == g[i + 1];
    }
  }

  /** Adding one value within the bounds to a sum within the bounds keeps it within them. */
  lemma BoundStep(lo: real, v: real, hi: real, c: real, sum: real, c': real, sum': real)
    requires SumWithin(lo, hi, c, sum) && lo <= v <= hi
    requires c' == c + 1.0 && sum' == v + sum
    ensures SumWithin(lo, hi, c', sum')
  {
    Distribute(lo, c);
    Distribute(hi, c);
  }

  lemma Distribute(a: real, c: real)
    ensures a * (c + 1.0) == a * c + a
  {
  }

  lemma ScaleStrict(a: real, b: real, n: real)
    requires a < b && n > 0.0
    ensures a * n < b * n
  {
  }

  /**
   * A mean lies between the smallest and the largest score present; the
   * model scores are probabilities, so every mean is one too.
   */
  lemma MeanBounds(g: seq<TrendPost>, j: nat, lo: real, hi: real)
    requires ScoresWithin(g, j, lo, hi)
    requires Mean(g, j).Some?
    ensures lo <= Mean(g, j).value <= hi
  {
    PresentBounds(g, j, lo, hi);
    var n := PresentCount(g, j) as real;
    var sum := PresentSum(g, j);
    var m := Mean(g, j).value;
    assert n > 0.0;
    assert m * n == sum;
    assert lo * n <= sum <= hi * n;
    DivideBounds(m, n, sum, lo, hi);
  }

  lemma DivideBounds(m: real, n: real, sum: real, lo: real, hi: real)
    requires n > 0.0 && m * n == sum && lo * n <= sum <= hi * n
    ensures lo <= m <= hi
  {
    if m < lo {
      ScaleStrict(m, lo, n);
    }
    if m > hi {
      ScaleStrict(hi, m, n);
    }
  }

  // ---------------------------------------------------------------------
  // The `All` bucket of a day is the union of its category buckets
  // ---------------------------------------------------------------------

  /** Sum of a per-post quantity over a group. */
  function Total(g: seq<TrendPost>, f: TrendPost -> real): real {
    if g == [] then 0.0 else f(g[0]) + Total(g[1..], f)
  }

  function One(): TrendPost -> real {
    p => 1.0
  }

  function PresentOne(j: nat): TrendPost -> real {
    p => if ScoreAt(p, j).Some? then 1.0 else 0.0
  }

  function PresentValue(j: nat): TrendPost -> real {
    p => if ScoreAt(p, j).Some? then ScoreAt(p, j).value else 0.0
  }

  lemma {:induction false} TotalBridges(g: seq<TrendPost>, j: nat)
    ensures Total(g, One()) == |g| as real
    ensures Total(g, PresentOne(j)) == PresentCount(g, j) as real
    ensures Total(g, PresentValue(j)) == PresentSum(g, j)
    decreases |g|
  {
    if g != [] {
      TotalBridges(g[1..], j);
    }
  }

  /** Sum of a per-post quantity over the buckets of the given categories on one day. */
  function SumCats(posts: seq<TrendPost>, day: int, cats: seq<string>, f: TrendPost -> real): real {
    if cats == [] then 0.0
    else Total(GroupOf(posts, BucketKey(day, cats[0])), f) + SumCats(posts, day, cats[1..], f)
  }

  lemma GroupCons(p: TrendPost, rest: seq<TrendPost>, k: BucketKey, f: TrendPost -> real)
    ensures Total(GroupOf([p] + rest, k), f)
            == (if InBucket(p, k) then f(p) else 0.0) + Total(GroupOf(rest, k), f)
  {
    assert ([p] + rest)[1..] == rest;
    if InBucket(p, k) {
      assert GroupOf([p] + rest, k) == [p] + GroupOf(rest, k);
      assert ([p] + GroupOf(rest, k))[1..] == GroupOf(rest, k);
    } else {
      assert GroupOf([p] + rest, k) == GroupOf(rest, k);
    }
  }

  lemma {:induction false} SumCatsCons(p: TrendPost, rest: seq<TrendPost>, day: int, cats: seq<string>, f: TrendPost -> real)
    requires NoDup(cats) && AllCategory !in cats
    ensures SumCats([p] + rest, day, cats, f)
            == SumCats(rest, day, cats, f) + (if p.day == day && p.cat in cats then f(p) else 0.0)
    decreases |cats|
  {
    if cats != [] {
      assert NoDup(cats[1..]);
      SumCatsCons(p, rest, day, cats[1..], f);
      GroupCons(p, rest, BucketKey(day, cats[0]), f);
      if cats[0] == p.cat {
        assert p.cat !in cats[1..];
      }
    }
  }

  /**
   * On a day, the `All` bucket's total of any per-post quantity is the sum of
   * the totals of the category buckets, when every post has one of those
   * (distinct) categories.
   */
  lemma {:induction false} AllTotalIsSumOfCategories(posts: seq<TrendPost>, day: int, cats: seq<string>, f: TrendPost -> real)
    requires NoDup(cats) && AllCategory !in cats
    requires forall p :: p in posts ==> p.cat in cats
    ensures Total(GroupOf(posts, BucketKey(day, AllCategory)), f) == SumCats(posts, day, cats, f)
    decreases |posts|
  {
    if posts == [] {
      SumCatsOfNothing(day, cats, f);
    } else {
      var p, rest := posts[0], posts[1..];
      assert posts == [p] + rest;
      AllTotalIsSumOfCategories(rest, day, cats, f);
      SumCatsCons(p, rest, day, cats, f);
      GroupCons(p, rest, BucketKey(day, AllCategory), f);
    }
  }

  lemma {:induction false} SumCatsOfNothing(day: int, cats: seq<string>, f: TrendPost -> real)
    ensures SumCats([], day, cats, f) == 0.0
    decreases |cats|
  {
    if cats != [] {
      SumCatsOfNothing(day, cats[1..], f);
    }
  }

  /**
   * For posts of the twelve retained categories, the `All` bucket of a day
   * counts as many posts as its category buckets together, and for every
   * score it sums and counts the same present values: its mean is the
   * present-count-weighted mean of the category means.
   */
  lemma AllBucketIsUnionOfCategories(posts: seq<TrendPost>, day: int, j: nat)
    requires forall p :: p in posts ==> IsAllowed(p.cat)
    ensures var all := GroupOf(posts, BucketKey(day, AllCategory));
      && |all| as real == SumCats(posts, day, AllowedCategories, One())
      && PresentCount(all, j) as real == SumCats(posts, day, AllowedCategories, PresentOne(j))
      && PresentSum(all, j) == SumCats(posts, day, AllowedCategories, PresentValue(j))
  {
    AllowedCategoriesShape();
    var all := GroupOf(posts, BucketKey(day, AllCategory));
    TotalBridges(all, j);
    AllTotalIsSumOfCategories(posts, day, AllowedCategories, One());
    AllTotalIsSumOfCategories(posts, day, AllowedCategories, PresentOne(j));
    AllTotalIsSumOfCategories(posts, day, AllowedCategories, PresentValue(j));
  }
}
